=== FILE: README.md ===
# mas-scada-bulkingest: a Dafny model of the extract-and-upload core

The connector pulls time-series (device) or alarm rows out of a month-partitioned
SCADA historian and turns each cycle's rows into a column map. A column map sends
each destination column name to one value per row. The connector writes the map to
a destination table in committed chunks, and registers every tag path it discovers
with the IoT platform as a device and as a set of dimensions. A persisted offset
record tells each cycle which `[start, end)` window to query and how long to wait
before the next one.

The model is one Dafny module per core source file. Each module keeps the form of
its source file:

- **Classes, for code that mutates objects:** `DateUtil`, `OffsetRecord`,
  `ParseTagname`, `TagData` and the tag cache, `TransformData`, `Connector`,
  `Producer`, `DBConnector`, `DBHelper`, `Config`, `MonitorTable`, `ConnectorStats`,
  `Device`, `Dimension`, and a JDBC prepared statement.
  - Their methods carry `modifies` clauses.
  - They are specified against pure functions of the old state.
  - The loops carry their invariants.
- **Functions and lemmas, for pure code:** the column lists, SQL and DDL builders,
  the Python row helpers, and schema generation. The register and transform scripts
  keep their loops as methods.

| module | file(s) modelled |
|---|---|
| `Calendar`, `Dates` | `DateUtil.java`: the civil date, epoch arithmetic and `java.util.Calendar` lenient month normalisation; the model fixes the JVM's default time zone to UTC (see Left out) |
| `Offsets` | `OffsetRecord.java`: the window update, the offset file, the wait time and the counters |
| `Tagname` | `ParseTagname.java`: the first full match over patterns made of literals and `.*` |
| `Tags` | `TagData.java`, `UpdateTagData.java`, the tag cache with `putSafe` |
| `Transform` | `TransformData.java` and the inline row transform of `Connector.java` |
| `Extraction` | `Connector.java`: the cycle, the heartbeat and the batch insert |
| `Batches`, `Jdbc` | the chunked batch insert shared by the writers, with the break and subtract policies |
| `Producing` | `Producer.java` |
| `CsvUpload` | `DBConnector.java`: CSV encoding, DDL parsing, the INSERT, the line loop and `LIMIT`/`OFFSET` paging |
| `Schema`, `Columns`, `Configuration`, `Helper`, `MonitorTables` | `Config.java`, `DBHelper.java`, `MonitorTable.java`: columns, INSERT strings, positional binding and DDL |
| `Stats` | `ConnectorStats.java` |
| `Bulk`, `Devices`, `Dimensions` | `Device.java` and `Dimension.java`: staging, status flags and flush rules |
| `PyUtils`, `PyTransform`, `PyRegister` | `bin/utils.py`, `addDimensions` in `bin/transform.py`, `evtMapCreate` and `createSchemas` in `bin/register.py` |
| `Text`, `Constants` | Java `String.split`, `Integer.parseInt`, case mapping and Python `str.split`/`strip`; the numeric codes |

Time, the database, HTTP and the name-based UUID are inputs to the model:

- The clock is an explicit `now` or a sequence of clock readings.
- A query outcome is either rows, error 1146, or another error code.
- `executeBatch` success is given per chunk.
- A POST is an opaque call that may throw.
- `UUID.nameUUIDFromBytes`, `Config.getTypeByTagname`, `Double.parseDouble`,
  `Timestamp.valueOf` and Python's `%` formatting are function-typed parameters.

Several members are called from the source but are not defined in it. They are
modelled as follows:

- `DateUtil.getDay` (called at `OffsetRecord.java:261`) is the day of month of the
  stored instant, and 0 after a failed parse.
- `OffsetRecord.setTagCount` (called at `ConnectorStats.java:58`) and `getTagCount`
  (read at `ConnectorStats.java:73`) are another additive counter.
- `Config.getBatchInsertSize` (called at `Producer.java:46`) is the constructor
  parameter `batchInsertSize` of `Producing.Producer`. A size of 0 or less acts as
  1, since the batch holds at least one row when it is compared
  (`Batches.ChunkSize`).
- `Constants.HB_TAGS` is 3, the length of the heartbeat arrays in `Connector.java`.
- `offsetRecord.STATUS_NO_TABLE` is the NO_TABLE status code.

## Where the code departs from its evident intent

The model follows the code in each of these places:

- **Classification has no discard patterns.** The first pattern that matches the
  whole tag path wins. When nothing matches, `getType` returns "", and the default
  type is applied by the caller.
- **Registration does not roll back.** A staged entry's device or dimension status
  is set to 1 before the POST, and it stays 1 when the POST throws.
  - `Device.apply` decrements its countdown before it tests for exactly 1, so the
    last staged device is never POSTed.
  - `Dimension.apply` flushes when the countdown is at most 1.
- **Producer.call with the second of three chunks failing.** With 25,000 rows in
  chunks of 10,000, only the refused chunk is subtracted, so the uploaded count is
  15,000 and not 10,000.
- **The TransformData constructor never assigns the static registry or offset
  record.** Both stay null, so `putSafe` throws before anything is stored and the
  empty catch swallows the exception. `TransformData` registers no tag path and
  counts no entity. This is listed under Findings.
- **A refused batch whose SQL exception chains no next exception.** The handlers
  call `getNextException().getMessage()` without a null check.
  - In `Connector.batchInsert` the exception of the null dereference escapes the method. The
    extraction loop then ends with the processed count grown and nothing else
    changed.
  - In `Producer.call`, inside the loop, it breaks the loop with the refused chunk
    still pending. The flush then executes that chunk again. A second refusal
    subtracts it a second time, so the uploaded count can go down: one chunk of
    10,000 refused twice counts -10,000.
- **UpdateTagData.java and TransformData.java call the three-argument TagData
  constructor with the arguments shifted.** These are listed under Findings. The
  rest of the model uses the intended entries.

## Model

| member | source | states |
|---|---|---|
| Calendar.CivilOfDayValid | src/main/java/com/ibm/wiotp/masdc/DateUtil.java:56-59 | the calendar date of any day number is a valid date: month 1..12 and a day within that month's length, leap years included |
| Calendar.DayCivilRoundTrip | src/main/java/com/ibm/wiotp/masdc/DateUtil.java:56-59 | a day number turned into a calendar date and back is the same day number |
| Calendar.CivilDayRoundTrip | src/main/java/com/ibm/wiotp/masdc/DateUtil.java:52-53 | a valid calendar date turned into a day number and back is the same date |
| Calendar.MonthCarry | src/main/java/com/ibm/wiotp/masdc/DateUtil.java:52-53 | the lenient parse reads month 13 as January of the next year and month 0 as December of the previous one |
| Calendar.FormatMillisValid | src/main/java/com/ibm/wiotp/masdc/OffsetRecord.java:207-209 | formatting an instant as "yyyy-MM-dd HH:mm:ss" gives a valid date with hour, minute and second in range |
| Calendar.FormatParseRoundTrip | src/main/java/com/ibm/wiotp/masdc/OffsetRecord.java:207-210 | formatting an instant and parsing the text back gives the instant truncated to its second |
| Dates.MillisStampMonth | src/main/java/com/ibm/wiotp/masdc/DateUtil.java:65-79 | setting from an instant keeps the instant and always yields a month in 1..12 |
| Dates.TextStampCleared | src/main/java/com/ibm/wiotp/masdc/DateUtil.java:45-63 | date text leaves the month 0 exactly when it does not parse, and then every field is 0 |
| Dates.DayOf | src/main/java/com/ibm/wiotp/masdc/OffsetRecord.java:261 | the day of a cleared stamp is 0; any other stamp has a day in 1..31 |
| Dates.DateUtil.FromText | src/main/java/com/ibm/wiotp/masdc/DateUtil.java:37-39 | the fields are those of the parsed text, all 0 when it does not parse |
| Dates.DateUtil.FromMillis | src/main/java/com/ibm/wiotp/masdc/DateUtil.java:41-43 | the fields are the instant, its seconds truncated toward zero, and its month and year |
| Dates.DateUtil.SetByDate | src/main/java/com/ibm/wiotp/masdc/DateUtil.java:45-63 | every field is cleared, then set from the text when it parses |
| Dates.DateUtil.SetByMilliseconds | src/main/java/com/ibm/wiotp/masdc/DateUtil.java:65-79 | the instant, its truncated seconds, month and year are set; the day is left alone |
| Dates.DateUtil.GetDay | src/main/java/com/ibm/wiotp/masdc/OffsetRecord.java:261 | the day of the month of the stored instant, 0 after text that did not parse |
| Dates.FormatThenParse | src/main/java/com/ibm/wiotp/masdc/OffsetRecord.java:207-210 | re-parsing the formatted end time keeps its whole second, month and year |
| Dates.WholeSecondStamp | src/main/java/com/ibm/wiotp/masdc/DateUtil.java:55 | on a whole-second instant the truncated seconds times 1000 give the instant back, for either sign |
| Dates.MidnightStamp | src/main/java/com/ibm/wiotp/masdc/DateUtil.java:52-59 | text naming a valid date at midnight yields that year, month and day |
| Dates.DayOfSeptember15 | src/main/java/com/ibm/wiotp/masdc/DateUtil.java:52-59 | "2021-09-15 00:00:00" is 15 September 2021 |
| Offsets.ByDate | src/main/java/com/ibm/wiotp/masdc/OffsetRecord.java:250-279 | code 2 exactly when the date is after now, code 0 exactly when it is before now, 1 otherwise; code 2: the window starts now, in the current month and year, and ends one interval later; code 1: it starts at the date, in its month and year, and ends one interval later; code 0: it starts at the date, in its month and year, and ends at the start plus the historical interval, cut off at now |
| Offsets.OffsetFilePath | src/main/java/com/ibm/wiotp/masdc/OffsetRecord.java:58-65 | the path starts with the site when there is no data directory, with "<dataDir>/volume/data/" otherwise, and ends in ".offset" |
| Offsets.OffsetRecord.constructor | src/main/java/com/ibm/wiotp/masdc/OffsetRecord.java:54-82 | the live interval is capped at 120 s; a requested new file discards the old one; a stored record with a non-zero start is restored (32-bit fields truncated), anything else starts a window at the configured date and writes an INIT record |
| Offsets.OffsetRecord.ReadOffsetFile | src/main/java/com/ibm/wiotp/masdc/OffsetRecord.java:217-248 | restores window, status and counters from a stored record whose start is not 0; otherwise the window starts at the start date and an INIT record is written |
| Offsets.OffsetRecord.UpdateOffsetByDate | src/main/java/com/ibm/wiotp/masdc/OffsetRecord.java:250-291 | the new window and return code are those of the date compared with now, and the file holds the new window, the status and the current counters |
| Offsets.OffsetRecord.SetWindow | src/main/java/com/ibm/wiotp/masdc/OffsetRecord.java:256-279 | the window fields and the return code are those of the date compared with the current date (ByDate) |
| Offsets.OffsetRecord.NextDate | src/main/java/com/ibm/wiotp/masdc/OffsetRecord.java:171-212 | the date text handed on is the next-month text for a missing table and the formatted last end time otherwise |
| Offsets.OffsetRecord.UpdateOffsetFile | src/main/java/com/ibm/wiotp/masdc/OffsetRecord.java:171-215 | the window moves to the date computed from the last window and status, and that record is written |
| Offsets.OffsetRecord.GetWaitTimeMilli | src/main/java/com/ibm/wiotp/masdc/OffsetRecord.java:157-169 | flag 1 waits for the rest of the live interval (at least 100 ms), flag 2 waits the whole interval, any other flag 100 ms |
| Offsets.OffsetRecord.SetProcessedCount | src/main/java/com/ibm/wiotp/masdc/OffsetRecord.java:104-106 | adds to the processed total and returns the new total |
| Offsets.OffsetRecord.SetUploadedCount | src/main/java/com/ibm/wiotp/masdc/OffsetRecord.java:112-114 | adds to the uploaded total and returns the new total |
| Offsets.OffsetRecord.SetEntityCount | src/main/java/com/ibm/wiotp/masdc/OffsetRecord.java:120-122 | adds to the entity total and returns the new total |
| Offsets.OffsetRecord.SetEntityTypeCount | src/main/java/com/ibm/wiotp/masdc/OffsetRecord.java:128-130 | adds to the entity-type total and returns the new total |
| Offsets.OffsetRecord.SetTagCount | src/main/java/com/ibm/wiotp/masdc/ConnectorStats.java:58 | adds to the statistics-tag total and returns the new total, the total that getTagCount reads back at ConnectorStats.java:73 |
| Offsets.OffsetRecord.SetRate | src/main/java/com/ibm/wiotp/masdc/OffsetRecord.java:136-139 | a rate of 0 leaves the last rate; any other rate replaces it |
| Offsets.WindowNotAfterNow | src/main/java/com/ibm/wiotp/masdc/OffsetRecord.java:250-279 | whatever the date text, the window never starts after the current second, a past window never ends after it, and with non-negative intervals it does not end before it starts |
| Offsets.ContinuesFromLastEnd | src/main/java/com/ibm/wiotp/masdc/OffsetRecord.java:205-211 | without a missing table the next window starts at the last end when that is past (historical interval cut at now), at now when it is in the future |
| Offsets.NoTableDateText | src/main/java/com/ibm/wiotp/masdc/OffsetRecord.java:181-202 | below the month-13 limit and within the current year a missing table names the first of the next month |
| Offsets.NoTableNextMonth | src/main/java/com/ibm/wiotp/masdc/OffsetRecord.java:181-203 | a missing table moves the window to the first of the following month, December rolling to January of the next year through the lenient parse of month 13 |
| Offsets.FirstOfNextMonth | src/main/java/com/ibm/wiotp/masdc/OffsetRecord.java:202 | the first of month m + 1 parses to the first of the month after (y, m) |
| Offsets.NoTableFutureYearReset | src/main/java/com/ibm/wiotp/masdc/OffsetRecord.java:194-200 | a last year after the current one is reset to the first of the current month, which is not in the future |
| Offsets.FirstOfMonthNotAfter | src/main/java/com/ibm/wiotp/masdc/OffsetRecord.java:198-202 | the first of the month of a day is not after that day |
| Offsets.RestoreRoundTrip | src/main/java/com/ibm/wiotp/masdc/OffsetRecord.java:231-239 | a record whose int fields fit 32 bits is read back unchanged |
| Offsets.RestoreWrapsLargeCounts | src/main/java/com/ibm/wiotp/masdc/OffsetRecord.java:237 | a processed count of 2^31 is read back as -2^31 |
| Offsets.FirstOfMay2020 | src/main/java/com/ibm/wiotp/masdc/OffsetRecord.java:256-257 | "2020-05-01 00:00:00" is 1588291200 s after the epoch |
| Offsets.FirstWindowExample | src/main/java/com/ibm/wiotp/masdc/OffsetRecord.java:256-279 | from "2020-05-01 00:00:00" with a 14400 s historical interval, later than that end, the window is [1588291200, 1588305600] in May 2020 |
| Columns.EmptyColumns | src/main/java/com/ibm/wiotp/masdc/Connector.java:297-300 | the new map has exactly the destination columns as keys, each with an empty list |
| Schema.MonitorDBCols | src/main/java/com/ibm/wiotp/masdc/DBHelper.java:101-113 | connector type 1 gets the 13 device columns starting with TAGID, any other type the 15 alarm columns starting with ALARMID; both end with the two timestamp columns |
| Schema.MonitorColsDistinct | src/main/java/com/ibm/wiotp/masdc/DBHelper.java:101-113 | neither column list names a column twice, so a map over it has one list per column |
| Schema.InsertPlaceholders | src/main/java/com/ibm/wiotp/masdc/DBHelper.java:115-129 | an INSERT over columns, table and separators free of '?' holds exactly one '?' per column |
| Schema.MonitorInsertPlaceholders | src/main/java/com/ibm/wiotp/masdc/DBHelper.java:115-129 | the device and alarm INSERT statements hold one placeholder per destination column |
| Schema.StatsInsertPlaceholders | src/main/java/com/ibm/wiotp/masdc/DBHelper.java:190-204 | the statistics INSERT holds one placeholder for each of its 14 columns |
| Schema.BindRowPositional | src/main/java/com/ibm/wiotp/masdc/DBHelper.java:131-188 | a row binds exactly when every column binds, and then parameter k is the binding of column k |
| Schema.MonitorRows | src/main/java/com/ibm/wiotp/masdc/Producer.java:72-76 | one parameter list per row, each that row's positional binding |
| Schema.NullDefaults | src/main/java/com/ibm/wiotp/masdc/DBHelper.java:135-177 | "null" binds 0 for INTVALUE and 0.0 for FLOATVALUE, ETYPE, PRIORITY and VALUE, but is an exception for TAGID and (when not a double) ALARMID |
| Schema.StringColumnsBind | src/main/java/com/ibm/wiotp/masdc/DBHelper.java:145-152 | text columns bind whatever the value is and never throw |
| Schema.RectangularCells | src/main/java/com/ibm/wiotp/masdc/DBHelper.java:131-134 | in a map holding h values per column every row below h has a text for every listed column |
| Tagname.LitsThen | src/main/java/com/ibm/wiotp/masdc/ParseTagname.java:69-70 | a pattern with a literal head matches exactly the texts that start with that literal and whose rest the tail matches |
| Tagname.LitsExactly | src/main/java/com/ibm/wiotp/masdc/ParseTagname.java:69-70 | a pattern of literals only matches its own text |
| Tagname.AnyRunMatchesAll | src/main/java/com/ibm/wiotp/masdc/ParseTagname.java:69-70 | ".*" alone matches every text |
| Tagname.AnyRunThenLits | src/main/java/com/ibm/wiotp/masdc/ParseTagname.java:69-70 | ".*" followed by literals matches exactly the texts ending with them |
| Tagname.PrefixPattern | src/main/java/com/ibm/wiotp/masdc/ParseTagname.java:69-70 | "prefix.*" matches exactly the texts that start with the prefix |
| Tagname.InfixPattern | src/main/java/com/ibm/wiotp/masdc/ParseTagname.java:69-70 | "prefix.*suffix" matches exactly the texts long enough to start with the prefix and end with the suffix |
| Tagname.FirstMatchWins | src/main/java/com/ibm/wiotp/masdc/ParseTagname.java:64-79 | when pattern k is the first to match, its type is the answer whatever later patterns match |
| Tagname.NoMatchIsEmpty | src/main/java/com/ibm/wiotp/masdc/ParseTagname.java:64-79 | when no pattern matches, the answer is "" and no default type is applied |
| Tagname.FirstMatchFrom | src/main/java/com/ibm/wiotp/masdc/ParseTagname.java:64-79 | the answer is "" or the type of a matching pattern with no earlier match |
| Tagname.PatternsOf | src/main/java/com/ibm/wiotp/masdc/ParseTagname.java:49-54 | pattern i is the pattern of configuration entry i |
| Tagname.TypesOf | src/main/java/com/ibm/wiotp/masdc/ParseTagname.java:49-54 | type i is the type name of configuration entry i |
| Tagname.ParseTagname.constructor | src/main/java/com/ibm/wiotp/masdc/ParseTagname.java:34-62 | patterns and types are those of the device (or alarm) entries in order; the default type is the last entry's type when the flag is 1, "" otherwise |
| Tagname.ParseTagname.GetType | src/main/java/com/ibm/wiotp/masdc/ParseTagname.java:64-79 | the answer is the type of the first pattern, in configuration order, that matches the whole tag name |
| Tagname.ParseTagname.GetTypes | src/main/java/com/ibm/wiotp/masdc/ParseTagname.java:85-87 | one type per pattern |
| Tagname.OrderedFallThrough | src/test/java/com/ibm/wiotp/masdc/ParseTagnameTest.java:101-130 | a name outside the five configured prefixes falls through to DefaultDeviceType |
| Tagname.OrderedEarlierWins | src/test/java/com/ibm/wiotp/masdc/ParseTagnameTest.java:116-117 | "ca3/boiler/temp" gets CA3DeviceType although the later ".*" also matches |
| Tagname.WholeNameMatching | src/test/java/com/ibm/wiotp/masdc/ParseTagnameTest.java:124-127 | "ca3" and "ca3eboiler/temp" match no prefix pattern as a whole and get DefaultDeviceType |
| Tagname.SharedTypeExample | src/test/java/com/ibm/wiotp/masdc/ParseTagnameTestPatterns.java:67-73 | a name outside "ca3/hvac/" matches none of the three patterns sharing TestType01 and gets "" |
| Tagname.SharedTypeMatch | src/test/java/com/ibm/wiotp/masdc/ParseTagnameTestPatterns.java:115-116 | a name under "ca3/hvac/" ending in "roompressure" gets TestType01 |
| Tags.TagData.constructor | src/main/java/com/ibm/wiotp/masdc/TagData.java:24-27 | tag path and device id set, site name, id and device type null, both statuses 0 |
| Tags.TagData.WithSite | src/main/java/com/ibm/wiotp/masdc/TagData.java:29-33 | site name, tag path and device id set, id and device type null, both statuses 0 |
| Tags.TagData.WithType | src/main/java/com/ibm/wiotp/masdc/TagData.java:35-40 | site name, tag path, device id and device type set, id null, both statuses 0 |
| Tags.TagData.SetSiteName | src/main/java/com/ibm/wiotp/masdc/TagData.java:42-44 | the site name is replaced |
| Tags.TagData.SetId | src/main/java/com/ibm/wiotp/masdc/TagData.java:58-60 | the id is the decimal text of the number, and that text parses back to the number |
| Tags.TagData.SetDeviceStatus | src/main/java/com/ibm/wiotp/masdc/TagData.java:74-76 | the device status is replaced |
| Tags.TagData.SetDimensionStatus | src/main/java/com/ibm/wiotp/masdc/TagData.java:82-84 | the dimension status is replaced |
| Tags.IdReadsBack | src/main/java/com/ibm/wiotp/masdc/TagData.java:54-60 | the stored id parses back to the number and starts with '-' exactly when the number is negative |
| Tags.TagCache.PutSafe | src/main/java/com/ibm/wiotp/masdc/UpdateTagData.java:70-72 | inserts exactly when the key is absent and reports whether it did; a present key is left alone |
| Tags.TagCache.Put | src/main/java/com/ibm/wiotp/masdc/Connector.java:186 | inserts or replaces the entry of the key |
| Tags.AsWrittenShiftsFields | src/main/java/com/ibm/wiotp/masdc/UpdateTagData.java:67 | as written the migrated entry keeps its tag path only when tag path and device id are equal, has no device type, and "ca3/boiler/temp" loses its tag path |
| Tags.MigratedRecord | src/main/java/com/ibm/wiotp/masdc/UpdateTagData.java:59-69 | the intended entry keeps tag path, device id and both statuses and carries the entity type as device type |
| Tags.MigrateKeepsExisting | src/main/java/com/ibm/wiotp/masdc/UpdateTagData.java:70-72 | entries already in the new cache are never replaced |
| Tags.MigrateKeys | src/main/java/com/ibm/wiotp/masdc/UpdateTagData.java:51-73 | the new keys are the old keys plus the tag paths of the old keys that have an entry |
| Tags.MigrateAddsMigrated | src/main/java/com/ibm/wiotp/masdc/UpdateTagData.java:51-73 | every added entry is the migration of an old entry with that tag path |
| Tags.UpdateTagData.constructor | src/main/java/com/ibm/wiotp/masdc/UpdateTagData.java:36-49 | holds the site, entity type, old key set, old entries and new cache it is given |
| Tags.UpdateTagData.MigrateEntry | src/main/java/com/ibm/wiotp/masdc/UpdateTagData.java:55-72 | the new cache gains the migrated entry under its tag path unless present; existing entries keep their objects and new ones are fresh |
| Tags.UpdateTagData.Process | src/main/java/com/ibm/wiotp/masdc/UpdateTagData.java:51-76 | the new cache is the old one with every old entry migrated in key order, skipping missing entries and present tag paths; existing entries are untouched |
| Transform.CellsAfterFailure | src/main/java/com/ibm/wiotp/masdc/TransformData.java:59-109 | once a cell has thrown, the remaining cells of the row change nothing |
| Transform.PutExtends | src/main/java/com/ibm/wiotp/masdc/TransformData.java:60-105 | appending to a column only extends that column's list and keeps the key set |
| Transform.RegisterExtends | src/main/java/com/ibm/wiotp/masdc/TransformData.java:71-75 | the registry insert keeps every existing entry and counts exactly the new keys |
| Transform.CellExtends | src/main/java/com/ibm/wiotp/masdc/TransformData.java:66-106 | one cell only appends to lists and only adds absent registry keys |
| Transform.RowExtends | src/main/java/com/ibm/wiotp/masdc/TransformData.java:59-109 | a row only appends and adds registry keys, and raises the row count by one exactly when it completes |
| Transform.RowsExtend | src/main/java/com/ibm/wiotp/masdc/TransformData.java:54-110 | the whole transform keeps every earlier list as a prefix and every earlier registry entry unchanged, counts exactly the new registry keys, and adds one row per completed row (all of them when nothing throws) |
| Transform.AsWrittenEntryLosesTagpath | src/main/java/com/ibm/wiotp/masdc/TransformData.java:71 | as written the registry entry keeps its tag path only when the UUID equals it, holds the classified type as its device id and has no device type |
| Transform.EntryFor | src/main/java/com/ibm/wiotp/masdc/TransformData.java:69-73 | the registry entry for a new tag path holds that tag path, its UUID as device id and both statuses 0; the TransformData copy also holds the classified type as device type (the inline copy at Connector.java:327 has none) |
| Transform.RowCounter.constructor | src/main/java/com/ibm/wiotp/masdc/TransformData.java:37 | the shared row counter starts at 0 |
| Transform.TransformData.constructor | src/main/java/com/ibm/wiotp/masdc/TransformData.java:39-52 | holds the configuration, columns, column names and rows it is given, with an empty column map; the registry and offset record it is given are not kept, since the code assigns neither static |
| Transform.TransformData.Add | src/main/java/com/ibm/wiotp/masdc/TransformData.java:60-105 | appends to the list of a present column; a missing column throws and changes nothing |
| Transform.TransformData.RegisterTag | src/main/java/com/ibm/wiotp/masdc/TransformData.java:68-75 | a fresh TagData is built with the shifted three-argument constructor and nothing is registered: putSafe on the null registry throws, the catch swallows it, and neither the registry nor the entity count changes |
| Transform.TransformData.SetTagpath | src/main/java/com/ibm/wiotp/masdc/TransformData.java:67-81 | the state after a tag path cell is the specification's TagpathCell step, which for this copy registers nothing |
| Transform.TransformData.SetTagColumns | src/main/java/com/ibm/wiotp/masdc/TransformData.java:76-81 | DEVICETYPE, DEVICEID and, for devices, the last path element in EVT_NAME are appended |
| Transform.TransformData.SetStamp | src/main/java/com/ibm/wiotp/masdc/TransformData.java:83-87 | the t_stamp number is appended to both time columns; a non-number throws |
| Transform.TransformData.SetEventTime | src/main/java/com/ibm/wiotp/masdc/TransformData.java:92-94 | the eventtime cell is appended to both time columns as it is |
| Transform.TransformData.SetId | src/main/java/com/ibm/wiotp/masdc/TransformData.java:96-97 | the id number is appended to ALARMID; a non-number throws |
| Transform.TransformData.SetCell | src/main/java/com/ibm/wiotp/masdc/TransformData.java:64-107 | the state after one cell is the specification's CellStep, null cells appending "null" under the upper-cased name |
| Transform.TransformData.InitColumns | src/main/java/com/ibm/wiotp/masdc/TransformData.java:55-57 | one empty list per destination column is put into the map |
| Transform.TransformData.Set | src/main/java/com/ibm/wiotp/masdc/TransformData.java:54-110 | the final map and row count are those of the row-by-row specification started from an empty registry, and ok is false exactly when a step threw |
| Transform.AssignedRegistryRegisters | src/main/java/com/ibm/wiotp/masdc/TransformData.java:72-74 | with an assigned registry a tag path ends up registered: a new one with its intended entry and counted once, an existing one unchanged and not counted, every other entry kept |
| Transform.TransformerRegistersNothing | src/main/java/com/ibm/wiotp/masdc/TransformData.java:39-75 | as written, the transform leaves the registry and the entity count exactly as they were, whatever the rows |
| Transform.TransformData.SetRow | src/main/java/com/ibm/wiotp/masdc/TransformData.java:59-109 | the state after one row is the specification's Row step |
| Transform.TransformData.SetPrefix | src/main/java/com/ibm/wiotp/masdc/TransformData.java:60-62 | EVENTTYPE, FORMAT "JSON" and LOGICALINTERFACE_ID "null" start every row |
| Configuration.StartDateNotAfterNow | src/main/java/com/ibm/wiotp/masdc/Config.java:85-96 | the start date never lies after now: a configured date not after now is kept, a later one and a missing one become the current date |
| Configuration.LogFile | src/main/java/com/ibm/wiotp/masdc/Config.java:111-115 | "<entityType>_connector.log" without an install directory, otherwise a path under "<installDir>/volume/logs/" |
| Configuration.PostResponseFile | src/main/java/com/ibm/wiotp/masdc/Config.java:116-124 | empty exactly in production mode |
| Configuration.PythonPath | src/main/java/com/ibm/wiotp/masdc/Config.java:129-138 | "python3" on every system whose name does not start with "Windows" |
| Configuration.IgnitionDbType | src/main/java/com/ibm/wiotp/masdc/Config.java:365-384 | source type 1 with a "jdbc:mysql://" URL exactly for dbtype "mysql", type 2 with a "jdbc:sqlserver://" URL for anything else |
| Configuration.MonitorDbUrl | src/main/java/com/ibm/wiotp/masdc/Config.java:397 | the destination URL is a DB2 URL whatever the configured dbtype |
| Configuration.Config.constructor | src/main/java/com/ibm/wiotp/masdc/Config.java:68-78 | the connector type is alarm exactly for the name "alarm"; production mode, empty INSERT cache and the default intervals 30 and 14400 |
| Configuration.Config.Set | src/main/java/com/ibm/wiotp/masdc/Config.java:80-139 | every field set from the configuration: clamped start date, defaults for run mode and intervals, entity type, file names, both database parameter sets and the Python path; the INSERT cache is left as it was |
| Configuration.Config.SetGeneral | src/main/java/com/ibm/wiotp/masdc/Config.java:81-124 | site, types, clamped start date, run mode, intervals, entity type and log file names |
| Configuration.Config.SetConnections | src/main/java/com/ibm/wiotp/masdc/Config.java:126-138 | source and destination database parameters and the Python path |
| Configuration.Config.SetIntervals | src/main/java/com/ibm/wiotp/masdc/Config.java:98-100 | run mode 0, fetch interval 30 and historical interval 14400 unless configured |
| Configuration.Config.SetPythonPath | src/main/java/com/ibm/wiotp/masdc/Config.java:129-138 | the Python interpreter for the operating system name |
| Configuration.Config.SetStartDate | src/main/java/com/ibm/wiotp/masdc/Config.java:85-96 | the configured start date, or the current date when none is configured or it lies in the future |
| Configuration.Config.SetFileNames | src/main/java/com/ibm/wiotp/masdc/Config.java:106-124 | entity type is the alarm type for alarm connectors and the device type otherwise; log and POST-response files derive from it |
| Configuration.Config.SetIgnitionDbParams | src/main/java/com/ibm/wiotp/masdc/Config.java:365-384 | the source URL, user and password, returning type 1 for mysql and 2 otherwise |
| Configuration.Config.SetMonitorDbParams | src/main/java/com/ibm/wiotp/masdc/Config.java:386-400 | the DB2 destination URL, user and password, returning type 1 |
| Configuration.Config.GetMonitorDBCols | src/main/java/com/ibm/wiotp/masdc/Config.java:258-270 | the 13 device or 15 alarm destination columns |
| Configuration.Config.GetMonitorInsertSQL | src/main/java/com/ibm/wiotp/masdc/Config.java:272-287 | built from the entity type on the first call and cached; later calls return the cached text |
| Configuration.Config.GetMonitorPS | src/main/java/com/ibm/wiotp/masdc/Config.java:289-346 | succeeds exactly when every column of the row binds, and then binds the positional parameters of the row |
| Configuration.InsertSQLCached | src/main/java/com/ibm/wiotp/masdc/Config.java:272-287 | two calls return the same statement, that of the entity type at the first call, even when the entity type changed in between |
| Helper.StatsStatementCache.constructor | src/main/java/com/ibm/wiotp/masdc/DBHelper.java:53 | the shared statistics INSERT text starts empty |
| Helper.DBHelper.constructor | src/main/java/com/ibm/wiotp/masdc/DBHelper.java:70-75 | copies the connector type and directories from the configuration |
| Helper.DBHelper.GetMonitorDBCols | src/main/java/com/ibm/wiotp/masdc/DBHelper.java:101-113 | the same 13 or 15 columns as the configuration, with no duplicates |
| Helper.DBHelper.GetMonitorInsertSQL | src/main/java/com/ibm/wiotp/masdc/DBHelper.java:115-129 | the statement for IOT_<upper eType>, recomputed on every call, with one placeholder per column |
| Helper.DBHelper.GetMonitorPS | src/main/java/com/ibm/wiotp/masdc/DBHelper.java:131-188 | the same positional binding as the configuration's, one parameter per destination column |
| Helper.DBHelper.GetConnectorStatsDBCols | src/main/java/com/ibm/wiotp/masdc/DBHelper.java:190-194 | the 14 statistics columns, ending with the two timestamp columns |
| Helper.DBHelper.GetConnectorStatsInsertSQL | src/main/java/com/ibm/wiotp/masdc/DBHelper.java:196-204 | built for eType when the shared cache is empty (14 placeholders), otherwise the cached text whatever eType is |
| Helper.StatsSQLFixedByFirstCall | src/main/java/com/ibm/wiotp/masdc/DBHelper.java:196-204 | two helpers sharing the cache both get the statement of the first call's entity type |
| MonitorTables.Names | src/main/java/com/ibm/wiotp/masdc/MonitorTable.java:52-65 | the column names of a table definition, one per definition, in order |
| MonitorTables.Rendered | src/main/java/com/ibm/wiotp/masdc/MonitorTable.java:52-65 | one "NAME TYPE" entry per definition, in order |
| MonitorTables.CreateDDLShape | src/main/java/com/ibm/wiotp/masdc/MonitorTable.java:50-51 | every DDL starts "CREATE TABLE <schema>.IOT_<name> ( " and ends " )" (also lines 65, 79-80, 96, 102-103, 117) |
| MonitorTables.IndexSQLShape | src/main/java/com/ibm/wiotp/masdc/MonitorTable.java:70-76 | the index statement is a unique index on IOT_<name> of the schema over (DEVICEID, RCV_TIMESTAMP_UTC) |
| MonitorTables.NamesCovered | src/main/java/com/ibm/wiotp/masdc/MonitorTable.java:52-65 | a position-by-position matching of one column list into another makes the first a subset of the second |
| MonitorTables.DeviceDefsInserted | src/main/java/com/ibm/wiotp/masdc/MonitorTable.java:52-65 | every device table column is a device INSERT column or TAG |
| MonitorTables.DeviceColsDefined | src/main/java/com/ibm/wiotp/masdc/DBHelper.java:101-113 | every device INSERT column, and TAG, is a device table column |
| MonitorTables.AlarmDefsInserted | src/main/java/com/ibm/wiotp/masdc/MonitorTable.java:81-96 | every alarm table column is an alarm INSERT column or TAG |
| MonitorTables.AlarmColsDefined | src/main/java/com/ibm/wiotp/masdc/DBHelper.java:101-113 | every alarm INSERT column, and TAG, is an alarm table column |
| MonitorTables.TagNotInserted | src/main/java/com/ibm/wiotp/masdc/MonitorTable.java:58 | TAG is a table column that neither INSERT fills |
| MonitorTables.MonitorDDLColumns | src/main/java/com/ibm/wiotp/masdc/MonitorTable.java:52-96 | as sets, each monitor table's columns are exactly its INSERT's columns plus TAG |
| MonitorTables.StatsDDLColumns | src/main/java/com/ibm/wiotp/masdc/MonitorTable.java:104-117 | the statistics table has the 14 statistics INSERT columns in the same order |
| MonitorTables.IndexedColumnsInserted | src/main/java/com/ibm/wiotp/masdc/MonitorTable.java:73 | both monitor INSERTs fill DEVICEID and RCV_TIMESTAMP_UTC, the indexed columns |
| MonitorTables.Database.constructor | src/main/java/com/ibm/wiotp/masdc/MonitorTable.java:129-131 | the destination starts with the given tables and no statement run |
| MonitorTables.MonitorTable.constructor | src/main/java/com/ibm/wiotp/masdc/MonitorTable.java:32-47 | schema, user and password from the destination section and a DB2 SSL URL from its host and port |
| MonitorTables.MonitorTable.CreateTable | src/main/java/com/ibm/wiotp/masdc/MonitorTable.java:122-150 | runs the DDL and answers 1 exactly when (schema, upper-case name) is missing; otherwise runs nothing and answers 0; afterwards the table exists |
| MonitorTables.CreateTwice | src/main/java/com/ibm/wiotp/masdc/MonitorTable.java:122-150 | the second creation of the same table answers 0, and the DDL was run at most once |
| Extraction.HeartbeatRow | src/main/java/com/ibm/wiotp/masdc/Connector.java:508-542 | heartbeat row i has one value per destination column of the connector type |
| Extraction.HeartbeatRowColumns | src/main/java/com/ibm/wiotp/masdc/Connector.java:508-542 | the statistic goes to INTVALUE (devices) or VALUE (alarms), its name to EVT_NAME or DISPLAYPATH, EVENTTYPE is "status" and DEVICEID the heartbeat device |
| Extraction.HeartbeatRows | src/main/java/com/ibm/wiotp/masdc/Connector.java:508 | one heartbeat row per heartbeat tag, row j built from statistic j |
| Extraction.Column | src/main/java/com/ibm/wiotp/masdc/Connector.java:496-542 | column q after i rows holds entry q of each of those rows, in row order |
| Extraction.FilledStep | src/main/java/com/ibm/wiotp/masdc/Connector.java:508-542 | appending row i to a map filled with rows 0..i-1 gives the map filled with rows 0..i |
| Extraction.AppendedColumns | src/main/java/com/ibm/wiotp/masdc/Connector.java:508-542 | after appending row i every column equals the column of the first i+1 rows |
| Extraction.AppendedKeys | src/main/java/com/ibm/wiotp/masdc/Connector.java:496-498 | appending a row over the destination columns keeps the key set |
| Extraction.FilledStepColumn | src/main/java/com/ibm/wiotp/masdc/Connector.java:508-542 | one column after appending row i is the column of the first i+1 rows |
| Extraction.ColumnStep | src/main/java/com/ibm/wiotp/masdc/Connector.java:508-542 | the column of i+1 rows is the column of i rows followed by entry q of row i |
| Extraction.FilledRectangular | src/main/java/com/ibm/wiotp/masdc/Connector.java:496-542 | a map filled with all rows has every list as long as the number of rows |
| Extraction.FillColumns | src/main/java/com/ibm/wiotp/masdc/Connector.java:496-542 | one empty list per column, then each row appended in order: the map filled with all rows, every list as long as the row count |
| Extraction.AppendRow | src/main/java/com/ibm/wiotp/masdc/Connector.java:509-541 | one row appended to a map filled with the rows before it yields the map filled with one more row |
| Extraction.AppendedRow | src/main/java/com/ibm/wiotp/masdc/Connector.java:509-541 | the keys are the old keys plus the columns, and column q gets entry q of the row appended |
| Extraction.Connector.constructor | src/main/java/com/ibm/wiotp/masdc/Connector.java:141-144 | table name, connector type and run mode from the configuration; empty source map and zero counters |
| Extraction.Connector.AddHeartbeatTags | src/main/java/com/ibm/wiotp/masdc/Connector.java:182-188 | each of the three heartbeat tags replaces any cache entry under its path with a fresh record for its device, other entries are kept, and the tag count grows by 3 |
| Extraction.Connector.Add | src/main/java/com/ibm/wiotp/masdc/Connector.java:316-319 | appends to an existing column and fails, as the Java null dereference throws, when the column is missing |
| Extraction.Connector.RegisterTag | src/main/java/com/ibm/wiotp/masdc/Connector.java:326-331 | the cache and the tag count change as the registration of the row transform says: only an accepted putSafe inserts and counts |
| Extraction.Connector.SetTagpath | src/main/java/com/ibm/wiotp/masdc/Connector.java:324-336 | a tag path cell registers the tag, appends its UUID to DEVICEID and, for devices, its last path element to EVT_NAME |
| Extraction.Connector.SetStamp | src/main/java/com/ibm/wiotp/masdc/Connector.java:337-342 | a t_stamp cell is appended as a timestamp to both time columns |
| Extraction.Connector.SetEventTime | src/main/java/com/ibm/wiotp/masdc/Connector.java:346-349 | an eventtime cell is appended unchanged to both time columns |
| Extraction.Connector.SetId | src/main/java/com/ibm/wiotp/masdc/Connector.java:350-352 | an id cell is appended as a long to ALARMID |
| Extraction.Connector.SetCell | src/main/java/com/ibm/wiotp/masdc/Connector.java:321-363 | one cell: the named column cases, the upper-case column otherwise and "null" for a null cell, as the row transform says |
| Extraction.Connector.SetPrefix | src/main/java/com/ibm/wiotp/masdc/Connector.java:316-319 | each row starts with the table name, the connector type, "JSON" and "null" |
| Extraction.Connector.SetRow | src/main/java/com/ibm/wiotp/masdc/Connector.java:315-367 | one row as the row transform says; a row that completes adds one to the row count |
| Extraction.Connector.SetCells | src/main/java/com/ibm/wiotp/masdc/Connector.java:321-364 | the cells of a row in query column order, stopping at the first that throws |
| Extraction.Connector.ExtractRows | src/main/java/com/ibm/wiotp/masdc/Connector.java:297-367 | a fresh map with one empty list per destination column, then the rows in order; on success the row count is the number of rows |
| Extraction.Connector.RowLoop | src/main/java/com/ibm/wiotp/masdc/Connector.java:315-367 | the rows in order until one throws, as the row transform over the row sequence says |
| Extraction.Connector.BatchInsert | src/main/java/com/ibm/wiotp/masdc/Connector.java:428-488 | returns the rows added to a batch under the break-on-failure policy with chunks of 10000; never more than the rows that bind; all rows when every execution is accepted; 0 and nothing sent without a connection; throws exactly when a failed connection or a refused final flush reaches the handler with no chained exception |
| Extraction.Connector.InsertAll | src/main/java/com/ibm/wiotp/masdc/Connector.java:445-470 | the row loop and final flush agree with the batch specification over the bound rows, and report whether the flush was refused |
| Extraction.Connector.InsertRow | src/main/java/com/ibm/wiotp/masdc/Connector.java:446-462 | one row of the loop is one step of the batch specification: bind, add, execute at 10000, stop on a failure |
| Extraction.Connector.HeartbeatMap | src/main/java/com/ibm/wiotp/masdc/Connector.java:490-543 | the status map is filled with the three heartbeat rows, three values per column |
| Extraction.Connector.SendHeartbeatEvent | src/main/java/com/ibm/wiotp/masdc/Connector.java:490-545 | the rows hold the processed count, the uploaded count and the rate; never more rows reach the table than bind, and all of them when every execution is accepted; it throws exactly when the batch insert does, never on an open connection whose executions are all accepted |
| Extraction.Connector.NoTable | src/main/java/com/ibm/wiotp/masdc/Connector.java:267-271 | error 1146 records the window as NO_TABLE, and the window moves to NextWindow of the old end time, year and month with status NO_TABLE |
| Extraction.Connector.Settle | src/main/java/com/ibm/wiotp/masdc/Connector.java:377-419 | processed count grows by the rows; no rows: TABLE_NO_DATA and nothing uploaded; rows: uploaded grows by the batch result, TABLE_WITH_DATA, rate rowCount*1000/elapsed, stop in test mode or on a zero elapsed time; either way the window moves to NextWindow of the old window with that status at the cycle's end time, and the source map is emptied; a batch insert that throws stops the loop with the uploaded count, rate, offset file, window and source map unchanged |
| Extraction.Connector.SettleNoData | src/main/java/com/ibm/wiotp/masdc/Connector.java:379-389 | no rows: the window is stored with status TABLE_NO_DATA, moves to NextWindow of the old window with that status, and the source map is emptied |
| Extraction.Connector.SettleWithData | src/main/java/com/ibm/wiotp/masdc/Connector.java:394-419 | the uploaded count grows by the batch insert's result, at most the row count; the window is stored with status TABLE_WITH_DATA and the new counts and moves to NextWindow of the old window with that status; the source map is emptied; the rate is set unless zero; when the batch insert throws, none of that happens and the loop stops |
| Extraction.Connector.Cycle | src/main/java/com/ibm/wiotp/masdc/Connector.java:230-424 | 1146 records NO_TABLE, moves the window to NextWindow with NO_TABLE and goes on; other errors stop with nothing changed; fetched rows are transformed (a failure leaves the window where it was), then counted and written, the window moved to NextWindow with TABLE_NO_DATA or TABLE_WITH_DATA; a fatal error, or rows in test mode, stop the loop; a batch insert that throws, which needs rows and an unchained exception, stops it with the uploaded count and window unchanged and the rows left in the source map; the uploaded count never grows more than the processed count |
| Extraction.Connector.Step | src/main/java/com/ibm/wiotp/masdc/Connector.java:230-424 | one pass of the loop: a fatal query error, or rows in test mode, stop it; the counters only grow, the uploaded one never by more than the processed one |
| Extraction.Connector.ExtractAndUpload | src/main/java/com/ibm/wiotp/masdc/Connector.java:209-426 | the loop never runs past a fatal query error, nor in test mode past a cycle with rows; counters only grow, uploaded never more than processed |
| Stats.StatsTagsDistinct | src/main/java/com/ibm/wiotp/masdc/ConnectorStats.java:34-35 | the six statistic tag paths "<device>/<name>" are pairwise different |
| Stats.NewTags | src/main/java/com/ibm/wiotp/masdc/ConnectorStats.java:53-60 | the count of tags the cache takes is at most the number of tags offered |
| Stats.Registered | src/main/java/com/ibm/wiotp/masdc/ConnectorStats.java:53-60 | registration keeps every key and adds every offered tag path |
| Stats.RegisteredKeys | src/main/java/com/ibm/wiotp/masdc/ConnectorStats.java:53-60 | after registration a path is a key exactly when it was a key before or is one of the offered tag paths |
| Stats.NewTagsEmpty | src/main/java/com/ibm/wiotp/masdc/ConnectorStats.java:53-60 | an empty cache takes and counts every tag |
| Stats.NewTagsPresent | src/main/java/com/ibm/wiotp/masdc/ConnectorStats.java:53-60 | a cache already holding every tag takes none, so a second start counts nothing |
| Stats.StatsRow | src/main/java/com/ibm/wiotp/masdc/ConnectorStats.java:90-124 | status row i has one value per destination column of the connector type |
| Stats.StatsRowColumns | src/main/java/com/ibm/wiotp/masdc/ConnectorStats.java:90-124 | the statistic lands in INTVALUE (devices) or VALUE (alarms), its name in EVT_NAME or DISPLAYPATH, its tag id first, with EVENTTYPE "status", FORMAT "JSON" and LOGICALINTERFACE_ID "null" |
| Stats.StatsRows | src/main/java/com/ibm/wiotp/masdc/ConnectorStats.java:90 | six status rows, row j from statistic j |
| Stats.ConnectorStats.constructor | src/main/java/com/ibm/wiotp/masdc/ConnectorStats.java:38-50 | keeps the configuration, offset record and tag cache, takes connector and entity type from the configuration, and nothing has been handed to the database yet |
| Stats.ConnectorStats.Start | src/main/java/com/ibm/wiotp/masdc/ConnectorStats.java:52-60 | every statistic tag is in the cache afterwards, a new one with a fresh record for its device, no existing entry changes, and the tag count grows by exactly the number of tags the cache did not hold |
| Stats.ConnectorStats.RegisterTags | src/main/java/com/ibm/wiotp/masdc/ConnectorStats.java:53-60 | the same over any table of devices and names with distinct tag paths |
| Stats.ConnectorStats.RegisterTag | src/main/java/com/ibm/wiotp/masdc/ConnectorStats.java:54-59 | putSafe inserts a fresh record only for a missing path and the tag count grows by one exactly then |
| Stats.ConnectorStats.SendEvent | src/main/java/com/ibm/wiotp/masdc/ConnectorStats.java:71-126 | the status map holds the six rows built from processed, uploaded, rate, tag count, start and end time, in that order, six values per column, and that map is handed to the batch insert with a row count of 6 |
| Producing.Producer.constructor | src/main/java/com/ibm/wiotp/masdc/Producer.java:41-52 | keeps the configuration, offset record, column map and row count, the configured chunk size and entity type, and a helper for the connector type |
| Producing.Producer.RowCount | src/main/java/com/ibm/wiotp/masdc/Producer.java:72 | the loop visits totalRows rows, none for a negative count |
| Producing.Producer.Call | src/main/java/com/ibm/wiotp/masdc/Producer.java:54-131 | always true; the uploaded counter grows by the reference count of the subtract policy, between minus one chunk and the rows that bind; when every refusal chains an exception that is the rows of the accepted chunks; all rows when every chunk is accepted, none when all are refused with chained exceptions; rate is uploaded*1000, wrapped to 32 bits as the int product is, over the elapsed milliseconds, unless the count is not positive, the elapsed time is 0 or the flush throws |
| Producing.RateWraps | src/main/java/com/ibm/wiotp/masdc/Producer.java:121 | 2147484 rows over 1000 ms give the rate -2147483, since the int product wraps; 2147483 rows give 2147483 |
| Producing.Producer.UploadAll | src/main/java/com/ibm/wiotp/masdc/Producer.java:72-113 | the row loop and final flush agree with the subtract-policy specification, and report whether the flush's handler throws |
| Producing.Producer.UploadRow | src/main/java/com/ibm/wiotp/masdc/Producer.java:73-97 | one row of the loop is one step of the subtract policy: bind, add, execute at the chunk size, a refused chunk subtracted, stop on a binding failure or an unchained refusal |
| Producing.Producer.ExecuteChunk | src/main/java/com/ibm/wiotp/masdc/Producer.java:78-93 | a full batch executed in the loop: accepted, it is cleared; refused, its rows come off the count and it is cleared when the exception chains one, otherwise the loop stops with it pending |
| Producing.Producer.CountFacts | src/main/java/com/ibm/wiotp/masdc/Producer.java:72-129 | the count of a call is bounded by minus one chunk and the rows that bind, is the rows of the accepted chunks when every refusal chains, all rows when every chunk is accepted and 0 when every chunk is refused with a chain |
| Batches.ChunkSize | src/main/java/com/ibm/wiotp/masdc/Producer.java:78 | a configured size of 0 or less behaves as 1, since the count is at least 1 when compared |
| Batches.BindPrefix | src/main/java/com/ibm/wiotp/masdc/Producer.java:72-97 | the number of leading rows that bind: all before it bind and the row at it, if any, does not |
| Batches.Vals | src/main/java/com/ibm/wiotp/masdc/Producer.java:74-75 | the parameters of the leading bound rows, in row order |
| Batches.BreakStepInv | src/main/java/com/ibm/wiotp/masdc/Connector.java:446-462 | one row under the break policy keeps the invariant: sent then pending is the bound prefix processed so far |
| Batches.BreakFromInv | src/main/java/com/ibm/wiotp/masdc/Connector.java:445-464 | the break policy run to the end keeps the invariant |
| Batches.BreakAllAccepted | src/main/java/com/ibm/wiotp/masdc/Connector.java:445-464 | with every execution accepted the break policy processes every row before the first failed binding |
| Batches.BreakResult | src/main/java/com/ibm/wiotp/masdc/Connector.java:428-488 | batchInsert's count never exceeds the rows that bind, what is sent and pending is the first processed rows in order, and with every execution accepted all bound rows are sent |
| Batches.AcceptedRows | src/main/java/com/ibm/wiotp/masdc/Producer.java:72-113 | the reference count of rows in accepted chunks is at most the number of rows |
| Batches.SubtractStepOutcome | src/main/java/com/ibm/wiotp/masdc/Producer.java:73-97 | one row under the subtract policy keeps the invariant and the outcome |
| Batches.SubtractFromOutcome | src/main/java/com/ibm/wiotp/masdc/Producer.java:72-98 | the subtract policy to the end ends with the reference count |
| Batches.SubtractFlushOutcome | src/main/java/com/ibm/wiotp/masdc/Producer.java:99-113 | after the final flush the count is the run's outcome, at most the rows sent, and equal to them when every refusal chains an exception |
| Batches.SubtractResult | src/main/java/com/ibm/wiotp/masdc/Producer.java:54-131 | the uploader's final count is the reference count of the bound prefix, between minus one chunk and the rows bound, at most the rows sent; when every refusal chains an exception it is the rows of the accepted chunks and equals the rows sent |
| Batches.UploadedBounds | src/main/java/com/ibm/wiotp/masdc/Producer.java:72-113 | the reference count lies between minus one chunk and the number of rows |
| Batches.UploadedChained | src/main/java/com/ibm/wiotp/masdc/Producer.java:84-92 | when every refusal chains an exception the reference count is the rows of the accepted chunks |
| Batches.UploadedAllAccepted | src/main/java/com/ibm/wiotp/masdc/Producer.java:72-113 | when every execution is accepted every row counts, whatever the exceptions chain |
| Batches.RefusedChunkCountedTwice | src/main/java/com/ibm/wiotp/masdc/Producer.java:84-108 | one chunk of 10000 refused twice with no chained exception counts -10000 |
| Batches.AcceptedRowsAll | src/main/java/com/ibm/wiotp/masdc/Producer.java:72-113 | when every execution is accepted every row counts |
| Batches.AcceptedRowsNone | src/main/java/com/ibm/wiotp/masdc/Producer.java:80-110 | when every execution is refused no row counts |
| Batches.SecondChunkFails | src/main/java/com/ibm/wiotp/masdc/Producer.java:84 | 25000 rows with only the second chunk of 10000 refused count 15000 |
| CsvUpload.CsvField | src/main/java/com/ibm/wiotp/masdc/DBConnector.java:512-517 | a written field never contains a comma: null becomes "null" and commas in a value become spaces |
| CsvUpload.CsvFields | src/main/java/com/ibm/wiotp/masdc/DBConnector.java:511-519 | one field per column, in column order |
| CsvUpload.CsvFieldKeeps | src/main/java/com/ibm/wiotp/masdc/DBConnector.java:513 | a value free of commas is written unchanged |
| CsvUpload.CsvLinePieces | src/main/java/com/ibm/wiotp/masdc/DBConnector.java:511-520 | cutting a written line at its commas gives back exactly one field per column |
| CsvUpload.CsvLineSplit | src/main/java/com/ibm/wiotp/masdc/DBConnector.java:877 | the loader's split of a written line gives the fields back, less the trailing empty ones Java's split drops |
| CsvUpload.WrittenStep | src/main/java/com/ibm/wiotp/masdc/DBConnector.java:511-519 | writing field i adds the field and, unless it is the last, a comma |
| CsvUpload.CsvRowText | src/main/java/com/ibm/wiotp/masdc/DBConnector.java:511-520 | the line written for a row is the row's fields joined by commas |
| CsvUpload.WriteCsv | src/main/java/com/ibm/wiotp/masdc/DBConnector.java:490-522 | the file is a header of the column names joined by commas, then one line per row, and the row count is the number of rows |
| CsvUpload.ColumnType | src/main/java/com/ibm/wiotp/masdc/DBConnector.java:820-829 | every column binds as "double", "timestamp" or "char" |
| CsvUpload.DdlColumns | src/main/java/com/ibm/wiotp/masdc/DBConnector.java:807-811 | the column definitions exist exactly when the DDL has a "(" |
| CsvUpload.ParseColumns | src/main/java/com/ibm/wiotp/masdc/DBConnector.java:815-830 | the parse succeeds exactly when every definition has a name and a type and they fit the arrays; then name i is the first word and type i the binding type of the second |
| CsvUpload.ReadStep | src/main/java/com/ibm/wiotp/masdc/DBConnector.java:817-830 | reading one more definition extends the names and types read so far |
| CsvUpload.ColumnsRead | src/main/java/com/ibm/wiotp/masdc/DBConnector.java:817-830 | names and types read one at a time are the parse of the definitions |
| CsvUpload.ParseDdl | src/main/java/com/ibm/wiotp/masdc/DBConnector.java:804-830 | the DDL parses exactly when it has a "(" and its definitions parse, into one name and binding type per definition |
| CsvUpload.Found | src/main/java/com/ibm/wiotp/masdc/DBConnector.java:832-854 | at most one listed column per listed column is found |
| CsvUpload.ListingMarks | src/main/java/com/ibm/wiotp/masdc/DBConnector.java:845 | the placeholder list holds one "?" per listed column the DDL defines |
| CsvUpload.ListingNamesFree | src/main/java/com/ibm/wiotp/masdc/DBConnector.java:844 | column names free of "?" give a column list free of "?" |
| CsvUpload.ListingAllFound | src/main/java/com/ibm/wiotp/masdc/DBConnector.java:832-854 | when the DDL defines every listed column the column list is the names joined by ", " and every column is found |
| CsvUpload.InsertPlaceholders | src/main/java/com/ibm/wiotp/masdc/DBConnector.java:856-857 | the INSERT into IOT_<TABLE> has exactly one "?" per listed column the DDL defines |
| CsvUpload.FirstIndex | src/main/java/com/ibm/wiotp/masdc/DBConnector.java:840-848 | the first definition of a column: earlier positions hold other names |
| CsvUpload.TypesAfter | src/main/java/com/ibm/wiotp/masdc/DBConnector.java:842 | the slot of each listed column the DDL defines takes the type of its first definition; other slots keep their value |
| CsvUpload.Params | src/main/java/com/ibm/wiotp/masdc/DBConnector.java:882-893 | one parameter per field, each the field bound under its slot's type |
| CsvUpload.LineRows | src/main/java/com/ibm/wiotp/masdc/DBConnector.java:868-898 | one binding outcome per data line, in order |
| CsvUpload.TextLineBinds | src/main/java/com/ibm/wiotp/masdc/DBConnector.java:884-885 | a line whose columns are all text binds each field as text, in order |
| CsvUpload.QueryStartRow | src/main/java/com/ibm/wiotp/masdc/DBConnector.java:445-458 | mysql pages from startRow as it is; other databases never page from 0, raising it to 1 |
| CsvUpload.ChunkStep | src/main/java/com/ibm/wiotp/masdc/DBConnector.java:432-660 | 1146 rewrites the offset with startRow 0 and lastEndTS -1 and ends; other errors end with the offset unchanged; a short chunk or test mode ends; a recorded chunk moves startRow to the query's start row plus the rows processed |
| CsvUpload.UploadFrom | src/main/java/com/ibm/wiotp/masdc/DBConnector.java:432-661 | the chunks run are at least the start and at most all |
| CsvUpload.UploadFullChunks | src/main/java/com/ibm/wiotp/masdc/DBConnector.java:590-592 | every chunk the loop moves past fetched a full chunk |
| CsvUpload.TestModeOneChunk | src/main/java/com/ibm/wiotp/masdc/DBConnector.java:657-660 | in test mode the loop runs exactly one chunk |
| CsvUpload.TypesPrepared | src/main/java/com/ibm/wiotp/masdc/DBConnector.java:798-857 | preparing the statement keeps the size of the type array |
| CsvUpload.InsertOutcomeBounds | src/main/java/com/ibm/wiotp/masdc/DBConnector.java:868-929 | the count is -1 exactly for an empty file, otherwise at most the data lines that bind before the first that does not, and exactly that when every execution is accepted |
| CsvUpload.UploadAdvances | src/main/java/com/ibm/wiotp/masdc/DBConnector.java:633-645 | when every chunk uploads rows the offset's startRow moves by exactly the rows uploaded |
| CsvUpload.DBConnector.constructor | src/main/java/com/ibm/wiotp/masdc/DBConnector.java:75-81 | no statement, an empty type array of MAX_TABLE_COLUMNS slots and no offset file before the first chunk |
| CsvUpload.DBConnector.ReadDdl | src/main/java/com/ibm/wiotp/masdc/DBConnector.java:804-830 | the parse of the DDL; the definition count is recorded before the definitions are read |
| CsvUpload.DBConnector.ReadColumns | src/main/java/com/ibm/wiotp/masdc/DBConnector.java:813-830 | the array loop gives the parse of the definitions |
| CsvUpload.DBConnector.ReadColumn | src/main/java/com/ibm/wiotp/masdc/DBConnector.java:818-829 | a definition reads when it has two words: the first is its name and the second gives its type |
| CsvUpload.DBConnector.TypeOf | src/main/java/com/ibm/wiotp/masdc/DBConnector.java:820-829 | the type tests in the order DOUBLE, NUMBER, INTEGER, TIMESTAMP agree with the binding type |
| CsvUpload.DBConnector.FindColumn | src/main/java/com/ibm/wiotp/masdc/DBConnector.java:839-849 | finds a column exactly when the DDL defines it, at its first definition |
| CsvUpload.DBConnector.BuildInsert | src/main/java/com/ibm/wiotp/masdc/DBConnector.java:832-857 | the build succeeds exactly when no defined column lies past the slots, then gives the INSERT text; the type slots are as the build leaves them |
| CsvUpload.DBConnector.AddColumn | src/main/java/com/ibm/wiotp/masdc/DBConnector.java:833-853 | one listed column extends the column and placeholder lists and records its type |
| CsvUpload.DBConnector.PrepareInsert | src/main/java/com/ibm/wiotp/masdc/DBConnector.java:798-860 | a cached statement is kept as it is; otherwise it is built from the DDL, and stays empty when the build throws |
| CsvUpload.DBConnector.BindLine | src/main/java/com/ibm/wiotp/masdc/DBConnector.java:877-893 | a line binds exactly when every field fits a slot and parses, and then binds those parameters |
| CsvUpload.DBConnector.BatchInsert | src/main/java/com/ibm/wiotp/masdc/DBConnector.java:778-940 | 0 when no statement or no connection; otherwise the line loop's outcome; the cached statement never changes once set |
| CsvUpload.DBConnector.InsertLines | src/main/java/com/ibm/wiotp/masdc/DBConnector.java:866-929 | the loop and the last execution give the outcome specification |
| CsvUpload.DBConnector.InsertAll | src/main/java/com/ibm/wiotp/masdc/DBConnector.java:868-919 | the line loop leaves the break policy's state over the data lines, the header counted once |
| CsvUpload.DBConnector.InsertLine | src/main/java/com/ibm/wiotp/masdc/DBConnector.java:869-913 | one data line is one step of the break policy |
| CsvUpload.DBConnector.UploadChunk | src/main/java/com/ibm/wiotp/masdc/DBConnector.java:432-661 | one pass of the chunk loop is the chunk step, and the LIMIT clause is the paging suffix of the start row read |
| CsvUpload.DBConnector.RecordRows | src/main/java/com/ibm/wiotp/masdc/DBConnector.java:565-660 | the record of a chunk that fetched rows is the one the chunk step describes |
| CsvUpload.DBConnector.Upload | src/main/java/com/ibm/wiotp/masdc/DBConnector.java:383-661 | the chunk loop runs the chunk step until one ends it, leaving the offset file it describes |
| CsvUpload.ListingStep | src/main/java/com/ibm/wiotp/masdc/DBConnector.java:834-848 | one more listed column adds a separator unless first, then its entry |
| CsvUpload.TypesStep | src/main/java/com/ibm/wiotp/masdc/DBConnector.java:842 | one more listed column sets its slot to its definition's type, if defined |
| CsvUpload.TypesStop | src/main/java/com/ibm/wiotp/masdc/DBConnector.java:842 | a defined column past the slots ends the build with the slots as far as it got |
| Bulk.PushCovers | src/main/java/com/ibm/wiotp/masdc/Device.java:49-53 | staging a non-empty group adds exactly that group after everything staged before, and the counter is then past 1 (also Dimension.java:49-66) |
| Bulk.FlushCovers | src/main/java/com/ibm/wiotp/masdc/Device.java:54-62 | a flush sends what was pending as the last body, with one item fewer than the counter, and leaves nothing pending (also Dimension.java:68-78) |
| Bulk.FlattenAppend | src/main/java/com/ibm/wiotp/masdc/Device.java:43-64 | flattening the bodies POSTed distributes over concatenation |
| Devices.StageAll | src/main/java/com/ibm/wiotp/masdc/Device.java:48-63 | the countdown drops by one per staged device |
| Devices.StagedIds | src/main/java/com/ibm/wiotp/masdc/Device.java:71-94 | at most one staged device per entry |
| Devices.ItemsSnoc | src/main/java/com/ibm/wiotp/masdc/Device.java:51 | one more id adds its createDeviceItem at the end |
| Devices.EntriesStageStagedIds | src/main/java/com/ibm/wiotp/masdc/Device.java:71-94 | the entry loop stages exactly the devices of the entries with device status 0, in order, and only those move the countdown |
| Devices.StageAllBatched | src/main/java/com/ibm/wiotp/masdc/Device.java:54 | no POST carries more than 99 devices and none is empty |
| Devices.StageDeviceCovers | src/main/java/com/ibm/wiotp/masdc/Device.java:49-62 | one staged device is added to what is covered |
| Devices.StageAllSnoc | src/main/java/com/ibm/wiotp/masdc/Device.java:48-63 | staging one more device is one more step of the loop |
| Devices.StageAllCovers | src/main/java/com/ibm/wiotp/masdc/Device.java:48-63 | the bodies sent followed by what is pending are the staged items in order |
| Devices.LastDeviceNeverPosted | src/main/java/com/ibm/wiotp/masdc/Device.java:53-54 | with the countdown at the number of devices, every device but the last is POSTed in order, and the last is left in an array never sent |
| Devices.FlushedBeforeLast | src/main/java/com/ibm/wiotp/masdc/Device.java:53-61 | when one device is left the countdown has just reached 1 and everything before it was sent |
| Devices.NothingPostedWhenRegistered | src/main/java/com/ibm/wiotp/masdc/Device.java:80-82 | with a countdown two or more above the devices to stage and fewer than 99 of them, nothing is POSTed although all are staged |
| Devices.PostedItems | src/main/java/com/ibm/wiotp/masdc/Device.java:97-109 | every device sent is a createDeviceItem of the type and token with empty deviceInfo, location and metadata |
| Devices.IdsLastNeverPosted | src/main/java/com/ibm/wiotp/masdc/Device.java:43-64 | in the map overload the device of the last key visited is never POSTed |
| Devices.EntriesNothingPosted | src/main/java/com/ibm/wiotp/masdc/Device.java:66-95 | in the entries overload, with two or more entries registered before and fewer than 99 new, no POST is made while the new entries end flagged 1 |
| Devices.Device.constructor | src/main/java/com/ibm/wiotp/masdc/Device.java:32-41 | the base URL is the organisation's platform host and the endpoint the bulk device-add API; nothing posted |
| Devices.Device.Post | src/main/java/com/ibm/wiotp/masdc/Device.java:55-60 | each attempt is recorded as a body sent, whether or not it throws |
| Devices.Device.StageOne | src/main/java/com/ibm/wiotp/masdc/Device.java:49-62 | one staged device keeps the loop's locals and the bodies sent in step with the staging model |
| Devices.Device.VisitEntry | src/main/java/com/ibm/wiotp/masdc/Device.java:72-93 | an entry with device status 0 is staged and flagged 1; any other entry changes nothing |
| Devices.Device.ApplyIds | src/main/java/com/ibm/wiotp/masdc/Device.java:43-64 | the bodies POSTed are those of staging every id of the map, in iteration order, with the countdown at the map's size |
| Devices.Device.ApplyEntries | src/main/java/com/ibm/wiotp/masdc/Device.java:66-95 | the bodies POSTed are those of the entry loop; every entry with status 0 ends flagged 1 and no other field or key changes |
| Devices.Device.VisitAll | src/main/java/com/ibm/wiotp/masdc/Device.java:71-94 | the loop over distinct entries POSTs the entry loop's bodies and flags each visited entry |
| Dimensions.TagItemsRebuild | src/main/java/com/ibm/wiotp/masdc/Dimension.java:54-64 | a tag's items carry its id and type LITERAL, are CLIENT, TAGPATH then LEVEL_0.., and for a path not ending in "/" the levels joined with "/" are the tag path again, none holding a "/" |
| Dimensions.StageAll | src/main/java/com/ibm/wiotp/masdc/Dimension.java:48-79 | the countdown drops by one per staged tag |
| Dimensions.StagedGroups | src/main/java/com/ibm/wiotp/masdc/Dimension.java:87-126 | at most one staged group per entry |
| Dimensions.StageAllSnoc | src/main/java/com/ibm/wiotp/masdc/Dimension.java:48-79 | staging one more tag is one more step of the loop |
| Dimensions.EntriesStageStagedGroups | src/main/java/com/ibm/wiotp/masdc/Dimension.java:87-126 | the entry loop stages exactly the groups of entries with dimension status 0, in order; every group is non-empty |
| Dimensions.StageTagCovers | src/main/java/com/ibm/wiotp/masdc/Dimension.java:49-78 | one staged group is added to what is covered |
| Dimensions.StageAllCovers | src/main/java/com/ibm/wiotp/masdc/Dimension.java:48-79 | the bodies sent followed by what is pending are the staged items in order |
| Dimensions.AllPosted | src/main/java/com/ibm/wiotp/masdc/Dimension.java:66-68 | with the countdown at the number of tags, every item is POSTed in order, nothing is left pending, and with two or more tags the last goes in a request of its own |
| Dimensions.NothingPostedWhenRegistered | src/main/java/com/ibm/wiotp/masdc/Dimension.java:110-112 | with a countdown two or more above the tags to stage and fewer than 79 items in all, nothing is POSTed |
| Dimensions.IdsAllPosted | src/main/java/com/ibm/wiotp/masdc/Dimension.java:43-80 | in the map overload every item of every tag is sent |
| Dimensions.EntriesNothingPosted | src/main/java/com/ibm/wiotp/masdc/Dimension.java:82-127 | in the entries overload, with two or more entries registered before and fewer than 79 new items, no POST is made while the new entries end flagged 1 |
| Dimensions.Dimension.constructor | src/main/java/com/ibm/wiotp/masdc/Dimension.java:32-41 | the base URL is the regional API host and the endpoint the tenant's dimensional API for the entity type; nothing posted |
| Dimensions.Dimension.Post | src/main/java/com/ibm/wiotp/masdc/Dimension.java:69-76 | each attempt is recorded as a body sent, whether or not it throws |
| Dimensions.Dimension.AddLevels | src/main/java/com/ibm/wiotp/masdc/Dimension.java:58-64 | one LEVEL_i item per level appended in order, the counter up by one each |
| Dimensions.Dimension.StageOne | src/main/java/com/ibm/wiotp/masdc/Dimension.java:49-78 | one staged tag keeps the loop's locals and the bodies sent in step with the staging model |
| Dimensions.Dimension.ApplyIds | src/main/java/com/ibm/wiotp/masdc/Dimension.java:43-80 | the bodies POSTed are those of staging every tag of the map, in iteration order, with the countdown at the map's size |
| Dimensions.Dimension.VisitEntry | src/main/java/com/ibm/wiotp/masdc/Dimension.java:90-125 | an entry with dimension status 0 is staged and flagged 1; any other entry changes nothing |
| Dimensions.Dimension.ApplyEntries | src/main/java/com/ibm/wiotp/masdc/Dimension.java:82-127 | the bodies POSTed are those of the entry loop; every entry with status 0 ends flagged 1 and no other field or key changes |
| Dimensions.Dimension.VisitAll | src/main/java/com/ibm/wiotp/masdc/Dimension.java:87-126 | the loop over distinct entries POSTs the entry loop's bodies and flags each visited entry |
| PyUtils.ValueFromDatatype | bin/utils.py:65-74 | a row without a datatype column raises KeyError; an unknown code gives 'Unknown' |
| PyUtils.DatatypeField | bin/utils.py:78-87 | a row without a datatype column raises KeyError; a result is one of "int", "float", "string", "date" |
| PyUtils.ValueFollowsDatatype | bin/utils.py:65-87 | the two datatype helpers agree: a row typed t takes its value from the column t + "value", and the codes with no name give 'Unknown' and make the type helper raise |
| PyUtils.GetTS | bin/utils.py:90-99 | a zero timestamp comes back as it came in; a cell int() rejects raises; any other gives text, the ISO UTC form with "+00:00" when regreq is 1 |
| PyUtils.DeviceIdField | bin/utils.py:108-116 | with a prefix the id is prefix + "_" followed, with a format, by the formatted cell with each space turned to "0" and every other character kept (a formatting failure gives no id), or, without a format, by the string cell itself; without a prefix it is the cell, same length, with each space and "/" turned to "_" and every other character kept; a missing column raises KeyError |
| PyUtils.IntValue | bin/utils.py:119-123 | as written: 0 for an empty cell and None for every other |
| PyUtils.FloatValue | bin/utils.py:126-130 | as written: 0.0 for an empty cell and None for every other |
| PyUtils.CellValueLost | bin/utils.py:119-130 | the written helpers turn the cells "42" and "2.5" into None |
| PyUtils.IntValueOrZero | bin/utils.py:119-123 | as intended: the cell, or 0 for an empty cell; KeyError for a missing column |
| PyUtils.FloatValueOrZero | bin/utils.py:126-130 | as intended: the cell, or 0.0 for an empty cell; KeyError for a missing column |
| PyUtils.OrZeroCorrects | bin/utils.py:119-130 | the intended helpers differ from the written ones exactly on cells that are neither empty nor None |
| PyUtils.EventIdValue | bin/utils.py:133-134 | a string cell holding "/" gives the text after its last "/", which holds no "/"; a string cell without "/" raises IndexError, a cell that is not a string AttributeError, and a missing column KeyError |
| PyUtils.DimensionDataField | bin/utils.py:137-139 | the device id and the id column's cell joined by "#"; KeyError for either column missing |
| PyTransform.InterfaceIdOrDefault | bin/transform.py:49-52 | the result is never empty: a given non-empty interface id is kept, a missing or empty one becomes "NotAssigned" |
| PyTransform.Switches | bin/transform.py:151-159 | raises KeyError("tagpath") exactly when tagData holds setDimensions but no tagpath; the tag path is non-empty only when both keys are present; the POST switch is on only when setDimensions is true |
| PyTransform.SplitDid | bin/transform.py:189-191 | succeeds exactly when the value holds "#" and raises IndexError otherwise; both parts are free of "#"; with exactly one "#" the parts joined by "#" give the value back |
| PyTransform.DidRoundTrip | bin/transform.py:189-191 | an id and a tag path free of "#" joined by "#" split back into the same id and tag path |
| PyTransform.DimensionDataSplits | bin/transform.py:189-191 | the dimensionData field built for a row splits back into the row's device id and tag path when neither holds "#" |
| PyTransform.GroupItems | bin/transform.py:193-217 | one device contributes two items plus one per "/"-separated piece of its tag path |
| PyTransform.GroupItemsRebuild | bin/transform.py:193-217 | every item of a device carries its id and the LITERAL type; the first two are CLIENT (the client) and TAGPATH (the tag path); the rest are LEVEL_0, LEVEL_1, ... whose values joined with "/" give the tag path back |
| PyTransform.DidItems | bin/transform.py:186-217 | a dimensionData value yields its items exactly when it holds "#" (at least three items) and raises IndexError otherwise |
| PyTransform.Groups | bin/transform.py:186-217 | one item group per dimensionData value, in order |
| PyTransform.PayloadsAppend | bin/transform.py:219-228 | payloads of groups split at a multiple of 25 are the payloads of each part, concatenated |
| PyTransform.PayloadsCover | bin/transform.py:219-234 | the payloads glued together are all item groups glued together, in order, and there is one payload per started run of 25 devices |
| PyTransform.PayloadAt | bin/transform.py:219-234 | payload k holds exactly the items of devices 25k to 25k+24 (or to the last device) |
| PyTransform.GroupsPrefix | bin/transform.py:186-217 | the groups of a prefix of the values are the prefix of the groups |
| PyTransform.StepKeeps | bin/transform.py:186-228 | one more device keeps the counter at the number of devices mod 25, the sent payloads equal to those of the complete runs and the payload being filled equal to the devices of the started run |
| PyTransform.FoldNext | bin/transform.py:186-228 | past a value with "#" the loop takes one step with its group; a value without "#" stops the loop with IndexError |
| PyTransform.FoldState | bin/transform.py:186-228 | over values that all hold "#" the loop raises nothing and its state matches the intended payloads of their groups |
| PyTransform.FoldStateStep | bin/transform.py:186-228 | one more well-formed value, after a prefix whose loop state matches the intended payloads, keeps the state matching and raises nothing |
| PyTransform.RunStart | bin/transform.py:219-228 | k minus k mod 25 is a multiple of 25, the start of the run that device k belongs to |
| PyTransform.FinishMatches | bin/transform.py:229-234 | the final send of a started payload of 1 to 24 devices completes exactly the intended payloads |
| PyTransform.FoldPayloads | bin/transform.py:186-234 | with every value well formed the loop logs exactly one payload per run of 25 devices, holding their items in order |
| PyTransform.FoldErrorSticks | bin/transform.py:186-191 | once a value raises, the values after it change nothing |
| PyTransform.FoldFails | bin/transform.py:186-228 | a value without "#" after well-formed ones raises IndexError, and only the payloads of the complete runs of 25 before it were logged; the started run is lost |
| PyTransform.AppendLevels | bin/transform.py:207-217 | the payload grows by one LEVEL_i item per piece of the tag path, in order |
| PyTransform.AddDevice | bin/transform.py:186-228 | one device is one loop step with its item group; a full payload is logged, and POSTed exactly when setDimensions is true; it raises exactly when that POST raises |
| PyTransform.AddDimensions | bin/transform.py:149-236 | raises the KeyError of a missing tagpath; returns False with nothing logged when no tag path is set; otherwise logs the payloads of the loop (raising IndexError on a value without "#") and POSTs the same payloads only when setDimensions is true; the first POST that raises ends the run with RequestException after logging the payloads up to it; otherwise returns True |
| PyTransform.FirstRaising | bin/transform.py:224-234 | the index of the first of n POSTs that raises, or n when none does: every earlier POST returns and that one raises |
| PyTransform.SentPrefix | bin/transform.py:186-228 | the payloads sent for a prefix of the values are a prefix of those sent for all of them |
| PyTransform.SentPrefixLogged | bin/transform.py:186-234 | the payloads sent for a prefix of the values are a prefix of everything the run logs |
| PyTransform.LogPayload | bin/transform.py:224-226 | the payload is logged, and POSTed exactly when setDimensions is true; it raises exactly when that POST raises |
| PyTransform.DimensionLoop | bin/transform.py:186-234 | the loop and final send: the outcome is the one AddDimensions states, and whatever is logged is POSTed exactly when setDimensions is true |
| PyTransform.VisitValue | bin/transform.py:186-228 | one value: either the loop goes on with its state one value further, or the run ends with the outcome AddDimensions states |
| PyTransform.IndexErrorReports | bin/transform.py:189-191 | a value without "#" ends the run with IndexError, with what was logged so far being everything the run logs |
| PyTransform.DeviceReports | bin/transform.py:186-228 | after one device, a raising POST ends the run with RequestException having logged the payloads up to it; otherwise the loop state moves one value on |
| PyTransform.FlushLast | bin/transform.py:229-234 | after the last value the started payload is sent, and the outcome is the one AddDimensions states |
| PyTransform.RaisingAt | bin/transform.py:224-234 | when every logged POST but the last returned and the last raised, that last one is the first raising POST of the run, and what was logged is the run's payloads up to it |
| PyTransform.NoneRaising | bin/transform.py:224-234 | when every POST of the run returns, no POST raises |
| PyRegister.Without | bin/register.py:261-264 | the names kept are exactly those other than the skipped one |
| PyRegister.DedupKeys | bin/register.py:256-270 | the keys of the events dict hold each assigned name exactly once, and nothing else |
| PyRegister.DedupOfDistinct | bin/register.py:256-258 | names that are already distinct keep their order as dict keys |
| PyRegister.EvtMapCreate | bin/register.py:248-276 | the mapping document has the single key "<type>Event"; its keys are the names of the branch taken, each once in first-assignment order, each mapped to "$event.<name>"; data types come back only from the input-file branch |
| PyRegister.InterfaceMapping | bin/register.py:256-258 | with interface events the mapping names exactly their keys in the configured order |
| PyRegister.InterfaceColumn | bin/register.py:301-320 | the property describes its key; a type holding "string" gives a VARCHAR(256) string column with an empty default and no format; otherwise "integer" gives INTEGER, number and default 0; "number" gives DOUBLE, number and default 0.0; "date-time" gives TIMESTAMP(12), string, the epoch default and the date-time format; any other type gives VARCHAR(256) with no type, default or format; the date-time format goes with TIMESTAMP(12) in both directions and a property has a default exactly when it has a type |
| PyRegister.Properties | bin/register.py:300-322 | one property per interface event |
| PyRegister.Titles | bin/register.py:325-326 | one column title per interface event |
| PyRegister.DdlTypes | bin/register.py:304-327 | one DDL type per interface event |
| PyRegister.Strip | bin/register.py:423 | the stripped text is a slice of the input with only whitespace before and after it, it neither starts nor ends with whitespace, and text already without surrounding whitespace is unchanged |
| PyRegister.StripFront | bin/register.py:423 | a slice that strips the text after a leading whitespace character also strips the whole text |
| PyRegister.StripBack | bin/register.py:423 | a slice that strips the text before a trailing whitespace character also strips the whole text |
| PyRegister.BuildStep | bin/register.py:301-327 | one more event adds its property, its key when required, its upper-cased title and "<TITLE> <TYPE>, " to the four lists |
| PyRegister.BuildColumns | bin/register.py:300-327 | the loop leaves the properties, the required keys, the titles and the DDL fragment equal to their definitions over all events |
| PyRegister.CreateSchemas | bin/register.py:282-425 | raises KeyError when the event data has no timestamp and AttributeError when there are no interface events; otherwise the schema carries the properties, required keys, title and description of the type, and the DDL is CREATE TABLE on the stripped schema and type with the event columns followed by the seven WIoTP columns |
| PyRegister.RequiredExactly | bin/register.py:323-324 | a key is listed as required exactly when it is configured and named in interfaceRequired |
| PyRegister.SubsequenceOfEmpty | bin/register.py:323-324 | no keys form a subsequence of any list |
| PyRegister.SubsequenceSkip | bin/register.py:323-324 | an unselected trailing key keeps the required keys a subsequence |
| PyRegister.SubsequenceDrop | bin/register.py:323-324 | dropping the last required key keeps a subsequence |
| PyRegister.RequiredInOrder | bin/register.py:323-324 | the required keys appear in the order of the configured events |
| PyRegister.TitlesAt | bin/register.py:325-326 | column title i is event key i upper-cased |
| PyRegister.FragmentMatchesTitles | bin/register.py:325-327 | the DDL fragment lists the column titles each with the DDL type of its event, in the same order |
| PyRegister.DataTypeColumn | bin/register.py:370-401 | the property describes its key |
| PyRegister.DateTimeBranchesUnreachable | bin/register.py:375-397 | no data type reaches the date-time branches: the property never has the date-time format and the column is never TIMESTAMP(12) |

## Left out

- JDBC and the databases: connections, query execution, `ResultSet` iteration, metadata lookups and the connect retry loop. A query is an outcome value, and a result set is a sequence of rows that each hold one cell per selected column (`Transform.WellShaped`). `executeBatch` success is an input per chunk.
- HTTP: the REST client and the `requests` calls. A POST is an opaque call that may throw. `Device` and `Dimension` catch and drop the exception. The Python `addDimensions` does not catch it, so a raising POST ends the script with `RequestException` (`PyTransform.AddDimensions`). The URL, the headers and the response bodies are not modelled.
- Concurrency: the heartbeat, device, dimension and statistics threads, and `Producer` as a `Callable`. The tag cache is a sequential map with insert-if-absent.
- File I/O: the offset file is modelled as a persisted snapshot. Not modelled: the configuration and JSON documents, the CSV files on disk, log handlers and directory creation.
- `Thread.sleep`: a cycle computes its wait time, but the sleep itself is not modelled.
- `Config.getIgnitionDBSql`: the source query is read from SQL template files, so it is not part of this model.
- Mandatory configuration keys that are missing: the model starts from settings that are present.
- `MonitorTable.indexTable` (`MonitorTable.java:152-176`) needs a live database and swallows every error. Only the index statement it runs is modelled.
- `DBConnector.upload`: not modelled are the statistics CSV file and the run of the external transform script (`DBConnector.java:550-563` and `636-641`), or the extract-only and register-only paths.
- `ConnectorStats`: not modelled are the timer thread and the check for an update file (`ConnectorStats.java:129-150`).
- `TransformData`'s constructor check for null arguments: no Dafny reference is null.
- The heartbeat thread's end: when `sendHeartbeatEvent` throws (`Extraction.Connector.SendHeartbeatEvent`'s `threw`), the exception leaves `run` (`Connector.java:551-557`), which has no handler around it, and no further heartbeat is sent. The thread is not modelled.
- `Class.forName` of the JDBC driver: the model assumes the driver class is present. Its `ClassNotFoundException` is not an SQL exception, so it would reach the handlers and be logged without any null dereference.
- Floating point: a float is kept as its decimal text, and `Double.parseDouble` and `Timestamp.valueOf` are parameters. Not modelled: the float arithmetic of `getTS` for a non-zero timestamp, and Python `datetime`.
- pandas: a data-frame row is a map from column name to cell. Not modelled: `normalizeDataFrame`, the rest of `transformInputCSV`, and `getEventsAndDataTypes`, whose outputs are parameters.
- `createSchemas` without interface events reads `config.columnMaps`, and on a dict that raises `AttributeError` before either loop runs. The branch's per-column type mapping is modelled (`PyRegister.DataTypeColumn`); the loops over the data frame's columns are not.
- Upper and lower case are mapped for ASCII letters only. Java's and Python's Unicode case tables are not modelled.
- The datatype code in `bin/utils.py` is compared as an integer. Codes of other Python types are not modelled.
- Configuration.Config.GetMonitorPS: when a binding throws, only `ok == false` is stated. The parameters bound before the throw are left unstated.
- Helper.DBHelper.GetMonitorPS: when a binding throws, only `ok == false` is stated. The parameters bound before the throw are left unstated.
- Devices.Device.ApplyEntries and Dimensions.Dimension.ApplyEntries require the tag map to hold distinct `TagData` objects. Two keys sharing one object are not modelled, and the map's iteration order is a parameter.
- Dimensions.TagItemsRebuild is stated for tag paths that do not end with "/". Java's `split` drops trailing empty levels, so such a tag path does not join back.
- Java static state: the static fields of `OffsetRecord` (`OffsetRecord.java:34-52`), `DBHelper` (`DBHelper.java:31-36`) and `ConnectorStats` (`ConnectorStats.java:28-36`) are modelled as fields of one instance. Two instances that share those fields are not modelled.
- Calendar, Dates.DateUtil and Offsets.ByDate: `SimpleDateFormat` and `Calendar` (`DateUtil.java:24`, `:52-58`; `OffsetRecord.java:39-40`, `:207-208`) work in the JVM's default time zone, with the Julian-to-Gregorian switch of October 1582. The model fixes that zone to UTC and uses the proleptic Gregorian calendar. In any other zone the parsed start, the window's month and year and every comparison with now shift by the zone offset; that shift, the normalisation of local times that fall in a daylight-saving gap, and dates before the 1582 switch are not modelled.
- Offsets.OffsetRecord.UpdateOffsetFile: `updateOffsetFile` (`OffsetRecord.java:175`) and `updateOffsetByDate` (`OffsetRecord.java:253`) each read the clock. The model reads it once, so both see the same `now`.
- Extraction.Connector.Settle and Extraction.Connector.SettleWithData: `t.end` stands for two clock readings, the one inside `updateOffsetFile` and `cycleEndTimeMillis` (`Connector.java:404`), which the rate is computed from. The model uses one reading for both.
- Producing.Producer.Call: the count `rowsProcessed` is an `int` (`Producer.java:56`) that grows by one per bound row. The model does not wrap it, so a call over more than 2,147,483,647 rows is not modelled. The rate's 32-bit product is modelled (`Producing.RateWraps`).
- Offsets.OffsetRecord.SetProcessedCount, SetUploadedCount and SetRate: the `AtomicLong` counters (`OffsetRecord.java:47-51`) wrap at 2^63. The model uses unbounded integers and does not model the wrap.
- Stats.ConnectorStats.SendEvent: `dbConnector.batchInsert(statusMap, 6)` (`ConnectorStats.java:125`) targets a `DBConnector` overload that is not among its members (the only `batchInsert` there takes a JSON object and three strings). The model records each hand-over with its row count in `inserts`. What the database does with the rows is not modelled.
- Tags.UpdateTagData: the constructor takes the client site, and `UpdateTagData.java:36-49` does not. The as-written call passes no site (see Findings). The corrected migration stamps the entry with the site that `config.getClientSite()` gives, which the caller passes in.
- Tagname: the pattern language modelled is literal characters plus the `.*` wildcard. `ParseTagname.java:53` compiles any string as a `java.util.regex` pattern. Other syntax is not modelled: a lone `.`, character classes, anchors, alternation and quantifiers other than `.*`.

## Findings

| source | as written | input that shows it | evidently intended | confidence | as-written member | corrected member |
|---|---|---|---|---|---|---|
| src/main/java/com/ibm/wiotp/masdc/UpdateTagData.java:67 | `new TagData(tagpath, deviceId, entityType)` calls the (siteName, tagpath, deviceId) constructor. The migrated entry holds the device id as its tag path and the entity type as its device id | an old entry with tag path "ca3/boiler/temp" and device id "d-1" | the migrated entry keeps the tag path, the device id and both statuses, with the entity type as its device type | not executed | Tags.AsWrittenShiftsFields | Tags.MigratedRecord |
| src/main/java/com/ibm/wiotp/masdc/TransformData.java:71 | `new TagData(tagpath, data, dType)` calls the (siteName, tagpath, deviceId) constructor. The new registry entry holds the UUID as its tag path and the type as its device id | any tag path whose UUID text differs from it | the entry holds the tag path, its UUID as device id and the classified type as device type | not executed | Transform.AsWrittenEntryLosesTagpath | Transform.EntryFor |
| src/main/java/com/ibm/wiotp/masdc/TransformData.java:39-52 | the constructor assigns neither the static `tagpaths` nor `offsetRecord`. At `:73` `putSafe` on the null registry throws, and the empty catch at `:75` swallows it, so no tag path is ever registered or counted | any row with a non-null tagpath cell | the constructor assigns both, and each new tag path is registered with its entry and counted once | not executed | Transform.TransformerRegistersNothing | Transform.AssignedRegistryRegisters |
| bin/utils.py:119-130 | `set_int_value` and `set_float_value` have no `return` in their non-empty branch, so they give `None` for every non-empty cell | a cell "42" or "2.5" | the cell value, or 0 / 0.0 for an empty cell | not executed | PyUtils.CellValueLost | PyUtils.OrZeroCorrects |

=== FILE: batches.dfy ===
/**
 * The chunked batch insert the three writers share: rows are bound one at a time
 * and added to the pending batch, every `batchInsertSize` rows the batch is
 * executed, and the rows still pending at the end are flushed. The writers differ
 * in what a failed execution does:
 *   - break policy (the extraction cycle and the CSV uploader): the loop stops,
 *     and the failed batch stays pending;
 *   - subtract policy (the producer): the failed chunk is taken off the count; when
 *     the refusal chains a next exception the batch is cleared and the loop goes
 *     on, and when it chains none, reading that next exception's message throws,
 *     which ends the loop with the failed batch still pending.
 * A row whose binding throws stops the loop under both policies.
 *
 * Whether an execution is accepted is an input: `accepts(c)` is the outcome of the
 * `c`-th execution (counting from 0) of the run, and `chains(c)` says whether the
 * exception of a refused execution `c` chains a next one.
 */
module Batches {
  import Text
  import Jdbc

  type Bound = Jdbc.Bound
  type Option<T> = Text.Option<T>

  /**
   * The loop state: the running row count, the rows bound into the pending batch,
   * the rows sent by accepted executions, the number of executions so far, and
   * whether the loop has stopped.
   */
  datatype Load = Load(processed: int, pending: seq<Bound>, sent: seq<Bound>, chunks: nat, stopped: bool)

  const Start := Load(0, [], [], 0, false)

  /** Rows of size zero or less behave as size one: `batchCount >= size` holds after every row. */
  function ChunkSize(batchInsertSize: int): (s: nat)
    ensures s >= 1
  {
    if batchInsertSize < 1 then 1 else batchInsertSize
  }

  /** The number of leading rows that bind: the index of the first row whose binding throws. */
  function BindPrefix(rows: seq<Option<Bound>>): (n: nat)
    ensures n <= |rows|
    ensures forall i :: 0 <= i < n ==> rows[i].Some?
    ensures n < |rows| ==> rows[n].None?
    decreases |rows|
  {
    if |rows| == 0 || rows[0].None? then 0 else 1 + BindPrefix(rows[1..])
  }

  /** The parameters of the leading rows that bind, in row order. */
  function Vals(rows: seq<Option<Bound>>): (vs: seq<Bound>)
    ensures |vs| == BindPrefix(rows)
    ensures forall i :: 0 <= i < |vs| ==> rows[i] == Text.Some(vs[i])
  {
    seq(BindPrefix(rows), i requires 0 <= i < BindPrefix(rows) => rows[i].value)
  }

  /** One execution of the pending batch: accepted, its rows are sent and the batch empties. */
  function Execute(l: Load, accepts: nat -> bool): Load
  {
    if accepts(l.chunks) then l.(sent := l.sent + l.pending, pending := [], chunks := l.chunks + 1)
    else l.(chunks := l.chunks + 1)
  }

  // ---------------------------------------------------------------------------
  // Break policy
  // ---------------------------------------------------------------------------

  /** One row under the break policy. */
  function BreakStep(l: Load, r: Option<Bound>, size: nat, accepts: nat -> bool): Load
  {
    match r
    case None => l.(stopped := true)
    case Some(b) =>
      var l1 := l.(processed := l.processed + 1, pending := l.pending + [b]);
      if |l1.pending| >= size then
        (if accepts(l1.chunks) then Execute(l1, accepts) else Execute(l1, accepts).(stopped := true))
      else l1
  }

  /** Rows `k..` under the break policy. */
  function BreakFrom(rows: seq<Option<Bound>>, k: nat, l: Load, size: nat, accepts: nat -> bool): Load
    requires k <= |rows|
    decreases |rows| - k
  {
    if k == |rows| || l.stopped then l else BreakFrom(rows, k + 1, BreakStep(l, rows[k], size, accepts), size, accepts)
  }

  /** The final flush: a non-empty batch is executed once more; `threw` when it is refused. */
  function Flush(l: Load, accepts: nat -> bool): (r: (Load, bool))
  {
    if |l.pending| == 0 then (l, false)
    else (Execute(l, accepts), !accepts(l.chunks))
  }

  /** The loop state before row `k` of a run that has not stopped, or after a run that stopped. */
  predicate BreakInv(rows: seq<Option<Bound>>, k: nat, l: Load)
  {
    k <= |rows| &&
    0 <= l.processed <= k && l.processed <= BindPrefix(rows) &&
    l.processed == |l.sent| + |l.pending| &&
    l.sent + l.pending == Vals(rows)[..l.processed] &&
    (!l.stopped ==> l.processed == k)
  }

  lemma BreakStepInv(rows: seq<Option<Bound>>, k: nat, l: Load, size: nat, accepts: nat -> bool)
    requires k < |rows| && BreakInv(rows, k, l) && !l.stopped
    ensures BreakInv(rows, k + 1, BreakStep(l, rows[k], size, accepts))
  {
    if rows[k].Some? {
      assert k < BindPrefix(rows);
      var vs := Vals(rows);
      assert vs[..k + 1] == vs[..k] + [rows[k].value];
    } else {
      assert BindPrefix(rows) <= k;
    }
  }

  lemma {:induction false} BreakFromInv(rows: seq<Option<Bound>>, k: nat, l: Load, size: nat, accepts: nat -> bool)
    requires BreakInv(rows, k, l)
    ensures BreakInv(rows, |rows|, BreakFrom(rows, k, l, size, accepts))
    decreases |rows| - k
  {
    if k < |rows| && !l.stopped {
      BreakStepInv(rows, k, l, size, accepts);
      BreakFromInv(rows, k + 1, BreakStep(l, rows[k], size, accepts), size, accepts);
    }
  }

  /**
   * With every execution accepted, the break policy never stops on an execution, so
   * it stops exactly at the first row that fails to bind.
   */
  lemma {:induction false} BreakAllAccepted(rows: seq<Option<Bound>>, k: nat, l: Load, size: nat, accepts: nat -> bool)
    requires BreakInv(rows, k, l) && !l.stopped && k <= BindPrefix(rows)
    requires forall c :: accepts(c)
    ensures BreakFrom(rows, k, l, size, accepts).processed == BindPrefix(rows)
    decreases |rows| - k
  {
    if k < |rows| {
      BreakStepInv(rows, k, l, size, accepts);
      var l1 := BreakStep(l, rows[k], size, accepts);
      if k < BindPrefix(rows) {
        BreakAllAccepted(rows, k + 1, l1, size, accepts);
      }
    }
  }

  /**
   * The break policy from the start: the count never exceeds the rows that bind,
   * the rows sent followed by the rows pending are exactly the first `processed`
   * bound rows in order, and with every execution accepted the count is the number
   * of rows before the first failed binding, and the flush sends all of them.
   */
  lemma BreakResult(rows: seq<Option<Bound>>, size: nat, accepts: nat -> bool)
    ensures var r := BreakFrom(rows, 0, Start, size, accepts);
      0 <= r.processed <= BindPrefix(rows) &&
      r.sent + r.pending == Vals(rows)[..r.processed] &&
      ((forall c :: accepts(c)) ==>
        r.processed == BindPrefix(rows) && !Flush(r, accepts).1 && Flush(r, accepts).0.sent == Vals(rows))
  {
    BreakFromInv(rows, 0, Start, size, accepts);
    var r := BreakFrom(rows, 0, Start, size, accepts);
    if forall c :: accepts(c) {
      BreakAllAccepted(rows, 0, Start, size, accepts);
      assert Vals(rows)[..r.processed] == Vals(rows);
    }
  }

  // ---------------------------------------------------------------------------
  // Subtract policy
  // ---------------------------------------------------------------------------

  /**
   * One execution inside the subtract policy's row loop: a refused chunk is taken
   * off the count; when its exception chains a next one the batch is cleared,
   * otherwise the loop stops with the batch still pending.
   */
  function SubtractExecute(l: Load, accepts: nat -> bool, chains: nat -> bool): Load
  {
    var e := Execute(l, accepts);
    if accepts(l.chunks) then e
    else if chains(l.chunks) then e.(processed := l.processed - |l.pending|, pending := [])
    else e.(processed := l.processed - |l.pending|, stopped := true)
  }

  /** One row under the subtract policy. */
  function SubtractStep(l: Load, r: Option<Bound>, size: nat, accepts: nat -> bool, chains: nat -> bool): Load
  {
    match r
    case None => l.(stopped := true)
    case Some(b) =>
      var l1 := l.(processed := l.processed + 1, pending := l.pending + [b]);
      if |l1.pending| >= size then SubtractExecute(l1, accepts, chains) else l1
  }

  /** Rows `k..` under the subtract policy. */
  function SubtractFrom(rows: seq<Option<Bound>>, k: nat, l: Load, size: nat, accepts: nat -> bool,
                        chains: nat -> bool): Load
    requires k <= |rows|
    decreases |rows| - k
  {
    if k == |rows| || l.stopped then l
    else SubtractFrom(rows, k + 1, SubtractStep(l, rows[k], size, accepts, chains), size, accepts, chains)
  }

  /**
   * The final flush under the subtract policy: a non-empty batch is executed once
   * more, and a refusal takes its rows off the count. What the refusal's exception
   * chains no longer matters to the count, which is recorded either way.
   */
  function SubtractFlush(l: Load, accepts: nat -> bool): Load
  {
    if |l.pending| == 0 then l
    else
      var e := Execute(l, accepts);
      if accepts(l.chunks) then e else e.(processed := l.processed - |l.pending|, pending := [])
  }

  /** The final flush of the subtract policy throws: it is refused and its exception chains none. */
  predicate SubtractFlushThrows(l: Load, accepts: nat -> bool, chains: nat -> bool)
  {
    |l.pending| > 0 && !accepts(l.chunks) && !chains(l.chunks)
  }

  /**
   * Reference count: of `n` rows cut into chunks of `s` starting with execution
   * number `c`, the rows of the chunks that are accepted.
   */
  function AcceptedRows(n: nat, s: nat, accepts: nat -> bool, c: nat): (a: nat)
    requires s >= 1
    ensures a <= n
    decreases n
  {
    if n == 0 then 0
    else
      var k := if n < s then n else s;
      (if accepts(c) then k else 0) + AcceptedRows(n - k, s, accepts, c + 1)
  }

  /**
   * Reference count of the subtract policy as written: of `n` rows cut into chunks of
   * `s` starting with execution `c`, the rows of the accepted chunks, up to the first
   * full chunk refused without a chained exception. That chunk is taken off, the
   * loop ends, and the flush executes the same chunk again: accepted, the count
   * stays; refused, the chunk is taken off a second time.
   */
  function Uploaded(n: nat, s: nat, accepts: nat -> bool, chains: nat -> bool, c: nat): int
    requires s >= 1
    decreases n
  {
    if n == 0 then 0
    else if n < s then (if accepts(c) then n else 0)
    else if accepts(c) then s + Uploaded(n - s, s, accepts, chains, c + 1)
    else if chains(c) then Uploaded(n - s, s, accepts, chains, c + 1)
    else if accepts(c + 1) then 0 else -(s as int)
  }

  /**
   * The subtract policy's state before row `k`: while the loop runs the count equals
   * the rows sent plus the rows pending and the pending batch is smaller than a
   * chunk; a loop ended by a missing chained exception has a full chunk pending that
   * is already off the count; and with every refusal chained that never happens.
   */
  ghost predicate SubtractInv(rows: seq<Option<Bound>>, k: nat, l: Load, s: nat, chains: nat -> bool)
  {
    k <= |rows| && s >= 1 && |l.pending| <= s &&
    l.processed == |l.sent| + (if |l.pending| < s then |l.pending| else 0) &&
    (!l.stopped ==> |l.pending| < s && k <= BindPrefix(rows)) &&
    ((forall e :: chains(e)) ==> |l.pending| < s)
  }

  /** The count a run in state `l` before row `k` ends with. */
  function SubtractOutcome(rows: seq<Option<Bound>>, k: nat, l: Load, s: nat, accepts: nat -> bool,
                           chains: nat -> bool): int
    requires k <= |rows| && s >= 1
  {
    if l.stopped then l.processed - (if |l.pending| > 0 && !accepts(l.chunks) then |l.pending| else 0)
    else
      var rest := if BindPrefix(rows) <= k then 0 else BindPrefix(rows) - k;
      l.processed - |l.pending| + Uploaded(|l.pending| + rest, s, accepts, chains, l.chunks)
  }

  lemma SubtractStepOutcome(rows: seq<Option<Bound>>, k: nat, l: Load, s: nat, accepts: nat -> bool,
                            chains: nat -> bool)
    requires k < |rows| && SubtractInv(rows, k, l, s, chains) && !l.stopped
    ensures SubtractInv(rows, k + 1, SubtractStep(l, rows[k], s, accepts, chains), s, chains)
    ensures SubtractOutcome(rows, k + 1, SubtractStep(l, rows[k], s, accepts, chains), s, accepts, chains) ==
            SubtractOutcome(rows, k, l, s, accepts, chains)
  {
    if rows[k].Some? {
      assert k < BindPrefix(rows);
      var p := |l.pending|;
      var rest := BindPrefix(rows) - k;
      if p + 1 >= s {
        assert p + 1 == s;
        if accepts(l.chunks) {
          assert Uploaded(p + rest, s, accepts, chains, l.chunks) == s + Uploaded(rest - 1, s, accepts, chains, l.chunks + 1);
        } else if chains(l.chunks) {
          assert Uploaded(p + rest, s, accepts, chains, l.chunks) == Uploaded(rest - 1, s, accepts, chains, l.chunks + 1);
        } else {
          assert Uploaded(p + rest, s, accepts, chains, l.chunks) == if accepts(l.chunks + 1) then 0 else -(s as int);
        }
      }
    } else {
      assert BindPrefix(rows) == k;
    }
  }

  lemma {:induction false} SubtractFromOutcome(rows: seq<Option<Bound>>, k: nat, l: Load, s: nat,
                                               accepts: nat -> bool, chains: nat -> bool)
    requires SubtractInv(rows, k, l, s, chains)
    ensures var r := SubtractFrom(rows, k, l, s, accepts, chains);
      SubtractInv(rows, |rows|, r, s, chains) &&
      SubtractOutcome(rows, |rows|, r, s, accepts, chains) == SubtractOutcome(rows, k, l, s, accepts, chains) &&
      (!r.stopped ==> BindPrefix(rows) == |rows|)
    decreases |rows| - k
  {
    if k < |rows| && !l.stopped {
      SubtractStepOutcome(rows, k, l, s, accepts, chains);
      SubtractFromOutcome(rows, k + 1, SubtractStep(l, rows[k], s, accepts, chains), s, accepts, chains);
    }
  }

  /**
   * The flush settles the outcome: afterwards the count is the outcome, never more
   * than the rows sent, and equal to them when every refusal chains a next exception.
   */
  lemma SubtractFlushOutcome(rows: seq<Option<Bound>>, l: Load, s: nat, accepts: nat -> bool, chains: nat -> bool)
    requires SubtractInv(rows, |rows|, l, s, chains)
    requires !l.stopped ==> BindPrefix(rows) == |rows|
    ensures SubtractFlush(l, accepts).processed == SubtractOutcome(rows, |rows|, l, s, accepts, chains)
    ensures SubtractFlush(l, accepts).processed <= |SubtractFlush(l, accepts).sent|
    ensures (forall e :: chains(e)) ==> SubtractFlush(l, accepts).processed == |SubtractFlush(l, accepts).sent|
  {
    var p := |l.pending|;
    if p > 0 && !l.stopped {
      assert Uploaded(p, s, accepts, chains, l.chunks) == if accepts(l.chunks) then p else 0;
    }
  }

  /**
   * The subtract policy from the start: the final count is the reference count of the
   * rows before the first failed binding. It lies between minus one chunk and the
   * rows bound, never exceeds the rows sent, and when every refusal chains a next
   * exception it is exactly the rows of the accepted chunks, which are the rows sent.
   */
  lemma SubtractResult(rows: seq<Option<Bound>>, size: nat, accepts: nat -> bool, chains: nat -> bool)
    requires size >= 1
    ensures var r := SubtractFlush(SubtractFrom(rows, 0, Start, size, accepts, chains), accepts);
      r.processed == Uploaded(BindPrefix(rows), size, accepts, chains, 0) &&
      -(size as int) <= r.processed <= BindPrefix(rows) && r.processed <= |r.sent| &&
      ((forall e :: chains(e)) ==>
         r.processed == AcceptedRows(BindPrefix(rows), size, accepts, 0) && r.processed == |r.sent|)
  {
    SubtractFromOutcome(rows, 0, Start, size, accepts, chains);
    SubtractFlushOutcome(rows, SubtractFrom(rows, 0, Start, size, accepts, chains), size, accepts, chains);
    UploadedBounds(BindPrefix(rows), size, accepts, chains, 0);
    if forall e :: chains(e) {
      UploadedChained(BindPrefix(rows), size, accepts, chains, 0);
    }
  }

  /** The reference count lies between minus one chunk and the number of rows. */
  lemma {:induction false} UploadedBounds(n: nat, s: nat, accepts: nat -> bool, chains: nat -> bool, c: nat)
    requires s >= 1
    ensures -(s as int) <= Uploaded(n, s, accepts, chains, c) <= n
    decreases n
  {
    if n >= s {
      UploadedBounds(n - s, s, accepts, chains, c + 1);
    }
  }

  /** When every refusal chains a next exception, the count is the rows of the accepted chunks. */
  lemma {:induction false} UploadedChained(n: nat, s: nat, accepts: nat -> bool, chains: nat -> bool, c: nat)
    requires s >= 1 && forall e :: chains(e)
    ensures Uploaded(n, s, accepts, chains, c) == AcceptedRows(n, s, accepts, c)
    decreases n
  {
    if n >= s {
      UploadedChained(n - s, s, accepts, chains, c + 1);
    }
  }

  /** When every execution is accepted, every row counts, whatever the exceptions would chain. */
  lemma {:induction false} UploadedAllAccepted(n: nat, s: nat, accepts: nat -> bool, chains: nat -> bool, c: nat)
    requires s >= 1 && forall e :: accepts(e)
    ensures Uploaded(n, s, accepts, chains, c) == n
    decreases n
  {
    if n >= s {
      UploadedAllAccepted(n - s, s, accepts, chains, c + 1);
    }
  }

  /**
   * 10,000 rows in one chunk of 10,000, refused twice without a chained exception:
   * the chunk is taken off in the loop and again by the flush, so the count is -10,000.
   */
  lemma RefusedChunkCountedTwice(accepts: nat -> bool, chains: nat -> bool)
    requires forall c :: !accepts(c) && !chains(c)
    ensures Uploaded(10000, 10000, accepts, chains, 0) == -10000
  {
  }

  /** When every execution is accepted, every row counts. */
  lemma {:induction false} AcceptedRowsAll(n: nat, s: nat, accepts: nat -> bool, c: nat)
    requires s >= 1 && forall e :: accepts(e)
    ensures AcceptedRows(n, s, accepts, c) == n
    decreases n
  {
    if n > 0 {
      var k := if n < s then n else s;
      AcceptedRowsAll(n - k, s, accepts, c + 1);
    }
  }

  /** When every execution is refused, no row counts. */
  lemma {:induction false} AcceptedRowsNone(n: nat, s: nat, accepts: nat -> bool, c: nat)
    requires s >= 1 && forall e :: !accepts(e)
    ensures AcceptedRows(n, s, accepts, c) == 0
    decreases n
  {
    if n > 0 {
      var k := if n < s then n else s;
      AcceptedRowsNone(n - k, s, accepts, c + 1);
    }
  }

  /**
   * 25,000 rows in chunks of 10,000 where only the second execution fails: the
   * first chunk and the final 5,000 count, 15,000 in all.
   */
  lemma SecondChunkFails(accepts: nat -> bool)
    requires forall c :: accepts(c) <==> c != 1
    ensures AcceptedRows(25000, 10000, accepts, 0) == 15000
  {
    assert AcceptedRows(5000, 10000, accepts, 2) == 5000 + AcceptedRows(0, 10000, accepts, 3);
    assert AcceptedRows(15000, 10000, accepts, 1) == 0 + AcceptedRows(5000, 10000, accepts, 2);
  }
}

=== FILE: bulk.dfy ===
/**
 * The batching shared by the device and dimension registration calls. Each entry
 * stages one group of payload items into a JSON array; a counter that starts at 1
 * grows by the size of each group, and a countdown that starts at the size of the
 * map drops by one per staged entry. When the caller's flush rule fires, the array
 * is POSTed and the counter returns to 1, so that the next staged entry starts a
 * new array. The flush rules differ per caller and live with them.
 */
module Bulk {

  /**
   * The loop state: the counter, the array (stale while the counter is 1), the
   * countdown, and the bodies POSTed so far, in order.
   */
  datatype Staging<T> = Staging(batchCount: int, staged: seq<T>, remaining: int, posts: seq<seq<T>>)

  /** Before the first entry: counter 1, no array, countdown at `size`. */
  function Start<T>(size: int): Staging<T>
  {
    Staging(1, [], size, [])
  }

  /** The bodies glued together in order. */
  function Flatten<T>(posts: seq<seq<T>>): seq<T>
  {
    if |posts| == 0 then [] else Flatten(posts[..|posts| - 1]) + posts[|posts| - 1]
  }

  /** The items staged and not yet POSTed. */
  function Pending<T>(s: Staging<T>): seq<T>
  {
    if s.batchCount == 1 then [] else s.staged
  }

  /** Everything staged so far: what was POSTed, then what waits. */
  function Covered<T>(s: Staging<T>): seq<T>
  {
    Flatten(s.posts) + Pending(s)
  }

  /** The counter is at least 1 and, past 1, counts the array's items plus one. */
  predicate Sized<T>(s: Staging<T>)
  {
    s.batchCount >= 1 && (s.batchCount > 1 ==> |s.staged| == s.batchCount - 1)
  }

  /**
   * Stages the items of one entry: a new array when the counter is 1, the counter
   * up by the number of items, the countdown down by one.
   */
  function Push<T>(s: Staging<T>, group: seq<T>): Staging<T>
  {
    Staging(s.batchCount + |group|, (if s.batchCount == 1 then [] else s.staged) + group, s.remaining - 1, s.posts)
  }

  /** POSTs the array and returns the counter to 1. */
  function Flush<T>(s: Staging<T>): Staging<T>
  {
    Staging(1, s.staged, s.remaining, s.posts + [s.staged])
  }

  /** A staged non-empty group is added to what is covered, after everything staged before it. */
  lemma PushCovers<T>(s: Staging<T>, group: seq<T>)
    requires Sized(s) && |group| >= 1
    ensures Sized(Push(s, group)) && Push(s, group).batchCount > 1
    ensures Covered(Push(s, group)) == Covered(s) + group
  {
  }

  /**
   * After a flush what was pending is the last body sent, with one item fewer than
   * the counter said, and nothing is pending.
   */
  lemma FlushCovers<T>(s: Staging<T>)
    requires Sized(s) && s.batchCount > 1
    ensures Sized(Flush(s)) && Pending(Flush(s)) == []
    ensures Covered(Flush(s)) == Covered(s)
    ensures |Flush(s).posts[|Flush(s).posts| - 1]| == s.batchCount - 1
  {
    assert (s.posts + [s.staged])[..|s.posts|] == s.posts;
  }

  /** Flattening distributes over concatenation. */
  lemma {:induction false} FlattenAppend<T>(a: seq<seq<T>>, b: seq<seq<T>>)
    ensures Flatten(a + b) == Flatten(a) + Flatten(b)
  {
    if |b| == 0 {
      assert a + b == a;
    } else {
      assert (a + b)[..|a + b| - 1] == a + b[..|b| - 1];
      FlattenAppend(a, b[..|b| - 1]);
    }
  }

  /** A prefix is the shorter prefix and one more element. */
  lemma TakeLast<T>(s: seq<T>, k: nat)
    requires 0 < k <= |s|
    ensures s[..k] == s[..k - 1] + [s[k - 1]]
  {
  }
}

=== FILE: calendar.dfy ===
/**
 * Proleptic Gregorian calendar arithmetic: the conversion between a count of days
 * since 1970-01-01 and a civil date, with the lenient normalisation
 * `java.util.Calendar` applies to out-of-range fields (month 13 is January of the
 * next year, day 0 the last day of the month before). Java works in the JVM's
 * default time zone; this model takes that zone to be UTC, so local time and epoch
 * time differ by no offset and no daylight-saving rule applies.
 */
module Calendar {

  datatype Civil = Civil(year: int, month: int, day: int)

  predicate IsLeap(y: int)
  {
    y % 4 == 0 && (y % 100 != 0 || y % 400 == 0)
  }

  function YearLength(y: int): int
  {
    if IsLeap(y) then 366 else 365
  }

  /** Days of a common year before the first of each month, and the whole year last. */
  const CumulativeDays: seq<int> := [0, 31, 59, 90, 120, 151, 181, 212, 243, 273, 304, 334, 365]

  /** Days of the year `y` before the first of month `m` (1 <= m <= 13). */
  function DaysBeforeMonth(y: int, m: int): (r: int)
    requires 1 <= m <= 13
  {
    CumulativeDays[m - 1] + (if m > 2 && IsLeap(y) then 1 else 0)
  }

  function MonthLength(y: int, m: int): int
    requires 1 <= m <= 12
  {
    DaysBeforeMonth(y, m + 1) - DaysBeforeMonth(y, m)
  }

  lemma DaysBeforeMonthBounds(y: int, m: int)
    requires 1 <= m <= 13
    ensures 0 <= DaysBeforeMonth(y, m) <= YearLength(y)
    ensures m == 13 ==> DaysBeforeMonth(y, m) == YearLength(y)
    ensures m <= 12 ==> 28 <= MonthLength(y, m) <= 31
  {
  }

  /** Leap years counted up to `y - 1`, extended to all integers by floor division. */
  function Leaps(y: int): int
  {
    (y - 1) / 4 - (y - 1) / 100 + (y - 1) / 400
  }

  /** Days from 1970-01-01 to January 1st of year `y` (negative before 1970). */
  function DaysToYear(y: int): int
    decreases if y < 1970 then 1970 - y else y - 1970
  {
    if y == 1970 then 0
    else if y > 1970 then DaysToYear(y - 1) + YearLength(y - 1)
    else DaysToYear(y + 1) - YearLength(y)
  }

  lemma DivStep4(y: int)
    ensures y / 4 - (y - 1) / 4 == (if y % 4 == 0 then 1 else 0)
  {
  }

  lemma DivStep100(y: int)
    ensures y / 100 - (y - 1) / 100 == (if y % 100 == 0 then 1 else 0)
  {
  }

  lemma DivStep400(y: int)
    ensures y / 400 - (y - 1) / 400 == (if y % 400 == 0 then 1 else 0)
  {
  }

  /** Consecutive new-year days are one year length apart. */
  lemma YearStep(y: int)
    ensures DaysToYear(y + 1) == DaysToYear(y) + YearLength(y)
  {
  }

  /** Consecutive values of the leap-year count differ by one exactly at a leap year. */
  lemma LeapsStep(y: int)
    ensures Leaps(y + 1) - Leaps(y) == (if IsLeap(y) then 1 else 0)
  {
    DivStep4(y);
    DivStep100(y);
    DivStep400(y);
    Divides100(y);
    Divides400(y);
    var a := y / 4 - (y - 1) / 4;
    var b := y / 100 - (y - 1) / 100;
    var c := y / 400 - (y - 1) / 400;
    assert Leaps(y + 1) - Leaps(y) == a - b + c;
    assert a - b + c == (if IsLeap(y) then 1 else 0);
  }

  /** The closed form of `DaysToYear`: 365 days a year plus one per leap year passed. */
  lemma {:induction false} DaysToYearClosed(y: int)
    ensures DaysToYear(y) == 365 * (y - 1970) + Leaps(y) - Leaps(1970)
    decreases if y < 1970 then 1970 - y else y - 1970
  {
    if y > 1970 {
      DaysToYearClosed(y - 1);
      LeapsStep(y - 1);
    } else if y < 1970 {
      DaysToYearClosed(y + 1);
      LeapsStep(y);
    }
  }

  lemma Divides100(y: int)
    ensures y % 100 == 0 ==> y % 4 == 0
  {
    if y % 100 == 0 {
      var q := y / 100;
      assert y == 4 * (25 * q);
    }
  }

  lemma Divides400(y: int)
    ensures y % 400 == 0 ==> y % 100 == 0
  {
    if y % 400 == 0 {
      var q := y / 400;
      assert y == 100 * (4 * q);
    }
  }

  lemma {:induction false} DaysToYearMonotone(a: int, b: int)
    requires a < b
    ensures DaysToYear(a) + 365 <= DaysToYear(b)
    decreases b - a
  {
    YearStep(a);
    if a + 1 < b {
      DaysToYearMonotone(a + 1, b);
    }
  }

  /**
   * The year whose new-year day is at or before day `z` and whose successor's
   * is after it, searched from the guess `y`.
   */
  function FindYear(z: int, y: int): int
    decreases if DaysToYear(y) > z then 1 else 0,
              if DaysToYear(y) > z then DaysToYear(y) - z else z - DaysToYear(y)
  {
    YearStep(y);
    YearStep(y - 1);
    if DaysToYear(y) > z then FindYear(z, y - 1)
    else if DaysToYear(y + 1) <= z then FindYear(z, y + 1)
    else y
  }

  lemma {:induction false} FindYearSpec(z: int, y: int)
    ensures DaysToYear(FindYear(z, y)) <= z < DaysToYear(FindYear(z, y) + 1)
    decreases if DaysToYear(y) > z then 1 else 0,
              if DaysToYear(y) > z then DaysToYear(y) - z else z - DaysToYear(y)
  {
    YearStep(y);
    YearStep(y - 1);
    if DaysToYear(y) > z {
      FindYearSpec(z, y - 1);
    } else if DaysToYear(y + 1) <= z {
      FindYearSpec(z, y + 1);
    }
  }

  /** The unique year containing day `z`. */
  function YearOfDay(z: int): int
  {
    FindYear(z, 1970)
  }

  /** Day `z` falls between the new-year day of its year and the next one. */
  lemma YearOfDaySpec(z: int)
    ensures DaysToYear(YearOfDay(z)) <= z < DaysToYear(YearOfDay(z) + 1)
  {
    FindYearSpec(z, 1970);
  }

  lemma YearUnique(z: int, y1: int, y2: int)
    requires DaysToYear(y1) <= z < DaysToYear(y1 + 1)
    requires DaysToYear(y2) <= z < DaysToYear(y2 + 1)
    ensures y1 == y2
  {
    if y1 < y2 {
      if y1 + 1 < y2 { DaysToYearMonotone(y1 + 1, y2); }
    } else if y2 < y1 {
      if y2 + 1 < y1 { DaysToYearMonotone(y2 + 1, y1); }
    }
  }

  /** The month from `m` on of the year `y` that contains its day number `doy` (counted from 0). */
  function MonthFrom(y: int, doy: int, m: int): int
    requires 1 <= m <= 12 && DaysBeforeMonth(y, m) <= doy < YearLength(y)
    decreases 12 - m
  {
    DaysBeforeMonthBounds(y, m + 1);
    if m == 12 || doy < DaysBeforeMonth(y, m + 1) then m else MonthFrom(y, doy, m + 1)
  }

  lemma {:induction false} MonthFromSpec(y: int, doy: int, m: int)
    requires 1 <= m <= 12 && DaysBeforeMonth(y, m) <= doy < YearLength(y)
    ensures m <= MonthFrom(y, doy, m) <= 12
    ensures DaysBeforeMonth(y, MonthFrom(y, doy, m)) <= doy < DaysBeforeMonth(y, MonthFrom(y, doy, m) + 1)
    decreases 12 - m
  {
    DaysBeforeMonthBounds(y, m + 1);
    if m < 12 && doy >= DaysBeforeMonth(y, m + 1) {
      MonthFromSpec(y, doy, m + 1);
    }
  }

  /** The month of the year `y` that contains its day number `doy` (counted from 0). */
  function MonthOfDay(y: int, doy: int): int
    requires 0 <= doy < YearLength(y)
  {
    MonthFrom(y, doy, 1)
  }

  /** The month found is the one whose days contain `doy`. */
  lemma MonthOfDaySpec(y: int, doy: int)
    requires 0 <= doy < YearLength(y)
    ensures 1 <= MonthOfDay(y, doy) <= 12
    ensures DaysBeforeMonth(y, MonthOfDay(y, doy)) <= doy < DaysBeforeMonth(y, MonthOfDay(y, doy) + 1)
  {
    MonthFromSpec(y, doy, 1);
  }

  lemma MonthUnique(y: int, doy: int, m: int)
    requires 1 <= m <= 12 && 0 <= doy < YearLength(y)
    requires DaysBeforeMonth(y, m) <= doy < DaysBeforeMonth(y, m + 1)
    ensures MonthOfDay(y, doy) == m
  {
    MonthFromUnique(y, doy, 1, m);
  }

  lemma {:induction false} MonthFromUnique(y: int, doy: int, k: int, m: int)
    requires 1 <= k <= m <= 12 && DaysBeforeMonth(y, k) <= doy < YearLength(y)
    requires DaysBeforeMonth(y, m) <= doy < DaysBeforeMonth(y, m + 1)
    ensures MonthFrom(y, doy, k) == m
    decreases 12 - k
  {
    if k < m {
      DaysBeforeMonthMonotone(y, k + 1, m);
      MonthFromUnique(y, doy, k + 1, m);
    }
  }

  lemma DaysBeforeMonthMonotone(y: int, a: int, b: int)
    requires 1 <= a <= b <= 13
    ensures DaysBeforeMonth(y, a) <= DaysBeforeMonth(y, b)
  {
  }

  predicate ValidCivil(c: Civil)
  {
    1 <= c.month <= 12 && 1 <= c.day <= MonthLength(c.year, c.month)
  }

  /** The civil date of day `z` after 1970-01-01. */
  function CivilOfDay(z: int): Civil
  {
    var y := YearOfDay(z);
    YearOfDaySpec(z);
    YearStep(y);
    var doy := z - DaysToYear(y);
    var m := MonthOfDay(y, doy);
    MonthOfDaySpec(y, doy);
    Civil(y, m, doy - DaysBeforeMonth(y, m) + 1)
  }

  /** The civil date of every day number is a valid date. */
  lemma CivilOfDayValid(z: int)
    ensures ValidCivil(CivilOfDay(z))
  {
    var y := YearOfDay(z);
    YearOfDaySpec(z);
    YearStep(y);
    var doy := z - DaysToYear(y);
    MonthOfDaySpec(y, doy);
    DaysBeforeMonthBounds(y, MonthOfDay(y, doy));
  }

  /**
   * The day number of a civil date, normalised leniently: a month outside 1..12
   * carries into the year, a day outside the month carries into the months around it.
   */
  function DayOfCivil(y: int, m: int, d: int): int
  {
    var ny := y + (m - 1) / 12;
    var nm := (m - 1) % 12 + 1;
    assert 1 <= nm <= 12;
    DaysToYear(ny) + DaysBeforeMonth(ny, nm) + d - 1
  }

  /** Every day number survives the trip through its civil date. */
  lemma DayCivilRoundTrip(z: int)
    ensures var c := CivilOfDay(z); DayOfCivil(c.year, c.month, c.day) == z
  {
    var c := CivilOfDay(z);
    var y := YearOfDay(z);
    YearOfDaySpec(z);
    YearStep(y);
    var doy := z - DaysToYear(y);
    MonthOfDaySpec(y, doy);
    assert c.year == y && c.month == MonthOfDay(y, doy);
    assert (c.month - 1) / 12 == 0 && (c.month - 1) % 12 + 1 == c.month;
    assert c.day == doy - DaysBeforeMonth(y, c.month) + 1;
  }

  lemma DayOfValidCivil(c: Civil)
    requires ValidCivil(c)
    ensures DayOfCivil(c.year, c.month, c.day) == DaysToYear(c.year) + DaysBeforeMonth(c.year, c.month) + c.day - 1
  {
    assert (c.month - 1) / 12 == 0 && (c.month - 1) % 12 + 1 == c.month;
  }

  /** Every valid civil date survives the trip through its day number. */
  lemma CivilDayRoundTrip(c: Civil)
    requires ValidCivil(c)
    ensures CivilOfDay(DayOfCivil(c.year, c.month, c.day)) == c
  {
    var z := DayOfCivil(c.year, c.month, c.day);
    var doy := z - DaysToYear(c.year);
    assert doy == DaysBeforeMonth(c.year, c.month) + c.day - 1 by { DayOfValidCivil(c); }
    assert 0 <= doy < YearLength(c.year) by { DaysBeforeMonthBounds(c.year, c.month + 1); }
    assert YearOfDay(z) == c.year by {
      YearStep(c.year);
      YearOfDaySpec(z);
      YearUnique(z, YearOfDay(z), c.year);
    }
    assert MonthOfDay(c.year, doy) == c.month by { MonthUnique(c.year, doy, c.month); }
    var r := CivilOfDay(z);
    assert r.year == c.year;
    assert r.month == c.month;
    assert r.day == c.day;
  }

  /** Month 13 of a year is January of the next one; month 0 is December of the previous one. */
  lemma MonthCarry(y: int, d: int)
    ensures DayOfCivil(y, 13, d) == DayOfCivil(y + 1, 1, d)
    ensures DayOfCivil(y, 0, d) == DayOfCivil(y - 1, 12, d)
  {
  }

  // ---------------------------------------------------------------------------
  // Seconds and milliseconds since the epoch
  // ---------------------------------------------------------------------------

  /** A date-time as the fields of the text "yyyy-MM-dd HH:mm:ss", or text that does not parse. */
  datatype DateText =
    | DateText(year: int, month: int, day: int, hour: int, minute: int, second: int)
    | Unparseable

  /** Lenient `SimpleDateFormat.parse`: every field is carried into the larger ones. */
  function ParseMillis(t: DateText): int
    requires t.DateText?
  {
    (DayOfCivil(t.year, t.month, t.day) * 86400 + t.hour * 3600 + t.minute * 60 + t.second) * 1000
  }

  /** `SimpleDateFormat.format` of a millisecond instant: the fields of its whole second. */
  function FormatMillis(ms: int): DateText
  {
    var secs := ms / 1000;
    var c := CivilOfDay(secs / 86400);
    var sod := secs % 86400;
    DateText(c.year, c.month, c.day, sod / 3600, (sod % 3600) / 60, sod % 60)
  }

  /** Formatted text names a valid date and a time of day within range. */
  lemma FormatMillisValid(ms: int)
    ensures var t := FormatMillis(ms);
      t.DateText? && ValidCivil(Civil(t.year, t.month, t.day)) &&
      0 <= t.hour < 24 && 0 <= t.minute < 60 && 0 <= t.second < 60
  {
    CivilOfDayValid((ms / 1000) / 86400);
  }

  /** The civil date of a millisecond instant. */
  function CivilOfMillis(ms: int): Civil
  {
    CivilOfDay((ms / 1000) / 86400)
  }

  /** Formatting then parsing loses the milliseconds and nothing else. */
  lemma FormatParseRoundTrip(ms: int)
    ensures ParseMillis(FormatMillis(ms)) == (ms / 1000) * 1000
  {
    var secs := ms / 1000;
    var days := secs / 86400;
    var sod := secs % 86400;
    var t := FormatMillis(ms);
    var c := CivilOfDay(days);
    assert t == DateText(c.year, c.month, c.day, sod / 3600, (sod % 3600) / 60, sod % 60);
    DayCivilRoundTrip(days);
    assert DayOfCivil(t.year, t.month, t.day) == days;
    SecondsOfDay(sod);
    assert days * 86400 + sod == secs;
  }

  lemma SecondsOfDay(sod: int)
    requires 0 <= sod
    ensures sod == (sod / 3600) * 3600 + ((sod % 3600) / 60) * 60 + sod % 60
  {
    var h, r := sod / 3600, sod % 3600;
    var m, s := r / 60, r % 60;
    assert sod == h * 3600 + r;
    assert r == m * 60 + s;
    assert sod == (h * 60 + m) * 60 + s;
    assert sod % 60 == s;
  }

  /** A whole-second instant formats and parses back to itself. */
  lemma WholeSecondRoundTrip(secs: int)
    ensures ParseMillis(FormatMillis(secs * 1000)) == secs * 1000
  {
    FormatParseRoundTrip(secs * 1000);
    assert (secs * 1000) / 1000 == secs;
  }

  /** The parsed instant of a valid date at midnight has that date as its civil date. */
  lemma MidnightCivil(c: Civil)
    requires ValidCivil(c)
    ensures CivilOfMillis(ParseMillis(DateText(c.year, c.month, c.day, 0, 0, 0))) == c
  {
    var z := DayOfCivil(c.year, c.month, c.day);
    assert ParseMillis(DateText(c.year, c.month, c.day, 0, 0, 0)) == z * 86400000;
    assert (z * 86400000) / 1000 == z * 86400;
    assert (z * 86400) / 86400 == z;
    CivilDayRoundTrip(c);
  }
}

=== FILE: columns.dfy ===
/**
 * Destination column maps: for each destination column name, the list of values
 * collected for it, one per row, and the positional parameters a row binds into
 * an INSERT statement.
 */
module Columns {
  import Text

  /** A value placed in a column list: text, a whole number, or a timestamp in epoch milliseconds. */
  datatype Value = Str(s: string) | Long(n: int) | Time(millis: int)

  /** A source cell: `None` is SQL NULL. */
  type Cell = Text.Option<Value>

  type ColumnMap = map<string, seq<Value>>

  /** The literal that stands for a missing value. */
  const NULL_TEXT := "null"

  /**
   * `String.valueOf` of a value. The text of a timestamp comes from `stampText`:
   * the formatting of `java.sql.Timestamp` is not part of this model.
   */
  function ToText(v: Value, stampText: int -> string): string
  {
    match v
    case Str(s) => s
    case Long(n) => Text.DecimalText(n)
    case Time(ms) => stampText(ms)
  }

  /** One empty list per destination column. */
  function EmptyColumns(cols: seq<string>): (m: ColumnMap)
    ensures m.Keys == set c | c in cols
    ensures forall c :: c in m ==> m[c] == []
  {
    map c | c in cols :: []
  }

  /** Every list holds exactly `h` values. */
  predicate Rectangular(m: ColumnMap, h: nat)
  {
    forall c :: c in m ==> |m[c]| == h
  }

  /** A parameter bound into a prepared statement. */
  datatype Param =
    | PInt(i: int)            // setInt
    | PDouble(text: string)   // setDouble(Double.parseDouble(text)), kept as the text
    | PDoubleZero             // setDouble(0.0)
    | PString(s: string)      // setString
    | PTimestamp(text: string) // setTimestamp(Timestamp.valueOf(text)), kept as the text
    | PUnset                  // nothing bound: the position keeps what the previous row bound
}

=== FILE: config.dfy ===
/**
 * `Config`: the connector settings read from the connection configuration, the
 * start-date clamp, the derived entity type and file names, the source and
 * destination database parameters, and the cached INSERT statement and row
 * binding of the destination table.
 */
module Configuration {
  import Text
  import opened Constants
  import opened Calendar
  import Dates
  import Schema
  import Jdbc
  import Columns

  type Option<T> = Text.Option<T>

  /** The fields of one database section of the connection configuration. */
  datatype DbParams = DbParams(
    dbtype: string, host: string, port: string, database: string, schema: string,
    user: string, password: string)

  /**
   * The connection configuration. The optional keys are `Option`s; a missing
   * mandatory key is an exception the model leaves out.
   */
  datatype ConnConfig = ConnConfig(
    clientSite: string, deviceType: string, alarmType: string,
    startDate: Option<DateText>, runMode: Option<int>,
    fetchInterval: Option<int>, fetchIntervalHistorical: Option<int>,
    ignition: DbParams, monitor: DbParams)

  const DEFAULT_FETCH_INTERVAL := 30
  const DEFAULT_FETCH_INTERVAL_HISTORICAL := 14400

  /** `optLong`/`optInt`: the configured value, or the default when the key is absent. */
  function OrDefault(v: Option<int>, default: int): int
  {
    match v
    case Some(x) => x
    case None => default
  }

  /**
   * The start date: the configured one, or the current date when none is
   * configured; a date later than `now` is replaced by the current date.
   */
  function StartDate(configured: Option<DateText>, now: int): DateText
  {
    var current := FormatMillis(now);
    var d := match configured case Some(t) => t case None => current;
    if Dates.TextStamp(d).timeMilli > now then current else d
  }

  /**
   * The start date is never in the future: a configured date not after `now` is
   * kept, a later one becomes the current date, and a missing one is the current
   * date. (Text that does not parse stands for instant 0 and is kept.)
   */
  lemma StartDateNotAfterNow(configured: Option<DateText>, now: int)
    requires now >= 0
    ensures Dates.TextStamp(StartDate(configured, now)).timeMilli <= now
    ensures configured.None? ==> StartDate(configured, now) == FormatMillis(now)
    ensures configured.Some? ==>
      StartDate(configured, now) ==
        (if Dates.TextStamp(configured.value).timeMilli <= now then configured.value else FormatMillis(now))
  {
    Dates.FormatThenParse(now);
  }

  /** The entity type: the alarm type for alarm connectors, the device type otherwise. */
  function EntityTypeFor(connectorType: int, deviceType: string, alarmType: string): string
  {
    if connectorType == CONNECTOR_ALARM then alarmType else deviceType
  }

  /** The log file: under "<installDir>/volume/logs/" unless no install directory is set. */
  function LogFile(installDir: string, entityType: string): (r: string)
    ensures installDir == "" ==> r == entityType + "_connector.log"
    ensures installDir != "" ==> Text.IsPrefix(installDir + "/volume/logs/", r)
  {
    if installDir == "" then entityType + "_connector.log"
    else installDir + "/volume/logs/" + entityType + "_connector.log"
  }

  /** The POST response log: none in production, otherwise a log path. */
  function PostResponseFile(runMode: int, installDir: string, entityType: string): (r: string)
    ensures r == "" <==> runMode == PRODUCTION
  {
    if runMode == PRODUCTION then ""
    else if installDir == "" then entityType + "_post.log"
    else installDir + "/volume/logs/" + entityType + "_post.log"
  }

  /** The Python interpreter: the bundled one on Windows with an install directory. */
  function PythonPath(osName: string, installDir: string): (r: string)
    ensures !Text.IsPrefix("Windows", osName) ==> r == "python3"
  {
    if Text.IsPrefix("Windows", osName) then
      (if installDir == "" then "python" else installDir + "/python-3.7.5/python.exe")
    else "python3"
  }

  /** `setIgnitionDbParams`: the source database type and URL. */
  function IgnitionDb(db: DbParams): (int, string)
  {
    if db.dbtype == "mysql" then (DB_SOURCE_TYPE_MYSQL, "jdbc:mysql://" + db.host + "/" + db.schema)
    else
      (DB_SOURCE_TYPE_MSSQL, "jdbc:sqlserver://" + db.host + ":" + db.port + ";databaseName=" + db.database +
                             ";user=" + db.user + ";password=" + db.password)
  }

  /** The source type is 1 exactly for "mysql", and the URL names the matching driver. */
  lemma IgnitionDbType(db: DbParams)
    ensures IgnitionDb(db).0 == DB_SOURCE_TYPE_MYSQL <==> db.dbtype == "mysql"
    ensures IgnitionDb(db).0 == DB_SOURCE_TYPE_MYSQL || IgnitionDb(db).0 == DB_SOURCE_TYPE_MSSQL
    ensures Text.IsPrefix("jdbc:mysql://", IgnitionDb(db).1) <==> db.dbtype == "mysql"
    ensures db.dbtype != "mysql" ==> Text.IsPrefix("jdbc:sqlserver://", IgnitionDb(db).1)
  {
    var url := IgnitionDb(db).1;
    if db.dbtype != "mysql" {
      assert url[5] == 's';
      assert "jdbc:mysql://"[5] == 'm';
    }
  }

  /** The destination URL: a DB2 database over SSL, whatever `dbtype` says. */
  function MonitorDbUrl(host: string, port: string): (r: string)
    ensures Text.IsPrefix("jdbc:db2://", r)
  {
    "jdbc:db2://" + host + ":" + port + "/BLUDB:sslConnection=true;"
  }

  class Config {
    const installDir: string
    const dataDir: string
    const connectorType: int
    const connConfig: ConnConfig

    var runMode: int
    var clientSite: string
    var deviceType: string
    var alarmType: string
    var startDate: DateText
    var sourceDbType: int
    var sourceDbUrl: string
    var sourceDbUser: string
    var sourceDbPass: string
    var destDbType: int
    var destDbUrl: string
    var destDbUser: string
    var destDbPass: string
    var entityType: string
    var pythonPath: string
    var insertSQL: string
    var postResponseFile: string
    var logFile: string
    var fetchInterval: int
    var fetchIntervalHistorical: int

    /**
     * `Config(installDir, dataDir, connectorType)`: the connector type is alarm
     * exactly for the name "alarm". The configuration file's content is passed in.
     */
    constructor (installDir: string, dataDir: string, connectorTypeName: string, connConfig: ConnConfig)
      ensures this.installDir == installDir && this.dataDir == dataDir && this.connConfig == connConfig
      ensures connectorType == if connectorTypeName == "alarm" then CONNECTOR_ALARM else CONNECTOR_DEVICE
      ensures runMode == PRODUCTION && insertSQL == ""
      ensures fetchInterval == DEFAULT_FETCH_INTERVAL && fetchIntervalHistorical == DEFAULT_FETCH_INTERVAL_HISTORICAL
    {
      this.installDir := installDir;
      this.dataDir := dataDir;
      this.connConfig := connConfig;
      connectorType := if connectorTypeName == "alarm" then CONNECTOR_ALARM else CONNECTOR_DEVICE;
      runMode := PRODUCTION;
      insertSQL := "";
      fetchInterval := DEFAULT_FETCH_INTERVAL;
      fetchIntervalHistorical := DEFAULT_FETCH_INTERVAL_HISTORICAL;
    }

    /** `set()`, with the clock reading `now` and the operating system name passed in. */
    method Set(now: int, osName: string)
      modifies this`clientSite, this`deviceType, this`alarmType, this`startDate, this`runMode,
               this`fetchInterval, this`fetchIntervalHistorical, this`entityType, this`logFile,
               this`postResponseFile
      modifies this`sourceDbType, this`sourceDbUrl, this`sourceDbUser, this`sourceDbPass,
               this`destDbType, this`destDbUrl, this`destDbUser, this`destDbPass, this`pythonPath
      ensures insertSQL == old(insertSQL)
      ensures clientSite == connConfig.clientSite && deviceType == connConfig.deviceType
      ensures alarmType == connConfig.alarmType
      ensures startDate == StartDate(connConfig.startDate, now)
      ensures runMode == OrDefault(connConfig.runMode, PRODUCTION)
      ensures fetchInterval == OrDefault(connConfig.fetchInterval, DEFAULT_FETCH_INTERVAL)
      ensures fetchIntervalHistorical == OrDefault(connConfig.fetchIntervalHistorical, DEFAULT_FETCH_INTERVAL_HISTORICAL)
      ensures entityType == EntityTypeFor(connectorType, connConfig.deviceType, connConfig.alarmType)
      ensures logFile == LogFile(installDir, entityType)
      ensures postResponseFile == PostResponseFile(runMode, installDir, entityType)
      ensures (sourceDbType, sourceDbUrl) == IgnitionDb(connConfig.ignition)
      ensures sourceDbUser == connConfig.ignition.user && sourceDbPass == connConfig.ignition.password
      ensures destDbType == DB_SOURCE_TYPE_MYSQL
      ensures destDbUrl == MonitorDbUrl(connConfig.monitor.host, connConfig.monitor.port)
      ensures destDbUser == connConfig.monitor.user && destDbPass == connConfig.monitor.password
      ensures pythonPath == PythonPath(osName, installDir)
    {
      SetGeneral(now);
      SetConnections(osName);
    }

    /** The settings read from the configuration and the names derived from them. */
    method SetGeneral(now: int)
      modifies this`clientSite, this`deviceType, this`alarmType, this`startDate, this`runMode,
               this`fetchInterval, this`fetchIntervalHistorical, this`entityType, this`logFile,
               this`postResponseFile
      ensures clientSite == connConfig.clientSite && deviceType == connConfig.deviceType
      ensures alarmType == connConfig.alarmType
      ensures startDate == StartDate(connConfig.startDate, now)
      ensures runMode == OrDefault(connConfig.runMode, PRODUCTION)
      ensures fetchInterval == OrDefault(connConfig.fetchInterval, DEFAULT_FETCH_INTERVAL)
      ensures fetchIntervalHistorical == OrDefault(connConfig.fetchIntervalHistorical, DEFAULT_FETCH_INTERVAL_HISTORICAL)
      ensures entityType == EntityTypeFor(connectorType, connConfig.deviceType, connConfig.alarmType)
      ensures logFile == LogFile(installDir, entityType)
      ensures postResponseFile == PostResponseFile(runMode, installDir, entityType)
    {
      clientSite := connConfig.clientSite;
      deviceType := connConfig.deviceType;
      alarmType := connConfig.alarmType;
      SetStartDate(now);
      SetIntervals();
      SetFileNames();
    }

    /** The source and destination database parameters and the Python interpreter. */
    method SetConnections(osName: string)
      modifies this`sourceDbType, this`sourceDbUrl, this`sourceDbUser, this`sourceDbPass,
               this`destDbType, this`destDbUrl, this`destDbUser, this`destDbPass, this`pythonPath
      ensures (sourceDbType, sourceDbUrl) == IgnitionDb(connConfig.ignition)
      ensures sourceDbUser == connConfig.ignition.user && sourceDbPass == connConfig.ignition.password
      ensures destDbType == DB_SOURCE_TYPE_MYSQL
      ensures destDbUrl == MonitorDbUrl(connConfig.monitor.host, connConfig.monitor.port)
      ensures destDbUser == connConfig.monitor.user && destDbPass == connConfig.monitor.password
      ensures pythonPath == PythonPath(osName, installDir)
    {
      sourceDbType := SetIgnitionDbParams(connConfig.ignition);
      destDbType := SetMonitorDbParams(connConfig.monitor);
      SetPythonPath(osName);
    }

    /** The run mode and the two fetch intervals, with their defaults. */
    method SetIntervals()
      modifies this`runMode, this`fetchInterval, this`fetchIntervalHistorical
      ensures runMode == OrDefault(connConfig.runMode, PRODUCTION)
      ensures fetchInterval == OrDefault(connConfig.fetchInterval, DEFAULT_FETCH_INTERVAL)
      ensures fetchIntervalHistorical == OrDefault(connConfig.fetchIntervalHistorical, DEFAULT_FETCH_INTERVAL_HISTORICAL)
    {
      runMode := OrDefault(connConfig.runMode, 0);
      fetchInterval := OrDefault(connConfig.fetchInterval, 30);
      fetchIntervalHistorical := OrDefault(connConfig.fetchIntervalHistorical, 14400);
    }

    /** The Python interpreter for the operating system. */
    method SetPythonPath(osName: string)
      modifies this`pythonPath
      ensures pythonPath == PythonPath(osName, installDir)
    {
      if Text.IsPrefix("Windows", osName) {
        pythonPath := if installDir == "" then "python" else installDir + "/python-3.7.5/python.exe";
      } else {
        pythonPath := "python3";
      }
    }

    /** The configured start date, or the current one when none is configured or it lies in the future. */
    method SetStartDate(now: int)
      modifies this`startDate
      ensures startDate == StartDate(connConfig.startDate, now)
    {
      var currentDateStr := FormatMillis(now);
      startDate := match connConfig.startDate case Some(t) => t case None => currentDateStr;
      var du := new Dates.DateUtil.FromText(startDate);
      if du.timeMilli > now {
        startDate := currentDateStr;
      }
    }

    /** The entity type and the log file names derived from it. */
    method SetFileNames()
      modifies this`entityType, this`logFile, this`postResponseFile
      ensures entityType == EntityTypeFor(connectorType, deviceType, alarmType)
      ensures logFile == LogFile(installDir, entityType)
      ensures postResponseFile == PostResponseFile(runMode, installDir, entityType)
    {
      entityType := deviceType;
      if connectorType == CONNECTOR_ALARM {
        entityType := alarmType;
      }
      if installDir == "" {
        logFile := entityType + "_connector.log";
      } else {
        logFile := installDir + "/volume/logs/" + entityType + "_connector.log";
      }
      if runMode == PRODUCTION {
        postResponseFile := "";
      } else if installDir == "" {
        postResponseFile := entityType + "_post.log";
      } else {
        postResponseFile := installDir + "/volume/logs/" + entityType + "_post.log";
      }
    }

    /** `setIgnitionDbParams`: the source URL and credentials; the result is the source type. */
    method SetIgnitionDbParams(db: DbParams) returns (dbType: int)
      modifies this`sourceDbUrl, this`sourceDbUser, this`sourceDbPass
      ensures (dbType, sourceDbUrl) == IgnitionDb(db)
      ensures sourceDbUser == db.user && sourceDbPass == db.password
    {
      dbType := DB_SOURCE_TYPE_MYSQL;
      sourceDbUser := db.user;
      sourceDbPass := db.password;
      if db.dbtype == "mysql" {
        sourceDbUrl := "jdbc:mysql://" + db.host + "/" + db.schema;
      } else {
        sourceDbUrl := "jdbc:sqlserver://" + db.host + ":" + db.port + ";databaseName=" + db.database +
                       ";user=" + sourceDbUser + ";password=" + sourceDbPass;
        dbType := DB_SOURCE_TYPE_MSSQL;
      }
    }

    /** `setMonitorDbParams`: the destination URL and credentials; the type is always 1. */
    method SetMonitorDbParams(db: DbParams) returns (dbType: int)
      modifies this`destDbUrl, this`destDbUser, this`destDbPass
      ensures dbType == DB_SOURCE_TYPE_MYSQL
      ensures destDbUrl == MonitorDbUrl(db.host, db.port)
      ensures destDbUser == db.user && destDbPass == db.password
    {
      dbType := 1;
      destDbUser := db.user;
      destDbPass := db.password;
      destDbUrl := "jdbc:db2://" + db.host + ":" + db.port + "/BLUDB:sslConnection=true;";
    }

    /** `getMonitorDBCols`. */
    method GetMonitorDBCols() returns (cols: seq<string>)
      ensures cols == Schema.MonitorDBCols(connectorType)
      ensures |cols| == (if connectorType == CONNECTOR_DEVICE then 13 else 15)
    {
      cols := Schema.MonitorDBCols(connectorType);
    }

    /**
     * `getMonitorInsertSQL`: built from the entity type on the first call and
     * cached; later calls return the cached text even if the entity type changed.
     */
    method GetMonitorInsertSQL() returns (sql: string)
      modifies this`insertSQL
      ensures sql == insertSQL && insertSQL != ""
      ensures old(insertSQL) == "" ==> sql == Schema.MonitorInsertSQL(connectorType, entityType)
      ensures old(insertSQL) != "" ==> sql == old(insertSQL)
    {
      if insertSQL == "" {
        insertSQL := Schema.MonitorInsertSQL(connectorType, entityType);
      }
      sql := insertSQL;
    }

    /**
     * `getMonitorPS`: binds row `i` of the column map into the statement; `ok` is
     * false when one of the bindings throws.
     */
    method GetMonitorPS(ps: Jdbc.PreparedStatement, sourceMap: Columns.ColumnMap, i: int, env: Schema.Env)
      returns (ok: bool)
      modifies ps`bound
      ensures ok == Schema.MonitorParams(connectorType, sourceMap, i, env).Some?
      ensures ok ==> ps.bound == Schema.MonitorParams(connectorType, sourceMap, i, env).value
    {
      var params := Schema.MonitorParams(connectorType, sourceMap, i, env);
      ok := params.Some?;
      if ok {
        ps.SetParams(params.value);
      }
    }
  }

  /**
   * The cached statement is the one of the entity type at the time of the first
   * call: calling twice gives the same text both times.
   */
  method InsertSQLCached(c: Config, otherEntityType: string) returns (first: string, second: string)
    requires c.insertSQL == ""
    modifies c
    ensures first == second == Schema.MonitorInsertSQL(c.connectorType, old(c.entityType))
  {
    first := c.GetMonitorInsertSQL();
    c.entityType := otherEntityType;
    second := c.GetMonitorInsertSQL();
  }
}

=== FILE: connector.dfy ===
/**
 * The extraction connector: each cycle queries the historian for the current
 * offset window, transforms the rows into destination columns (registering every
 * new tag path), writes them to the destination table in chunks, and moves the
 * window on. A heartbeat writes three status rows with the running counters.
 *
 * The query, the clock and the destination database are inputs: a cycle is a
 * `Tick` holding the clock readings, the query outcome, whether the destination
 * connection opens, which executions of the batch the database accepts, and
 * whether the SQL exception that reaches the batch insert's handler chains a next
 * one: when it does not, the handler's `getNextException().getMessage()`
 * dereferences null, and that exception escapes the batch insert.
 */
module Extraction {
  import Text
  import opened Columns
  import opened Constants
  import Schema
  import Jdbc
  import Batches
  import Configuration
  import Offsets
  import Dates
  import Tags
  import Transform

  /** The heartbeat tags: three devices, their statistic names and their tag ids. */
  const HB_TAGS := 3
  const MAS_HB_DEVICES: seq<string> := ["masExtract", "masUpload", "masRate"]
  const MAS_HB_STAT_NAMES: seq<string> := ["extracted", "uploaded", "rate"]
  const MAS_HB_TAG_IDS: seq<int> := [-9001, -9002, -9003]

  /** Rows per executed batch. */
  const BATCH_INSERT_SIZE := 10000

  /** The MySQL error code of a query on a table that does not exist. */
  const ERR_NO_SUCH_TABLE := 1146

  /** The inline transform never classifies a tag path. */
  const NO_TYPE: string -> string := (s: string) => ""

  /** The text of the `double` 0.0 the heartbeat writes. */
  const DOUBLE_ZERO := "0.0"

  /** What the extraction query returns: an SQL error code, or the rows, one cell per query column. */
  datatype QueryOutcome = QueryFailed(errorCode: int) | Fetched(rows: seq<seq<Cell>>)

  /**
   * One cycle's inputs: the clock at the start and after the upload, the query
   * outcome, whether the destination connection opens, which executions of the
   * batch the database accepts, and whether an SQL exception reaching the batch
   * insert's handler chains a next one.
   */
  datatype Tick = Tick(start: int, outcome: QueryOutcome, end: int, connected: bool, accepts: nat -> bool,
                       chained: bool)

  /** A query error other than a missing table: it ends the extraction loop. */
  predicate IsFatal(t: Tick)
  {
    t.outcome.QueryFailed? && t.outcome.errorCode != ERR_NO_SUCH_TABLE
  }

  /** A cycle whose query returned at least one row. */
  predicate HasRows(t: Tick)
  {
    t.outcome.Fetched? && |t.outcome.rows| > 0
  }

  /**
   * The window `updateOffsetFile` moves to when the window ending at `lastEndTimeSecs`
   * (in month `lastMonth` of `lastYear`) is recorded with status `st` at time `now`.
   */
  function NextWindow(lastEndTimeSecs: int, lastYear: int, lastMonth: int, st: int, now: int,
                      interval: int, historical: int): Offsets.Window
  {
    Offsets.ByDate(Dates.TextStamp(Offsets.NextDateText(lastEndTimeSecs, lastYear, lastMonth, st, now)),
                   Dates.MillisStamp(now), interval, historical).window
  }

  /** The tag path of heartbeat tag `i`. */
  function HbTag(i: nat): string
    requires i < HB_TAGS
  {
    MAS_HB_DEVICES[i] + "/" + MAS_HB_STAT_NAMES[i]
  }

  /**
   * Heartbeat row `i`, one value per destination column in column order: for
   * devices the tag id, the statistic in INTVALUE and its name in EVT_NAME; for
   * alarms the tag id in ALARMID, the name in DISPLAYPATH and the statistic in VALUE.
   */
  function HeartbeatRow(connectorType: int, tableName: string, i: nat, stat: int, ts: int): (row: seq<Value>)
    requires i < HB_TAGS
    ensures |row| == |Schema.MonitorDBCols(connectorType)|
  {
    if connectorType == CONNECTOR_DEVICE then
      [Long(MAS_HB_TAG_IDS[i]), Long(stat), Str(DOUBLE_ZERO), Str(NULL_TEXT), Str(NULL_TEXT),
       Str(MAS_HB_STAT_NAMES[i]), Str(tableName), Str(MAS_HB_DEVICES[i]), Str(NULL_TEXT),
       Str("status"), Str("JSON"), Time(ts), Time(ts)]
    else
      [Long(MAS_HB_TAG_IDS[i]), Str(NULL_TEXT), Str(NULL_TEXT), Str(NULL_TEXT), Str(DOUBLE_ZERO),
       Str(MAS_HB_STAT_NAMES[i]), Str(DOUBLE_ZERO), Long(stat), Str(tableName), Str(MAS_HB_DEVICES[i]),
       Str(NULL_TEXT), Str("status"), Str("JSON"), Time(ts), Time(ts)]
  }

  /**
   * The statistic of heartbeat row `i` lands in INTVALUE for devices and in VALUE
   * for alarms, its name in EVT_NAME or DISPLAYPATH, and every row is a status event.
   */
  lemma HeartbeatRowColumns(connectorType: int, tableName: string, i: nat, stat: int, ts: int)
    requires i < HB_TAGS
    ensures var cols := Schema.MonitorDBCols(connectorType);
      var row := HeartbeatRow(connectorType, tableName, i, stat, ts);
      (connectorType == CONNECTOR_DEVICE ==>
         cols[1] == "INTVALUE" && row[1] == Long(stat) && cols[5] == "EVT_NAME" && row[5] == Str(MAS_HB_STAT_NAMES[i])) &&
      (connectorType != CONNECTOR_DEVICE ==>
         cols[7] == "VALUE" && row[7] == Long(stat) && cols[5] == "DISPLAYPATH" && row[5] == Str(MAS_HB_STAT_NAMES[i])) &&
      (forall k :: 0 <= k < |cols| && cols[k] == "EVENTTYPE" ==> row[k] == Str("status")) &&
      (forall k :: 0 <= k < |cols| && cols[k] == "DEVICEID" ==> row[k] == Str(MAS_HB_DEVICES[i]))
  {
    var cols := Schema.MonitorDBCols(connectorType);
    if connectorType == CONNECTOR_DEVICE {
      assert forall k :: 0 <= k < |cols| && k != 9 ==> cols[k] != "EVENTTYPE";
      assert forall k :: 0 <= k < |cols| && k != 7 ==> cols[k] != "DEVICEID";
    } else {
      assert forall k :: 0 <= k < |cols| && k != 11 ==> cols[k] != "EVENTTYPE";
      assert forall k :: 0 <= k < |cols| && k != 9 ==> cols[k] != "DEVICEID";
    }
  }

  /**
   * The connector's state: the configuration, the offset record and the tag
   * cache it shares with the other threads, the destination columns of the current
   * cycle, the count of tags registered, and the row count of the current cycle.
   */
  class Connector {
    const config: Configuration.Config
    const offsetRecord: Offsets.OffsetRecord
    const tagpaths: Tags.TagCache
    const tableName: string
    const cType: string
    const runMode: int
    /** The column names of the extraction query's result set. */
    const sourceDBColumnNames: seq<string>
    /** `UUID.nameUUIDFromBytes`, left abstract. */
    const uuid: string -> string
    const env: Schema.Env
    var sourceMap: ColumnMap
    var totalTagCount: int
    var rowCount: int

    /** The inline transform of the extraction loop. */
    function Ctx(): Transform.Context
    {
      Transform.Context(Transform.Extract(tableName), config.connectorType, cType, "",
                        sourceDBColumnNames, uuid, NO_TYPE, env.stampText)
    }

    /** The state the inline transform changes, as values. */
    ghost function Snapshot(): Transform.Progress
      reads this, tagpaths, tagpaths.entries.Values
    {
      Transform.Progress(sourceMap, tagpaths.View(), totalTagCount, rowCount, false)
    }

    /** The table name, connector type and run mode come from the configuration. */
    constructor (config: Configuration.Config, offsetRecord: Offsets.OffsetRecord, tagpaths: Tags.TagCache,
                 cType: string, sourceDBColumnNames: seq<string>, uuid: string -> string, env: Schema.Env)
      ensures this.config == config && this.offsetRecord == offsetRecord && this.tagpaths == tagpaths
      ensures tableName == config.entityType && runMode == config.runMode && this.cType == cType
      ensures this.sourceDBColumnNames == sourceDBColumnNames && this.uuid == uuid && this.env == env
      ensures sourceMap == map[] && totalTagCount == 0 && rowCount == 0
    {
      this.config := config;
      this.offsetRecord := offsetRecord;
      this.tagpaths := tagpaths;
      tableName := config.entityType;
      runMode := config.runMode;
      this.cType := cType;
      this.sourceDBColumnNames := sourceDBColumnNames;
      this.uuid := uuid;
      this.env := env;
      sourceMap := map[];
      totalTagCount := 0;
      rowCount := 0;
    }

    // -------------------------------------------------------------------------
    // Heartbeat tags
    // -------------------------------------------------------------------------

    /**
     * The three heartbeat tags go into the tag cache with `put`, replacing any
     * entry already there, and each one is counted whether or not it was new.
     */
    method AddHeartbeatTags()
      modifies tagpaths`entries, this`totalTagCount
      ensures totalTagCount == old(totalTagCount) + HB_TAGS
      ensures forall i :: 0 <= i < HB_TAGS ==>
        HbTag(i) in tagpaths.View() &&
        tagpaths.View()[HbTag(i)] == Tags.TagRecord(Text.None, HbTag(i), Text.None, MAS_HB_DEVICES[i], Text.None, 0, 0)
      ensures forall t :: t in old(tagpaths.View()) && (forall i :: 0 <= i < HB_TAGS ==> t != HbTag(i)) ==>
        t in tagpaths.View() && tagpaths.View()[t] == old(tagpaths.View())[t]
    {
      var i := 0;
      while i < HB_TAGS
        invariant 0 <= i <= HB_TAGS
        invariant totalTagCount == old(totalTagCount) + i
        invariant forall j :: 0 <= j < i ==>
          HbTag(j) in tagpaths.entries &&
          tagpaths.entries[HbTag(j)].Record() == Tags.TagRecord(Text.None, HbTag(j), Text.None, MAS_HB_DEVICES[j], Text.None, 0, 0)
        invariant forall t :: t in old(tagpaths.entries) && (forall j :: 0 <= j < i ==> t != HbTag(j)) ==>
          t in tagpaths.entries && tagpaths.entries[t] == old(tagpaths.entries[t])
      {
        var masHbTag := MAS_HB_DEVICES[i] + "/" + MAS_HB_STAT_NAMES[i];
        var td := new Tags.TagData(masHbTag, MAS_HB_DEVICES[i]);
        tagpaths.Put(masHbTag, td);
        totalTagCount := totalTagCount + 1;
        i := i + 1;
      }
    }

    // -------------------------------------------------------------------------
    // The inline row transform
    // -------------------------------------------------------------------------

    /** `sourceMap.get(col).add(v)`; a column missing from the map throws. */
    method Add(col: string, v: Value) returns (ok: bool)
      modifies this`sourceMap
      ensures var q := Transform.Put(old(Snapshot()), col, v); ok == !q.failed && Snapshot() == q.(failed := false)
    {
      ok := col in sourceMap;
      if ok {
        sourceMap := sourceMap[col := sourceMap[col] + [v]];
      }
    }

    /** `putSafe` of a new entry for the tag path; only an accepted insert is counted. */
    method RegisterTag(tagpath: string, data: string)
      requires data == uuid(tagpath)
      modifies tagpaths`entries, this`totalTagCount
      ensures Snapshot() == Transform.Register(Ctx(), old(Snapshot()), tagpath)
      ensures forall t :: t in old(tagpaths.entries) ==> t in tagpaths.entries && tagpaths.entries[t] == old(tagpaths.entries[t])
      ensures forall t :: t in tagpaths.entries ==> t in old(tagpaths.entries) || fresh(tagpaths.entries[t])
    {
      ghost var before := tagpaths.View();
      ghost var e0 := tagpaths.entries;
      var td := new Tags.TagData(tagpath, data);
      assert tagpaths.View() == before by {
        assert td !in e0.Values;
      }
      var ok := tagpaths.PutSafe(tagpath, td);
      if ok {
        assert tagpaths.View() == before[tagpath := td.Record()] by {
          forall t | t in tagpaths.entries
            ensures tagpaths.entries[t].Record() == before[tagpath := td.Record()][t]
          {
            if t != tagpath {
              assert tagpaths.entries[t] == e0[t];
            }
          }
        }
        totalTagCount := totalTagCount + 1;
      }
    }

    /** A non-null tag path: registry insert, DEVICEID and, for devices, EVT_NAME. */
    method SetTagpath(v: Value) returns (ok: bool)
      modifies this`sourceMap, tagpaths`entries, this`totalTagCount
      ensures var q := Transform.TagpathCell(Ctx(), old(Snapshot()), ToText(v, env.stampText));
        ok == !q.failed && Snapshot() == q.(failed := false)
      ensures forall t :: t in old(tagpaths.entries) ==> t in tagpaths.entries && tagpaths.entries[t] == old(tagpaths.entries[t])
      ensures forall t :: t in tagpaths.entries ==> t in old(tagpaths.entries) || fresh(tagpaths.entries[t])
    {
      var tagpath := ToText(v, env.stampText);
      var data := uuid(tagpath);
      RegisterTag(tagpath, data);
      ok := Add("DEVICEID", Str(data));
      if !ok { return; }
      var tagelems := Text.JavaSplit(tagpath, '/');
      if config.connectorType == CONNECTOR_DEVICE {
        if |tagelems| == 0 {
          ok := false;
          return;
        }
        ok := Add("EVT_NAME", Str(tagelems[|tagelems| - 1]));
      }
    }

    /** `rs.getLong` of a t_stamp cell, appended to both time columns. */
    method SetStamp(v: Value) returns (ok: bool)
      modifies this`sourceMap
      ensures var q := Transform.StampCell(old(Snapshot()), v); ok == !q.failed && Snapshot() == q.(failed := false)
    {
      var lastTimeStamp := Transform.LongOf(v);
      if lastTimeStamp.None? {
        ok := false;
        return;
      }
      ok := Add("RCV_TIMESTAMP_UTC", Time(lastTimeStamp.value));
      if !ok { return; }
      ok := Add("UPDATED_UTC", Time(lastTimeStamp.value));
    }

    /** An eventtime cell, appended to both time columns as it is. */
    method SetEventTime(v: Value) returns (ok: bool)
      modifies this`sourceMap
      ensures var q := Transform.Put(Transform.Put(old(Snapshot()), "RCV_TIMESTAMP_UTC", v), "UPDATED_UTC", v);
        ok == !q.failed && Snapshot() == q.(failed := false)
    {
      ok := Add("RCV_TIMESTAMP_UTC", v);
      if !ok { return; }
      ok := Add("UPDATED_UTC", v);
    }

    /** `rs.getLong` of an id cell, appended to ALARMID. */
    method SetId(v: Value) returns (ok: bool)
      modifies this`sourceMap
      ensures var q := Transform.IdCell(old(Snapshot()), v); ok == !q.failed && Snapshot() == q.(failed := false)
    {
      var id := Transform.LongOf(v);
      if id.None? {
        ok := false;
        return;
      }
      ok := Add("ALARMID", Long(id.value));
    }

    /** One cell of the current row. */
    method SetCell(name: string, c: Cell) returns (ok: bool)
      modifies this`sourceMap, tagpaths`entries, this`totalTagCount
      ensures var q := Transform.CellStep(Ctx(), old(Snapshot()), name, c); ok == !q.failed && Snapshot() == q.(failed := false)
      ensures forall t :: t in old(tagpaths.entries) ==> t in tagpaths.entries && tagpaths.entries[t] == old(tagpaths.entries[t])
      ensures forall t :: t in tagpaths.entries ==> t in old(tagpaths.entries) || fresh(tagpaths.entries[t])
    {
      if c.None? {
        ok := Add(Text.Upper(name), Str(NULL_TEXT));
        return;
      }
      var v := c.value;
      if name == "tagpath" {
        ok := SetTagpath(v);
      } else if name == "t_stamp" {
        ok := SetStamp(v);
      } else if name == "eventtype" {
        ok := Add("ETYPE", v);
      } else if name == "eventtime" {
        ok := SetEventTime(v);
      } else if name == "id" {
        ok := SetId(v);
      } else {
        ok := Add(Text.Upper(name), v);
      }
    }

    /** The values every row starts with: DEVICETYPE, EVENTTYPE, FORMAT and LOGICALINTERFACE_ID. */
    method SetPrefix() returns (ok: bool)
      modifies this`sourceMap
      ensures var q := Transform.RowStart(Ctx(), old(Snapshot())); ok == !q.failed && Snapshot() == q.(failed := false)
    {
      ok := Add("DEVICETYPE", Str(tableName));
      if !ok { return; }
      ok := Add("EVENTTYPE", Str(cType));
      if !ok { return; }
      ok := Add("FORMAT", Str("JSON"));
      if !ok { return; }
      ok := Add("LOGICALINTERFACE_ID", Str(NULL_TEXT));
    }

    /** One row: the fixed prefix, each cell, and the row count. */
    method SetRow(row: seq<Cell>) returns (ok: bool)
      requires |row| == |sourceDBColumnNames|
      modifies this`sourceMap, tagpaths`entries, this`totalTagCount, this`rowCount
      ensures var q := Transform.Row(Ctx(), old(Snapshot()), row); ok == !q.failed && Snapshot() == q.(failed := false)
      ensures ok ==> rowCount == old(rowCount) + 1
      ensures forall t :: t in old(tagpaths.entries) ==> t in tagpaths.entries && tagpaths.entries[t] == old(tagpaths.entries[t])
      ensures forall t :: t in tagpaths.entries ==> t in old(tagpaths.entries) || fresh(tagpaths.entries[t])
    {
      ghost var p0 := Snapshot();
      ok := SetPrefix();
      if !ok {
        Transform.CellsAfterFailure(Ctx(), Transform.RowStart(Ctx(), p0), sourceDBColumnNames, row);
        return;
      }
      ok := SetCells(row);
      if ok {
        rowCount := rowCount + 1;
      }
    }

    /** Every cell of one row, in the order of the query's columns. */
    method SetCells(row: seq<Cell>) returns (ok: bool)
      requires |row| == |sourceDBColumnNames|
      modifies this`sourceMap, tagpaths`entries, this`totalTagCount
      ensures var q := Transform.Cells(Ctx(), old(Snapshot()), sourceDBColumnNames, row);
        ok == !q.failed && Snapshot() == q.(failed := false)
      ensures forall t :: t in old(tagpaths.entries) ==> t in tagpaths.entries && tagpaths.entries[t] == old(tagpaths.entries[t])
      ensures forall t :: t in tagpaths.entries ==> t in old(tagpaths.entries) || fresh(tagpaths.entries[t])
    {
      var ctx := Ctx();
      ghost var p0 := Snapshot();
      ok := true;
      var j := 0;
      while j < |sourceDBColumnNames|
        invariant 0 <= j <= |sourceDBColumnNames|
        invariant Transform.Cells(ctx, p0, ctx.names, row) == Transform.Cells(ctx, Snapshot(), ctx.names[j..], row[j..])
        invariant forall t :: t in old(tagpaths.entries) ==> t in tagpaths.entries && tagpaths.entries[t] == old(tagpaths.entries[t])
        invariant forall t :: t in tagpaths.entries ==> t in old(tagpaths.entries) || fresh(tagpaths.entries[t])
      {
        assert ctx.names[j..][1..] == ctx.names[j + 1..];
        assert row[j..][1..] == row[j + 1..];
        ok := SetCell(sourceDBColumnNames[j], row[j]);
        if !ok {
          Transform.CellsAfterFailure(ctx, Snapshot().(failed := true), ctx.names[j + 1..], row[j + 1..]);
          return;
        }
        j := j + 1;
      }
    }

    /**
     * The row loop of one cycle: a fresh map with one empty list per destination
     * column, then every row in order; `ok` is false when an exception ended it.
     * On success the row count is the number of rows.
     */
    method ExtractRows(rows: seq<seq<Cell>>) returns (ok: bool)
      requires Transform.WellShaped(Ctx(), rows)
      modifies this`sourceMap, tagpaths`entries, this`totalTagCount, this`rowCount
      ensures var r := Transform.Rows(Ctx(), Transform.Progress(EmptyColumns(Schema.MonitorDBCols(config.connectorType)),
                                        old(tagpaths.View()), old(totalTagCount), 0, false), rows);
        ok == !r.failed && Snapshot() == r.(failed := false)
      ensures ok ==> rowCount == |rows|
    {
      var dbCols := config.GetMonitorDBCols();
      sourceMap := EmptyColumns(dbCols);
      rowCount := 0;
      assert tagpaths.View() == old(tagpaths.View());
      ok := RowLoop(rows);
    }

    /** `while (rs.next())`: the rows in order, until one throws. */
    method RowLoop(rows: seq<seq<Cell>>) returns (ok: bool)
      requires Transform.WellShaped(Ctx(), rows)
      modifies this`sourceMap, tagpaths`entries, this`totalTagCount, this`rowCount
      ensures var r := Transform.Rows(Ctx(), old(Snapshot()), rows); ok == !r.failed && Snapshot() == r.(failed := false)
      ensures ok ==> rowCount == old(rowCount) + |rows|
    {
      ghost var start := Snapshot();
      var ctx := Ctx();
      var k := 0;
      while k < |rows|
        invariant 0 <= k <= |rows|
        invariant rowCount == old(rowCount) + k
        invariant Transform.WellShaped(ctx, rows[k..])
        invariant Transform.Rows(ctx, start, rows) == Transform.Rows(ctx, Snapshot(), rows[k..])
        invariant forall t :: t in old(tagpaths.entries) ==> t in tagpaths.entries && tagpaths.entries[t] == old(tagpaths.entries[t])
        invariant forall t :: t in tagpaths.entries ==> t in old(tagpaths.entries) || fresh(tagpaths.entries[t])
      {
        Transform.TailWellShaped(ctx, rows[k..]);
        assert rows[k..][1..] == rows[k + 1..];
        ok := SetRow(rows[k]);
        if !ok {
          return;
        }
        k := k + 1;
      }
      ok := true;
    }

    // -------------------------------------------------------------------------
    // The batch insert
    // -------------------------------------------------------------------------

    /**
     * `batchInsert(sourceMap, totalRows)`: rows are bound and batched, every
     * `BATCH_INSERT_SIZE` rows the batch is executed, and what is left is flushed;
     * a row that fails to bind, or a refused execution, ends the loop (the break
     * policy). It returns the rows added to a batch, whether or not they reached the
     * table; `sent` is what the table received. A connection that does not open,
     * or a refused final flush, throws an SQL exception into the outer handler,
     * which reads the exception chained to it: without one, `threw`, the
     * exception of the null dereference escapes and no count is returned; with one, the count
     * so far is returned (0 when the connection did not open).
     */
    method BatchInsert(m: ColumnMap, totalRows: nat, connected: bool, accepts: nat -> bool, chained: bool)
      returns (rowsProcessed: int, sent: seq<Jdbc.Bound>, threw: bool)
      modifies config`insertSQL
      ensures threw == (!chained && ReachesHandler(m, totalRows, connected, accepts))
      ensures var rows := Schema.MonitorRows(config.connectorType, m, totalRows, env);
        var r := Batches.BreakFrom(rows, 0, Batches.Start, BATCH_INSERT_SIZE, accepts);
        if connected then rowsProcessed == r.processed && sent == Batches.Flush(r, accepts).0.sent
        else rowsProcessed == 0 && sent == []
      ensures var rows := Schema.MonitorRows(config.connectorType, m, totalRows, env);
        0 <= rowsProcessed <= Batches.BindPrefix(rows) <= totalRows &&
        (connected && (forall c :: accepts(c)) ==> rowsProcessed == Batches.BindPrefix(rows) && sent == Batches.Vals(rows))
    {
      var insertSQL := config.GetMonitorInsertSQL();
      ghost var rows := Schema.MonitorRows(config.connectorType, m, totalRows, env);
      Batches.BreakResult(rows, BATCH_INSERT_SIZE, accepts);
      if !connected {
        return 0, [], !chained;
      }
      var refused;
      rowsProcessed, sent, refused := InsertAll(m, totalRows, accepts);
      threw := refused && !chained;
    }

    /**
     * Whether `batchInsert` ends in its outer handler: the connection does not open,
     * or the final flush of what is left in the batch is refused.
     */
    predicate ReachesHandler(m: ColumnMap, totalRows: nat, connected: bool, accepts: nat -> bool)
    {
      var rows := Schema.MonitorRows(config.connectorType, m, totalRows, env);
      !connected || Batches.Flush(Batches.BreakFrom(rows, 0, Batches.Start, BATCH_INSERT_SIZE, accepts), accepts).1
    }

    /**
     * The row loop of `batchInsert` and the final flush, on an open connection;
     * `refused` when the flush is refused.
     */
    method InsertAll(m: ColumnMap, totalRows: nat, accepts: nat -> bool)
      returns (rowsProcessed: int, sent: seq<Jdbc.Bound>, refused: bool)
      ensures var r := Batches.BreakFrom(Schema.MonitorRows(config.connectorType, m, totalRows, env), 0, Batches.Start,
                                         BATCH_INSERT_SIZE, accepts);
        rowsProcessed == r.processed && sent == Batches.Flush(r, accepts).0.sent && refused == Batches.Flush(r, accepts).1
    {
      ghost var rows := Schema.MonitorRows(config.connectorType, m, totalRows, env);
      ghost var r := Batches.BreakFrom(rows, 0, Batches.Start, BATCH_INSERT_SIZE, accepts);
      var ps := new Jdbc.PreparedStatement();
      rowsProcessed := 0;
      var batchCount := 0;
      var chunks: nat := 0;
      var i := 0;
      while i < totalRows
        invariant 0 <= i <= totalRows
        invariant batchCount == |ps.batch|
        invariant r == Batches.BreakFrom(rows, i, Batches.Load(rowsProcessed, ps.batch, ps.executed, chunks, false),
                                         BATCH_INSERT_SIZE, accepts)
      {
        ghost var l := Batches.Load(rowsProcessed, ps.batch, ps.executed, chunks, false);
        assert r == Batches.BreakFrom(rows, i + 1, Batches.BreakStep(l, rows[i], BATCH_INSERT_SIZE, accepts),
                                      BATCH_INSERT_SIZE, accepts);
        var stop;
        stop, rowsProcessed, batchCount, chunks := InsertRow(ps, m, i, rowsProcessed, batchCount, chunks, accepts);
        if stop {
          break;
        }
        i := i + 1;
      }
      assert r.processed == rowsProcessed && r.pending == ps.batch && r.sent == ps.executed && r.chunks == chunks;
      refused := false;
      if batchCount > 0 {
        var flushed := ps.ExecuteBatch(accepts(chunks));
        if flushed {
          ps.ClearBatch();
        } else {
          refused := true;
        }
      }
      sent := ps.executed;
    }

    /**
     * One row of `batchInsert`: bind it, add it to the batch, and execute the batch
     * once it holds `BATCH_INSERT_SIZE` rows; `stop` when the binding throws or the
     * execution is refused.
     */
    method InsertRow(ps: Jdbc.PreparedStatement, m: ColumnMap, i: int, rowsProcessed: int, batchCount: int,
                     chunks: nat, accepts: nat -> bool)
      returns (stop: bool, processed: int, count: int, executions: nat)
      requires batchCount == |ps.batch|
      modifies ps
      ensures count == |ps.batch|
      ensures Batches.BreakStep(Batches.Load(rowsProcessed, old(ps.batch), old(ps.executed), chunks, false),
                                Schema.MonitorParams(config.connectorType, m, i, env), BATCH_INSERT_SIZE, accepts)
              == Batches.Load(processed, ps.batch, ps.executed, executions, stop)
    {
      processed, count, executions := rowsProcessed, batchCount, chunks;
      var ok := config.GetMonitorPS(ps, m, i, env);
      if !ok {
        return true, processed, count, executions;
      }
      ps.AddBatch();
      count := count + 1;
      processed := processed + 1;
      stop := false;
      if count >= BATCH_INSERT_SIZE {
        var executed := ps.ExecuteBatch(accepts(executions));
        executions := executions + 1;
        if !executed {
          return true, processed, count, executions;
        }
        ps.ClearBatch();
        count := 0;
      }
    }

    // -------------------------------------------------------------------------
    // The heartbeat
    // -------------------------------------------------------------------------

    /**
     * The status map of a heartbeat: one list per destination column, each holding
     * exactly one value per heartbeat tag, the value of row `j` in column `k` being
     * entry `k` of heartbeat row `j`.
     */
    method HeartbeatMap(stats: seq<int>, stamps: seq<int>) returns (statusMap: ColumnMap)
      requires |stats| == HB_TAGS && |stamps| == HB_TAGS
      ensures Filled(statusMap, Schema.MonitorDBCols(config.connectorType),
                     HeartbeatRows(config.connectorType, tableName, stats, stamps), HB_TAGS)
      ensures Rectangular(statusMap, HB_TAGS)
    {
      var dbCols := config.GetMonitorDBCols();
      Schema.MonitorColsDistinct(config.connectorType);
      statusMap := FillColumns(dbCols, HeartbeatRows(config.connectorType, tableName, stats, stamps));
    }

    /**
     * `sendHeartbeatEvent`: the processed and uploaded counts and the rate, one row
     * each, written with the same batch insert as the extracted rows; `threw` when
     * the exception of its null dereference escapes, which ends the heartbeat thread.
     */
    method SendHeartbeatEvent(stamps: seq<int>, connected: bool, accepts: nat -> bool, chained: bool)
      returns (statusMap: ColumnMap, sent: seq<Jdbc.Bound>, threw: bool)
      requires |stamps| == HB_TAGS
      modifies config`insertSQL
      ensures Filled(statusMap, Schema.MonitorDBCols(config.connectorType),
                     HeartbeatRows(config.connectorType, tableName,
                                   [offsetRecord.processedCount, offsetRecord.uploadedCount, offsetRecord.rate], stamps),
                     HB_TAGS)
      ensures Rectangular(statusMap, HB_TAGS)
      ensures var rows := Schema.MonitorRows(config.connectorType, statusMap, HB_TAGS, env);
        |sent| <= Batches.BindPrefix(rows) &&
        (connected && (forall c :: accepts(c)) ==> sent == Batches.Vals(rows))
      ensures threw == (!chained && ReachesHandler(statusMap, HB_TAGS, connected, accepts))
      ensures connected && (forall c :: accepts(c)) ==> !threw
    {
      var statValues := [offsetRecord.processedCount, offsetRecord.uploadedCount, offsetRecord.rate];
      statusMap := HeartbeatMap(statValues, stamps);
      ghost var rows := Schema.MonitorRows(config.connectorType, statusMap, HB_TAGS, env);
      var _, s, t := BatchInsert(statusMap, HB_TAGS, connected, accepts, chained);
      sent, threw := s, t;
      Batches.BreakResult(rows, BATCH_INSERT_SIZE, accepts);
    }

    // -------------------------------------------------------------------------
    // The extraction cycle
    // -------------------------------------------------------------------------

    /**
     * Error 1146: the same window is recorded as NO_TABLE, which moves it to the
     * first day of the next month; no rows are read and no counter changes.
     */
    method NoTable(now: int)
      modifies offsetRecord`startTimeSecs, offsetRecord`endTimeSecs, offsetRecord`month, offsetRecord`year
      modifies offsetRecord`day, offsetRecord`file
      ensures offsetRecord.GetWindow() ==
        NextWindow(old(offsetRecord.endTimeSecs), old(offsetRecord.year), old(offsetRecord.month),
                   EXTRACT_STATUS_NO_TABLE, now, offsetRecord.offsetInterval, offsetRecord.offsetIntervalHistorical)
      ensures offsetRecord.file == Offsets.Stored(offsetRecord.SnapshotWith(EXTRACT_STATUS_NO_TABLE))
    {
      var startTimeSecs := offsetRecord.startTimeSecs;
      var endTimeSecs := offsetRecord.endTimeSecs;
      var _ := offsetRecord.UpdateOffsetFile(startTimeSecs, endTimeSecs, offsetRecord.year, offsetRecord.month,
                                             EXTRACT_STATUS_NO_TABLE, now);
    }

    /**
     * After the rows of a cycle are transformed: the processed count grows by the
     * row count; with no rows the window is recorded as TABLE_NO_DATA; otherwise the
     * rows are written, the uploaded count grows by what the batch insert returns,
     * the window is recorded as TABLE_WITH_DATA and the rate is `rowCount * 1000`
     * over the elapsed milliseconds. An elapsed time of 0 throws and ends the loop,
     * and so does test mode after one cycle with data. When the batch insert
     * throws (`threw`), the loop ends with the processed count grown and nothing
     * else changed: not the uploaded count, the rate, the window or the rows.
     */
    method Settle(t: Tick) returns (goOn: bool, threw: bool)
      requires rowCount >= 0
      modifies offsetRecord`startTimeSecs, offsetRecord`endTimeSecs, offsetRecord`month, offsetRecord`year
      modifies offsetRecord`day, offsetRecord`file, offsetRecord`processedCount, offsetRecord`uploadedCount
      modifies offsetRecord`rate, config`insertSQL, this`sourceMap
      ensures offsetRecord.processedCount == old(offsetRecord.processedCount) + old(rowCount)
      ensures threw == (old(rowCount) > 0 && !t.chained &&
                        ReachesHandler(old(sourceMap), old(rowCount), t.connected, t.accepts))
      ensures threw ==>
        !goOn && offsetRecord.uploadedCount == old(offsetRecord.uploadedCount) &&
        offsetRecord.rate == old(offsetRecord.rate) && offsetRecord.file == old(offsetRecord.file) &&
        offsetRecord.GetWindow() == old(offsetRecord.GetWindow()) && sourceMap == old(sourceMap)
      ensures old(rowCount) == 0 ==>
        goOn && offsetRecord.uploadedCount == old(offsetRecord.uploadedCount) &&
        offsetRecord.rate == old(offsetRecord.rate) &&
        offsetRecord.file == Offsets.Stored(offsetRecord.SnapshotWith(EXTRACT_STATUS_TABLE_NO_DATA))
      ensures old(offsetRecord.uploadedCount) <= offsetRecord.uploadedCount <=
              old(offsetRecord.uploadedCount) + old(rowCount)
      ensures old(rowCount) > 0 && !threw ==>
        offsetRecord.file.Stored? && offsetRecord.file.rec.status == EXTRACT_STATUS_TABLE_WITH_DATA &&
        offsetRecord.file.rec.processed == offsetRecord.processedCount &&
        offsetRecord.file.rec.uploaded == offsetRecord.uploadedCount &&
        goOn == (t.end != t.start && runMode != TEST) &&
        offsetRecord.rate == (if t.end == t.start then old(offsetRecord.rate)
                              else var rate := Text.JavaDiv(old(rowCount) * 1000, t.end - t.start);
                                   if rate == 0 then old(offsetRecord.rate) else rate)
      ensures old(rowCount) > 0 && t.connected && !threw ==>
        var rows := Schema.MonitorRows(config.connectorType, old(sourceMap), old(rowCount), env);
        offsetRecord.uploadedCount - old(offsetRecord.uploadedCount) ==
          Batches.BreakFrom(rows, 0, Batches.Start, BATCH_INSERT_SIZE, t.accepts).processed
      ensures !threw ==>
        offsetRecord.GetWindow() ==
          NextWindow(old(offsetRecord.endTimeSecs), old(offsetRecord.year), old(offsetRecord.month),
                     if old(rowCount) == 0 then EXTRACT_STATUS_TABLE_NO_DATA else EXTRACT_STATUS_TABLE_WITH_DATA,
                     t.end, offsetRecord.offsetInterval, offsetRecord.offsetIntervalHistorical)
      ensures !threw ==> sourceMap == map[]
    {
      var currentTotalCount := offsetRecord.SetProcessedCount(rowCount);
      if rowCount == 0 {
        SettleNoData(t);
        return true, false;
      }
      goOn, threw := SettleWithData(t);
    }

    /** No rows: the window is recorded as TABLE_NO_DATA and the loop waits for the next one. */
    method SettleNoData(t: Tick)
      modifies offsetRecord`startTimeSecs, offsetRecord`endTimeSecs, offsetRecord`month, offsetRecord`year
      modifies offsetRecord`day, offsetRecord`file, this`sourceMap
      ensures offsetRecord.file == Offsets.Stored(offsetRecord.SnapshotWith(EXTRACT_STATUS_TABLE_NO_DATA))
      ensures offsetRecord.GetWindow() ==
        NextWindow(old(offsetRecord.endTimeSecs), old(offsetRecord.year), old(offsetRecord.month),
                   EXTRACT_STATUS_TABLE_NO_DATA, t.end, offsetRecord.offsetInterval, offsetRecord.offsetIntervalHistorical)
      ensures sourceMap == map[]
    {
      sourceMap := map[];
      var waitFlag := offsetRecord.UpdateOffsetFile(offsetRecord.startTimeSecs, offsetRecord.endTimeSecs,
                                                    offsetRecord.year, offsetRecord.month,
                                                    EXTRACT_STATUS_TABLE_NO_DATA, t.end);
      var waitTime := offsetRecord.GetWaitTimeMilli(waitFlag, t.start, t.end);
    }

    /**
     * Rows: written with the batch insert, the uploaded count grown by its result,
     * the window recorded as TABLE_WITH_DATA, then the rate. When the batch insert
     * throws, nothing after it happens and the loop ends.
     */
    method SettleWithData(t: Tick) returns (goOn: bool, threw: bool)
      requires rowCount > 0
      modifies offsetRecord`startTimeSecs, offsetRecord`endTimeSecs, offsetRecord`month, offsetRecord`year
      modifies offsetRecord`day, offsetRecord`file, offsetRecord`uploadedCount
      modifies offsetRecord`rate, config`insertSQL, this`sourceMap
      ensures threw == (!t.chained && ReachesHandler(old(sourceMap), rowCount, t.connected, t.accepts))
      ensures old(offsetRecord.uploadedCount) <= offsetRecord.uploadedCount <= old(offsetRecord.uploadedCount) + rowCount
      ensures threw ==>
        !goOn && offsetRecord.uploadedCount == old(offsetRecord.uploadedCount) &&
        offsetRecord.rate == old(offsetRecord.rate) && offsetRecord.file == old(offsetRecord.file) &&
        offsetRecord.GetWindow() == old(offsetRecord.GetWindow()) && sourceMap == old(sourceMap)
      ensures t.connected && !threw ==>
        var rows := Schema.MonitorRows(config.connectorType, old(sourceMap), rowCount, env);
        offsetRecord.uploadedCount - old(offsetRecord.uploadedCount) ==
          Batches.BreakFrom(rows, 0, Batches.Start, BATCH_INSERT_SIZE, t.accepts).processed
      ensures !threw ==>
        offsetRecord.file.Stored? && offsetRecord.file.rec.status == EXTRACT_STATUS_TABLE_WITH_DATA &&
        offsetRecord.file.rec.processed == offsetRecord.processedCount &&
        offsetRecord.file.rec.uploaded == offsetRecord.uploadedCount
      ensures !threw ==>
        offsetRecord.GetWindow() ==
          NextWindow(old(offsetRecord.endTimeSecs), old(offsetRecord.year), old(offsetRecord.month),
                     EXTRACT_STATUS_TABLE_WITH_DATA, t.end, offsetRecord.offsetInterval,
                     offsetRecord.offsetIntervalHistorical)
      ensures !threw ==> sourceMap == map[]
      ensures !threw ==> goOn == (t.end != t.start && runMode != TEST)
      ensures !threw ==>
        offsetRecord.rate == (if t.end == t.start then old(offsetRecord.rate)
                              else var rate := Text.JavaDiv(rowCount * 1000, t.end - t.start);
                                   if rate == 0 then old(offsetRecord.rate) else rate)
    {
      var nuploaded, _, thrown := BatchInsert(sourceMap, rowCount, t.connected, t.accepts, t.chained);
      if thrown {
        return false, true;
      }
      threw := false;
      var _ := offsetRecord.SetUploadedCount(nuploaded);
      sourceMap := map[];
      var waitFlag := offsetRecord.UpdateOffsetFile(offsetRecord.startTimeSecs, offsetRecord.endTimeSecs,
                                                    offsetRecord.year, offsetRecord.month,
                                                    EXTRACT_STATUS_TABLE_WITH_DATA, t.end);
      var waitTime := offsetRecord.GetWaitTimeMilli(waitFlag, t.start, t.end);
      var timeDiff := t.end - t.start;
      if timeDiff == 0 {
        return false, false;
      }
      var rate := Text.JavaDiv(rowCount * 1000, timeDiff);
      offsetRecord.SetRate(rate);
      goOn := runMode != TEST;
    }

    /**
     * One cycle of `extractAndUpload`. Error 1146 records NO_TABLE and goes on;
     * any other query error ends the loop with nothing changed; fetched rows are
     * transformed (an exception there ends the loop before any counter moves), then
     * counted and written; `threw` when the batch insert throws, which only a cycle
     * with rows whose exception chains nothing can do. The uploaded count never
     * grows by more than the processed count.
     */
    method Cycle(t: Tick) returns (goOn: bool, threw: bool)
      requires t.outcome.Fetched? ==> Transform.WellShaped(Ctx(), t.outcome.rows)
      modifies this`sourceMap, this`totalTagCount, this`rowCount, tagpaths`entries, config`insertSQL
      modifies offsetRecord`startTimeSecs, offsetRecord`endTimeSecs, offsetRecord`month, offsetRecord`year
      modifies offsetRecord`day, offsetRecord`file, offsetRecord`processedCount, offsetRecord`uploadedCount
      modifies offsetRecord`rate
      ensures old(offsetRecord.processedCount) <= offsetRecord.processedCount
      ensures old(offsetRecord.uploadedCount) <= offsetRecord.uploadedCount
      ensures offsetRecord.uploadedCount - old(offsetRecord.uploadedCount) <=
              offsetRecord.processedCount - old(offsetRecord.processedCount)
      ensures IsFatal(t) ==> !goOn
      ensures runMode == TEST && HasRows(t) ==> !goOn
      ensures threw ==> !goOn && HasRows(t) && !t.chained
      ensures t.connected && (forall c :: t.accepts(c)) ==> !threw
      ensures t.outcome.QueryFailed? && t.outcome.errorCode != ERR_NO_SUCH_TABLE ==>
        !goOn && unchanged(offsetRecord) && unchanged(tagpaths)
      ensures t.outcome.QueryFailed? && t.outcome.errorCode == ERR_NO_SUCH_TABLE ==>
        goOn && offsetRecord.processedCount == old(offsetRecord.processedCount) &&
        offsetRecord.uploadedCount == old(offsetRecord.uploadedCount) &&
        offsetRecord.file == Offsets.Stored(offsetRecord.SnapshotWith(EXTRACT_STATUS_NO_TABLE)) &&
        offsetRecord.GetWindow() ==
          NextWindow(old(offsetRecord.endTimeSecs), old(offsetRecord.year), old(offsetRecord.month),
                     EXTRACT_STATUS_NO_TABLE, t.end, offsetRecord.offsetInterval, offsetRecord.offsetIntervalHistorical)
      ensures t.outcome.Fetched? ==>
        var r := Transform.Rows(Ctx(), Transform.Progress(EmptyColumns(Schema.MonitorDBCols(config.connectorType)),
                                                            old(tagpaths.View()), old(totalTagCount), 0, false),
                                t.outcome.rows);
        tagpaths.View() == r.reg && totalTagCount == r.added &&
        (r.failed ==> !goOn && offsetRecord.processedCount == old(offsetRecord.processedCount) &&
                      offsetRecord.uploadedCount == old(offsetRecord.uploadedCount)) &&
        (r.failed ==> offsetRecord.GetWindow() == old(offsetRecord.GetWindow()) && !threw) &&
        (!r.failed ==> offsetRecord.processedCount == old(offsetRecord.processedCount) + |t.outcome.rows|) &&
        (!r.failed ==>
           threw == (|t.outcome.rows| > 0 && !t.chained &&
                     ReachesHandler(r.cols, |t.outcome.rows|, t.connected, t.accepts))) &&
        (threw ==>
           offsetRecord.uploadedCount == old(offsetRecord.uploadedCount) &&
           offsetRecord.GetWindow() == old(offsetRecord.GetWindow()) && sourceMap == r.cols) &&
        (!r.failed && !threw ==> sourceMap == map[]) &&
        (!r.failed && !threw ==>
           offsetRecord.GetWindow() ==
             NextWindow(old(offsetRecord.endTimeSecs), old(offsetRecord.year), old(offsetRecord.month),
                        if |t.outcome.rows| == 0 then EXTRACT_STATUS_TABLE_NO_DATA else EXTRACT_STATUS_TABLE_WITH_DATA,
                        t.end, offsetRecord.offsetInterval, offsetRecord.offsetIntervalHistorical)) &&
        (!r.failed && |t.outcome.rows| == 0 ==> goOn && offsetRecord.uploadedCount == old(offsetRecord.uploadedCount)) &&
        (!r.failed && |t.outcome.rows| > 0 && runMode == TEST ==> !goOn)
    {
      match t.outcome
      case QueryFailed(code) =>
        threw := false;
        if code == ERR_NO_SUCH_TABLE {
          NoTable(t.end);
          goOn := true;
        } else {
          goOn := false;
        }
      case Fetched(rows) =>
        var ok := ExtractRows(rows);
        if !ok {
          return false, false;
        }
        Batches.BreakResult(Schema.MonitorRows(config.connectorType, sourceMap, rowCount, env), BATCH_INSERT_SIZE,
                            t.accepts);
        goOn, threw := Settle(t);
    }

    /**
     * One cycle as the loop of `extractAndUpload` sees it: a query error other than
     * 1146, rows fetched in test mode, or a batch insert that throws, end the loop;
     * the counters only grow, the uploaded one never by more than the processed one.
     */
    method Step(t: Tick) returns (goOn: bool)
      requires t.outcome.Fetched? ==> Transform.WellShaped(Ctx(), t.outcome.rows)
      modifies this`sourceMap, this`totalTagCount, this`rowCount, tagpaths`entries, config`insertSQL
      modifies offsetRecord`startTimeSecs, offsetRecord`endTimeSecs, offsetRecord`month, offsetRecord`year
      modifies offsetRecord`day, offsetRecord`file, offsetRecord`processedCount, offsetRecord`uploadedCount
      modifies offsetRecord`rate
      ensures IsFatal(t) ==> !goOn
      ensures runMode == TEST && HasRows(t) ==> !goOn
      ensures old(offsetRecord.processedCount) <= offsetRecord.processedCount
      ensures old(offsetRecord.uploadedCount) <= offsetRecord.uploadedCount
      ensures offsetRecord.uploadedCount - old(offsetRecord.uploadedCount) <=
              offsetRecord.processedCount - old(offsetRecord.processedCount)
    {
      var threw;
      goOn, threw := Cycle(t);
    }

    /**
     * `extractAndUpload` over the cycles observed: it runs them in order until one
     * ends the loop. It never runs past a query error other than 1146, nor, in test
     * mode, past a cycle that fetched rows; the counters only grow, the uploaded one
     * never by more than the processed one.
     */
    method ExtractAndUpload(ticks: seq<Tick>) returns (cycles: nat)
      requires forall j :: 0 <= j < |ticks| && ticks[j].outcome.Fetched? ==>
        Transform.WellShaped(Ctx(), ticks[j].outcome.rows)
      modifies this`sourceMap, this`totalTagCount, this`rowCount, tagpaths`entries, config`insertSQL
      modifies offsetRecord`startTimeSecs, offsetRecord`endTimeSecs, offsetRecord`month, offsetRecord`year
      modifies offsetRecord`day, offsetRecord`file, offsetRecord`processedCount, offsetRecord`uploadedCount
      modifies offsetRecord`rate
      ensures cycles <= |ticks|
      ensures forall j :: 0 <= j < |ticks| && IsFatal(ticks[j]) ==> cycles <= j + 1
      ensures runMode == TEST ==> forall j :: 0 <= j < |ticks| && HasRows(ticks[j]) ==> cycles <= j + 1
      ensures old(offsetRecord.processedCount) <= offsetRecord.processedCount
      ensures old(offsetRecord.uploadedCount) <= offsetRecord.uploadedCount
      ensures offsetRecord.uploadedCount - old(offsetRecord.uploadedCount) <=
              offsetRecord.processedCount - old(offsetRecord.processedCount)
    {
      cycles := 0;
      while cycles < |ticks|
        invariant 0 <= cycles <= |ticks|
        invariant forall j :: 0 <= j < cycles ==> !IsFatal(ticks[j])
        invariant runMode == TEST ==> forall j :: 0 <= j < cycles ==> !HasRows(ticks[j])
        invariant old(offsetRecord.processedCount) <= offsetRecord.processedCount
        invariant old(offsetRecord.uploadedCount) <= offsetRecord.uploadedCount
        invariant offsetRecord.uploadedCount - old(offsetRecord.uploadedCount) <=
                  offsetRecord.processedCount - old(offsetRecord.processedCount)
      {
        var goOn := Step(ticks[cycles]);
        cycles := cycles + 1;
        if !goOn {
          return;
        }
      }
    }
  }

  // ---------------------------------------------------------------------------
  // The status map
  // ---------------------------------------------------------------------------

  /** The heartbeat rows, one per heartbeat tag. */
  function HeartbeatRows(connectorType: int, tableName: string, stats: seq<int>, stamps: seq<int>): (rows: seq<seq<Value>>)
    requires |stats| == |stamps| == HB_TAGS
    ensures |rows| == HB_TAGS
    ensures forall j :: 0 <= j < HB_TAGS ==> rows[j] == HeartbeatRow(connectorType, tableName, j, stats[j], stamps[j])
  {
    seq(HB_TAGS, j requires 0 <= j < HB_TAGS => HeartbeatRow(connectorType, tableName, j, stats[j], stamps[j]))
  }

  /** Column `q` of a map filled with the first `i` rows: entry `q` of each row in turn. */
  function Column(rows: seq<seq<Value>>, q: nat, i: nat): (vs: seq<Value>)
    requires i <= |rows| && forall j :: 0 <= j < i ==> q < |rows[j]|
    ensures |vs| == i && forall j :: 0 <= j < i ==> vs[j] == rows[j][q]
  {
    seq(i, j requires 0 <= j < i => rows[j][q])
  }

  /**
   * A map filled with the first `i` rows: one list per column, the list of column
   * `q` holding entry `q` of each of those rows, in row order.
   */
  ghost predicate Filled(m: ColumnMap, cols: seq<string>, rows: seq<seq<Value>>, i: nat)
  {
    i <= |rows| && (forall j :: 0 <= j < |rows| ==> |rows[j]| == |cols|) &&
    m.Keys == (set c | c in cols) &&
    forall q :: 0 <= q < |cols| ==> m[cols[q]] == Column(rows, q, i)
  }

  /** Appending row `i` to a map filled with rows `0..i` gives the map filled with rows `0..i+1`. */
  lemma FilledStep(m: ColumnMap, cols: seq<string>, rows: seq<seq<Value>>, i: nat)
    requires i < |rows| && Filled(m, cols, rows, i) && Schema.Distinct(cols)
    ensures Filled(AppendedRow(m, cols, rows[i]), cols, rows, i + 1)
  {
    AppendedKeys(m, cols, rows[i]);
    AppendedColumns(m, cols, rows, i);
  }

  /** Every column after appending row `i` is the column of the first `i + 1` rows. */
  lemma AppendedColumns(m: ColumnMap, cols: seq<string>, rows: seq<seq<Value>>, i: nat)
    requires i < |rows| && Filled(m, cols, rows, i) && Schema.Distinct(cols)
    ensures forall q :: 0 <= q < |cols| ==> AppendedRow(m, cols, rows[i])[cols[q]] == Column(rows, q, i + 1)
  {
    forall q | 0 <= q < |cols|
      ensures AppendedRow(m, cols, rows[i])[cols[q]] == Column(rows, q, i + 1)
    {
      FilledStepColumn(m, cols, rows, i, q);
    }
  }

  /** Appending a row to a map over exactly the columns adds no key. */
  lemma AppendedKeys(m: ColumnMap, cols: seq<string>, row: seq<Value>)
    requires |row| == |cols| && Schema.Distinct(cols) && m.Keys == (set c | c in cols)
    ensures AppendedRow(m, cols, row).Keys == m.Keys
  {
  }

  /** Column `q` after appending row `i`: its old list and then entry `q` of that row. */
  lemma FilledStepColumn(m: ColumnMap, cols: seq<string>, rows: seq<seq<Value>>, i: nat, q: nat)
    requires i < |rows| && Filled(m, cols, rows, i) && Schema.Distinct(cols) && q < |cols|
    ensures AppendedRow(m, cols, rows[i])[cols[q]] == Column(rows, q, i + 1)
  {
    assert cols[q] in m;
    ColumnStep(rows, q, i);
  }

  /** One more row adds its entry at the end of each column. */
  lemma ColumnStep(rows: seq<seq<Value>>, q: nat, i: nat)
    requires i < |rows| && forall j :: 0 <= j <= i ==> q < |rows[j]|
    ensures Column(rows, q, i + 1) == Column(rows, q, i) + [rows[i][q]]
  {
  }

  /** A filled map holds one value per row in every column. */
  lemma FilledRectangular(m: ColumnMap, cols: seq<string>, rows: seq<seq<Value>>)
    requires Filled(m, cols, rows, |rows|)
    ensures Rectangular(m, |rows|)
  {
    forall c | c in m
      ensures |m[c]| == |rows|
    {
      var q :| 0 <= q < |cols| && cols[q] == c;
    }
  }

  /**
   * The status map built row by row: one empty list per column, then each row's
   * entries appended to their columns in row order.
   */
  method FillColumns(cols: seq<string>, rows: seq<seq<Value>>) returns (m: ColumnMap)
    requires Schema.Distinct(cols) && forall j :: 0 <= j < |rows| ==> |rows[j]| == |cols|
    ensures Filled(m, cols, rows, |rows|)
    ensures Rectangular(m, |rows|)
  {
    m := EmptyColumns(cols);
    var i := 0;
    while i < |rows|
      invariant 0 <= i <= |rows|
      invariant Filled(m, cols, rows, i)
    {
      m := AppendRow(m, cols, rows, i);
      i := i + 1;
    }
    FilledRectangular(m, cols, rows);
  }

  /** Row `i` appended to a map filled with the rows before it. */
  method AppendRow(m: ColumnMap, cols: seq<string>, rows: seq<seq<Value>>, i: nat) returns (m': ColumnMap)
    requires i < |rows| && Filled(m, cols, rows, i) && Schema.Distinct(cols)
    ensures Filled(m', cols, rows, i + 1)
  {
    FilledStep(m, cols, rows, i);
    m' := AppendedRow(m, cols, rows[i]);
  }

  /** Row values appended to the columns of a map, value `k` to column `k`. */
  function AppendedRow(m: ColumnMap, cols: seq<string>, row: seq<Value>): (r: ColumnMap)
    requires |row| == |cols| && Schema.Distinct(cols)
    ensures r.Keys == m.Keys + set c | c in cols
    ensures forall q :: 0 <= q < |cols| ==> r[cols[q]] == (if cols[q] in m then m[cols[q]] else []) + [row[q]]
  {
    m + map k | 0 <= k < |cols| :: cols[k] := (if cols[k] in m then m[cols[k]] else []) + [row[k] ]
  }

}

=== FILE: connector_stats.dfy ===
/**
 * The connector statistics heartbeat: six status tags registered in the tag cache
 * at start-up, and a status map of six rows, one per statistic, built from the
 * offset record's counters for the destination table.
 */
module Stats {
  import Text
  import opened Columns
  import opened Constants
  import Schema
  import Configuration
  import Offsets
  import Tags
  import Extraction

  /** The statistics' devices, names and tag ids, in row order. */
  const STATS_DEVICES: seq<string> := ["masSrcDB", "masDestDB", "masProcessing", "masTags", "masExtStart", "masExtEnd"]
  const STATS_NAMES: seq<string> := ["extracted", "uploaded", "ratePerSec", "total", "timeSec", "timeSec"]
  const STATS_TAG_IDS: seq<int> := [-9001, -9002, -9003, -9004, -9005, -9006]

  /** The tag path of entry `i` of a device and name table: "<device>/<name>". */
  function TagOf(devices: seq<string>, names: seq<string>, i: nat): string
    requires i < |devices| && i < |names|
  {
    devices[i] + "/" + names[i]
  }

  /** The tag path of statistic `i`. */
  function StatsTag(i: nat): string
    requires i < CONNECTOR_STATS_TAGS
  {
    TagOf(STATS_DEVICES, STATS_NAMES, i)
  }

  /** The six tag paths differ, so registering one never displaces another. */
  lemma StatsTagsDistinct(i: nat, j: nat)
    requires i < CONNECTOR_STATS_TAGS && j < CONNECTOR_STATS_TAGS && i != j
    ensures StatsTag(i) != StatsTag(j)
  {
    if |StatsTag(i)| == |StatsTag(j)| {
      assert {i, j} == {0, 1};
      assert StatsTag(0)[3] == 'S' && StatsTag(1)[3] == 'D';
    }
  }

  /** The entry a tag of the table gets: its path, its device as the data, no type, both statuses 0. */
  function RecordOf(devices: seq<string>, names: seq<string>, i: nat): Tags.TagRecord
    requires i < |devices| && i < |names|
  {
    Tags.TagRecord(Text.None, TagOf(devices, names, i), Text.None, devices[i], Text.None, 0, 0)
  }

  /** The tag paths of the table differ from one another. */
  predicate TagsDistinct(devices: seq<string>, names: seq<string>)
    requires |devices| == |names|
  {
    forall i, j :: 0 <= i < j < |devices| ==> TagOf(devices, names, i) != TagOf(devices, names, j)
  }

  /** The number of the first `n` tags of the table that are not among `keys`. */
  function NewTags(keys: set<string>, devices: seq<string>, names: seq<string>, n: nat): (c: nat)
    requires n <= |devices| == |names|
    ensures c <= n
  {
    if n == 0 then 0 else NewTags(keys, devices, names, n - 1) + (if TagOf(devices, names, n - 1) in keys then 0 else 1)
  }

  /** The cache's keys after the first `n` tags of the table are registered. */
  function Registered(keys: set<string>, devices: seq<string>, names: seq<string>, n: nat): (r: set<string>)
    requires n <= |devices| == |names|
    ensures keys <= r
    ensures forall j :: 0 <= j < n ==> TagOf(devices, names, j) in r
  {
    if n == 0 then keys else Registered(keys, devices, names, n - 1) + {TagOf(devices, names, n - 1)}
  }

  /** The keys after registration: the keys before and the table's first `n` tag paths, nothing else. */
  lemma {:induction false} RegisteredKeys(keys: set<string>, devices: seq<string>, names: seq<string>, n: nat, t: string)
    requires n <= |devices| == |names|
    ensures t in Registered(keys, devices, names, n) <==> t in keys || exists j :: 0 <= j < n && t == TagOf(devices, names, j)
  {
    if n > 0 {
      RegisteredKeys(keys, devices, names, n - 1, t);
    }
  }

  /** An empty cache takes every tag. */
  lemma {:induction false} NewTagsEmpty(devices: seq<string>, names: seq<string>, n: nat)
    requires n <= |devices| == |names|
    ensures NewTags({}, devices, names, n) == n
  {
    if n > 0 {
      NewTagsEmpty(devices, names, n - 1);
    }
  }

  /** A cache that already holds every tag takes none: starting twice counts no tag twice. */
  lemma {:induction false} NewTagsPresent(keys: set<string>, devices: seq<string>, names: seq<string>, n: nat)
    requires n <= |devices| == |names|
    requires forall j :: 0 <= j < n ==> TagOf(devices, names, j) in keys
    ensures NewTags(keys, devices, names, n) == 0
  {
    if n > 0 {
      NewTagsPresent(keys, devices, names, n - 1);
    }
  }

  /**
   * Status row `i`, one value per destination column in column order: for devices
   * the tag id, the statistic in INTVALUE, its name in EVT_NAME and the entity type
   * in DEVICETYPE; for alarms the tag id in ALARMID, the name in DISPLAYPATH and
   * the statistic in VALUE. Every row is a JSON status event of the statistic's device.
   */
  function StatsRow(connectorType: int, entityType: string, i: nat, stat: int, ts: int): (row: seq<Value>)
    requires i < CONNECTOR_STATS_TAGS
    ensures |row| == |Schema.MonitorDBCols(connectorType)|
  {
    if connectorType == CONNECTOR_DEVICE then
      [Long(STATS_TAG_IDS[i]), Long(stat), Str(Extraction.DOUBLE_ZERO), Str(NULL_TEXT), Str(NULL_TEXT),
       Str(STATS_NAMES[i]), Str(entityType), Str(STATS_DEVICES[i]), Str(NULL_TEXT),
       Str("status"), Str("JSON"), Time(ts), Time(ts)]
    else
      [Long(STATS_TAG_IDS[i]), Str(NULL_TEXT), Str(NULL_TEXT), Str(NULL_TEXT), Str(Extraction.DOUBLE_ZERO),
       Str(STATS_NAMES[i]), Str(Extraction.DOUBLE_ZERO), Long(stat), Str(entityType), Str(STATS_DEVICES[i]),
       Str(NULL_TEXT), Str("status"), Str("JSON"), Time(ts), Time(ts)]
  }

  /**
   * Row `i` puts its statistic in INTVALUE for devices and in VALUE for alarms, its
   * name in EVT_NAME or DISPLAYPATH, its tag id first, and carries EVENTTYPE
   * "status", FORMAT "JSON" and LOGICALINTERFACE_ID "null".
   */
  lemma StatsRowColumns(connectorType: int, entityType: string, i: nat, stat: int, ts: int)
    requires i < CONNECTOR_STATS_TAGS
    ensures var cols := Schema.MonitorDBCols(connectorType);
      var row := StatsRow(connectorType, entityType, i, stat, ts);
      row[0] == Long(STATS_TAG_IDS[i]) &&
      (connectorType == CONNECTOR_DEVICE ==>
         cols[0] == "TAGID" && cols[1] == "INTVALUE" && row[1] == Long(stat) &&
         cols[5] == "EVT_NAME" && row[5] == Str(STATS_NAMES[i]) && cols[6] == "DEVICETYPE" && row[6] == Str(entityType)) &&
      (connectorType != CONNECTOR_DEVICE ==>
         cols[0] == "ALARMID" && cols[7] == "VALUE" && row[7] == Long(stat) &&
         cols[5] == "DISPLAYPATH" && row[5] == Str(STATS_NAMES[i])) &&
      (forall k :: 0 <= k < |cols| && cols[k] == "EVENTTYPE" ==> row[k] == Str("status")) &&
      (forall k :: 0 <= k < |cols| && cols[k] == "FORMAT" ==> row[k] == Str("JSON")) &&
      (forall k :: 0 <= k < |cols| && cols[k] == "LOGICALINTERFACE_ID" ==> row[k] == Str(NULL_TEXT)) &&
      (forall k :: 0 <= k < |cols| && cols[k] == "DEVICEID" ==> row[k] == Str(STATS_DEVICES[i]))
  {
    var cols := Schema.MonitorDBCols(connectorType);
    if connectorType == CONNECTOR_DEVICE {
      assert forall k :: 0 <= k < |cols| && k != 9 ==> cols[k] != "EVENTTYPE";
      assert forall k :: 0 <= k < |cols| && k != 10 ==> cols[k] != "FORMAT";
      assert forall k :: 0 <= k < |cols| && k != 8 ==> cols[k] != "LOGICALINTERFACE_ID";
      assert forall k :: 0 <= k < |cols| && k != 7 ==> cols[k] != "DEVICEID";
    } else {
      assert forall k :: 0 <= k < |cols| && k != 11 ==> cols[k] != "EVENTTYPE";
      assert forall k :: 0 <= k < |cols| && k != 12 ==> cols[k] != "FORMAT";
      assert forall k :: 0 <= k < |cols| && k != 10 ==> cols[k] != "LOGICALINTERFACE_ID";
      assert forall k :: 0 <= k < |cols| && k != 9 ==> cols[k] != "DEVICEID";
    }
  }

  /** The six status rows, statistic `i` with clock reading `stamps[i]`. */
  function StatsRows(connectorType: int, entityType: string, stats: seq<int>, stamps: seq<int>): (rows: seq<seq<Value>>)
    requires |stats| == CONNECTOR_STATS_TAGS && |stamps| == CONNECTOR_STATS_TAGS
    ensures |rows| == CONNECTOR_STATS_TAGS
    ensures forall j :: 0 <= j < CONNECTOR_STATS_TAGS ==> rows[j] == StatsRow(connectorType, entityType, j, stats[j], stamps[j])
  {
    seq(CONNECTOR_STATS_TAGS, j requires 0 <= j < CONNECTOR_STATS_TAGS => StatsRow(connectorType, entityType, j, stats[j], stamps[j]))
  }

  class ConnectorStats {
    const config: Configuration.Config
    const offsetRecord: Offsets.OffsetRecord
    const tagpaths: Tags.TagCache
    const connectorType: int
    const entityType: string
    /**
     * The status maps handed to the database connector's `batchInsert`, in order,
     * each with the row count passed along with it.
     */
    var inserts: seq<(ColumnMap, int)>

    /** Keeps the configuration, the offset record and the tag cache, and the configured types. */
    constructor (config: Configuration.Config, offsetRecord: Offsets.OffsetRecord, tagpaths: Tags.TagCache)
      ensures this.config == config && this.offsetRecord == offsetRecord && this.tagpaths == tagpaths
      ensures connectorType == config.connectorType && entityType == config.entityType
      ensures inserts == []
    {
      inserts := [];
      this.config := config;
      this.offsetRecord := offsetRecord;
      this.tagpaths := tagpaths;
      connectorType := config.connectorType;
      entityType := config.entityType;
    }

    /**
     * `start`: each statistic tag goes into the cache with `putSafe`, which refuses
     * a path already present; only an accepted insert adds one to the tag count.
     * Every statistic tag is then in the cache, the new ones with a fresh entry,
     * and no other entry changes.
     */
    method Start()
      modifies tagpaths`entries, offsetRecord`tagCount
      ensures offsetRecord.tagCount ==
        old(offsetRecord.tagCount) + NewTags(old(tagpaths.entries).Keys, STATS_DEVICES, STATS_NAMES, CONNECTOR_STATS_TAGS)
      ensures tagpaths.entries.Keys == Registered(old(tagpaths.entries).Keys, STATS_DEVICES, STATS_NAMES, CONNECTOR_STATS_TAGS)
      ensures forall j :: 0 <= j < CONNECTOR_STATS_TAGS && StatsTag(j) !in old(tagpaths.entries) ==>
        tagpaths.entries[StatsTag(j)].Record() == RecordOf(STATS_DEVICES, STATS_NAMES, j)
      ensures forall t :: t in old(tagpaths.entries) ==> tagpaths.entries[t] == old(tagpaths.entries)[t]
    {
      forall i, j | 0 <= i < j < CONNECTOR_STATS_TAGS
        ensures TagOf(STATS_DEVICES, STATS_NAMES, i) != TagOf(STATS_DEVICES, STATS_NAMES, j)
      {
        StatsTagsDistinct(i, j);
      }
      RegisterTags(STATS_DEVICES, STATS_NAMES);
    }

    /** The loop of `start` over a table of devices and statistic names whose tag paths differ. */
    method RegisterTags(devices: seq<string>, names: seq<string>)
      requires |devices| == |names| && TagsDistinct(devices, names)
      modifies tagpaths`entries, offsetRecord`tagCount
      ensures offsetRecord.tagCount == old(offsetRecord.tagCount) + NewTags(old(tagpaths.entries).Keys, devices, names, |devices|)
      ensures tagpaths.entries.Keys == Registered(old(tagpaths.entries).Keys, devices, names, |devices|)
      ensures forall j :: 0 <= j < |devices| && TagOf(devices, names, j) !in old(tagpaths.entries) ==>
        tagpaths.entries[TagOf(devices, names, j)].Record() == RecordOf(devices, names, j)
      ensures forall t :: t in old(tagpaths.entries) ==> tagpaths.entries[t] == old(tagpaths.entries)[t]
    {
      ghost var e0 := tagpaths.entries;
      var i := 0;
      while i < |devices|
        invariant 0 <= i <= |devices|
        invariant offsetRecord.tagCount == old(offsetRecord.tagCount) + NewTags(e0.Keys, devices, names, i)
        invariant tagpaths.entries.Keys == Registered(e0.Keys, devices, names, i)
        invariant forall j :: 0 <= j < i && TagOf(devices, names, j) !in e0 ==>
          tagpaths.entries[TagOf(devices, names, j)].Record() == RecordOf(devices, names, j)
        invariant forall t :: t in e0 ==> tagpaths.entries[t] == e0[t]
      {
        var tag := devices[i] + "/" + names[i];
        assert tag == TagOf(devices, names, i);
        assert tag in tagpaths.entries <==> tag in e0 by {
          RegisteredKeys(e0.Keys, devices, names, i, tag);
        }
        ghost var before := tagpaths.entries;
        var td := RegisterTag(tag, devices[i]);
        forall j | 0 <= j < i + 1 && TagOf(devices, names, j) !in e0
          ensures tagpaths.entries[TagOf(devices, names, j)].Record() == RecordOf(devices, names, j)
        {
          if j < i {
            assert TagOf(devices, names, j) != tag;
            assert tagpaths.entries[TagOf(devices, names, j)] == before[TagOf(devices, names, j)];
          }
        }
        i := i + 1;
      }
    }

    /** One tag: `putSafe` of a fresh entry `td`, counted when the cache takes it. */
    method RegisterTag(tag: string, device: string) returns (td: Tags.TagData)
      modifies tagpaths`entries, offsetRecord`tagCount
      ensures fresh(td) && td.Record() == Tags.TagRecord(Text.None, tag, Text.None, device, Text.None, 0, 0)
      ensures offsetRecord.tagCount == old(offsetRecord.tagCount) + (if tag in old(tagpaths.entries) then 0 else 1)
      ensures tagpaths.entries == if tag in old(tagpaths.entries) then old(tagpaths.entries) else old(tagpaths.entries)[tag := td]
    {
      td := new Tags.TagData(tag, device);
      var ok := tagpaths.PutSafe(tag, td);
      if ok {
        var _ := offsetRecord.SetTagCount(1);
      }
    }

    /**
     * The status map of `sendEvent`: one list per destination column, each holding
     * exactly one value per statistic, the value of row `j` in column `k` being
     * entry `k` of status row `j`, with the statistics taken from the offset record
     * in the order processed, uploaded, rate, tag count, start and end time. The
     * map is handed to the database connector's `batchInsert` with the count of six
     * rows; clearing it afterwards only empties the local map.
     */
    method SendEvent(stamps: seq<int>) returns (statusMap: ColumnMap)
      requires |stamps| == CONNECTOR_STATS_TAGS
      modifies this`inserts
      ensures inserts == old(inserts) + [(statusMap, CONNECTOR_STATS_TAGS)]
      ensures var stats := [offsetRecord.processedCount, offsetRecord.uploadedCount, offsetRecord.rate,
                            offsetRecord.tagCount, offsetRecord.startTimeSecs, offsetRecord.endTimeSecs];
        Extraction.Filled(statusMap, Schema.MonitorDBCols(connectorType), StatsRows(connectorType, entityType, stats, stamps),
                          CONNECTOR_STATS_TAGS)
      ensures Rectangular(statusMap, CONNECTOR_STATS_TAGS)
    {
      var statValues := [offsetRecord.processedCount, offsetRecord.uploadedCount, offsetRecord.rate,
                         offsetRecord.tagCount, offsetRecord.startTimeSecs, offsetRecord.endTimeSecs];
      var dbCols := Schema.MonitorDBCols(connectorType);
      Schema.MonitorColsDistinct(connectorType);
      statusMap := Extraction.FillColumns(dbCols, StatsRows(connectorType, entityType, statValues, stamps));
      inserts := inserts + [(statusMap, CONNECTOR_STATS_TAGS)];
    }
  }
}

=== FILE: constants.dfy ===
/** The connector's numeric codes: run modes, connector kinds, source databases and extract status. */
module Constants {
  const PRODUCTION := 0
  const DEBUG := 1
  const TEST := 2

  const CONNECTOR_DEVICE := 1
  const CONNECTOR_ALARM := 2

  const DB_SOURCE_TYPE_MYSQL := 1
  const DB_SOURCE_TYPE_MSSQL := 2

  const CONNECTOR_STATS_TAGS := 6

  const EXTRACT_STATUS_INIT := 0
  const EXTRACT_STATUS_TABLE_WITH_DATA := 1
  const EXTRACT_STATUS_TABLE_NO_DATA := 2
  const EXTRACT_STATUS_NO_TABLE := 3
}

=== FILE: dates.dfy ===
/**
 * `DateUtil`: a date-time held as milliseconds and seconds since the epoch, plus
 * the month (1-12) and year of its calendar date. Set either from date text
 * "yyyy-MM-dd HH:mm:ss" (a text that does not parse leaves every field 0) or from
 * a millisecond instant.
 */
module Dates {
  import opened Calendar
  import Text

  /** The observable fields of a `DateUtil`. */
  datatype Stamp = Stamp(timeMilli: int, timeSecs: int, month: int, year: int)

  /** The fields set from a millisecond instant; seconds truncate toward zero as Java's `/` does. */
  function MillisStamp(ms: int): Stamp
  {
    var c := CivilOfMillis(ms);
    Stamp(ms, Text.JavaDiv(ms, 1000), c.month, c.year)
  }

  /** The fields set from date text: all zero exactly when the text does not parse. */
  function TextStamp(t: DateText): Stamp
  {
    if t.Unparseable? then Stamp(0, 0, 0, 0) else MillisStamp(ParseMillis(t))
  }

  /** An instant always has a month in 1..12. */
  lemma MillisStampMonth(ms: int)
    ensures MillisStamp(ms).timeMilli == ms && 1 <= MillisStamp(ms).month <= 12
  {
    CivilOfDayValid((ms / 1000) / 86400);
  }

  /** Date text leaves the month 0 exactly when it does not parse, and then every field is 0. */
  lemma TextStampCleared(t: DateText)
    ensures t.Unparseable? <==> TextStamp(t).month == 0
    ensures t.Unparseable? ==> TextStamp(t) == Stamp(0, 0, 0, 0)
  {
  }

  /** The day of the month of a stamp's instant, 0 for the cleared stamp of unparseable text. */
  function DayOf(s: Stamp): (d: int)
    ensures s.month == 0 ==> d == 0
    ensures s.month != 0 ==> 1 <= d <= 31
  {
    if s.month == 0 then 0
    else
      var c := CivilOfMillis(s.timeMilli);
      CivilOfDayValid((s.timeMilli / 1000) / 86400);
      DaysBeforeMonthBounds(c.year, c.month);
      c.day
  }

  class DateUtil {
    var timeMilli: int
    var timeSecs: int
    var month: int
    var year: int
    var day: int

    function Value(): Stamp
      reads this
    {
      Stamp(timeMilli, timeSecs, month, year)
    }

    /** `new DateUtil(String)`. */
    constructor FromText(dateStr: DateText)
      ensures Value() == TextStamp(dateStr) && day == 0
    {
      new;
      SetByDate(dateStr);
    }

    /** `new DateUtil(long)`. */
    constructor FromMillis(tmMilli: int)
      ensures Value() == MillisStamp(tmMilli) && day == 0
    {
      day := 0;
      new;
      SetByMilliseconds(tmMilli);
    }

    /** Clears every field, then fills them from the text when it parses. */
    method SetByDate(dateStr: DateText)
      modifies this
      ensures Value() == TextStamp(dateStr) && day == 0
    {
      timeMilli := 0;
      timeSecs := 0;
      month := 0;
      year := 0;
      day := 0;
      if dateStr.DateText? {
        var parsed := MillisStamp(ParseMillis(dateStr));
        timeMilli := parsed.timeMilli;
        timeSecs := parsed.timeSecs;
        month := parsed.month;
        year := parsed.year;
      }
    }

    /** Sets the instant and its calendar month and year; `day` is left as it was. */
    method SetByMilliseconds(tmMilli: int)
      modifies this
      ensures Value() == MillisStamp(tmMilli) && day == old(day)
    {
      timeMilli := tmMilli;
      timeSecs := Text.JavaDiv(tmMilli, 1000);
      month := 0;
      year := 0;
      var c := CivilOfMillis(tmMilli);
      month := c.month;
      year := c.year;
    }

    /** The day of the month of the stored instant, 0 when the text did not parse. */
    function GetDay(): (d: int)
      reads this
      ensures d == DayOf(Value())
    {
      DayOf(Value())
    }
  }

  /** Re-parsing the formatted text of an instant keeps its whole second, month and year. */
  lemma FormatThenParse(ms: int)
    ensures TextStamp(FormatMillis(ms)).timeMilli == (ms / 1000) * 1000
    ensures TextStamp(FormatMillis(ms)).month == MillisStamp(ms).month
    ensures TextStamp(FormatMillis(ms)).year == MillisStamp(ms).year
  {
    FormatParseRoundTrip(ms);
    assert ((ms / 1000) * 1000) / 1000 == ms / 1000;
  }

  /** On a whole-second instant `timeSecs * 1000` is `timeMilli`, whatever its sign. */
  lemma WholeSecondStamp(secs: int)
    ensures TextStamp(FormatMillis(secs * 1000)) == MillisStamp(secs * 1000)
    ensures MillisStamp(secs * 1000).timeSecs == secs
  {
    WholeSecondRoundTrip(secs);
    Text.JavaDivThousand(secs);
  }

  /** Text naming a valid calendar date at midnight yields that month and year. */
  lemma MidnightStamp(c: Civil)
    requires ValidCivil(c)
    ensures TextStamp(DateText(c.year, c.month, c.day, 0, 0, 0)).month == c.month
    ensures TextStamp(DateText(c.year, c.month, c.day, 0, 0, 0)).year == c.year
    ensures CivilOfMillis(TextStamp(DateText(c.year, c.month, c.day, 0, 0, 0)).timeMilli).day == c.day
  {
    MidnightCivil(c);
  }

  /** "2021-09-15 00:00:00" is the 15th of September 2021. */
  lemma DayOfSeptember15()
    ensures var s := TextStamp(DateText(2021, 9, 15, 0, 0, 0));
      s.year == 2021 && s.month == 9 && CivilOfMillis(s.timeMilli).day == 15
  {
    MidnightStamp(Civil(2021, 9, 15));
  }
}

=== FILE: db_connector.dfy ===
/**
 * The file-based bulk uploader: a chunk of source rows is written to a CSV file,
 * an external script turns it into the processed CSV, and the processed lines are
 * inserted into the data-lake table with a statement built from the table's DDL.
 * The start row of the next chunk is kept in an offset file.
 */
module CsvUpload {
  import Text
  import opened Columns
  import Schema
  import Jdbc
  import Batches

  type Option<T> = Text.Option<T>

  /** The size of the column-name and column-type arrays. */
  const MAX_TABLE_COLUMNS := 50
  /** The rows fetched per chunk when the configuration gives no `fetchSize`. */
  const DEFAULT_CHUNK_SIZE := 50000
  /** The rows per executed batch when the configuration gives no `insertSize`. */
  const DEFAULT_BATCH_INSERT_SIZE := 10000
  /** The SQL error code of a table that does not exist. */
  const ERR_NO_SUCH_TABLE := 1146
  /** Run mode 0 extracts and uploads; run mode 3 is the test mode that stops after one chunk. */
  const RUN_MODE_UPLOAD := 0
  const RUN_MODE_TEST := 3

  // ---------------------------------------------------------------------------
  // CSV encoding of the extracted rows
  // ---------------------------------------------------------------------------

  /** One field: SQL NULL is written as "null", and commas inside a value become spaces. */
  function CsvField(c: Option<string>): (f: string)
    ensures ',' !in f
  {
    match c
    case None => NULL_TEXT
    case Some(s) => Text.ReplaceChar(s, ',', ' ')
  }

  function CsvFields(row: seq<Option<string>>): (fs: seq<string>)
    ensures |fs| == |row|
    ensures forall i :: 0 <= i < |row| ==> fs[i] == CsvField(row[i])
  {
    seq(|row|, i requires 0 <= i < |row| => CsvField(row[i]))
  }

  /** One line of the CSV file: the fields joined by commas. */
  function CsvLine(row: seq<Option<string>>): string
  {
    Text.Join(CsvFields(row), ",")
  }

  /** A value free of commas is written as it is. */
  lemma CsvFieldKeeps(s: string)
    requires ',' !in s
    ensures CsvField(Text.Some(s)) == s
  {
    var f := CsvField(Text.Some(s));
    assert |f| == |s|;
    forall i | 0 <= i < |s| ensures f[i] == s[i] {
      assert s[i] != ',';
    }
  }

  /** Cutting a CSV line at its commas gives back exactly one field per column. */
  lemma CsvLinePieces(row: seq<Option<string>>)
    requires |row| >= 1
    ensures Text.Pieces(CsvLine(row), ',') == CsvFields(row)
  {
    Text.PiecesJoin(CsvFields(row), ',');
  }

  /**
   * The uploader's `line.split(",")` of a line of two or more columns gives the
   * fields back, except that Java drops the empty ones at the end.
   */
  lemma CsvLineSplit(row: seq<Option<string>>)
    requires |row| >= 2
    ensures Text.JavaSplit(CsvLine(row), ',') == Text.StripTrailingEmpty(CsvFields(row))
  {
    CsvLinePieces(row);
    if ',' !in CsvLine(row) {
      Text.PiecesOfFree(CsvLine(row), ',');
      assert false;
    }
  }

  /** The text written after the first `i` fields: a comma follows each field but the last. */
  function Written(fs: seq<string>, i: nat): string
    requires i <= |fs|
  {
    if i == 0 then "" else Text.Join(fs[..i], ",") + (if i < |fs| then "," else "")
  }

  /** Writing field `i` extends the text by that field and, unless it is the last, a comma. */
  lemma WrittenStep(fs: seq<string>, i: nat)
    requires i < |fs|
    ensures Written(fs, i + 1) == Written(fs, i) + fs[i] + (if i < |fs| - 1 then "," else "")
  {
    if 0 < i {
      Text.JoinSnoc(fs[..i], fs[i], ",");
      assert fs[..i + 1] == fs[..i] + [fs[i]];
    } else {
      assert fs[..1] == [fs[i]];
    }
  }

  /** Writes one row, a comma after every field but the last. */
  method CsvRowText(row: seq<Option<string>>) returns (line: string)
    ensures line == CsvLine(row)
  {
    ghost var fs := CsvFields(row);
    line := "";
    var i := 0;
    while i < |row|
      invariant 0 <= i <= |row|
      invariant line == Written(fs, i)
    {
      var field := if row[i].Some? then Text.ReplaceChar(row[i].value, ',', ' ') else NULL_TEXT;
      WrittenStep(fs, i);
      line := line + field;
      if i < |row| - 1 {
        line := line + ",";
      }
      i := i + 1;
    }
    assert fs[..|row|] == fs;
  }

  /**
   * Writes the extracted chunk: a header line with the column names, then one line
   * per row; `rowCount` counts the rows.
   */
  method WriteCsv(names: seq<string>, rows: seq<seq<Option<string>>>) returns (lines: seq<string>, rowCount: int)
    ensures |lines| == |rows| + 1 && rowCount == |rows|
    ensures lines[0] == Text.Join(names, ",")
    ensures forall k :: 0 <= k < |rows| ==> lines[k + 1] == CsvLine(rows[k])
  {
    lines := [Text.Join(names, ",")];
    rowCount := 0;
    while rowCount < |rows|
      invariant 0 <= rowCount <= |rows| && |lines| == rowCount + 1
      invariant lines[0] == Text.Join(names, ",")
      invariant forall k :: 0 <= k < rowCount ==> lines[k + 1] == CsvLine(rows[k])
    {
      var line := CsvRowText(rows[rowCount]);
      lines := lines + [line];
      rowCount := rowCount + 1;
    }
  }

  // ---------------------------------------------------------------------------
  // The table DDL and the INSERT statement built from it
  // ---------------------------------------------------------------------------

  /**
   * The binding type of a DDL column type: "double" when the upper-cased type
   * mentions DOUBLE, NUMBER or INTEGER, then "timestamp" when it mentions
   * TIMESTAMP, and "char" for anything else.
   */
  function ColumnType(typeText: string): (t: string)
    ensures t == "double" || t == "timestamp" || t == "char"
  {
    var u := Text.Upper(typeText);
    if Text.Contains(u, "DOUBLE") || Text.Contains(u, "NUMBER") || Text.Contains(u, "INTEGER") then "double"
    else if Text.Contains(u, "TIMESTAMP") then "timestamp"
    else "char"
  }

  /** The column definitions: the text after the first "(", cut at every run of commas. */
  function DdlColumns(ddl: string): (cols: Option<seq<string>>)
    ensures cols.None? <==> '(' !in ddl
  {
    var parts := Text.JavaSplitFirst(ddl, '(');
    if |parts| < 2 then Text.None else Text.Some(Text.JavaSplitRuns(parts[1], ','))
  }

  /** The words of one column definition: trimmed, then cut at every space. */
  function ColumnParts(col: string): seq<string>
  {
    Text.JavaSplit(Text.Trim(col), ' ')
  }

  /** Every definition has a name and a type, and they fit the arrays. */
  predicate ColumnsParse(cols: seq<string>)
  {
    |cols| <= MAX_TABLE_COLUMNS && forall i :: 0 <= i < |cols| ==> |ColumnParts(cols[i])| >= 2
  }

  /** The parsed DDL: the column names and their binding types, in definition order. */
  datatype Ddl = Ddl(names: seq<string>, types: seq<string>)

  /** The names and binding types of the column definitions, or `None` when one does not parse. */
  function ParseColumns(cols: seq<string>): (d: Option<Ddl>)
    ensures d.Some? <==> ColumnsParse(cols)
    ensures d.Some? ==> |d.value.names| == |d.value.types| == |cols| <= MAX_TABLE_COLUMNS
    ensures d.Some? ==> forall i :: 0 <= i < |cols| ==>
      d.value.names[i] == ColumnParts(cols[i])[0] && d.value.types[i] == ColumnType(ColumnParts(cols[i])[1])
  {
    if !ColumnsParse(cols) then Text.None
    else Text.Some(Ddl(seq(|cols|, i requires 0 <= i < |cols| => ColumnParts(cols[i])[0]),
                       seq(|cols|, i requires 0 <= i < |cols| => ColumnType(ColumnParts(cols[i])[1]))))
  }

  /** `names` and `types` are what reading the first definitions of `cols` gives. */
  ghost predicate Read(cols: seq<string>, names: seq<string>, types: seq<string>)
  {
    |names| == |types| <= |cols| &&
    forall i :: 0 <= i < |names| ==>
      |ColumnParts(cols[i])| >= 2 &&
      names[i] == ColumnParts(cols[i])[0] && types[i] == ColumnType(ColumnParts(cols[i])[1])
  }

  /** Reading one more definition. */
  lemma ReadStep(cols: seq<string>, names: seq<string>, types: seq<string>, name: string, t: string)
    requires Read(cols, names, types) && |names| < |cols|
    requires |ColumnParts(cols[|names|])| >= 2
    requires name == ColumnParts(cols[|names|])[0] && t == ColumnType(ColumnParts(cols[|names|])[1])
    ensures Read(cols, names + [name], types + [t])
  {
    var n := |names|;
    forall i | 0 <= i < n + 1
      ensures |ColumnParts(cols[i])| >= 2
      ensures (names + [name])[i] == ColumnParts(cols[i])[0]
      ensures (types + [t])[i] == ColumnType(ColumnParts(cols[i])[1])
    {
      if i < n {
        assert (names + [name])[i] == names[i] && (types + [t])[i] == types[i];
      }
    }
  }

  /** Names and types read one definition at a time are the parse of the definitions. */
  lemma ColumnsRead(cols: seq<string>, names: seq<string>, types: seq<string>)
    requires |cols| <= MAX_TABLE_COLUMNS && |names| == |cols| && Read(cols, names, types)
    ensures ParseColumns(cols) == Text.Some(Ddl(names, types))
  {
    assert ColumnsParse(cols);
    assert names == ParseColumns(cols).value.names;
    assert types == ParseColumns(cols).value.types;
  }

  /** The parsed DDL, or `None` when the parse throws. */
  function ParseDdl(ddl: string): (d: Option<Ddl>)
    ensures d.Some? ==> DdlColumns(ddl).Some? && ColumnsParse(DdlColumns(ddl).value)
    ensures d.Some? ==> |d.value.names| == |d.value.types| == |DdlColumns(ddl).value| <= MAX_TABLE_COLUMNS
    ensures d.Some? ==> forall i :: 0 <= i < |d.value.names| ==>
      d.value.names[i] == ColumnParts(DdlColumns(ddl).value[i])[0] &&
      d.value.types[i] == ColumnType(ColumnParts(DdlColumns(ddl).value[i])[1])
    ensures d.None? <==> DdlColumns(ddl).None? || !ColumnsParse(DdlColumns(ddl).value)
  {
    match DdlColumns(ddl)
    case None => Text.None
    case Some(cols) => ParseColumns(cols)
  }

  /** The entry of one listed column: its name, or "?", when the DDL defines it; nothing otherwise. */
  function Entry(c: string, names: seq<string>, mark: bool): string
  {
    if c in names then (if mark then "?" else c) else ""
  }

  /**
   * The column list (`mark` false) or the placeholder list (`mark` true): ", "
   * before every entry but the first, whether or not the entry is empty.
   */
  function Listing(cs: seq<string>, names: seq<string>, mark: bool): string
    decreases |cs|
  {
    if |cs| == 0 then ""
    else if |cs| == 1 then Entry(cs[0], names, mark)
    else Listing(cs[..|cs| - 1], names, mark) + ", " + Entry(cs[|cs| - 1], names, mark)
  }

  /** The number of listed columns the DDL defines. */
  function Found(cs: seq<string>, names: seq<string>): (n: nat)
    ensures n <= |cs|
    decreases |cs|
  {
    if |cs| == 0 then 0 else Found(cs[..|cs| - 1], names) + (if cs[|cs| - 1] in names then 1 else 0)
  }

  /** The statement: the listed columns of `IOT_<TABLE>` and their placeholders. */
  function InsertText(tableName: string, cs: seq<string>, names: seq<string>): string
  {
    "INSERT INTO IOT_" + Text.Upper(tableName) + " (" + Listing(cs, names, false) + ") VALUES (" +
    Listing(cs, names, true) + ")"
  }

  /** The placeholder list holds one "?" per listed column the DDL defines. */
  lemma {:induction false} ListingMarks(cs: seq<string>, names: seq<string>)
    ensures Text.Count(Listing(cs, names, true), '?') == Found(cs, names)
    decreases |cs|
  {
    if |cs| == 1 {
      assert Text.Count("", '?') == 0;
      assert Text.Count("?", '?') == 1 by { assert "?"[1..] == ""; }
    } else if |cs| > 1 {
      var front := cs[..|cs| - 1];
      var e := Entry(cs[|cs| - 1], names, true);
      ListingMarks(front, names);
      Text.CountAppend(Listing(front, names, true) + ", ", e, '?');
      Text.CountAppend(Listing(front, names, true), ", ", '?');
      Text.CountFree(", ", '?');
      assert Text.Count("", '?') == 0;
      assert Text.Count("?", '?') == 1 by { assert "?"[1..] == ""; }
    }
  }

  /** Column names free of "?" give a column list free of "?". */
  lemma {:induction false} ListingNamesFree(cs: seq<string>, names: seq<string>)
    requires forall j :: 0 <= j < |cs| ==> '?' !in cs[j]
    ensures '?' !in Listing(cs, names, false)
    decreases |cs|
  {
    if |cs| > 1 {
      ListingNamesFree(cs[..|cs| - 1], names);
    }
  }

  /** When the DDL defines every listed column, the column list is the list joined by ", ". */
  lemma {:induction false} ListingAllFound(cs: seq<string>, names: seq<string>)
    requires forall j :: 0 <= j < |cs| ==> cs[j] in names
    ensures Listing(cs, names, false) == Text.Join(cs, ", ")
    ensures Found(cs, names) == |cs|
    decreases |cs|
  {
    if |cs| > 1 {
      var front := cs[..|cs| - 1];
      ListingAllFound(front, names);
      Text.JoinSnoc(front, cs[|cs| - 1], ", ");
      assert front + [cs[|cs| - 1]] == cs;
    }
  }

  /**
   * With a table name and column names free of "?", the statement has exactly one
   * placeholder per listed column the DDL defines.
   */
  lemma InsertPlaceholders(tableName: string, cs: seq<string>, names: seq<string>)
    requires '?' !in tableName
    requires forall j :: 0 <= j < |cs| ==> '?' !in cs[j]
    ensures Text.Count(InsertText(tableName, cs, names), '?') == Found(cs, names)
  {
    var head := "INSERT INTO IOT_" + Text.Upper(tableName) + " (";
    Schema.UpperQuestionFree(tableName);
    assert '?' !in head;
    ListingNamesFree(cs, names);
    ListingMarks(cs, names);
    var a := head + Listing(cs, names, false) + ") VALUES (";
    assert '?' !in a;
    Text.CountFree(a, '?');
    Text.CountFree(")", '?');
    Text.CountAppend(a, Listing(cs, names, true), '?');
    Text.CountAppend(a + Listing(cs, names, true), ")", '?');
  }

  /** The position of the first definition of `c`. */
  function FirstIndex(names: seq<string>, c: string): (k: nat)
    requires c in names
    ensures k < |names| && names[k] == c
    ensures forall i :: 0 <= i < k ==> names[i] != c
  {
    if names[0] == c then 0 else 1 + FirstIndex(names[1..], c)
  }

  /**
   * The binding types after the statement is built: the slot of each listed column
   * the DDL defines takes the type of its first definition; the other slots keep
   * what they held.
   */
  function TypesAfter(ctype: seq<string>, cs: seq<string>, d: Ddl): (t: seq<string>)
    requires |d.names| == |d.types|
    ensures |t| == |ctype|
    ensures forall j :: 0 <= j < |ctype| && j < |cs| && cs[j] in d.names ==> t[j] == d.types[FirstIndex(d.names, cs[j])]
    ensures forall j :: 0 <= j < |ctype| && !(j < |cs| && cs[j] in d.names) ==> t[j] == ctype[j]
  {
    seq(|ctype|, j requires 0 <= j < |ctype| =>
      if j < |cs| && cs[j] in d.names then d.types[FirstIndex(d.names, cs[j])] else ctype[j])
  }

  /** No listed column past the array's end is defined: the build does not overrun the type array. */
  predicate BuildFits(cs: seq<string>, names: seq<string>)
  {
    forall j :: MAX_TABLE_COLUMNS <= j < |cs| ==> cs[j] !in names
  }

  /** The statement built from a DDL text, or `None` when the build throws. */
  function PreparedSQL(ddl: string, tableName: string, cs: seq<string>): Option<string>
  {
    match ParseDdl(ddl)
    case None => Text.None
    case Some(d) => if BuildFits(cs, d.names) then Text.Some(InsertText(tableName, cs, d.names)) else Text.None
  }

  // ---------------------------------------------------------------------------
  // Binding one processed line
  // ---------------------------------------------------------------------------

  /**
   * The parameter one field binds under its column's type; `None` when the number
   * or timestamp parse throws. A slot of any other type (a column the DDL did not
   * define) binds nothing: the statement keeps what the previous row bound there.
   */
  function BindField(t: string, text: string, env: Schema.Env): Option<Param>
  {
    if t == "char" then Text.Some(PString(text))
    else if t == "double" then (if env.isDouble(text) then Text.Some(PDouble(text)) else Text.None)
    else if t == "timestamp" then (if env.isStamp(text) then Text.Some(PTimestamp(text)) else Text.None)
    else Text.Some(PUnset)
  }

  predicate FieldsBind(ctype: seq<string>, fields: seq<string>, env: Schema.Env)
    requires |fields| <= |ctype|
  {
    forall i :: 0 <= i < |fields| ==> BindField(ctype[i], fields[i], env).Some?
  }

  function Params(ctype: seq<string>, fields: seq<string>, env: Schema.Env): (ps: seq<Param>)
    requires |fields| <= |ctype| && FieldsBind(ctype, fields, env)
    ensures |ps| == |fields|
    ensures forall i :: 0 <= i < |fields| ==> Text.Some(ps[i]) == BindField(ctype[i], fields[i], env)
  {
    seq(|fields|, i requires 0 <= i < |fields| => BindField(ctype[i], fields[i], env).value)
  }

  /**
   * The parameters of one processed line: its comma-separated fields bound at
   * positions 1, 2, ...; `None` when a field lies past the type array or does not
   * parse.
   */
  function LineParams(ctype: seq<string>, line: string, env: Schema.Env): Option<Jdbc.Bound>
  {
    var fields := Text.JavaSplit(line, ',');
    if |fields| > |ctype| || !FieldsBind(ctype, fields, env) then Text.None
    else Text.Some(Params(ctype, fields, env))
  }

  function LineRows(ctype: seq<string>, lines: seq<string>, env: Schema.Env): (rows: seq<Option<Jdbc.Bound>>)
    ensures |rows| == |lines|
    ensures forall k :: 0 <= k < |lines| ==> rows[k] == LineParams(ctype, lines[k], env)
  {
    seq(|lines|, k requires 0 <= k < |lines| => LineParams(ctype, lines[k], env))
  }

  /** A line whose columns are all text binds each of its fields as text, in order. */
  lemma TextLineBinds(ctype: seq<string>, line: string, env: Schema.Env)
    requires |Text.JavaSplit(line, ',')| <= |ctype|
    requires forall i :: 0 <= i < |ctype| ==> ctype[i] == "char"
    ensures var fields := Text.JavaSplit(line, ',');
      LineParams(ctype, line, env).Some? && |LineParams(ctype, line, env).value| == |fields| &&
      forall i :: 0 <= i < |fields| ==> LineParams(ctype, line, env).value[i] == PString(fields[i])
  {
    var fields := Text.JavaSplit(line, ',');
    assert FieldsBind(ctype, fields, env);
  }

  // ---------------------------------------------------------------------------
  // The offset file and the chunk query
  // ---------------------------------------------------------------------------

  /** The offset record: the start date, the row the next chunk starts at, and the last end time. */
  datatype OffsetRec = OffsetRec(startDate: string, startRow: int, lastEndTS: int)

  /** The text of the record written after a chunk. */
  function OffsetText(r: OffsetRec): string
  {
    "{\"startDate\":\"" + r.startDate + "\", \"startRow\":" + Text.DecimalText(r.startRow) +
    ", \"lastEndTS\":" + Text.DecimalText(r.lastEndTS) + " }"
  }

  /** The text of the record written when the source table does not exist. */
  function NoTableText(startDate: string): string
  {
    "{\"startDate\":\"" + startDate + "\",\"startRow\":0,\"lastEndTS\":-1}"
  }

  /** The start row the query uses: MySQL takes it as it is, other databases raise 0 to 1. */
  function QueryStartRow(dbType: string, startRow: int): (s: int)
    ensures dbType == "mysql" ==> s == startRow
    ensures dbType != "mysql" ==> s != 0 && (startRow != 0 ==> s == startRow)
  {
    if dbType == "mysql" || startRow != 0 then startRow else 1
  }

  /** The paging suffix of the chunk query. */
  function LimitSuffix(dbType: string, startRow: int, chunkSize: int): string
  {
    if dbType == "mysql" then " LIMIT " + Text.DecimalText(startRow) + "," + Text.DecimalText(chunkSize)
    else " LIMIT OFFSET " + Text.DecimalText(QueryStartRow(dbType, startRow)) + " ROWS FETCH NEXT " +
         Text.DecimalText(chunkSize) + " ROWS ONLY"
  }

  /** A chunk query: it threw with an SQL error code, or it fetched `nRows` rows. */
  datatype Chunk =
    | ChunkFailed(errorCode: int)
    /**
     * `inserted` is what the batch insert of the processed file returned, `lastStamp`
     * the time stamp of the last row, and `now` the clock after the query.
     */
    | ChunkRows(nRows: int, inserted: int, lastStamp: int, now: int)

  /** The offset file, its text, and the loop's start date and last clock reading. */
  datatype UploadState = UploadState(offset: Option<OffsetRec>, offsetText: string, startDate: string, lastTm: int)

  /** The rows a chunk counts as uploaded: the insert's result in upload mode, otherwise the rows fetched. */
  function Uploaded(runMode: int, nRows: int, inserted: int): int
  {
    if nRows > 0 && runMode == RUN_MODE_UPLOAD then inserted else nRows
  }

  /**
   * One pass of the chunk loop: read the offset file, query, and record the outcome.
   * A failed query ends the loop, and error 1146 first rewrites the offset file
   * with start row 0. A chunk that uploaded rows, or fetched none, writes the
   * processed record, and the next start row is this chunk's start row plus that
   * record; the loop goes on only after a full chunk outside test mode. A chunk
   * that fetched rows but uploaded none leaves no record, so it reads as "not
   * uploaded": the loop ends, writing the offset file with a moved end time when an
   * earlier chunk has set the clock.
   */
  function ChunkStep(dbType: string, chunkSize: int, runMode: int, s: UploadState, c: Chunk): (r: (UploadState, bool))
    ensures c.ChunkFailed? && c.errorCode == ERR_NO_SUCH_TABLE ==>
      !r.1 && r.0.offset.Some? && r.0.offset.value.startRow == 0 && r.0.offset.value.lastEndTS == -1
    ensures c.ChunkFailed? && c.errorCode != ERR_NO_SUCH_TABLE ==> !r.1 && r.0.offset == s.offset
    ensures c.ChunkRows? && c.nRows < chunkSize ==> !r.1
    ensures runMode == RUN_MODE_TEST ==> !r.1
    ensures r.1 ==> c.ChunkRows? && (Uploaded(runMode, c.nRows, c.inserted) > 0 || c.nRows == 0)
    ensures c.ChunkRows? && (Uploaded(runMode, c.nRows, c.inserted) > 0 || c.nRows == 0) ==>
      r.0.offset.Some? &&
      r.0.offset.value.startRow ==
        QueryStartRow(dbType, if s.offset.Some? then s.offset.value.startRow else 0) +
        Uploaded(runMode, c.nRows, c.inserted)
  {
    var startDate := if s.offset.Some? then s.offset.value.startDate else s.startDate;
    var startRow := QueryStartRow(dbType, if s.offset.Some? then s.offset.value.startRow else 0);
    match c
    case ChunkFailed(code) =>
      if code == ERR_NO_SUCH_TABLE then
        (UploadState(Text.Some(OffsetRec(startDate, 0, -1)), NoTableText(startDate), startDate, s.lastTm), false)
      else (s.(startDate := startDate), false)
    case ChunkRows(nRows, inserted, lastStamp, now) =>
      RowsStep(chunkSize, runMode, s.(startDate := startDate), startRow, nRows, inserted, lastStamp, now)
  }

  /** The record of a chunk that fetched rows, from the start row its query used. */
  function RowsStep(chunkSize: int, runMode: int, s: UploadState, startRow: int,
                    nRows: int, inserted: int, lastStamp: int, now: int): (UploadState, bool)
  {
    var nuploaded := Uploaded(runMode, nRows, inserted);
    if nuploaded > 0 || nRows == 0 then
      var rec := OffsetRec(s.startDate, startRow + nuploaded, lastStamp);
      (UploadState(Text.Some(rec), OffsetText(rec), s.startDate, now), nRows >= chunkSize && runMode != RUN_MODE_TEST)
    else if s.lastTm == 0 then (s.(lastTm := now), false)
    else
      var rec := OffsetRec(s.startDate, startRow, lastStamp + (now - s.lastTm));
      (UploadState(Text.Some(rec), OffsetText(rec), s.startDate, now), false)
  }

  /** Chunks `k..` until one ends the loop: the final state and the number of chunks run. */
  function UploadFrom(dbType: string, chunkSize: int, runMode: int, s: UploadState, cs: seq<Chunk>, k: nat)
    : (r: (UploadState, nat))
    requires k <= |cs|
    ensures k <= r.1 <= |cs|
    decreases |cs| - k
  {
    if k == |cs| then (s, k)
    else
      var (s1, more) := ChunkStep(dbType, chunkSize, runMode, s, cs[k]);
      if more then UploadFrom(dbType, chunkSize, runMode, s1, cs, k + 1) else (s1, k + 1)
  }

  /**
   * Every chunk the loop moves past fetched a full chunk of rows: only the last
   * chunk run may be short, fail, or upload nothing.
   */
  lemma {:induction false} UploadFullChunks(dbType: string, chunkSize: int, runMode: int, s: UploadState,
                                            cs: seq<Chunk>, k: nat)
    requires k <= |cs|
    ensures var n := UploadFrom(dbType, chunkSize, runMode, s, cs, k).1;
      forall j :: k <= j < n - 1 ==> cs[j].ChunkRows? && cs[j].nRows >= chunkSize
    decreases |cs| - k
  {
    if k < |cs| {
      var (s1, more) := ChunkStep(dbType, chunkSize, runMode, s, cs[k]);
      if more {
        UploadFullChunks(dbType, chunkSize, runMode, s1, cs, k + 1);
      }
    }
  }

  /** In test mode the loop runs at most one chunk. */
  lemma TestModeOneChunk(dbType: string, chunkSize: int, s: UploadState, cs: seq<Chunk>)
    requires |cs| >= 1
    ensures UploadFrom(dbType, chunkSize, RUN_MODE_TEST, s, cs, 0).1 == 1
  {
    var (s1, more) := ChunkStep(dbType, chunkSize, RUN_MODE_TEST, s, cs[0]);
    assert !more;
  }

  /** The binding types after a statement is prepared from `ddl`: unchanged when the DDL does not parse. */
  function TypesPrepared(ctype: seq<string>, ddl: string, cs: seq<string>): (t: seq<string>)
    ensures |t| == |ctype|
  {
    match ParseDdl(ddl)
    case None => ctype
    case Some(d) => TypesAfter(ctype, cs, d)
  }

  /**
   * What `batchInsert` returns on an open connection with a prepared statement: -1
   * for an empty file, 0 when the final flush throws, and otherwise the data lines
   * counted under the break policy (the first line is the header).
   */
  function InsertOutcome(ctype: seq<string>, lines: seq<string>, size: nat, accepts: nat -> bool, env: Schema.Env): int
  {
    if |lines| == 0 then -1
    else
      var r := Batches.BreakFrom(LineRows(ctype, lines[1..], env), 0, Batches.Start, size, accepts);
      if Batches.Flush(r, accepts).1 then 0 else r.processed
  }

  /**
   * The count `batchInsert` reports never exceeds the data lines that bind before
   * the first one that does not, is -1 only for an empty file, and is exactly that
   * prefix when every execution is accepted.
   */
  lemma InsertOutcomeBounds(ctype: seq<string>, lines: seq<string>, size: nat, accepts: nat -> bool, env: Schema.Env)
    ensures InsertOutcome(ctype, lines, size, accepts, env) == -1 <==> |lines| == 0
    ensures |lines| >= 1 ==>
      0 <= InsertOutcome(ctype, lines, size, accepts, env) <= Batches.BindPrefix(LineRows(ctype, lines[1..], env)) <= |lines| - 1
    ensures |lines| >= 1 && (forall c :: accepts(c)) ==>
      InsertOutcome(ctype, lines, size, accepts, env) == Batches.BindPrefix(LineRows(ctype, lines[1..], env))
  {
    if |lines| >= 1 {
      Batches.BreakResult(LineRows(ctype, lines[1..], env), size, accepts);
    }
  }

  /** The number of rows a run of chunks records as uploaded. */
  function UploadedTotal(runMode: int, cs: seq<Chunk>): int
  {
    if |cs| == 0 then 0
    else (if cs[0].ChunkRows? then Uploaded(runMode, cs[0].nRows, cs[0].inserted) else 0) + UploadedTotal(runMode, cs[1..])
  }

  /**
   * When every chunk uploads rows, the offset file's start row moves on by exactly
   * the rows uploaded: the next run resumes where this one stopped.
   */
  lemma {:induction false} UploadAdvances(dbType: string, chunkSize: int, runMode: int, s: UploadState,
                                          cs: seq<Chunk>, k: nat)
    requires k <= |cs| && s.offset.Some?
    requires dbType == "mysql" || s.offset.value.startRow >= 1
    requires forall j :: k <= j < |cs| ==> cs[j].ChunkRows? && Uploaded(runMode, cs[j].nRows, cs[j].inserted) > 0
    ensures var r := UploadFrom(dbType, chunkSize, runMode, s, cs, k);
      r.0.offset.Some? && r.0.offset.value.startRow == s.offset.value.startRow + UploadedTotal(runMode, cs[k..r.1])
    decreases |cs| - k
  {
    var r := UploadFrom(dbType, chunkSize, runMode, s, cs, k);
    if k == |cs| {
      assert cs[k..r.1] == [];
    } else {
      var (s1, more) := ChunkStep(dbType, chunkSize, runMode, s, cs[k]);
      assert cs[k..r.1][0] == cs[k];
      if more {
        UploadAdvances(dbType, chunkSize, runMode, s1, cs, k + 1);
        assert cs[k..r.1][1..] == cs[k + 1..r.1];
      } else {
        assert cs[k..r.1] == [cs[k]];
        assert cs[k..r.1][1..] == [];
      }
    }
  }

  // ---------------------------------------------------------------------------
  // The uploader's static state
  // ---------------------------------------------------------------------------

  class DBConnector {
    /** The cached INSERT statement; empty until a build succeeds. */
    var insertSQL: string
    /** The binding type of each listed column, by list position. */
    const ctype: array<string>
    /** The number of column definitions in the DDL last read. */
    var colsProcessed: int
    /** The destination columns, as the data lake lists them. */
    const collist: seq<string>
    const tableName: string
    const dbType: string
    const chunkSize: int
    const batchInsertSize: int
    const runMode: int
    /** The runtime's number and timestamp parsers. */
    const env: Schema.Env
    /** The offset file: `None` while it does not exist. */
    var offset: Option<OffsetRec>
    var offsetText: string

    /** The static state before the first chunk: no statement, an empty type array, no offset file. */
    constructor (collist: seq<string>, tableName: string, dbType: string, chunkSize: int, batchInsertSize: int,
                 runMode: int, env: Schema.Env)
      ensures this.collist == collist && this.tableName == tableName && this.dbType == dbType
      ensures this.chunkSize == chunkSize && this.batchInsertSize == batchInsertSize && this.runMode == runMode
      ensures this.env == env
      ensures insertSQL == "" && colsProcessed == 0 && offset.None? && offsetText == ""
      ensures fresh(ctype) && ctype.Length == MAX_TABLE_COLUMNS && forall j :: 0 <= j < ctype.Length ==> ctype[j] == ""
    {
      this.collist := collist;
      this.tableName := tableName;
      this.dbType := dbType;
      this.chunkSize := chunkSize;
      this.batchInsertSize := batchInsertSize;
      this.runMode := runMode;
      this.env := env;
      insertSQL := "";
      ctype := new string[MAX_TABLE_COLUMNS](_ => "");
      colsProcessed := 0;
      offset := Text.None;
      offsetText := "";
    }

    /**
     * Reads the DDL: the column definitions after the first "(", each one's first
     * word as its name and its second word's binding type, into arrays of
     * `MAX_TABLE_COLUMNS` slots; `None` when the parse throws. The number of
     * definitions is recorded before they are read.
     */
    method ReadDdl(ddl: string) returns (d: Option<Ddl>)
      modifies this`colsProcessed
      ensures d == ParseDdl(ddl)
      ensures colsProcessed == if DdlColumns(ddl).Some? then |DdlColumns(ddl).value| else old(colsProcessed)
    {
      var ddlParts := Text.JavaSplitFirst(ddl, '(');
      if |ddlParts| < 2 {
        return Text.None;
      }
      var columns := Text.JavaSplitRuns(ddlParts[1], ',');
      colsProcessed := |columns|;
      d := ReadColumns(columns);
    }

    /** The column loop of the DDL read, over arrays of `MAX_TABLE_COLUMNS` slots. */
    method ReadColumns(columns: seq<string>) returns (d: Option<Ddl>)
      ensures d == ParseColumns(columns)
    {
      var ddlcname := new string[MAX_TABLE_COLUMNS](_ => "");
      var ddlctype := new string[MAX_TABLE_COLUMNS](_ => "");
      var i := 0;
      while i < |columns|
        invariant 0 <= i <= |columns| && i <= MAX_TABLE_COLUMNS && ddlcname != ddlctype
        invariant Read(columns, ddlcname[..i], ddlctype[..i])
      {
        if i >= MAX_TABLE_COLUMNS {
          return Text.None;
        }
        var ok, name, t := ReadColumn(columns[i]);
        if !ok {
          return Text.None;
        }
        ReadStep(columns, ddlcname[..i], ddlctype[..i], name, t);
        ddlcname[i] := name;
        ddlctype[i] := t;
        assert ddlcname[..i + 1] == ddlcname[..i] + [name];
        assert ddlctype[..i + 1] == ddlctype[..i] + [t];
        i := i + 1;
      }
      assert ddlcname[..i] == ddlcname[..|columns|];
      ColumnsRead(columns, ddlcname[..|columns|], ddlctype[..|columns|]);
      d := Text.Some(Ddl(ddlcname[..|columns|], ddlctype[..|columns|]));
    }

    /** One column definition: its first word and its second word's binding type; `ok` false when it has fewer than two. */
    method ReadColumn(col: string) returns (ok: bool, name: string, t: string)
      ensures ok == (|ColumnParts(col)| >= 2)
      ensures ok ==> name == ColumnParts(col)[0] && t == ColumnType(ColumnParts(col)[1])
    {
      var colParts := Text.JavaSplit(Text.Trim(col), ' ');
      if |colParts| < 2 {
        return false, "", "";
      }
      name := colParts[0];
      t := TypeOf(colParts[1]);
      ok := true;
    }

    /** The binding type of one DDL type word, tested in the order DOUBLE, NUMBER, INTEGER, TIMESTAMP. */
    method TypeOf(typeText: string) returns (t: string)
      ensures t == ColumnType(typeText)
    {
      var u := Text.Upper(typeText);
      t := "char";
      if Text.Contains(u, "DOUBLE") {
        t := "double";
      } else if Text.Contains(u, "NUMBER") {
        t := "double";
      } else if Text.Contains(u, "INTEGER") {
        t := "double";
      } else if Text.Contains(u, "TIMESTAMP") {
        t := "timestamp";
      }
    }

    /** The first definition of `colName`, searched in definition order. */
    method FindColumn(names: seq<string>, colName: string) returns (found: bool, i: nat)
      ensures found == (colName in names)
      ensures found ==> i == FirstIndex(names, colName)
    {
      i := 0;
      while i < |names|
        invariant 0 <= i <= |names|
        invariant forall k :: 0 <= k < i ==> names[k] != colName
      {
        if colName == names[i] {
          return true, i;
        }
        i := i + 1;
      }
      return false, 0;
    }

    /**
     * Builds the statement over the listed columns: ", " before every entry but the
     * first, then the name and a "?" for each column the DDL defines, recording
     * its binding type in its slot. `ok` is false when a defined column lies past
     * the slots.
     */
    method BuildInsert(d: Ddl) returns (ok: bool, sql: string)
      requires |d.names| == |d.types| && ctype.Length == MAX_TABLE_COLUMNS
      modifies ctype
      ensures ok == BuildFits(collist, d.names)
      ensures ok ==> sql == InsertText(tableName, collist, d.names)
      ensures ctype[..] == TypesAfter(old(ctype[..]), collist, d)
    {
      ghost var before := ctype[..];
      var colnames := "";
      var vals := "";
      var j := 0;
      while j < |collist|
        invariant 0 <= j <= |collist|
        invariant colnames == Listing(collist[..j], d.names, false)
        invariant vals == Listing(collist[..j], d.names, true)
        invariant ctype[..] == TypesAfter(before, collist[..j], d)
        invariant forall k :: MAX_TABLE_COLUMNS <= k < j ==> collist[k] !in d.names
      {
        var fits;
        fits, colnames, vals := AddColumn(d, j, colnames, vals, before);
        if !fits {
          TypesStop(before, collist, j, d);
          return false, "";
        }
        j := j + 1;
      }
      assert collist[..j] == collist;
      sql := "INSERT INTO IOT_" + Text.Upper(tableName) + " (" + colnames + ") VALUES (" + vals + ")";
      ok := true;
    }

    /**
     * One listed column: the separators, then, when the DDL defines it, its name, a
     * "?" and its binding type. `fits` is false, and nothing is recorded, when a
     * defined column lies past the array's end.
     */
    method AddColumn(d: Ddl, j: nat, colnames: string, vals: string, ghost before: seq<string>)
      returns (fits: bool, colnames': string, vals': string)
      requires |d.names| == |d.types| && j < |collist| && |before| == ctype.Length
      requires ctype[..] == TypesAfter(before, collist[..j], d)
      modifies ctype
      ensures fits == (j < ctype.Length || collist[j] !in d.names)
      ensures !fits ==> ctype[..] == old(ctype[..])
      ensures fits ==> ctype[..] == TypesAfter(before, collist[..j + 1], d)
      ensures colnames == Listing(collist[..j], d.names, false) && fits ==>
              colnames' == Listing(collist[..j + 1], d.names, false)
      ensures vals == Listing(collist[..j], d.names, true) && fits ==>
              vals' == Listing(collist[..j + 1], d.names, true)
    {
      var colName := collist[j];
      ListingStep(collist, j, d.names, false);
      ListingStep(collist, j, d.names, true);
      colnames', vals' := colnames, vals;
      if j > 0 {
        colnames' := colnames' + ", ";
        vals' := vals' + ", ";
      }
      var found, i := FindColumn(d.names, colName);
      fits := true;
      if found {
        if j >= ctype.Length {
          return false, colnames', vals';
        }
        TypesStep(before, collist, j, d);
        ctype[j] := d.types[i];
        colnames' := colnames' + colName;
        vals' := vals' + "?";
      } else {
        TypesStep(before, collist, j, d);
      }
    }

    /**
     * The statement of `batchInsert`: built from the DDL only while none is cached.
     * `ok` is false when the build throws, leaving no statement.
     */
    method PrepareInsert(ddl: string) returns (ok: bool)
      requires ctype.Length == MAX_TABLE_COLUMNS
      modifies this`insertSQL, this`colsProcessed, ctype
      ensures old(insertSQL) != "" ==> ok && insertSQL == old(insertSQL) && ctype[..] == old(ctype[..])
      ensures old(insertSQL) == "" ==>
        ok == PreparedSQL(ddl, tableName, collist).Some? &&
        insertSQL == (if ok then PreparedSQL(ddl, tableName, collist).value else "") &&
        ctype[..] == TypesPrepared(old(ctype[..]), ddl, collist)
      ensures ok <==> insertSQL != ""
    {
      if insertSQL != "" {
        return true;
      }
      var d := ReadDdl(ddl);
      if d.None? {
        return false;
      }
      var sql;
      ok, sql := BuildInsert(d.value);
      if ok {
        insertSQL := sql;
      }
    }

    /**
     * Binds one processed line: its comma-separated fields at positions 1, 2, ...
     * by the type in each field's slot; `ok` is false when a field lies past the
     * slots or does not parse.
     */
    method BindLine(ps: Jdbc.PreparedStatement, line: string) returns (ok: bool)
      modifies ps`bound
      ensures ok == LineParams(ctype[..], line, env).Some?
      ensures ok ==> ps.bound == LineParams(ctype[..], line, env).value
    {
      var fields := Text.JavaSplit(line, ',');
      var params: seq<Param> := [];
      var i := 0;
      while i < |fields|
        invariant 0 <= i <= |fields| && i <= ctype.Length && |params| == i
        invariant forall k :: 0 <= k < i ==> BindField(ctype[k], fields[k], env) == Text.Some(params[k])
      {
        if i >= ctype.Length {
          return false;
        }
        var p := PUnset;
        if ctype[i] == "char" {
          p := PString(fields[i]);
        } else if ctype[i] == "double" {
          if !env.isDouble(fields[i]) {
            return false;
          }
          p := PDouble(fields[i]);
        } else if ctype[i] == "timestamp" {
          if !env.isStamp(fields[i]) {
            return false;
          }
          p := PTimestamp(fields[i]);
        }
        params := params + [p];
        i := i + 1;
      }
      assert params == Params(ctype[..], fields, env);
      ps.SetParams(params);
      ok := true;
    }

    /**
     * `batchInsert`: prepares the statement, then, on an open connection, skips the
     * header line, binds and batches each data line, executes every
     * `batchInsertSize` lines and stops at the first line or execution that throws;
     * a last execution sends what is pending. It answers the data lines counted, -1
     * for an empty file, and 0 when the statement cannot be built, the connection
     * fails, or the last execution throws.
     */
    method BatchInsert(ddl: string, lines: seq<string>, connected: bool, accepts: nat -> bool) returns (retval: int)
      requires ctype.Length == MAX_TABLE_COLUMNS
      modifies this`insertSQL, this`colsProcessed, ctype
      ensures old(insertSQL) != "" ==> insertSQL == old(insertSQL) && ctype[..] == old(ctype[..])
      ensures old(insertSQL) == "" ==>
        insertSQL == (if PreparedSQL(ddl, tableName, collist).Some? then PreparedSQL(ddl, tableName, collist).value else "") &&
        ctype[..] == TypesPrepared(old(ctype[..]), ddl, collist)
      ensures retval == if insertSQL == "" || !connected then 0
                        else InsertOutcome(ctype[..], lines, Batches.ChunkSize(batchInsertSize), accepts, env)
    {
      var ok := PrepareInsert(ddl);
      if !ok || !connected {
        return 0;
      }
      retval := InsertLines(lines, accepts);
    }

    /** The line loop of `batchInsert` and the last execution, on an open connection. */
    method InsertLines(lines: seq<string>, accepts: nat -> bool) returns (retval: int)
      ensures retval == InsertOutcome(ctype[..], lines, Batches.ChunkSize(batchInsertSize), accepts, env)
    {
      if |lines| == 0 {
        return -1;
      }
      var size := Batches.ChunkSize(batchInsertSize);
      var ps := new Jdbc.PreparedStatement();
      var rowsProcessed, batchCount, chunks := InsertAll(ps, lines, size, accepts);
      if batchCount > 0 {
        var flushed := ps.ExecuteBatch(accepts(chunks));
        if !flushed {
          return 0;
        }
        ps.ClearBatch();
      }
      retval := rowsProcessed - 1;
    }

    /**
     * The loop of `batchInsert` over the lines of the file, the first of which is
     * the header: the state it leaves is the break policy's run over the data lines.
     */
    method InsertAll(ps: Jdbc.PreparedStatement, lines: seq<string>, size: nat, accepts: nat -> bool)
      returns (rowsProcessed: int, batchCount: int, chunks: nat)
      requires |lines| > 0 && ps.batch == [] && ps.executed == []
      modifies ps
      ensures batchCount == |ps.batch|
      ensures var r := Batches.BreakFrom(LineRows(ctype[..], lines[1..], env), 0, Batches.Start, size, accepts);
        r.processed == rowsProcessed - 1 && r.pending == ps.batch && r.sent == ps.executed && r.chunks == chunks
    {
      ghost var rows := LineRows(ctype[..], lines[1..], env);
      ghost var r := Batches.BreakFrom(rows, 0, Batches.Start, size, accepts);
      rowsProcessed, batchCount, chunks := 0, 0, 0;
      var i := 0;
      while i < |lines|
        invariant 0 <= i <= |lines| && (i == 0 <==> rowsProcessed == 0)
        invariant batchCount == |ps.batch|
        invariant i == 0 ==> ps.batch == [] && ps.executed == [] && chunks == 0
        invariant i > 0 ==>
          r == Batches.BreakFrom(rows, i - 1, Batches.Load(rowsProcessed - 1, ps.batch, ps.executed, chunks, false),
                                 size, accepts)
      {
        if rowsProcessed == 0 {
          rowsProcessed := 1;
          i := i + 1;
          continue;
        }
        ghost var l := Batches.Load(rowsProcessed - 1, ps.batch, ps.executed, chunks, false);
        assert r == Batches.BreakFrom(rows, i, Batches.BreakStep(l, LineParams(ctype[..], lines[i], env), size, accepts),
                                      size, accepts) by {
          assert rows[i - 1] == LineParams(ctype[..], lines[i], env) by { assert lines[1..][i - 1] == lines[i]; }
        }
        var stop;
        stop, rowsProcessed, batchCount, chunks := InsertLine(ps, lines[i], rowsProcessed, batchCount, chunks, size, accepts);
        if stop {
          break;
        }
        i := i + 1;
      }
    }

    /**
     * One data line: bind it, add it to the batch, and execute the batch once it
     * holds `size` lines; `stop` when the binding or the execution throws. The
     * count includes the header line.
     */
    method InsertLine(ps: Jdbc.PreparedStatement, line: string, rowsProcessed: int, batchCount: int, chunks: nat,
                      size: nat, accepts: nat -> bool)
      returns (stop: bool, processed: int, count: int, executions: nat)
      requires batchCount == |ps.batch|
      modifies ps
      ensures count == |ps.batch| && processed >= rowsProcessed
      ensures Batches.BreakStep(Batches.Load(rowsProcessed - 1, old(ps.batch), old(ps.executed), chunks, false),
                                LineParams(ctype[..], line, env), size, accepts)
              == Batches.Load(processed - 1, ps.batch, ps.executed, executions, stop)
    {
      processed, count, executions := rowsProcessed, batchCount, chunks;
      var ok := BindLine(ps, line);
      if !ok {
        return true, processed, count, executions;
      }
      ps.AddBatch();
      count := count + 1;
      processed := processed + 1;
      stop := false;
      if count >= size {
        var executed := ps.ExecuteBatch(accepts(executions));
        executions := executions + 1;
        if !executed {
          return true, processed, count, executions;
        }
        ps.ClearBatch();
        count := 0;
      }
    }

    /**
     * One pass of the chunk loop, as `ChunkStep` describes it, also answering the
     * LIMIT clause of its query. `startDate` and `lastTm` are the loop's own
     * variables, carried from pass to pass.
     */
    method UploadChunk(c: Chunk, startDate: string, lastTm: int)
      returns (more: bool, startDate': string, lastTm': int, limitStr: string)
      modifies this`offset, this`offsetText
      ensures ChunkStep(dbType, chunkSize, runMode, UploadState(old(offset), old(offsetText), startDate, lastTm), c)
              == (UploadState(offset, offsetText, startDate', lastTm'), more)
      ensures limitStr == LimitSuffix(dbType, if old(offset).Some? then old(offset).value.startRow else 0, chunkSize)
    {
      startDate', lastTm' := startDate, lastTm;
      var startRow := 0;
      if offset.Some? {
        startRow := offset.value.startRow;
        startDate' := offset.value.startDate;
      }
      limitStr := LimitSuffix(dbType, startRow, chunkSize);
      if dbType != "mysql" && startRow == 0 {
        startRow := 1;
      }
      match c
      case ChunkFailed(code) =>
        if code == ERR_NO_SUCH_TABLE {
          offset := Text.Some(OffsetRec(startDate', 0, -1));
          offsetText := NoTableText(startDate');
        }
        more := false;
      case ChunkRows(nRows, inserted, lastStamp, now) =>
        more, lastTm' := RecordRows(startDate', startRow, lastTm', nRows, inserted, lastStamp, now);
    }

    /**
     * The record of a chunk that fetched rows: the processed record when rows were
     * uploaded or none were fetched, then the offset file, which moves on by the
     * processed count; without a processed record, the loop ends.
     */
    method RecordRows(startDate: string, startRow: int, lastTm: int, nRows: int, inserted: int, lastStamp: int, now: int)
      returns (more: bool, lastTm': int)
      modifies this`offset, this`offsetText
      ensures RowsStep(chunkSize, runMode, UploadState(old(offset), old(offsetText), startDate, lastTm), startRow,
                       nRows, inserted, lastStamp, now)
              == (UploadState(offset, offsetText, startDate, lastTm'), more)
    {
      lastTm' := lastTm;
      var nuploaded := nRows;
      if nRows > 0 && runMode == RUN_MODE_UPLOAD {
        nuploaded := inserted;
      }
      more := nRows >= chunkSize;
      var nprocessed := chunkSize;
      var uploaded := "N";
      if nuploaded > 0 || nRows == 0 {
        nprocessed, uploaded := nuploaded, "Y";
      }
      if uploaded == "N" {
        if lastTm' == 0 {
          lastTm' := now;
        } else {
          var rec := OffsetRec(startDate, startRow, lastStamp + (now - lastTm'));
          offset := Text.Some(rec);
          offsetText := OffsetText(rec);
          lastTm' := now;
        }
        return false, lastTm';
      }
      var rec := OffsetRec(startDate, startRow + nprocessed, lastStamp);
      offset := Text.Some(rec);
      offsetText := OffsetText(rec);
      lastTm' := now;
      if runMode == RUN_MODE_TEST {
        more := false;
      }
    }

    /**
     * The chunk loop of `upload`, over the outcomes of the queries it makes: it runs
     * passes until one ends the loop or the outcomes run out.
     */
    method Upload(chunks: seq<Chunk>) returns (n: nat)
      modifies this`offset, this`offsetText
      ensures var r := UploadFrom(dbType, chunkSize, runMode, UploadState(old(offset), old(offsetText), "", 0), chunks, 0);
        n == r.1 && offset == r.0.offset && offsetText == r.0.offsetText
    {
      ghost var s0 := UploadState(offset, offsetText, "", 0);
      var startDate := "";
      var lastTm := 0;
      var more := true;
      n := 0;
      while more && n < |chunks|
        invariant n <= |chunks| && (n == 0 ==> more && s0 == UploadState(offset, offsetText, startDate, lastTm))
        invariant UploadFrom(dbType, chunkSize, runMode, s0, chunks, 0) ==
          if more then UploadFrom(dbType, chunkSize, runMode, UploadState(offset, offsetText, startDate, lastTm), chunks, n)
          else (UploadState(offset, offsetText, startDate, lastTm), n)
      {
        var limitStr;
        more, startDate, lastTm, limitStr := UploadChunk(chunks[n], startDate, lastTm);
        n := n + 1;
      }
    }
  }

  /** The listing of one more column: a separator unless it is the first, then its entry. */
  lemma ListingStep(cs: seq<string>, j: nat, names: seq<string>, mark: bool)
    requires j < |cs|
    ensures Listing(cs[..j + 1], names, mark) ==
      (if j > 0 then Listing(cs[..j], names, mark) + ", " else "") + Entry(cs[j], names, mark)
  {
    assert cs[..j + 1][..j] == cs[..j];
  }

  /** The binding types after one more column: its slot takes the type of its definition, if any. */
  lemma TypesStep(ctype: seq<string>, cs: seq<string>, j: nat, d: Ddl)
    requires |d.names| == |d.types| && j < |cs|
    requires j < |ctype| || cs[j] !in d.names
    ensures TypesAfter(ctype, cs[..j + 1], d) ==
      if cs[j] in d.names then TypesAfter(ctype, cs[..j], d)[j := d.types[FirstIndex(d.names, cs[j])]]
      else TypesAfter(ctype, cs[..j], d)
  {
  }

  /** A defined column past the array's end: the slots before it are as far as the build got. */
  lemma TypesStop(ctype: seq<string>, cs: seq<string>, j: nat, d: Ddl)
    requires |d.names| == |d.types| && |ctype| <= j < |cs|
    ensures TypesAfter(ctype, cs, d) == TypesAfter(ctype, cs[..j], d)
  {
  }
}

=== FILE: db_helper.dfy ===
/**
 * The database helper the heartbeat and statistics writers use: the same
 * destination columns, INSERT statement and positional binding as the connector
 * configuration, and the connector-statistics columns and INSERT statement.
 */
module Helper {
  import Text
  import opened Constants
  import Schema
  import Jdbc
  import Columns
  import Configuration

  /**
   * The statistics INSERT text, a static field shared by every helper: it starts
   * empty and is filled in by the first call that needs it.
   */
  class StatsStatementCache {
    var sql: string

    constructor ()
      ensures sql == ""
    {
      sql := "";
    }
  }

  class DBHelper {
    const connectorType: int
    const installDir: string
    const dataDir: string
    const statsCache: StatsStatementCache

    /** Copies the connector kind and the directories out of the configuration. */
    constructor (connConfig: Configuration.Config, statsCache: StatsStatementCache)
      ensures connectorType == connConfig.connectorType
      ensures installDir == connConfig.installDir && dataDir == connConfig.dataDir
      ensures this.statsCache == statsCache
    {
      connectorType := connConfig.connectorType;
      installDir := connConfig.installDir;
      dataDir := connConfig.dataDir;
      this.statsCache := statsCache;
    }

    /** `getMonitorDBCols`: the same device or alarm list as the configuration's. */
    method GetMonitorDBCols() returns (cols: seq<string>)
      ensures cols == Schema.MonitorDBCols(connectorType)
      ensures |cols| == (if connectorType == CONNECTOR_DEVICE then 13 else 15)
      ensures Schema.Distinct(cols)
    {
      cols := Schema.MonitorDBCols(connectorType);
      Schema.MonitorColsDistinct(connectorType);
    }

    /**
     * `getMonitorInsertSQL(eType)`: the statement for the table of `eType`, built
     * afresh on every call, with one placeholder per destination column.
     */
    method GetMonitorInsertSQL(eType: string) returns (sql: string)
      ensures sql == Schema.MonitorInsertSQL(connectorType, eType)
      ensures '?' !in eType ==> Text.Count(sql, '?') == |Schema.MonitorDBCols(connectorType)|
    {
      sql := Schema.MonitorInsertSQL(connectorType, eType);
      if '?' !in eType {
        Schema.MonitorInsertPlaceholders(connectorType, eType);
      }
    }

    /**
     * `getMonitorPS`: the same positional binding as the configuration's; `ok` is
     * false when one of the bindings throws.
     */
    method GetMonitorPS(ps: Jdbc.PreparedStatement, sourceMap: Columns.ColumnMap, i: int, env: Schema.Env)
      returns (ok: bool)
      modifies ps`bound
      ensures ok == Schema.MonitorParams(connectorType, sourceMap, i, env).Some?
      ensures ok ==> ps.bound == Schema.MonitorParams(connectorType, sourceMap, i, env).value
      ensures ok ==> |ps.bound| == |Schema.MonitorDBCols(connectorType)|
    {
      var params := Schema.MonitorParams(connectorType, sourceMap, i, env);
      Schema.BindRowPositional(connectorType, Schema.MonitorDBCols(connectorType), sourceMap, i, env);
      ok := params.Some?;
      if ok {
        ps.SetParams(params.value);
      }
    }

    /** `getConnectorStatsDBCols`: the fourteen statistics columns. */
    method GetConnectorStatsDBCols() returns (cols: seq<string>)
      ensures cols == Schema.STATS_COLS && |cols| == 14
      ensures cols[|cols| - 2..] == ["RCV_TIMESTAMP_UTC", "UPDATED_UTC"]
    {
      cols := Schema.STATS_COLS;
    }

    /**
     * `getConectorStatsInsertSQL(eType)`: built for `eType` when the shared cache
     * is empty, otherwise the cached text whatever `eType` is now.
     */
    method GetConnectorStatsInsertSQL(eType: string) returns (sql: string)
      modifies statsCache`sql
      ensures sql == statsCache.sql != ""
      ensures old(statsCache.sql) == "" ==> sql == Schema.StatsInsertSQL(eType)
      ensures old(statsCache.sql) == "" && '?' !in eType ==> Text.Count(sql, '?') == 14
      ensures old(statsCache.sql) != "" ==> sql == old(statsCache.sql)
    {
      if statsCache.sql == "" {
        statsCache.sql := Schema.StatsInsertSQL(eType);
        if '?' !in eType {
          Schema.StatsInsertPlaceholders(eType);
        }
      }
      sql := statsCache.sql;
    }
  }

  /**
   * Two helpers sharing the cache: the entity type of the first call names the
   * table for both, even when the second asks for another one.
   */
  method StatsSQLFixedByFirstCall(a: DBHelper, b: DBHelper, firstType: string, secondType: string)
    returns (first: string, second: string)
    requires a.statsCache == b.statsCache && a.statsCache.sql == ""
    modifies a.statsCache
    ensures first == second == Schema.StatsInsertSQL(firstType)
  {
    first := a.GetConnectorStatsInsertSQL(firstType);
    second := b.GetConnectorStatsInsertSQL(secondType);
  }
}

=== FILE: device.dfy ===
/**
 * Device registration: the entries of a tag map become payload items of the bulk
 * device-add call, POSTed in arrays. The flush rule is the counter reaching 100
 * (99 staged devices) or the countdown of staged entries reaching exactly 1. The
 * countdown is checked after it is decremented, so the last staged device is
 * never POSTed, and a countdown that starts above the number of entries still to
 * stage never reaches 1 at all.
 */
module Devices {
  import Text
  import Schema
  import Tags
  import Bulk

  /** One item of the bulk-add payload; the three objects are always empty. */
  datatype DeviceItem = DeviceItem(
    typeId: string, deviceId: string, authToken: string,
    deviceInfo: map<string, string>, location: map<string, string>, metadata: map<string, string>)

  const DEVICE_API := "api/v0002/bulk/devices/add"
  /** The counter value at which the array is sent: 99 devices. */
  const DEVICE_BATCH := 100

  function CreateDeviceItem(typeId: string, deviceId: string, token: string): DeviceItem
  {
    DeviceItem(typeId, deviceId, token, map[], map[], map[])
  }

  /** The items for a list of device ids, one each, in order. */
  function Items(name: string, token: string, ids: seq<string>): seq<DeviceItem>
  {
    seq(|ids|, i requires 0 <= i < |ids| => CreateDeviceItem(name, ids[i], token))
  }

  /** One staged device, then the flush rule. */
  function StageDevice(s: Bulk.Staging<DeviceItem>, item: DeviceItem): Bulk.Staging<DeviceItem>
  {
    var t := Bulk.Push(s, [item]);
    if t.batchCount >= DEVICE_BATCH || t.remaining == 1 then Bulk.Flush(t) else t
  }

  /** Every item staged in order; the countdown drops by one per item. */
  function StageAll(s: Bulk.Staging<DeviceItem>, items: seq<DeviceItem>): (r: Bulk.Staging<DeviceItem>)
    ensures r.remaining == s.remaining - |items|
    decreases |items|
  {
    if |items| == 0 then s
    else StageDevice(StageAll(s, items[..|items| - 1]), items[|items| - 1])
  }

  /** The loop over cache entries: entries whose device status is not 0 are passed over. */
  function StageEntries(s: Bulk.Staging<DeviceItem>, name: string, token: string, recs: seq<Tags.TagRecord>)
    : Bulk.Staging<DeviceItem>
    decreases |recs|
  {
    if |recs| == 0 then s
    else
      VisitStep(StageEntries(s, name, token, recs[..|recs| - 1]), name, token, recs[|recs| - 1])
  }

  /** One entry of the loop over cache entries: staged when its device status is 0, passed over otherwise. */
  function VisitStep(s: Bulk.Staging<DeviceItem>, name: string, token: string, r: Tags.TagRecord)
    : Bulk.Staging<DeviceItem>
  {
    if r.deviceStatus == 0 then StageDevice(s, CreateDeviceItem(name, r.deviceId, token)) else s
  }

  /** The device ids of the entries whose device status is 0, in order. */
  function StagedIds(recs: seq<Tags.TagRecord>): (ids: seq<string>)
    ensures |ids| <= |recs|
    decreases |recs|
  {
    if |recs| == 0 then []
    else
      var r := recs[|recs| - 1];
      StagedIds(recs[..|recs| - 1]) + (if r.deviceStatus == 0 then [r.deviceId] else [])
  }

  /** An entry after the loop: a status of 0 becomes 1, nothing else changes. */
  function Flagged(r: Tags.TagRecord): Tags.TagRecord
  {
    if r.deviceStatus == 0 then r.(deviceStatus := 1) else r
  }

  /** The values of the keys of `order`, in that order. */
  function Ids(tagpaths: map<string, string>, order: seq<string>): seq<string>
    requires forall k :: k in order ==> k in tagpaths
  {
    seq(|order|, i requires 0 <= i < |order| => tagpaths[order[i]])
  }

  lemma ItemsSnoc(name: string, token: string, ids: seq<string>, id: string)
    ensures Items(name, token, ids + [id]) == Items(name, token, ids) + [CreateDeviceItem(name, id, token)]
  {
  }

  /**
   * Passing over an entry is invisible: the loop over entries stages exactly the
   * devices of the entries whose status is 0, in order, and the countdown drops
   * only for those.
   */
  lemma {:induction false} EntriesStageStagedIds(s: Bulk.Staging<DeviceItem>, name: string, token: string,
                                                 recs: seq<Tags.TagRecord>)
    ensures StageEntries(s, name, token, recs) == StageAll(s, Items(name, token, StagedIds(recs)))
    ensures StageEntries(s, name, token, recs).remaining == s.remaining - |StagedIds(recs)|
    decreases |recs|
  {
    if |recs| > 0 {
      var front := recs[..|recs| - 1];
      var r := recs[|recs| - 1];
      EntriesStageStagedIds(s, name, token, front);
      var ids := StagedIds(front);
      if r.deviceStatus == 0 {
        assert StagedIds(recs) == ids + [r.deviceId];
        ItemsSnoc(name, token, ids, r.deviceId);
        StageAllSnoc(s, Items(name, token, ids), CreateDeviceItem(name, r.deviceId, token));
      } else {
        assert StagedIds(recs) == ids;
      }
    }
  }

  /** The counter stays within 1..99 and every body sent holds between 1 and 99 devices. */
  predicate Batched(s: Bulk.Staging<DeviceItem>)
  {
    Bulk.Sized(s) && s.batchCount < DEVICE_BATCH &&
    forall k :: 0 <= k < |s.posts| ==> 1 <= |s.posts[k]| < DEVICE_BATCH
  }

  /** No POST carries more than 99 devices, and none is empty. */
  lemma {:induction false} StageAllBatched(s: Bulk.Staging<DeviceItem>, items: seq<DeviceItem>)
    requires Batched(s)
    ensures Batched(StageAll(s, items))
    decreases |items|
  {
    if |items| > 0 {
      var p := StageAll(s, items[..|items| - 1]);
      StageAllBatched(s, items[..|items| - 1]);
      var t := Bulk.Push(p, [items[|items| - 1]]);
      if t.batchCount >= DEVICE_BATCH || t.remaining == 1 {
        var f := Bulk.Flush(t);
        assert f.posts == p.posts + [t.staged];
      }
    }
  }

  /** One staged device is added to what is covered. */
  lemma StageDeviceCovers(s: Bulk.Staging<DeviceItem>, item: DeviceItem)
    requires Bulk.Sized(s)
    ensures Bulk.Sized(StageDevice(s, item))
    ensures Bulk.Covered(StageDevice(s, item)) == Bulk.Covered(s) + [item]
  {
    var t := Bulk.Push(s, [item]);
    Bulk.PushCovers(s, [item]);
    if t.batchCount >= DEVICE_BATCH || t.remaining == 1 {
      Bulk.FlushCovers(t);
    }
  }

  lemma StageAllSnoc(s: Bulk.Staging<DeviceItem>, front: seq<DeviceItem>, x: DeviceItem)
    ensures StageAll(s, front + [x]) == StageDevice(StageAll(s, front), x)
  {
    assert (front + [x])[..|front|] == front;
  }

  /** The bodies sent, followed by what is still pending, are the staged items in order. */
  lemma {:induction false} StageAllCovers(s: Bulk.Staging<DeviceItem>, items: seq<DeviceItem>)
    requires Bulk.Sized(s)
    ensures Bulk.Sized(StageAll(s, items))
    ensures Bulk.Covered(StageAll(s, items)) == Bulk.Covered(s) + items
    decreases |items|
  {
    if |items| > 0 {
      var front := items[..|items| - 1];
      assert items == front + [items[|items| - 1]];
      StageAllCovers(s, front);
      StageAllSnoc(s, front, items[|items| - 1]);
      StageDeviceCovers(StageAll(s, front), items[|items| - 1]);
    }
  }

  /**
   * With a countdown that starts at the number of devices staged (the map overload,
   * or no entry registered before), every device but the last is POSTed, in order,
   * and the last one is left in an array that is never sent.
   */
  lemma LastDeviceNeverPosted(items: seq<DeviceItem>)
    requires |items| >= 1
    ensures Bulk.Flatten(StageAll(Bulk.Start(|items|), items).posts) == items[..|items| - 1]
    ensures Bulk.Pending(StageAll(Bulk.Start(|items|), items)) == [items[|items| - 1]]
  {
    var n := |items|;
    Bulk.TakeLast(items, n);
    StageAllSnoc(Bulk.Start(n), items[..n - 1], items[n - 1]);
    FlushedBeforeLast(items);
  }

  /** When one device is left to stage, the countdown has just reached 1 and everything before it was sent. */
  lemma FlushedBeforeLast(items: seq<DeviceItem>)
    requires |items| >= 1
    ensures StageAll(Bulk.Start(|items|), items[..|items| - 1]).batchCount == 1
    ensures Bulk.Flatten(StageAll(Bulk.Start(|items|), items[..|items| - 1]).posts) == items[..|items| - 1]
  {
    var n := |items|;
    var start: Bulk.Staging<DeviceItem> := Bulk.Start(n);
    var front := items[..n - 1];
    StageAllCovers(start, front);
    if n >= 2 {
      Bulk.TakeLast(front, n - 1);
      StageAllSnoc(start, front[..n - 2], front[n - 2]);
      assert Bulk.Push(StageAll(start, front[..n - 2]), [front[n - 2]]).remaining == 1;
    }
    assert Bulk.Covered(start) == [];
    assert Bulk.Pending(StageAll(start, front)) == [];
    assert Bulk.Flatten(StageAll(start, front).posts) == Bulk.Covered(StageAll(start, front));
  }

  /**
   * With a countdown at least two above the number of devices to stage (two or
   * more entries registered before) and fewer than 99 of them, nothing is POSTed
   * although every one of them is staged.
   */
  lemma {:induction false} NothingPostedWhenRegistered(size: int, items: seq<DeviceItem>)
    requires size >= |items| + 2 && |items| < DEVICE_BATCH - 1
    ensures StageAll(Bulk.Start(size), items).posts == []
    ensures StageAll(Bulk.Start(size), items).batchCount == |items| + 1
    ensures Bulk.Pending(StageAll(Bulk.Start(size), items)) == items
    decreases |items|
  {
    if |items| > 0 {
      var start: Bulk.Staging<DeviceItem> := Bulk.Start(size);
      var front, x := items[..|items| - 1], items[|items| - 1];
      assert items == front + [x];
      NothingPostedWhenRegistered(size, front);
      StageAllSnoc(start, front, x);
      var p := StageAll(start, front);
      assert StageDevice(p, x) == Bulk.Push(p, [x]);
    }
  }

  /** Every device sent is an item of `createDeviceItem` for the given type and token, with empty objects. */
  lemma PostedItems(name: string, token: string, size: int, ids: seq<string>)
    ensures var sent := Bulk.Flatten(StageAll(Bulk.Start(size), Items(name, token, ids)).posts);
      |sent| <= |ids| &&
      forall k :: 0 <= k < |sent| ==>
        sent[k] == DeviceItem(name, ids[k], token, map[], map[], map[])
  {
    var items := Items(name, token, ids);
    var r := StageAll(Bulk.Start(size), items);
    StageAllCovers(Bulk.Start(size), items);
    var sent := Bulk.Flatten(r.posts);
    assert sent + Bulk.Pending(r) == items;
    forall k | 0 <= k < |sent|
      ensures sent[k] == DeviceItem(name, ids[k], token, map[], map[], map[])
    {
      assert items[k] == (sent + Bulk.Pending(r))[k];
    }
  }

  /**
   * The map overload counts down from the map's size, which is the number of keys
   * it visits, so the device of the last key visited is never POSTed.
   */
  lemma IdsLastNeverPosted(name: string, token: string, tagpaths: map<string, string>, order: seq<string>)
    requires Schema.Distinct(order) && (set k | k in order) == tagpaths.Keys && |order| >= 1
    ensures var items := Items(name, token, Ids(tagpaths, order));
      Bulk.Flatten(StageAll(Bulk.Start(|tagpaths|), items).posts) == items[..|order| - 1]
  {
    Schema.DistinctCard(order);
    LastDeviceNeverPosted(Items(name, token, Ids(tagpaths, order)));
  }

  /**
   * In the entries overload, when two or more entries were registered before and
   * fewer than 99 are new, no POST is made, while the new entries still end
   * flagged 1.
   */
  lemma EntriesNothingPosted(name: string, token: string, recs: seq<Tags.TagRecord>)
    requires |StagedIds(recs)| + 2 <= |recs| && |StagedIds(recs)| < DEVICE_BATCH - 1
    ensures StageEntries(Bulk.Start(|recs|), name, token, recs).posts == []
  {
    EntriesStageStagedIds(Bulk.Start(|recs|), name, token, recs);
    NothingPostedWhenRegistered(|recs|, Items(name, token, StagedIds(recs)));
  }

  /**
   * A device registrar for one device type: the bulk-add endpoint on the
   * organisation's platform host, and the bodies POSTed to it so far. The REST
   * client itself is not part of this model; a POST that throws is logged and
   * the loop goes on, so every attempt is recorded here as sent.
   */
  class Device {
    const client: string
    const deviceType: string
    const name: string
    const token: string
    const baseUrl: string
    const deviceAPI: string
    /** The bodies POSTed to `deviceAPI`, in order. */
    var posts: seq<seq<DeviceItem>>

    /** Keeps the names; the base URL is the organisation's platform host. */
    constructor (client: string, deviceType: string, name: string, orgId: string, token: string)
      ensures this.client == client && this.deviceType == deviceType && this.name == name && this.token == token
      ensures baseUrl == "https://" + orgId + ".internetofthings.ibmcloud.com/" && deviceAPI == DEVICE_API
      ensures posts == []
    {
      this.client := client;
      this.deviceType := deviceType;
      this.name := name;
      this.token := token;
      baseUrl := "https://" + orgId + ".internetofthings.ibmcloud.com/";
      deviceAPI := DEVICE_API;
      posts := [];
    }

    /** `restClient.post(deviceAPI, body)`: the attempt is recorded whether or not it throws. */
    method Post(body: seq<DeviceItem>)
      modifies this`posts
      ensures posts == old(posts) + [body]
    {
      posts := posts + [body];
    }

    /**
     * The loop's locals and the bodies POSTed since `base` agree with the staging
     * state `s`; the array only matters while the counter is not 1.
     */
    ghost predicate Mirrors(s: Bulk.Staging<DeviceItem>, base: seq<seq<DeviceItem>>,
                            batchCount: int, deviceObj: seq<DeviceItem>, totalDevices: int)
      reads this
    {
      batchCount == s.batchCount && totalDevices == s.remaining &&
      (batchCount != 1 ==> deviceObj == s.staged) && posts == base + s.posts
    }

    /**
     * One staged device (the loop has already started a new array when the counter
     * is 1): the item appended, counter up, countdown down, and the POST when the
     * flush rule fires.
     */
    method StageOne(ghost s: Bulk.Staging<DeviceItem>, ghost base: seq<seq<DeviceItem>>,
                    batchCount: int, deviceObj: seq<DeviceItem>, totalDevices: int, item: DeviceItem)
      returns (count: int, obj: seq<DeviceItem>, total: int)
      requires Mirrors(s, base, batchCount, deviceObj, totalDevices) && (batchCount == 1 ==> deviceObj == [])
      modifies this`posts
      ensures Mirrors(StageDevice(s, item), base, count, obj, total)
    {
      ghost var t := Bulk.Push(s, [item]);
      obj := deviceObj + [item];
      count := batchCount + 1;
      total := totalDevices - 1;
      assert obj == t.staged;
      if count >= DEVICE_BATCH || total == 1 {
        Post(obj);
        count := 1;
        assert StageDevice(s, item) == Bulk.Flush(t);
        assert posts == base + (s.posts + [obj]);
      } else {
        assert StageDevice(s, item) == t;
      }
    }

    /**
     * One entry of the cache: when its device status is 0 it is staged and flagged
     * 1; otherwise nothing changes.
     */
    method VisitEntry(td: Tags.TagData, ghost s: Bulk.Staging<DeviceItem>, ghost base: seq<seq<DeviceItem>>,
                      batchCount: int, deviceObj: seq<DeviceItem>, totalDevices: int)
      returns (count: int, obj: seq<DeviceItem>, total: int)
      requires Mirrors(s, base, batchCount, deviceObj, totalDevices) && (batchCount == 1 ==> deviceObj == [])
      modifies this`posts, td`deviceStatus
      ensures Mirrors(VisitStep(s, name, token, old(td.Record())), base, count, obj, total)
      ensures td.Record() == Flagged(old(td.Record()))
    {
      count, obj, total := batchCount, deviceObj, totalDevices;
      var id := td.deviceId;
      if td.deviceStatus == 0 {
        count, obj, total := StageOne(s, base, batchCount, deviceObj, totalDevices, CreateDeviceItem(name, id, token));
        td.SetDeviceStatus(1);
      }
    }

    /**
     * `apply(HashMap<String, String>)`: stages a device for every id of the map, in
     * the map's iteration order `order`, and POSTs by the flush rule.
     */
    method ApplyIds(tagpaths: map<string, string>, order: seq<string>)
      requires Schema.Distinct(order) && (set k | k in order) == tagpaths.Keys
      modifies this`posts
      ensures posts == old(posts) + StageAll(Bulk.Start(|tagpaths|), Items(name, token, Ids(tagpaths, order))).posts
    {
      ghost var items := Items(name, token, Ids(tagpaths, order));
      ghost var s := Bulk.Start(|tagpaths|);
      var batchCount := 1;
      var deviceObj: seq<DeviceItem> := [];
      var totalDevices := |tagpaths|;
      var i := 0;
      while i < |order|
        invariant 0 <= i <= |order|
        invariant s == StageAll(Bulk.Start(|tagpaths|), items[..i])
        invariant Mirrors(s, old(posts), batchCount, deviceObj, totalDevices)
      {
        if batchCount == 1 {
          deviceObj := [];
        }
        var id := tagpaths[order[i]];
        batchCount, deviceObj, totalDevices :=
          StageOne(s, old(posts), batchCount, deviceObj, totalDevices, CreateDeviceItem(name, id, token));
        Bulk.TakeLast(items, i + 1);
        StageAllSnoc(Bulk.Start(|tagpaths|), items[..i], items[i]);
        s := StageDevice(s, items[i]);
        i := i + 1;
      }
      assert items[..|order|] == items;
    }

    /**
     * `apply(ConcurrentHashMap<String, TagData>)`: visits the entries in the
     * iteration order `order`; an entry whose device status is 0 is staged and
     * flagged 1 at once, one whose status is not 0 is passed over without
     * touching the countdown. The flags stay even when the POST throws.
     */
    method ApplyEntries(cache: Tags.TagCache, order: seq<string>)
      requires Schema.Distinct(order) && (set k | k in order) == cache.entries.Keys
      requires forall i, j :: 0 <= i < j < |order| ==> cache.entries[order[i]] != cache.entries[order[j]]
      modifies this`posts, cache.entries.Values
      ensures posts ==
        old(posts) + StageEntries(Bulk.Start(|cache.entries|), name, token, Tags.Column(old(cache.View()), order)).posts
      ensures cache.entries == old(cache.entries)
      ensures forall k :: k in cache.entries ==> cache.entries[k].Record() == Flagged(old(cache.View())[k])
    {
      var entries := cache.entries;
      var tds := seq(|order|, j requires 0 <= j < |order| => entries[order[j]]);
      assert Tags.RecordsOf(tds) == Tags.Column(cache.View(), order);
      VisitAll(tds, |entries|);
      forall k | k in cache.entries
        ensures cache.entries[k].Record() == Flagged(old(cache.View())[k])
      {
        assert k in (set k | k in order);
        var j :| 0 <= j < |order| && order[j] == k;
        assert cache.entries[k] == tds[j];
      }
    }

    /**
     * The loop of `apply(ConcurrentHashMap<String, TagData>)` over the entries in
     * iteration order, with the countdown starting at `size`.
     */
    method VisitAll(tds: seq<Tags.TagData>, size: int)
      requires forall i, j :: 0 <= i < j < |tds| ==> tds[i] != tds[j]
      modifies this`posts, set td | td in tds
      ensures posts == old(posts) + StageEntries(Bulk.Start(size), name, token, old(Tags.RecordsOf(tds))).posts
      ensures forall j :: 0 <= j < |tds| ==> tds[j].Record() == Flagged(old(tds[j].Record()))
    {
      ghost var recs := Tags.RecordsOf(tds);
      ghost var s := Bulk.Start(size);
      var batchCount := 1;
      var deviceObj: seq<DeviceItem> := [];
      var totalDevices := size;
      var i := 0;
      while i < |tds|
        invariant 0 <= i <= |tds|
        invariant s == StageEntries(Bulk.Start(size), name, token, recs[..i])
        invariant Mirrors(s, old(posts), batchCount, deviceObj, totalDevices)
        invariant forall j :: 0 <= j < |tds| ==> tds[j].Record() == if j < i then Flagged(recs[j]) else recs[j]
      {
        if batchCount == 1 {
          deviceObj := [];
        }
        batchCount, deviceObj, totalDevices := VisitEntry(tds[i], s, old(posts), batchCount, deviceObj, totalDevices);
        Bulk.TakeLast(recs, i + 1);
        s := VisitStep(s, name, token, recs[i]);
        i := i + 1;
      }
      assert recs[..|tds|] == recs;
    }
  }
}

=== FILE: dimension.dfy ===
/**
 * Dimension registration: every entry of a tag map becomes a group of dimension
 * items (CLIENT, TAGPATH, then one LEVEL_i per "/"-separated level of the tag
 * path), POSTed in arrays to the entity type's dimensional endpoint. The flush
 * rule is the counter reaching 80 or the countdown of staged entries falling to 1
 * or below, so the last two staged entries are always sent.
 */
module Dimensions {
  import Text
  import Schema
  import Tags
  import Bulk

  /** One item of the dimensional payload. */
  datatype DimItem = DimItem(id: string, name: string, dimType: string, value: string)

  /** The counter value at or above which the array is sent. */
  const DIMENSION_BATCH := 80
  const LITERAL := "LITERAL"

  function CreateDimItem(id: string, name: string, dimType: string, value: string): DimItem
  {
    DimItem(id, name, dimType, value)
  }

  function LevelName(i: nat): string
  {
    "LEVEL_" + Text.DecimalText(i)
  }

  /** One LEVEL_i item per level, numbered from 0. */
  function Levels(id: string, levels: seq<string>): seq<DimItem>
  {
    seq(|levels|, i requires 0 <= i < |levels| => CreateDimItem(id, LevelName(i), LITERAL, levels[i]))
  }

  /** The items of one tag: CLIENT, TAGPATH, then its levels split on "/". */
  function TagItems(client: string, id: string, tagpath: string): seq<DimItem>
  {
    [CreateDimItem(id, "CLIENT", LITERAL, client), CreateDimItem(id, "TAGPATH", LITERAL, tagpath)]
      + Levels(id, Text.JavaSplit(tagpath, '/'))
  }

  /**
   * The items of a tag carry its id and the LITERAL type; for a tag path that does
   * not end with "/", the level values joined with "/" are the tag path again, and
   * no level holds a "/".
   */
  lemma TagItemsRebuild(client: string, id: string, tagpath: string)
    requires |tagpath| == 0 || tagpath[|tagpath| - 1] != '/'
    ensures var g := TagItems(client, id, tagpath);
      |g| >= 2 && g[0].name == "CLIENT" && g[0].value == client &&
      g[1].name == "TAGPATH" && g[1].value == tagpath &&
      (forall k :: 0 <= k < |g| ==> g[k].id == id && g[k].dimType == LITERAL) &&
      Text.Join(seq(|g| - 2, k requires 0 <= k < |g| - 2 => g[k + 2].value), "/") == tagpath &&
      forall k :: 2 <= k < |g| ==> g[k].name == LevelName(k - 2) && '/' !in g[k].value
  {
    var g := TagItems(client, id, tagpath);
    var levels := Text.JavaSplit(tagpath, '/');
    var ls := Levels(id, levels);
    assert g == [CreateDimItem(id, "CLIENT", LITERAL, client), CreateDimItem(id, "TAGPATH", LITERAL, tagpath)] + ls;
    assert |g| == 2 + |levels|;
    forall k | 2 <= k < |g|
      ensures g[k] == CreateDimItem(id, LevelName(k - 2), LITERAL, levels[k - 2])
    {
      assert g[k] == ls[k - 2];
    }
    Text.JavaSplitJoin(tagpath, '/');
    assert seq(|g| - 2, k requires 0 <= k < |g| - 2 => g[k + 2].value) == levels;
  }

  /** One staged tag, then the flush rule. */
  function StageTag(s: Bulk.Staging<DimItem>, group: seq<DimItem>): Bulk.Staging<DimItem>
  {
    var t := Bulk.Push(s, group);
    if t.batchCount >= DIMENSION_BATCH || t.remaining <= 1 then Bulk.Flush(t) else t
  }

  /** Every group staged in order; the countdown drops by one per group. */
  function StageAll(s: Bulk.Staging<DimItem>, groups: seq<seq<DimItem>>): (r: Bulk.Staging<DimItem>)
    ensures r.remaining == s.remaining - |groups|
    decreases |groups|
  {
    if |groups| == 0 then s
    else StageTag(StageAll(s, groups[..|groups| - 1]), groups[|groups| - 1])
  }

  /** The groups of the map overload: the key is the tag path, the value the id. */
  function Groups(client: string, tagpaths: map<string, string>, order: seq<string>): seq<seq<DimItem>>
    requires forall k :: k in order ==> k in tagpaths
  {
    seq(|order|, i requires 0 <= i < |order| => TagItems(client, tagpaths[order[i]], order[i]))
  }

  /** One entry of the loop over cache entries: staged when its dimension status is 0, passed over otherwise. */
  function VisitStep(s: Bulk.Staging<DimItem>, client: string, r: Tags.TagRecord): Bulk.Staging<DimItem>
  {
    if r.dimensionStatus == 0 then StageTag(s, TagItems(client, r.deviceId, r.tagpath)) else s
  }

  /** The loop over cache entries. */
  function StageEntries(s: Bulk.Staging<DimItem>, client: string, recs: seq<Tags.TagRecord>): Bulk.Staging<DimItem>
    decreases |recs|
  {
    if |recs| == 0 then s
    else VisitStep(StageEntries(s, client, recs[..|recs| - 1]), client, recs[|recs| - 1])
  }

  /** The groups of the entries whose dimension status is 0, in order. */
  function StagedGroups(client: string, recs: seq<Tags.TagRecord>): (gs: seq<seq<DimItem>>)
    ensures |gs| <= |recs|
    decreases |recs|
  {
    if |recs| == 0 then []
    else
      var r := recs[|recs| - 1];
      StagedGroups(client, recs[..|recs| - 1])
        + (if r.dimensionStatus == 0 then [TagItems(client, r.deviceId, r.tagpath)] else [])
  }

  /** An entry after the loop: a dimension status of 0 becomes 1, nothing else changes. */
  function Flagged(r: Tags.TagRecord): Tags.TagRecord
  {
    if r.dimensionStatus == 0 then r.(dimensionStatus := 1) else r
  }

  /** Every group holds at least the CLIENT and TAGPATH items. */
  predicate NonEmptyGroups(groups: seq<seq<DimItem>>)
  {
    forall k :: 0 <= k < |groups| ==> |groups[k]| >= 1
  }

  lemma StageAllSnoc(s: Bulk.Staging<DimItem>, front: seq<seq<DimItem>>, g: seq<DimItem>)
    ensures StageAll(s, front + [g]) == StageTag(StageAll(s, front), g)
  {
    assert (front + [g])[..|front|] == front;
  }

  /**
   * Passing over an entry is invisible: the loop over entries stages exactly the
   * groups of the entries whose status is 0, in order, and the countdown drops
   * only for those.
   */
  lemma {:induction false} EntriesStageStagedGroups(s: Bulk.Staging<DimItem>, client: string,
                                                    recs: seq<Tags.TagRecord>)
    ensures StageEntries(s, client, recs) == StageAll(s, StagedGroups(client, recs))
    ensures NonEmptyGroups(StagedGroups(client, recs))
    decreases |recs|
  {
    if |recs| > 0 {
      var front := recs[..|recs| - 1];
      var r := recs[|recs| - 1];
      EntriesStageStagedGroups(s, client, front);
      if r.dimensionStatus == 0 {
        assert StagedGroups(client, recs) == StagedGroups(client, front) + [TagItems(client, r.deviceId, r.tagpath)];
        StageAllSnoc(s, StagedGroups(client, front), TagItems(client, r.deviceId, r.tagpath));
      } else {
        assert StagedGroups(client, recs) == StagedGroups(client, front);
      }
    }
  }

  /** One staged group is added to what is covered. */
  lemma StageTagCovers(s: Bulk.Staging<DimItem>, g: seq<DimItem>)
    requires Bulk.Sized(s) && |g| >= 1
    ensures Bulk.Sized(StageTag(s, g))
    ensures Bulk.Covered(StageTag(s, g)) == Bulk.Covered(s) + g
  {
    var t := Bulk.Push(s, g);
    Bulk.PushCovers(s, g);
    if t.batchCount >= DIMENSION_BATCH || t.remaining <= 1 {
      Bulk.FlushCovers(t);
    }
  }

  /** The bodies sent, followed by what is still pending, are the staged groups' items in order. */
  lemma {:induction false} StageAllCovers(s: Bulk.Staging<DimItem>, groups: seq<seq<DimItem>>)
    requires Bulk.Sized(s) && NonEmptyGroups(groups)
    ensures Bulk.Sized(StageAll(s, groups))
    ensures Bulk.Covered(StageAll(s, groups)) == Bulk.Covered(s) + Bulk.Flatten(groups)
    decreases |groups|
  {
    if |groups| > 0 {
      var front, g := groups[..|groups| - 1], groups[|groups| - 1];
      assert groups == front + [g];
      StageAllCovers(s, front);
      StageAllSnoc(s, front, g);
      StageTagCovers(StageAll(s, front), g);
    }
  }

  /**
   * With a countdown that starts at the number of groups staged (the map overload,
   * or no entry registered before), every item is POSTed, in order, and the last
   * tag goes in a request of its own when there are two or more.
   */
  lemma AllPosted(groups: seq<seq<DimItem>>)
    requires |groups| >= 1 && NonEmptyGroups(groups)
    ensures Bulk.Flatten(StageAll(Bulk.Start(|groups|), groups).posts) == Bulk.Flatten(groups)
    ensures Bulk.Pending(StageAll(Bulk.Start(|groups|), groups)) == []
    ensures |groups| >= 2 ==> var posts := StageAll(Bulk.Start(|groups|), groups).posts;
      |posts| >= 1 && posts[|posts| - 1] == groups[|groups| - 1]
  {
    var n := |groups|;
    var start: Bulk.Staging<DimItem> := Bulk.Start(n);
    var front, g := groups[..n - 1], groups[n - 1];
    Bulk.TakeLast(groups, n);
    StageAllSnoc(start, front, g);
    StageAllCovers(start, groups);
    assert Bulk.Covered(start) == [];
    var p := StageAll(start, front);
    assert Bulk.Push(p, g).remaining == 0;
    assert StageTag(p, g) == Bulk.Flush(Bulk.Push(p, g));
    assert Bulk.Flatten(StageAll(start, groups).posts) == Bulk.Covered(StageAll(start, groups));
    if n >= 2 {
      Bulk.TakeLast(front, n - 1);
      StageAllSnoc(start, front[..n - 2], front[n - 2]);
      assert Bulk.Push(StageAll(start, front[..n - 2]), front[n - 2]).remaining == 1;
      assert p.batchCount == 1;
    }
  }

  /**
   * With a countdown at least two above the number of groups to stage (two or
   * more entries registered before) and fewer than 79 items in all, nothing is
   * POSTed although every group is staged.
   */
  lemma {:induction false} NothingPostedWhenRegistered(size: int, groups: seq<seq<DimItem>>)
    requires NonEmptyGroups(groups)
    requires size >= |groups| + 2 && |Bulk.Flatten(groups)| < DIMENSION_BATCH - 1
    ensures StageAll(Bulk.Start(size), groups).posts == []
    ensures StageAll(Bulk.Start(size), groups).batchCount == |Bulk.Flatten(groups)| + 1
    decreases |groups|
  {
    if |groups| > 0 {
      var start: Bulk.Staging<DimItem> := Bulk.Start(size);
      var front, g := groups[..|groups| - 1], groups[|groups| - 1];
      assert groups == front + [g];
      assert Bulk.Flatten(groups) == Bulk.Flatten(front) + g;
      NothingPostedWhenRegistered(size, front);
      StageAllSnoc(start, front, g);
      var p := StageAll(start, front);
      assert StageTag(p, g) == Bulk.Push(p, g);
    }
  }

  /** In the map overload the countdown starts at the number of keys visited, so every item is sent. */
  lemma IdsAllPosted(client: string, tagpaths: map<string, string>, order: seq<string>)
    requires Schema.Distinct(order) && (set k | k in order) == tagpaths.Keys && |order| >= 1
    ensures var groups := Groups(client, tagpaths, order);
      Bulk.Flatten(StageAll(Bulk.Start(|tagpaths|), groups).posts) == Bulk.Flatten(groups)
  {
    Schema.DistinctCard(order);
    AllPosted(Groups(client, tagpaths, order));
  }

  /**
   * In the entries overload, when two or more entries were registered before and
   * the new ones make fewer than 79 items, no POST is made, while the new entries
   * still end flagged 1.
   */
  lemma EntriesNothingPosted(client: string, recs: seq<Tags.TagRecord>)
    requires |StagedGroups(client, recs)| + 2 <= |recs|
    requires |Bulk.Flatten(StagedGroups(client, recs))| < DIMENSION_BATCH - 1
    ensures StageEntries(Bulk.Start(|recs|), client, recs).posts == []
  {
    EntriesStageStagedGroups(Bulk.Start(|recs|), client, recs);
    NothingPostedWhenRegistered(|recs|, StagedGroups(client, recs));
  }

  /**
   * A dimension registrar for one entity type: the dimensional endpoint of the
   * tenant on the regional host, and the bodies POSTed to it so far. The REST
   * client itself is not part of this model; a POST that throws is logged and
   * the loop goes on, so every attempt is recorded here as sent.
   */
  class Dimension {
    const client: string
    const deviceType: string
    const name: string
    const baseUrl: string
    const dimensionalAPI: string
    /** The bodies POSTed to `dimensionalAPI`, in order. */
    var posts: seq<seq<DimItem>>

    /** Keeps the names; the endpoint is the tenant's dimensional API for the entity type `name`. */
    constructor (client: string, deviceType: string, name: string, geo: string, tenantId: string)
      ensures this.client == client && this.deviceType == deviceType && this.name == name
      ensures baseUrl == "https://api-" + geo + ".connectedproducts.internetofthings.ibmcloud.com/api"
      ensures dimensionalAPI == "/master/v1/" + tenantId + "/entityType/" + name + "/dimensional"
      ensures posts == []
    {
      this.client := client;
      this.deviceType := deviceType;
      this.name := name;
      baseUrl := "https://api-" + geo + ".connectedproducts.internetofthings.ibmcloud.com/api";
      dimensionalAPI := "/master/v1/" + tenantId + "/entityType/" + name + "/dimensional";
      posts := [];
    }

    /** `restClient.post(dimensionalAPI, body)`: the attempt is recorded whether or not it throws. */
    method Post(body: seq<DimItem>)
      modifies this`posts
      ensures posts == old(posts) + [body]
    {
      posts := posts + [body];
    }

    /** The loop's locals and the bodies POSTed since `base` agree with the staging state `s`. */
    ghost predicate Mirrors(s: Bulk.Staging<DimItem>, base: seq<seq<DimItem>>,
                            batchCount: int, dimensionObj: seq<DimItem>, totalCount: int)
      reads this
    {
      batchCount == s.batchCount && totalCount == s.remaining &&
      (batchCount != 1 ==> dimensionObj == s.staged) && posts == base + s.posts
    }

    /** The inner loop: one LEVEL_i item per level, the counter up by one each. */
    method AddLevels(id: string, tagLevels: seq<string>, dimensionObj: seq<DimItem>, batchCount: int)
      returns (obj: seq<DimItem>, count: int)
      ensures obj == dimensionObj + Levels(id, tagLevels)
      ensures count == batchCount + |tagLevels|
    {
      obj, count := dimensionObj, batchCount;
      var levelCount := 0;
      while levelCount < |tagLevels|
        invariant 0 <= levelCount <= |tagLevels|
        invariant obj == dimensionObj + Levels(id, tagLevels[..levelCount])
        invariant count == batchCount + levelCount
      {
        obj := obj + [CreateDimItem(id, LevelName(levelCount), LITERAL, tagLevels[levelCount])];
        assert Levels(id, tagLevels[..levelCount + 1]) ==
               Levels(id, tagLevels[..levelCount]) + [CreateDimItem(id, LevelName(levelCount), LITERAL, tagLevels[levelCount])];
        levelCount := levelCount + 1;
        count := count + 1;
      }
      assert tagLevels[..|tagLevels|] == tagLevels;
    }

    /**
     * One staged tag (the loop has already started a new array when the counter is
     * 1): CLIENT and TAGPATH, the levels, the countdown down, and the POST when the
     * flush rule fires.
     */
    method StageOne(ghost s: Bulk.Staging<DimItem>, ghost base: seq<seq<DimItem>>,
                    batchCount: int, dimensionObj: seq<DimItem>, totalCount: int, id: string, tagpath: string)
      returns (count: int, obj: seq<DimItem>, total: int)
      requires Mirrors(s, base, batchCount, dimensionObj, totalCount) && (batchCount == 1 ==> dimensionObj == [])
      modifies this`posts
      ensures Mirrors(StageTag(s, TagItems(client, id, tagpath)), base, count, obj, total)
    {
      ghost var t := Bulk.Push(s, TagItems(client, id, tagpath));
      obj := dimensionObj + [CreateDimItem(id, "CLIENT", LITERAL, client), CreateDimItem(id, "TAGPATH", LITERAL, tagpath)];
      count := batchCount + 2;
      var tagLevels := Text.JavaSplit(tagpath, '/');
      obj, count := AddLevels(id, tagLevels, obj, count);
      total := totalCount - 1;
      assert obj == t.staged;
      if count >= DIMENSION_BATCH || total <= 1 {
        Post(obj);
        count := 1;
        assert StageTag(s, TagItems(client, id, tagpath)) == Bulk.Flush(t);
        assert posts == base + (s.posts + [obj]);
      } else {
        assert StageTag(s, TagItems(client, id, tagpath)) == t;
      }
    }

    /**
     * `apply(HashMap<String, String>)`: stages the items of every tag path of the
     * map, with its id, in the map's iteration order `order`, and POSTs by the
     * flush rule.
     */
    method ApplyIds(tagpaths: map<string, string>, order: seq<string>)
      requires Schema.Distinct(order) && (set k | k in order) == tagpaths.Keys
      modifies this`posts
      ensures posts == old(posts) + StageAll(Bulk.Start(|tagpaths|), Groups(client, tagpaths, order)).posts
    {
      ghost var groups := Groups(client, tagpaths, order);
      ghost var s := Bulk.Start(|tagpaths|);
      var batchCount := 1;
      var dimensionObj: seq<DimItem> := [];
      var totalCount := |tagpaths|;
      var i := 0;
      while i < |order|
        invariant 0 <= i <= |order|
        invariant s == StageAll(Bulk.Start(|tagpaths|), groups[..i])
        invariant Mirrors(s, old(posts), batchCount, dimensionObj, totalCount)
      {
        if batchCount == 1 {
          dimensionObj := [];
        }
        var tagpath := order[i];
        var id := tagpaths[tagpath];
        assert groups[i] == TagItems(client, id, tagpath);
        batchCount, dimensionObj, totalCount := StageOne(s, old(posts), batchCount, dimensionObj, totalCount, id, tagpath);
        Bulk.TakeLast(groups, i + 1);
        StageAllSnoc(Bulk.Start(|tagpaths|), groups[..i], groups[i]);
        s := StageTag(s, groups[i]);
        i := i + 1;
      }
      assert groups[..|order|] == groups;
    }

    /**
     * One entry of the cache: when its dimension status is 0 it is staged and
     * flagged 1 (before its levels are added); otherwise nothing changes.
     */
    method VisitEntry(td: Tags.TagData, ghost s: Bulk.Staging<DimItem>, ghost base: seq<seq<DimItem>>,
                      batchCount: int, dimensionObj: seq<DimItem>, totalCount: int)
      returns (count: int, obj: seq<DimItem>, total: int)
      requires Mirrors(s, base, batchCount, dimensionObj, totalCount) && (batchCount == 1 ==> dimensionObj == [])
      modifies this`posts, td`dimensionStatus
      ensures Mirrors(VisitStep(s, client, old(td.Record())), base, count, obj, total)
      ensures td.Record() == Flagged(old(td.Record()))
    {
      count, obj, total := batchCount, dimensionObj, totalCount;
      var id := td.deviceId;
      var tagpath := td.tagpath;
      if td.dimensionStatus == 0 {
        td.SetDimensionStatus(1);
        count, obj, total := StageOne(s, base, batchCount, dimensionObj, totalCount, id, tagpath);
      }
    }

    /**
     * `apply(ConcurrentHashMap<String, TagData>)`: visits the entries in the
     * iteration order `order`; an entry whose dimension status is 0 is staged and
     * flagged 1 at once, one whose status is not 0 is passed over without touching
     * the countdown. The flags stay even when the POST throws.
     */
    method ApplyEntries(cache: Tags.TagCache, order: seq<string>)
      requires Schema.Distinct(order) && (set k | k in order) == cache.entries.Keys
      requires forall i, j :: 0 <= i < j < |order| ==> cache.entries[order[i]] != cache.entries[order[j]]
      modifies this`posts, cache.entries.Values
      ensures posts ==
        old(posts) + StageEntries(Bulk.Start(|cache.entries|), client, Tags.Column(old(cache.View()), order)).posts
      ensures cache.entries == old(cache.entries)
      ensures forall k :: k in cache.entries ==> cache.entries[k].Record() == Flagged(old(cache.View())[k])
    {
      var entries := cache.entries;
      var tds := seq(|order|, j requires 0 <= j < |order| => entries[order[j]]);
      assert Tags.RecordsOf(tds) == Tags.Column(cache.View(), order);
      VisitAll(tds, |entries|);
      forall k | k in cache.entries
        ensures cache.entries[k].Record() == Flagged(old(cache.View())[k])
      {
        assert k in (set k | k in order);
        var j :| 0 <= j < |order| && order[j] == k;
        assert cache.entries[k] == tds[j];
      }
    }

    /** The loop over the entries in iteration order, with the countdown starting at `size`. */
    method VisitAll(tds: seq<Tags.TagData>, size: int)
      requires forall i, j :: 0 <= i < j < |tds| ==> tds[i] != tds[j]
      modifies this`posts, set td | td in tds
      ensures posts == old(posts) + StageEntries(Bulk.Start(size), client, old(Tags.RecordsOf(tds))).posts
      ensures forall j :: 0 <= j < |tds| ==> tds[j].Record() == Flagged(old(tds[j].Record()))
    {
      ghost var recs := Tags.RecordsOf(tds);
      ghost var s := Bulk.Start(size);
      var batchCount := 1;
      var dimensionObj: seq<DimItem> := [];
      var totalCount := size;
      var i := 0;
      while i < |tds|
        invariant 0 <= i <= |tds|
        invariant s == StageEntries(Bulk.Start(size), client, recs[..i])
        invariant Mirrors(s, old(posts), batchCount, dimensionObj, totalCount)
        invariant forall j :: 0 <= j < |tds| ==> tds[j].Record() == if j < i then Flagged(recs[j]) else recs[j]
      {
        if batchCount == 1 {
          dimensionObj := [];
        }
        batchCount, dimensionObj, totalCount := VisitEntry(tds[i], s, old(posts), batchCount, dimensionObj, totalCount);
        Bulk.TakeLast(recs, i + 1);
        s := VisitStep(s, client, recs[i]);
        i := i + 1;
      }
      assert recs[..|tds|] == recs;
    }
  }
}

=== FILE: monitor_table.dfy ===
/**
 * The destination tables: the DDL that creates the device, alarm and
 * connector-statistics tables of an entity type, the unique index over device
 * and receive time, and the create-if-missing step.
 */
module MonitorTables {
  import Text
  import Schema
  import Configuration
  import Constants

  /** One column of a CREATE TABLE: its name and its SQL type. */
  datatype ColumnDef = ColumnDef(name: string, sqlType: string)

  const DEVICE_DEFS: seq<ColumnDef> := [
    ColumnDef("TAGID", "INTEGER"),
    ColumnDef("INTVALUE", "INTEGER"),
    ColumnDef("FLOATVALUE", "DOUBLE"),
    ColumnDef("STRINGVALUE", "VARCHAR(256)"),
    ColumnDef("DATEVALUE", "VARCHAR(256)"),
    ColumnDef("EVT_NAME", "VARCHAR(256)"),
    ColumnDef("TAG", "VARCHAR(256)"),
    ColumnDef("DEVICETYPE", "VARCHAR(64)"),
    ColumnDef("DEVICEID", "VARCHAR(256)"),
    ColumnDef("LOGICALINTERFACE_ID", "VARCHAR(64)"),
    ColumnDef("EVENTTYPE", "VARCHAR(64)"),
    ColumnDef("FORMAT", "VARCHAR(32)"),
    ColumnDef("RCV_TIMESTAMP_UTC", "TIMESTAMP(12)"),
    ColumnDef("UPDATED_UTC", "TIMESTAMP(12)")]

  const ALARM_DEFS: seq<ColumnDef> := [
    ColumnDef("ALARMID", "INTEGER"),
    ColumnDef("EVENTID", "VARCHAR(256)"),
    ColumnDef("DISPLAYPATH", "VARCHAR(256)"),
    ColumnDef("PRIORITY", "INTEGER"),
    ColumnDef("ETYPE", "INTEGER"),
    ColumnDef("NAME", "VARCHAR(256)"),
    ColumnDef("ACKBY", "VARCHAR(256)"),
    ColumnDef("VALUE", "DOUBLE"),
    ColumnDef("TAG", "VARCHAR(256)"),
    ColumnDef("DEVICETYPE", "VARCHAR(64)"),
    ColumnDef("DEVICEID", "VARCHAR(256)"),
    ColumnDef("LOGICALINTERFACE_ID", "VARCHAR(64)"),
    ColumnDef("EVENTTYPE", "VARCHAR(64)"),
    ColumnDef("FORMAT", "VARCHAR(32)"),
    ColumnDef("RCV_TIMESTAMP_UTC", "TIMESTAMP(12)"),
    ColumnDef("UPDATED_UTC", "TIMESTAMP(12)")]

  const STATS_DEFS: seq<ColumnDef> := [
    ColumnDef("EXTRACTED", "DOUBLE"),
    ColumnDef("UPLOADED", "DOUBLE"),
    ColumnDef("RATE", "DOUBLE"),
    ColumnDef("ENTITYTYPECOUNT", "DOUBLE"),
    ColumnDef("ENTITYCOUNT", "DOUBLE"),
    ColumnDef("EXTSTARTTIME", "VARCHAR(32)"),
    ColumnDef("EXTENDTIME", "VARCHAR(32)"),
    ColumnDef("DEVICETYPE", "VARCHAR(64)"),
    ColumnDef("DEVICEID", "VARCHAR(64)"),
    ColumnDef("LOGICALINTERFACE_ID", "VARCHAR(64)"),
    ColumnDef("EVENTTYPE", "VARCHAR(64)"),
    ColumnDef("FORMAT", "VARCHAR(32)"),
    ColumnDef("RCV_TIMESTAMP_UTC", "TIMESTAMP(12)"),
    ColumnDef("UPDATED_UTC", "TIMESTAMP(12)")]

  /** The column names of a list of definitions, in order. */
  function Names(defs: seq<ColumnDef>): (r: seq<string>)
    ensures |r| == |defs| && forall k :: 0 <= k < |defs| ==> r[k] == defs[k].name
  {
    seq(|defs|, k requires 0 <= k < |defs| => defs[k].name)
  }

  /** "NAME TYPE" for each definition. */
  function Rendered(defs: seq<ColumnDef>): (r: seq<string>)
    ensures |r| == |defs| && forall k :: 0 <= k < |defs| ==> r[k] == defs[k].name + " " + defs[k].sqlType
  {
    seq(|defs|, k requires 0 <= k < |defs| => defs[k].name + " " + defs[k].sqlType)
  }

  /** The qualified table name "<schema>.IOT_<name>". */
  function TableName(schema: string, name: string): string
  {
    schema + "." + "IOT_" + name
  }

  /** "CREATE TABLE <schema>.IOT_<name> ( <NAME TYPE>, ... )". */
  function CreateDDL(schema: string, name: string, defs: seq<ColumnDef>): string
  {
    "CREATE TABLE " + TableName(schema, name) + " ( " + Text.Join(Rendered(defs), ", ") + " )"
  }

  /** The text a DDL ends with. */
  predicate IsSuffix(t: string, s: string)
  {
    |t| <= |s| && s[|s| - |t|..] == t
  }

  /**
   * Every DDL starts "CREATE TABLE <schema>.IOT_<name> ( ", ends " )", and lists
   * between them one "NAME TYPE" per definition, in order.
   */
  lemma CreateDDLShape(schema: string, name: string, defs: seq<ColumnDef>)
    ensures Text.IsPrefix("CREATE TABLE " + schema + ".IOT_" + name + " ( ", CreateDDL(schema, name, defs))
    ensures IsSuffix(" )", CreateDDL(schema, name, defs))
  {
    var head := "CREATE TABLE " + schema + ".IOT_" + name + " ( ";
    assert CreateDDL(schema, name, defs) == head + Text.Join(Rendered(defs), ", ") + " )";
  }

  /** `getDeviceDDL`. */
  function DeviceDDL(schema: string, name: string): string
  {
    CreateDDL(schema, name, DEVICE_DEFS)
  }

  /** `getAlarmDDL`. */
  function AlarmDDL(schema: string, name: string): string
  {
    CreateDDL(schema, name, ALARM_DEFS)
  }

  /** `getConnectorStatsDDL`. */
  function StatsDDL(schema: string, name: string): string
  {
    CreateDDL(schema, name, STATS_DEFS)
  }

  /** `getIndexSQL`: a unique index over device and receive time. */
  function IndexSQL(schema: string, name: string): string
  {
    "CREATE UNIQUE INDEX DEVICEID_AND_RCV_TIMESTAMP_UTC ON " + TableName(schema, name) + " " +
    "(DEVICEID, RCV_TIMESTAMP_UTC)"
  }

  /**
   * The index statement names the table "<schema>.IOT_<name>" and ends with its
   * two key columns, device then receive time.
   */
  lemma IndexSQLShape(schema: string, name: string)
    ensures Text.IsPrefix("CREATE UNIQUE INDEX DEVICEID_AND_RCV_TIMESTAMP_UTC ON " + schema + ".IOT_" + name + " ",
                          IndexSQL(schema, name))
    ensures IsSuffix("(DEVICEID, RCV_TIMESTAMP_UTC)", IndexSQL(schema, name))
  {
    var head := "CREATE UNIQUE INDEX DEVICEID_AND_RCV_TIMESTAMP_UTC ON " + schema + ".IOT_" + name + " ";
    assert IndexSQL(schema, name) == head + "(DEVICEID, RCV_TIMESTAMP_UTC)";
  }

  /**
   * Every name of `a` is a name of `b` when each position of `a` is matched by a
   * position of `b` (`there` gives the matching positions).
   */
  lemma {:induction false} NamesCovered(a: seq<string>, b: seq<string>, there: seq<nat>)
    requires |there| == |a| && forall k :: 0 <= k < |a| ==> there[k] < |b| && a[k] == b[there[k]]
    ensures (set n | n in a) <= (set n | n in b)
  {
    forall n | n in a ensures n in b {
      var k :| 0 <= k < |a| && a[k] == n;
      assert b[there[k]] == n;
    }
  }

  // The positions of the DDL's columns in the INSERT's list followed by TAG, and back.
  lemma DeviceDefsInserted()
    ensures (set n | n in Names(DEVICE_DEFS)) <= (set c | c in Schema.DEVICE_COLS + ["TAG"])
  {
    NamesCovered(Names(DEVICE_DEFS), Schema.DEVICE_COLS + ["TAG"], [0, 1, 2, 3, 4, 5, 13, 6, 7, 8, 9, 10, 11, 12]);
  }

  lemma DeviceColsDefined()
    ensures (set c | c in Schema.DEVICE_COLS + ["TAG"]) <= (set n | n in Names(DEVICE_DEFS))
  {
    NamesCovered(Schema.DEVICE_COLS + ["TAG"], Names(DEVICE_DEFS), [0, 1, 2, 3, 4, 5, 7, 8, 9, 10, 11, 12, 13, 6]);
  }

  lemma AlarmDefsInserted()
    ensures (set n | n in Names(ALARM_DEFS)) <= (set c | c in Schema.ALARM_COLS + ["TAG"])
  {
    NamesCovered(Names(ALARM_DEFS), Schema.ALARM_COLS + ["TAG"],
                 [0, 1, 5, 6, 4, 3, 2, 7, 15, 8, 9, 10, 11, 12, 13, 14]);
  }

  lemma AlarmColsDefined()
    ensures (set c | c in Schema.ALARM_COLS + ["TAG"]) <= (set n | n in Names(ALARM_DEFS))
  {
    NamesCovered(Schema.ALARM_COLS + ["TAG"], Names(ALARM_DEFS),
                 [0, 1, 6, 5, 4, 2, 3, 7, 9, 10, 11, 12, 13, 14, 15, 8]);
  }

  /** TAG is a column of the tables that no INSERT fills. */
  lemma TagNotInserted()
    ensures "TAG" !in Schema.DEVICE_COLS && "TAG" !in Schema.ALARM_COLS
  {
  }

  /**
   * As sets, the device table's columns are exactly the device INSERT's columns
   * plus TAG, and the alarm table's the alarm INSERT's plus TAG.
   */
  lemma MonitorDDLColumns()
    ensures (set n | n in Names(DEVICE_DEFS)) == (set c | c in Schema.DEVICE_COLS) + {"TAG"}
    ensures (set n | n in Names(ALARM_DEFS)) == (set c | c in Schema.ALARM_COLS) + {"TAG"}
    ensures "TAG" !in Schema.DEVICE_COLS && "TAG" !in Schema.ALARM_COLS
  {
    DeviceDefsInserted();
    DeviceColsDefined();
    AlarmDefsInserted();
    AlarmColsDefined();
    TagNotInserted();
    assert (set c | c in Schema.DEVICE_COLS + ["TAG"]) == (set c | c in Schema.DEVICE_COLS) + {"TAG"};
    assert (set c | c in Schema.ALARM_COLS + ["TAG"]) == (set c | c in Schema.ALARM_COLS) + {"TAG"};
  }

  /** The statistics table has the statistics INSERT's columns in the same order. */
  lemma StatsDDLColumns()
    ensures Names(STATS_DEFS) == Schema.STATS_COLS
  {
    var names := Names(STATS_DEFS);
    forall k | 0 <= k < 14 ensures names[k] == Schema.STATS_COLS[k] {
    }
  }

  /** Both monitor INSERTs fill the two columns the unique index is over. */
  lemma IndexedColumnsInserted(connectorType: int)
    ensures "DEVICEID" in Schema.MonitorDBCols(connectorType)
    ensures "RCV_TIMESTAMP_UTC" in Schema.MonitorDBCols(connectorType)
  {
    var cols := Schema.MonitorDBCols(connectorType);
    assert cols[|cols| - 2] == "RCV_TIMESTAMP_UTC";
    if connectorType == Constants.CONNECTOR_DEVICE {
      assert cols[7] == "DEVICEID";
    } else {
      assert cols[9] == "DEVICEID";
    }
  }

  /**
   * The destination database as the creation step sees it: the tables of each
   * schema, by upper-case name, and the DDL statements it has run.
   */
  class Database {
    var tables: set<(string, string)>
    var executed: seq<string>

    constructor (tables: set<(string, string)>)
      ensures this.tables == tables && executed == []
    {
      this.tables := tables;
      executed := [];
    }
  }

  class MonitorTable {
    const schema: string
    const user: string
    const pass: string
    const dbUrl: string

    /** Takes the destination database section of the configuration. */
    constructor (config: Configuration.Config)
      ensures schema == config.connConfig.monitor.schema
      ensures user == config.connConfig.monitor.user && pass == config.connConfig.monitor.password
      ensures dbUrl == Configuration.MonitorDbUrl(config.connConfig.monitor.host, config.connConfig.monitor.port)
    {
      var db := config.connConfig.monitor;
      schema := db.schema;
      user := db.user;
      pass := db.password;
      dbUrl := "jdbc:db2://" + db.host + ":" + db.port + "/BLUDB:sslConnection=true;";
    }

    /**
     * `createTable`: looks the table up in this schema by its upper-case name; runs
     * the DDL and answers 1 only when it is missing, and answers 0, running
     * nothing, when it exists. Running the DDL creates the table.
     */
    method CreateTable(db: Database, tableName: string, ddl: string) returns (created: int)
      modifies db
      ensures created == (if (schema, Text.Upper(tableName)) in old(db.tables) then 0 else 1)
      ensures created == 1 ==> db.executed == old(db.executed) + [ddl]
      ensures created == 0 ==> db.executed == old(db.executed)
      ensures db.tables == old(db.tables) + {(schema, Text.Upper(tableName))}
    {
      var key := (schema, Text.Upper(tableName));
      created := 0;
      if key !in db.tables {
        db.executed := db.executed + [ddl];
        db.tables := db.tables + {key};
        created := 1;
      }
    }
  }

  /** Creating the same table twice runs its DDL once: the second call finds it. */
  method CreateTwice(t: MonitorTable, db: Database, tableName: string, ddl: string)
    returns (first: int, second: int)
    modifies db
    ensures second == 0
    ensures first == 1 <==> db.executed == old(db.executed) + [ddl]
  {
    first := t.CreateTable(db, tableName, ddl);
    second := t.CreateTable(db, tableName, ddl);
  }
}

=== FILE: offset_record.dfy ===
/**
 * `OffsetRecord`: the extraction window (start and end in epoch seconds, with the
 * calendar month and year of its start), the running counters, and the offset file
 * that persists them between runs.
 */
module Offsets {
  import opened Calendar
  import opened Dates
  import Text
  import opened Constants

  /** The content of the offset file. */
  datatype OffsetSnapshot = OffsetSnapshot(
    startTimeSecs: int, endTimeSecs: int, month: int, year: int, status: int,
    processed: int, uploaded: int, rate: int)

  /** The offset file: absent, present but not a JSON object, or a stored record. */
  datatype OffsetFile = NoFile | Unreadable | Stored(rec: OffsetSnapshot)

  /** The window fields of the record. */
  datatype Window = Window(startTimeSecs: int, endTimeSecs: int, month: int, year: int, day: int)

  /** A new window and the code `updateOffsetByDate` returns: 0 past, 1 now, 2 future. */
  datatype ByDateResult = ByDateResult(window: Window, retval: int)

  /**
   * The window that starts at the date `du`, seen at the current time `duc`: a date in
   * the future is replaced by the current time; a date in the past gets the
   * historical interval, cut off at the current second.
   */
  function ByDate(du: Stamp, duc: Stamp, interval: int, historical: int): (r: ByDateResult)
    ensures r.retval == 2 <==> du.timeMilli > duc.timeMilli
    ensures r.retval == 0 <==> du.timeMilli < duc.timeMilli
    ensures r.retval == 2 ==> r.window.startTimeSecs == duc.timeSecs && r.window.month == duc.month
    ensures r.retval != 2 ==> r.window.startTimeSecs == du.timeSecs && r.window.month == du.month
    ensures r.retval == 2 ==> r.window.year == duc.year && r.window.day == DayOf(duc)
    ensures r.retval != 2 ==> r.window.year == du.year && r.window.day == DayOf(du)
    ensures r.retval == 2 ==> r.window.endTimeSecs == duc.timeSecs + interval
    ensures r.retval == 1 ==> r.window.endTimeSecs == du.timeSecs + interval
    ensures r.retval == 0 ==>
      r.window.endTimeSecs == (if du.timeSecs + historical > duc.timeSecs then duc.timeSecs else du.timeSecs + historical)
    ensures r.retval == 0 ==> r.window.endTimeSecs <= duc.timeSecs
    ensures r.retval == 0 ==> r.window.endTimeSecs <= r.window.startTimeSecs + historical
  {
    if du.timeMilli > duc.timeMilli then
      ByDateResult(Window(duc.timeSecs, duc.timeSecs + interval, duc.month, duc.year, DayOf(duc)), 2)
    else if du.timeMilli < duc.timeMilli then
      var e := du.timeSecs + historical;
      ByDateResult(Window(du.timeSecs, if e > duc.timeSecs then duc.timeSecs else e,
                          du.month, du.year, DayOf(du)), 0)
    else
      ByDateResult(Window(du.timeSecs, du.timeSecs + interval, du.month, du.year, DayOf(du)), 1)
  }

  /**
   * The date text `updateOffsetFile` hands on: for a missing table the first of the
   * month after the last one (reset to the current month when the last year is in
   * the future), otherwise the last end time formatted to the second.
   */
  function NextDateText(lastEndTimeSecs: int, lastYear: int, lastMonth: int, status: int, now: int): DateText
  {
    var cur := CivilOfMillis(now);
    if status == EXTRACT_STATUS_NO_TABLE then
      var nextYear := if lastMonth + 1 > 13 && lastYear + 1 <= cur.year then lastYear + 1
                      else if lastMonth + 1 > 13 then cur.year else lastYear;
      var nextMonth := if lastMonth + 1 > 13 && lastYear + 1 <= cur.year then 1
                       else if lastMonth + 1 > 13 then cur.month else lastMonth + 1;
      if lastYear > cur.year then DateText(cur.year, cur.month, 1, 0, 0, 0)
      else DateText(nextYear, nextMonth, 1, 0, 0, 0)
    else
      FormatMillis(lastEndTimeSecs * 1000)
  }

  /** `JSONObject.getInt` applied to a stored number truncates it to 32 bits. */
  function Restored(rec: OffsetSnapshot): OffsetSnapshot
  {
    OffsetSnapshot(rec.startTimeSecs, rec.endTimeSecs, Text.Int32Of(rec.month), Text.Int32Of(rec.year),
                   Text.Int32Of(rec.status), Text.Int32Of(rec.processed), Text.Int32Of(rec.uploaded),
                   Text.Int32Of(rec.rate))
  }

  /** The offset file path: `<site>_<type>.offset`, under `<dataDir>/volume/data/` when a data directory is set. */
  function OffsetFilePath(dataDir: string, clientSite: string, connectorTypeStr: string): (p: string)
    ensures Text.IsPrefix(if dataDir == "" then clientSite else dataDir + "/volume/data/", p)
    ensures |p| >= 7 && p[|p| - 7..] == ".offset"
  {
    var etype := clientSite + "_" + connectorTypeStr;
    if dataDir == "" then etype + ".offset" else dataDir + "/volume/data/" + etype + ".offset"
  }

  class OffsetRecord {
    var connectorType: int
    var startDate: DateText
    var offsetFile: string
    var offsetInterval: int
    var offsetIntervalHistorical: int
    var startTimeSecs: int
    var endTimeSecs: int
    var month: int
    var year: int
    var day: int
    var status: int
    var processedCount: int
    var uploadedCount: int
    var rate: int
    var entityCount: int
    var entityTypeCount: int
    var tagCount: int
    /** What the offset file holds. */
    var file: OffsetFile

    function GetWindow(): Window
      reads this
    {
      Window(startTimeSecs, endTimeSecs, month, year, day)
    }

    /** The record `updateOffsetByDate` writes for the current fields and a status. */
    function SnapshotWith(st: int): OffsetSnapshot
      reads this
    {
      OffsetSnapshot(startTimeSecs, endTimeSecs, month, year, st, processedCount, uploadedCount, rate)
    }

    /**
     * Sets the configuration, caps the live interval at 120 seconds, deletes an
     * existing offset file when a new one is asked for, then reads the file.
     */
    constructor (connType: int, configStartDate: DateText, dataDir: string, clientSite: string,
                 connectorTypeStr: string, fetchInterval: int, fetchIntervalHistorical: int,
                 newOffsetFile: bool, existing: OffsetFile, now: int)
      ensures offsetInterval == (if fetchInterval > 120 then 120 else fetchInterval)
      ensures offsetIntervalHistorical == fetchIntervalHistorical
      ensures offsetFile == OffsetFilePath(dataDir, clientSite, connectorTypeStr)
      ensures var f := if newOffsetFile then NoFile else existing;
        if f.Stored? && f.rec.startTimeSecs != 0 then
          var r := Restored(f.rec);
          startTimeSecs == r.startTimeSecs && endTimeSecs == r.endTimeSecs && month == r.month &&
          year == r.year && status == r.status && processedCount == r.processed &&
          uploadedCount == r.uploaded && rate == r.rate && file == f
        else
          GetWindow() == ByDate(TextStamp(configStartDate), MillisStamp(now), offsetInterval, offsetIntervalHistorical).window &&
          file == Stored(SnapshotWith(EXTRACT_STATUS_INIT))
    {
      connectorType := connType;
      startDate := configStartDate;
      offsetFile := OffsetFilePath(dataDir, clientSite, connectorTypeStr);
      offsetInterval := if fetchInterval > 120 then 120 else fetchInterval;
      offsetIntervalHistorical := fetchIntervalHistorical;
      processedCount, uploadedCount, rate := 0, 0, 0;
      entityCount, entityTypeCount, tagCount := 0, 0, 0;
      file := existing;
      new;
      if newOffsetFile && file != NoFile {
        file := NoFile;
      }
      ReadOffsetFile(now);
    }

    /**
     * Restores the window, status and counters from a stored record whose start is
     * not 0; otherwise starts a new window at the configured start date.
     */
    method ReadOffsetFile(now: int)
      modifies this`startTimeSecs, this`endTimeSecs, this`month, this`year, this`day, this`status
      modifies this`processedCount, this`uploadedCount, this`rate, this`file
      ensures var f := old(file);
        if f.Stored? && f.rec.startTimeSecs != 0 then
          var r := Restored(f.rec);
          startTimeSecs == r.startTimeSecs && endTimeSecs == r.endTimeSecs && month == r.month &&
          year == r.year && status == r.status && processedCount == r.processed &&
          uploadedCount == r.uploaded && rate == r.rate && file == f
        else
          GetWindow() == ByDate(TextStamp(startDate), MillisStamp(now), offsetInterval, offsetIntervalHistorical).window &&
          file == Stored(SnapshotWith(EXTRACT_STATUS_INIT))
    {
      var createFile := false;
      match file {
        case Stored(rec) =>
          startTimeSecs := rec.startTimeSecs;
          if startTimeSecs != 0 {
            var r := Restored(rec);
            endTimeSecs := r.endTimeSecs;
            month := r.month;
            year := r.year;
            status := r.status;
            processedCount := r.processed;
            uploadedCount := r.uploaded;
            rate := r.rate;
          } else {
            createFile := true;
          }
        case _ =>
          createFile := true;
      }
      if createFile {
        var _ := UpdateOffsetByDate(startDate, EXTRACT_STATUS_INIT, now);
      }
    }

    /**
     * Starts the window at the given date (see `ByDate`) and writes the record with
     * the given status and the current counters. The in-memory status is left as it was.
     */
    method UpdateOffsetByDate(dateStr: DateText, st: int, now: int) returns (retval: int)
      modifies this`startTimeSecs, this`endTimeSecs, this`month, this`year, this`day, this`file
      ensures var r := ByDate(TextStamp(dateStr), MillisStamp(now), offsetInterval, offsetIntervalHistorical);
        GetWindow() == r.window && retval == r.retval
      ensures file == Stored(SnapshotWith(st))
    {
      var duc := new DateUtil.FromMillis(now);
      var du := new DateUtil.FromText(dateStr);
      retval := SetWindow(du.Value(), du.GetDay(), duc.Value(), duc.GetDay());
      file := Stored(SnapshotWith(st));
    }

    /** The window assignments of `updateOffsetByDate`, given the two dates it compares. */
    method SetWindow(date: Stamp, dateDay: int, cur: Stamp, curDay: int) returns (retval: int)
      requires dateDay == DayOf(date) && curDay == DayOf(cur)
      modifies this`startTimeSecs, this`endTimeSecs, this`month, this`year, this`day
      ensures var r := ByDate(date, cur, offsetInterval, offsetIntervalHistorical);
        GetWindow() == r.window && retval == r.retval
    {
      retval := 1;
      startTimeSecs := date.timeSecs;
      endTimeSecs := startTimeSecs + offsetInterval;
      month := date.month;
      year := date.year;
      day := dateDay;
      if date.timeMilli > cur.timeMilli {
        startTimeSecs := cur.timeSecs;
        endTimeSecs := startTimeSecs + offsetInterval;
        month := cur.month;
        year := cur.year;
        day := curDay;
        retval := 2;
      } else if date.timeMilli < cur.timeMilli {
        endTimeSecs := startTimeSecs + offsetIntervalHistorical;
        if endTimeSecs > cur.timeSecs {
          endTimeSecs := cur.timeSecs;
        }
        retval := 0;
      }
    }

    /** The date text `updateOffsetFile` computes before handing it to `updateOffsetByDate`. */
    static method NextDate(lastEndTimeSecs: int, lastYear: int, lastMonth: int, st: int, now: int)
      returns (dateStr: DateText)
      ensures dateStr == NextDateText(lastEndTimeSecs, lastYear, lastMonth, st, now)
    {
      var cur := CivilOfMillis(now);
      var curYear, curMonth := cur.year, cur.month;
      if st == EXTRACT_STATUS_NO_TABLE {
        var nextYear := lastYear;
        var nextMonth := lastMonth + 1;
        if nextMonth > 13 {
          nextMonth := 1;
          nextYear := nextYear + 1;
          if nextYear > curYear {
            nextYear := curYear;
            nextMonth := curMonth;
          }
        }
        if lastYear > curYear {
          nextYear := curYear;
          nextMonth := curMonth;
        }
        dateStr := DateText(nextYear, nextMonth, 1, 0, 0, 0);
      } else {
        dateStr := FormatMillis(lastEndTimeSecs * 1000);
      }
    }

    /**
     * Moves the window on after a cycle: to the first of the next month when the
     * table was missing, otherwise to the end of the last window.
     */
    method UpdateOffsetFile(lastStartTimeSecs: int, lastEndTimeSecs: int, lastYear: int, lastMonth: int,
                            st: int, now: int) returns (retval: int)
      modifies this`startTimeSecs, this`endTimeSecs, this`month, this`year, this`day, this`file
      ensures var r := ByDate(TextStamp(NextDateText(lastEndTimeSecs, lastYear, lastMonth, st, now)),
                              MillisStamp(now), offsetInterval, offsetIntervalHistorical);
        GetWindow() == r.window && retval == r.retval
      ensures file == Stored(SnapshotWith(st))
    {
      var dateStr := NextDate(lastEndTimeSecs, lastYear, lastMonth, st, now);
      retval := UpdateOffsetByDate(dateStr, st, now);
    }

    /** The wait before the next cycle: the rest of the live interval, the whole interval, or 100 ms. */
    function GetWaitTimeMilli(waitFlag: int, cycleStartTimeMillis: int, now: int): (waitTime: int)
      reads this
      ensures waitFlag == 1 ==> waitTime >= 100
      ensures waitFlag == 1 && Text.JavaDiv(now - cycleStartTimeMillis, 1000) < offsetInterval ==>
        Text.JavaDiv(now - cycleStartTimeMillis, 1000) * 1000 + waitTime == offsetInterval * 1000
      ensures waitFlag == 1 && Text.JavaDiv(now - cycleStartTimeMillis, 1000) >= offsetInterval ==> waitTime == 100
      ensures waitFlag == 2 ==> waitTime == offsetInterval * 1000
      ensures waitFlag != 1 && waitFlag != 2 ==> waitTime == 100
    {
      if waitFlag == 1 then
        var timeDiff := Text.JavaDiv(now - cycleStartTimeMillis, 1000);
        if timeDiff < offsetInterval then (offsetInterval - timeDiff) * 1000 else 100
      else if waitFlag == 2 then offsetInterval * 1000
      else 100
    }

    /** Adds to the processed total and returns the new total. */
    method SetProcessedCount(count: int) returns (total: int)
      modifies this`processedCount
      ensures processedCount == old(processedCount) + count && total == processedCount
    {
      processedCount := processedCount + count;
      total := processedCount;
    }

    /** Adds to the uploaded total and returns the new total. */
    method SetUploadedCount(count: int) returns (total: int)
      modifies this`uploadedCount
      ensures uploadedCount == old(uploadedCount) + count && total == uploadedCount
    {
      uploadedCount := uploadedCount + count;
      total := uploadedCount;
    }

    /** Adds to the entity total and returns the new total. */
    method SetEntityCount(count: int) returns (total: int)
      modifies this`entityCount
      ensures entityCount == old(entityCount) + count && total == entityCount
    {
      entityCount := entityCount + count;
      total := entityCount;
    }

    /** Adds to the entity-type total and returns the new total. */
    method SetEntityTypeCount(count: int) returns (total: int)
      modifies this`entityTypeCount
      ensures entityTypeCount == old(entityTypeCount) + count && total == entityTypeCount
    {
      entityTypeCount := entityTypeCount + count;
      total := entityTypeCount;
    }

    /** Adds to the statistics-tag total and returns the new total. */
    method SetTagCount(count: int) returns (total: int)
      modifies this`tagCount
      ensures tagCount == old(tagCount) + count && total == tagCount
    {
      tagCount := tagCount + count;
      total := tagCount;
    }

    /** Records a rate; a rate of 0 leaves the last one in place. */
    method SetRate(count: int)
      modifies this`rate
      ensures rate == (if count == 0 then old(rate) else count)
    {
      if count != 0 {
        rate := count;
      }
    }
  }

  // ---------------------------------------------------------------------------
  // Properties of the window arithmetic
  // ---------------------------------------------------------------------------

  /**
   * Whatever the date text, the new window never starts after the current second,
   * and a past window never ends after it; with non-negative intervals the window
   * does not end before it starts.
   */
  lemma WindowNotAfterNow(t: DateText, now: int, interval: int, historical: int)
    requires now >= 0
    ensures var r := ByDate(TextStamp(t), MillisStamp(now), interval, historical);
      r.window.startTimeSecs <= Text.JavaDiv(now, 1000) &&
      (r.retval == 0 ==> r.window.endTimeSecs <= Text.JavaDiv(now, 1000)) &&
      (interval >= 0 && historical >= 0 ==> r.window.startTimeSecs <= r.window.endTimeSecs)
  {
    var du := TextStamp(t);
    if du.timeMilli <= now {
      if t.DateText? {
        Text.JavaDivMonotone(du.timeMilli, now);
      }
    }
  }

  /**
   * With data (or an empty table) the next window starts where the last one ended,
   * unless that end is in the future; a past end gets the historical interval cut off
   * at the current second.
   */
  lemma ContinuesFromLastEnd(lastEnd: int, lastYear: int, lastMonth: int, st: int, now: int,
                             interval: int, historical: int)
    requires st != EXTRACT_STATUS_NO_TABLE
    ensures var r := ByDate(TextStamp(NextDateText(lastEnd, lastYear, lastMonth, st, now)),
                            MillisStamp(now), interval, historical);
      var nowSecs := Text.JavaDiv(now, 1000);
      (lastEnd * 1000 < now ==>
         (r.retval == 0 && r.window.startTimeSecs == lastEnd &&
          r.window.endTimeSecs == (if lastEnd + historical > nowSecs then nowSecs else lastEnd + historical))) &&
      (lastEnd * 1000 == now ==>
         (r.retval == 1 && r.window.startTimeSecs == lastEnd && r.window.endTimeSecs == lastEnd + interval)) &&
      (lastEnd * 1000 > now ==>
         (r.retval == 2 && r.window.startTimeSecs == nowSecs && r.window.endTimeSecs == nowSecs + interval))
  {
    WholeSecondStamp(lastEnd);
  }

  /** Below the month-13 limit and within the current year, a missing table names the first of the next month. */
  lemma NoTableDateText(lastEnd: int, lastYear: int, lastMonth: int, now: int)
    requires lastMonth + 1 <= 13
    requires lastYear <= CivilOfMillis(now).year
    ensures NextDateText(lastEnd, lastYear, lastMonth, EXTRACT_STATUS_NO_TABLE, now)
      == DateText(lastYear, lastMonth + 1, 1, 0, 0, 0)
  {
  }

  /**
   * A missing table moves the window to the first of the following month (December
   * rolls over to January through the lenient parse of month 13), provided the last
   * year is not after the current one.
   */
  lemma NoTableNextMonth(lastEnd: int, lastYear: int, lastMonth: int, now: int)
    requires 1 <= lastMonth <= 12
    requires lastYear <= CivilOfMillis(now).year
    ensures var s := TextStamp(NextDateText(lastEnd, lastYear, lastMonth, EXTRACT_STATUS_NO_TABLE, now));
      s.month == (if lastMonth == 12 then 1 else lastMonth + 1) &&
      s.year == (if lastMonth == 12 then lastYear + 1 else lastYear) &&
      CivilOfMillis(s.timeMilli).day == 1
  {
    NoTableDateText(lastEnd, lastYear, lastMonth, now);
    FirstOfNextMonth(lastYear, lastMonth);
  }

  /** The first of month `m + 1` of year `y` parses to the first of the month after (y, m). */
  lemma FirstOfNextMonth(y: int, m: int)
    requires 1 <= m <= 12
    ensures var s := TextStamp(DateText(y, m + 1, 1, 0, 0, 0));
      s.month == (if m == 12 then 1 else m + 1) &&
      s.year == (if m == 12 then y + 1 else y) &&
      CivilOfMillis(s.timeMilli).day == 1
  {
    if m == 12 {
      MonthCarry(y, 1);
      assert ParseMillis(DateText(y, 13, 1, 0, 0, 0)) == ParseMillis(DateText(y + 1, 1, 1, 0, 0, 0));
      MidnightStamp(Civil(y + 1, 1, 1));
    } else {
      MidnightStamp(Civil(y, m + 1, 1));
    }
  }

  /**
   * A last year after the current year is reset to the first of the current month,
   * which is never in the future.
   */
  lemma NoTableFutureYearReset(lastEnd: int, lastYear: int, lastMonth: int, now: int)
    requires lastYear > CivilOfMillis(now).year
    ensures var s := TextStamp(NextDateText(lastEnd, lastYear, lastMonth, EXTRACT_STATUS_NO_TABLE, now));
      s.year == CivilOfMillis(now).year && s.month == CivilOfMillis(now).month && s.timeMilli <= now
  {
    var z := (now / 1000) / 86400;
    var cur := CivilOfDay(z);
    assert NextDateText(lastEnd, lastYear, lastMonth, EXTRACT_STATUS_NO_TABLE, now) == DateText(cur.year, cur.month, 1, 0, 0, 0);
    CivilOfDayValid(z);
    MidnightStamp(Civil(cur.year, cur.month, 1));
    FirstOfMonthNotAfter(z);
    DayStartNotAfter(now);
  }

  /** The first of the month of day `z` is not after `z`. */
  lemma FirstOfMonthNotAfter(z: int)
    ensures var c := CivilOfDay(z); ParseMillis(DateText(c.year, c.month, 1, 0, 0, 0)) <= z * 86400000
  {
    var c := CivilOfDay(z);
    CivilOfDayValid(z);
    DayCivilRoundTrip(z);
    DayOfValidCivil(c);
    DayOfValidCivil(Civil(c.year, c.month, 1));
    assert DayOfCivil(c.year, c.month, 1) <= z;
  }

  /** The start of the day of an instant is not after the instant. */
  lemma DayStartNotAfter(now: int)
    ensures ((now / 1000) / 86400) * 86400000 <= now
  {
    var secs := now / 1000;
    var z := secs / 86400;
    assert z * 86400 <= secs;
    assert secs * 1000 <= now;
  }

  /** A record written with a non-zero start and 32-bit fields is read back unchanged. */
  lemma RestoreRoundTrip(rec: OffsetSnapshot)
    requires -0x8000_0000 <= rec.month < 0x8000_0000 && -0x8000_0000 <= rec.year < 0x8000_0000
    requires -0x8000_0000 <= rec.status < 0x8000_0000
    requires -0x8000_0000 <= rec.processed < 0x8000_0000 && -0x8000_0000 <= rec.uploaded < 0x8000_0000
    requires -0x8000_0000 <= rec.rate < 0x8000_0000
    ensures Restored(rec) == rec
  {
  }

  /** A processed count of 2^31 or more comes back from the file wrapped to a negative number. */
  lemma RestoreWrapsLargeCounts(rec: OffsetSnapshot)
    requires rec.processed == 0x8000_0000
    ensures Restored(rec).processed == -0x8000_0000
  {
  }

  /** "2020-05-01 00:00:00" is 1588291200 seconds after the epoch. */
  lemma FirstOfMay2020(y: int)
    requires y == 2020
    ensures ParseMillis(DateText(y, 5, 1, 0, 0, 0)) == 1588291200000
  {
    DaysToYearClosed(y);
    assert Leaps(y) == 489 && Leaps(1970) == 477;
    assert DaysToYear(y) == 18262;
    assert IsLeap(y);
    assert DaysBeforeMonth(y, 5) == 121;
    DayOfValidCivil(Civil(y, 5, 1));
    assert DayOfCivil(y, 5, 1) == 18383;
  }

  /**
   * Starting from "2020-05-01 00:00:00" with a historical interval of 14400 seconds,
   * at a time more than four hours later, gives the window
   * [1588291200, 1588305600] of May 2020.
   */
  lemma FirstWindowExample(y: int, now: int)
    requires y == 2020 && now >= 1588305600000
    ensures var r := ByDate(TextStamp(DateText(y, 5, 1, 0, 0, 0)), MillisStamp(now), 30, 14400);
      r.retval == 0 && r.window.startTimeSecs == 1588291200 && r.window.endTimeSecs == 1588305600 &&
      r.window.month == 5 && r.window.year == 2020
  {
    var t := DateText(y, 5, 1, 0, 0, 0);
    MidnightStamp(Civil(y, 5, 1));
    FirstOfMay2020(y);
    Text.JavaDivThousand(1588291200);
    var du := TextStamp(t);
    assert du.timeMilli == 1588291200000 && du.timeSecs == 1588291200;
    Text.JavaDivMonotone(1588305600000, now);
    Text.JavaDivThousand(1588305600);
    var duc := MillisStamp(now);
    assert duc.timeSecs >= 1588305600;
  }
}

=== FILE: parse_tagname.dfy ===
/**
 * `ParseTagname`: classifies a tag path into an entity type with an ordered list of
 * (pattern, type) pairs; the first pattern that matches the whole tag path wins.
 *
 * The pattern language modelled is literal characters plus the `.*` wildcard; the
 * rest of the regular-expression syntax the patterns are compiled with is not.
 */
module Tagname {
  import Text
  import opened Constants

  /** One element of a pattern: a literal character or the wildcard `.*`. */
  datatype Token = Lit(c: char) | AnyRun

  type Pattern = seq<Token>

  /** A configuration entry: the type name (the entry's only key) and its pattern. */
  datatype TypePattern = TypePattern(typeName: string, pattern: Pattern)

  /** The pattern that matches exactly the text `w`. */
  function Lits(w: string): (p: Pattern)
    ensures |p| == |w| && forall i :: 0 <= i < |w| ==> p[i] == Lit(w[i])
  {
    seq(|w|, i requires 0 <= i < |w| => Lit(w[i]))
  }

  /** `Pattern.matcher(s).matches()`: the pattern matches the whole of `s`. */
  predicate Matches(p: Pattern, s: string)
    decreases |p| + |s|
  {
    if |p| == 0 then |s| == 0
    else match p[0]
      case Lit(c) => |s| > 0 && s[0] == c && Matches(p[1..], s[1..])
      case AnyRun => Matches(p[1..], s) || (|s| > 0 && Matches(p, s[1..]))
  }

  /** A literal head matches exactly the texts that start with it and whose rest the tail matches. */
  lemma {:induction false} LitsThen(w: string, rest: Pattern, s: string)
    ensures Matches(Lits(w) + rest, s) <==> Text.IsPrefix(w, s) && Matches(rest, s[|w|..])
    decreases |w|
  {
    if |w| > 0 {
      var p := Lits(w) + rest;
      assert p[0] == Lit(w[0]);
      assert p[1..] == Lits(w[1..]) + rest;
      if |s| > 0 {
        LitsThen(w[1..], rest, s[1..]);
        if |w| <= |s| {
          assert s[1..][|w| - 1..] == s[|w|..];
          assert s[..|w|] == [s[0]] + s[1..][..|w| - 1];
        }
      }
    } else {
      assert Lits(w) + rest == rest;
    }
  }

  /** A pattern of literals only matches its own text and nothing else. */
  lemma LitsExactly(w: string, s: string)
    ensures Matches(Lits(w), s) <==> s == w
  {
    LitsThen(w, [], s);
    assert Lits(w) + [] == Lits(w);
  }

  /** `.*` on its own matches every text. */
  lemma {:induction false} AnyRunMatchesAll(s: string)
    ensures Matches([AnyRun], s)
    decreases |s|
  {
    assert [AnyRun][1..] == [];
    if |s| > 0 {
      AnyRunMatchesAll(s[1..]);
    }
  }

  /** `.*` followed by literals matches exactly the texts that end with those literals. */
  lemma {:induction false} AnyRunThenLits(w: string, s: string)
    ensures Matches([AnyRun] + Lits(w), s) <==> |w| <= |s| && s[|s| - |w|..] == w
    decreases |s|
  {
    var p := [AnyRun] + Lits(w);
    assert p[0] == AnyRun && p[1..] == Lits(w);
    LitsExactly(w, s);
    if |s| > 0 {
      AnyRunThenLits(w, s[1..]);
      if |w| <= |s| - 1 {
        assert s[1..][|s| - 1 - |w|..] == s[|s| - |w|..];
      }
    }
  }

  /** `prefix.*` matches exactly the texts that start with the prefix. */
  lemma PrefixPattern(pre: string, s: string)
    ensures Matches(Lits(pre) + [AnyRun], s) <==> Text.IsPrefix(pre, s)
  {
    LitsThen(pre, [AnyRun], s);
    if Text.IsPrefix(pre, s) {
      AnyRunMatchesAll(s[|pre|..]);
    }
  }

  /** `prefix.*suffix` matches exactly the texts long enough to start with the prefix and end with the suffix. */
  lemma InfixPattern(pre: string, suf: string, s: string)
    ensures Matches(Lits(pre) + ([AnyRun] + Lits(suf)), s) <==>
      Text.IsPrefix(pre, s) && |pre| + |suf| <= |s| && s[|s| - |suf|..] == suf
  {
    LitsThen(pre, [AnyRun] + Lits(suf), s);
    if Text.IsPrefix(pre, s) {
      var t := s[|pre|..];
      AnyRunThenLits(suf, t);
      if |suf| <= |t| {
        assert t[|t| - |suf|..] == s[|s| - |suf|..];
      }
    }
  }

  // ---------------------------------------------------------------------------
  // Classification
  // ---------------------------------------------------------------------------

  /** The type paired with the first pattern that matches the whole name, "" when none does. */
  function FirstMatch(ps: seq<Pattern>, ts: seq<string>, name: string): string
    requires |ps| == |ts|
  {
    if |ps| == 0 then ""
    else if Matches(ps[0], name) then ts[0]
    else FirstMatch(ps[1..], ts[1..], name)
  }

  /** The first matching pattern decides: its type is the answer whatever later patterns match. */
  lemma {:induction false} FirstMatchWins(ps: seq<Pattern>, ts: seq<string>, name: string, k: int)
    requires |ps| == |ts| && 0 <= k < |ps|
    requires Matches(ps[k], name)
    requires forall j :: 0 <= j < k ==> !Matches(ps[j], name)
    ensures FirstMatch(ps, ts, name) == ts[k]
    decreases k
  {
    if k > 0 {
      assert !Matches(ps[0], name);
      FirstMatchWins(ps[1..], ts[1..], name, k - 1);
    }
  }

  /** When no pattern matches, the answer is "": no default type is applied. */
  lemma {:induction false} NoMatchIsEmpty(ps: seq<Pattern>, ts: seq<string>, name: string)
    requires |ps| == |ts|
    requires forall j :: 0 <= j < |ps| ==> !Matches(ps[j], name)
    ensures FirstMatch(ps, ts, name) == ""
    decreases |ps|
  {
    if |ps| > 0 {
      assert !Matches(ps[0], name);
      NoMatchIsEmpty(ps[1..], ts[1..], name);
    }
  }

  /** The answer is always "" or the type of some matching pattern. */
  lemma {:induction false} FirstMatchFrom(ps: seq<Pattern>, ts: seq<string>, name: string)
    requires |ps| == |ts|
    ensures var r := FirstMatch(ps, ts, name);
      r == "" || exists k :: 0 <= k < |ps| && Matches(ps[k], name) && r == ts[k]
    decreases |ps|
  {
    if |ps| > 0 && !Matches(ps[0], name) {
      FirstMatchFrom(ps[1..], ts[1..], name);
      var r := FirstMatch(ps, ts, name);
      if r != "" {
        var k :| 0 <= k < |ps| - 1 && Matches(ps[1..][k], name) && r == ts[1..][k];
        assert Matches(ps[k + 1], name) && r == ts[k + 1];
      }
    }
  }

  /** The patterns of the configuration entries, in order. */
  function PatternsOf(types: seq<TypePattern>): (ps: seq<Pattern>)
    ensures |ps| == |types| && forall i :: 0 <= i < |types| ==> ps[i] == types[i].pattern
  {
    seq(|types|, i requires 0 <= i < |types| => types[i].pattern)
  }

  /** The type names of the configuration entries, in order. */
  function TypesOf(types: seq<TypePattern>): (ts: seq<string>)
    ensures |ts| == |types| && forall i :: 0 <= i < |types| ==> ts[i] == types[i].typeName
  {
    seq(|types|, i requires 0 <= i < |types| => types[i].typeName)
  }

  class ParseTagname {
    var tagMapCount: int
    var defaultType: string
    var patterns: seq<Pattern>
    var entityTypes: seq<string>

    predicate Valid()
      reads this
    {
      |patterns| == |entityTypes|
    }

    /**
     * Reads the device types (or the alarm types for any other connector) in
     * configuration order; the default type is the last entry's type when the
     * matching `useDefault...Type` flag is 1.
     */
    constructor (connectorType: int, deviceTypes: seq<TypePattern>, useDefaultDeviceType: int,
                 alarmTypes: seq<TypePattern>, useDefaultAlarmType: int)
      ensures Valid()
      ensures var types := if connectorType == CONNECTOR_DEVICE then deviceTypes else alarmTypes;
        var useDefault := if connectorType == CONNECTOR_DEVICE then useDefaultDeviceType else useDefaultAlarmType;
        tagMapCount == |types| && patterns == PatternsOf(types) && entityTypes == TypesOf(types) &&
        defaultType == (if useDefault == 1 && |types| > 0 then types[|types| - 1].typeName else "")
    {
      var types := deviceTypes;
      var useDefault := useDefaultDeviceType;
      if connectorType != CONNECTOR_DEVICE {
        types := alarmTypes;
        useDefault := useDefaultAlarmType;
      }
      var ps: seq<Pattern> := [];
      var ts: seq<string> := [];
      var dt := "";
      for i := 0 to |types|
        invariant |ps| == i && |ts| == i
        invariant ps == PatternsOf(types[..i]) && ts == TypesOf(types[..i])
        invariant dt == (if useDefault == 1 && i == |types| && i > 0 then types[i - 1].typeName else "")
      {
        ps := ps + [types[i].pattern];
        ts := ts + [types[i].typeName];
        if i == |types| - 1 && useDefault == 1 {
          dt := types[i].typeName;
        }
      }
      assert types[..|types|] == types;
      tagMapCount := |types|;
      patterns := ps;
      entityTypes := ts;
      defaultType := dt;
    }

    /** The type of the first pattern, in configuration order, that matches the whole tag name. */
    method GetType(tagName: string) returns (t: string)
      requires Valid()
      ensures t == FirstMatch(patterns, entityTypes, tagName)
    {
      t := "";
      var index := 0;
      while index < |patterns|
        invariant 0 <= index <= |patterns|
        invariant FirstMatch(patterns, entityTypes, tagName) ==
          FirstMatch(patterns[index..], entityTypes[index..], tagName)
      {
        if Matches(patterns[index], tagName) {
          t := entityTypes[index];
          return;
        }
        assert patterns[index..][1..] == patterns[index + 1..];
        assert entityTypes[index..][1..] == entityTypes[index + 1..];
        index := index + 1;
      }
    }

    /** The configured types, one per pattern, in configuration order. */
    function GetTypes(): (ts: seq<string>)
      reads this
      requires Valid()
      ensures |ts| == |patterns|
    {
      entityTypes
    }

    function GetDefaultType(): string
      reads this
    {
      defaultType
    }
  }

  // ---------------------------------------------------------------------------
  // The configurations of the classifier's tests
  // ---------------------------------------------------------------------------

  /** The device types of the ordered test configuration: five prefixes, then `.*`. */
  function OrderedTypes(): seq<TypePattern>
  {
    [TypePattern("TestType01", Lits("oakville/pump/") + [AnyRun]),
     TypePattern("TestType02", Lits("rutherford/compressor/") + [AnyRun]),
     TypePattern("CA3DeviceType", Lits("ca3/") + [AnyRun]),
     TypePattern("CA3EDeviceType", Lits("ca3e/") + [AnyRun]),
     TypePattern("CA5DeviceType", Lits("ca5/") + [AnyRun]),
     TypePattern("DefaultDeviceType", [AnyRun])]
  }

  /** Under the ordered configuration, a name matching none of the five prefixes falls through to `.*`. */
  lemma {:induction false} OrderedFallThrough(name: string)
    requires !Text.IsPrefix("oakville/pump/", name) && !Text.IsPrefix("rutherford/compressor/", name)
    requires !Text.IsPrefix("ca3/", name) && !Text.IsPrefix("ca3e/", name) && !Text.IsPrefix("ca5/", name)
    ensures FirstMatch(PatternsOf(OrderedTypes()), TypesOf(OrderedTypes()), name) == "DefaultDeviceType"
  {
    PrefixPattern("oakville/pump/", name);
    PrefixPattern("rutherford/compressor/", name);
    PrefixPattern("ca3/", name);
    PrefixPattern("ca3e/", name);
    PrefixPattern("ca5/", name);
    AnyRunMatchesAll(name);
    FirstMatchWins(PatternsOf(OrderedTypes()), TypesOf(OrderedTypes()), name, 5);
  }

  /** "ca3/boiler/temp" gets CA3DeviceType, although the later `.*` also matches it. */
  lemma {:induction false} OrderedEarlierWins()
    ensures FirstMatch(PatternsOf(OrderedTypes()), TypesOf(OrderedTypes()), "ca3/boiler/temp") == "CA3DeviceType"
  {
    var a := "ca3/boiler/temp";
    PrefixPattern("oakville/pump/", a);
    PrefixPattern("rutherford/compressor/", a);
    PrefixPattern("ca3/", a);
    assert a[0] == 'c';
    assert a[..4] == "ca3/";
    FirstMatchWins(PatternsOf(OrderedTypes()), TypesOf(OrderedTypes()), a, 2);
  }

  /** "ca3" and "ca3eboiler/temp" contain a prefix's text but match no prefix pattern as a whole. */
  lemma WholeNameMatching()
    ensures FirstMatch(PatternsOf(OrderedTypes()), TypesOf(OrderedTypes()), "ca3") == "DefaultDeviceType"
    ensures FirstMatch(PatternsOf(OrderedTypes()), TypesOf(OrderedTypes()), "ca3eboiler/temp") == "DefaultDeviceType"
  {
    var c := "ca3eboiler/temp";
    assert c[0] == 'c' && c[2] == '3' && c[3] == 'e' && c[4] == 'b';
    OrderedFallThrough("ca3");
    OrderedFallThrough(c);
  }

  /** The test configuration where three infix patterns share the type TestType01. */
  function SharedTypes(): seq<TypePattern>
  {
    [TypePattern("TestType01", Lits("ca3/hvac/") + ([AnyRun] + Lits("zonetemp"))),
     TypePattern("TestType01", Lits("ca3/hvac/") + ([AnyRun] + Lits("roompressure"))),
     TypePattern("TestType01", Lits("ca3/hvac/") + ([AnyRun] + Lits("roomtempf")))]
  }

  /** A name outside "ca3/hvac/" matches none of the shared patterns and so gets "", not TestType01. */
  lemma SharedTypeExample(name: string)
    requires !Text.IsPrefix("ca3/hvac/", name)
    ensures FirstMatch(PatternsOf(SharedTypes()), TypesOf(SharedTypes()), name) == ""
  {
    var ps := PatternsOf(SharedTypes());
    InfixPattern("ca3/hvac/", "zonetemp", name);
    InfixPattern("ca3/hvac/", "roompressure", name);
    InfixPattern("ca3/hvac/", "roomtempf", name);
    NoMatchIsEmpty(ps, TypesOf(SharedTypes()), name);
  }

  /** A name under "ca3/hvac/" ending in "roompressure" gets the shared type TestType01. */
  lemma SharedTypeMatch(name: string)
    requires Text.IsPrefix("ca3/hvac/", name) && |name| >= 21 && name[|name| - 12..] == "roompressure"
    ensures FirstMatch(PatternsOf(SharedTypes()), TypesOf(SharedTypes()), name) == "TestType01"
  {
    var ps := PatternsOf(SharedTypes());
    InfixPattern("ca3/hvac/", "roompressure", name);
    if Matches(ps[0], name) {
      FirstMatchWins(ps, TypesOf(SharedTypes()), name, 0);
    } else {
      FirstMatchWins(ps, TypesOf(SharedTypes()), name, 1);
    }
  }
}

=== FILE: producer.dfy ===
/**
 * The uploader task: writes the rows of one column map into the destination table
 * in chunks, and adds the number of rows the database accepted to the offset
 * record's uploaded counter. A chunk the database refuses is taken off the count
 * and the upload goes on with the next rows (the subtract policy of `Batches`),
 * unless the refusal chains no next exception: then logging that exception's
 * message throws on null, which ends the row loop.
 */
module Producing {
  import Text
  import Schema
  import Jdbc
  import Batches
  import Columns
  import Configuration
  import Offsets
  import Helper

  class Producer {
    const config: Configuration.Config
    const offsetRecord: Offsets.OffsetRecord
    const sourceMap: Columns.ColumnMap
    const totalRows: int
    const batchInsertSize: int
    const entityType: string
    const dbHelper: Helper.DBHelper
    /** The runtime's number and timestamp parsers the binding relies on. */
    const env: Schema.Env

    /**
     * Keeps the configuration, the offset record, the column map and its row count,
     * the chunk size the configuration gives, and the configuration's entity type,
     * and opens a helper of its own.
     */
    constructor (config: Configuration.Config, offsetRecord: Offsets.OffsetRecord, sourceMap: Columns.ColumnMap,
                 totalRows: int, batchInsertSize: int, statsCache: Helper.StatsStatementCache, env: Schema.Env)
      ensures this.config == config && this.offsetRecord == offsetRecord
      ensures this.sourceMap == sourceMap && this.totalRows == totalRows
      ensures this.batchInsertSize == batchInsertSize && entityType == config.entityType
      ensures dbHelper.connectorType == config.connectorType && this.env == env
    {
      this.config := config;
      this.offsetRecord := offsetRecord;
      this.sourceMap := sourceMap;
      this.totalRows := totalRows;
      this.batchInsertSize := batchInsertSize;
      dbHelper := new Helper.DBHelper(config, statsCache);
      entityType := config.entityType;
      this.env := env;
    }

    /** The number of rows the loop visits: `i < totalRows` runs no time for a negative count. */
    function RowCount(): (n: nat)
      ensures n == (if totalRows < 0 then 0 else totalRows)
    {
      if totalRows < 0 then 0 else totalRows
    }

    /** The parameters of each row of the map, `None` for a row whose binding throws. */
    function Rows(): seq<Text.Option<Jdbc.Bound>>
    {
      Schema.MonitorRows(dbHelper.connectorType, sourceMap, RowCount(), env)
    }

    /**
     * `call`: binds and batches every row, executes every `batchInsertSize` rows and
     * once more for the rest, and adds the count of the subtract policy to the
     * uploaded counter; it always answers true. `chains(c)` says whether the
     * exception of a refused execution `c` chains a next one. When every refusal
     * does, the count is the rows of the accepted executions; a refusal that chains
     * none ends the loop, and its chunk is taken off once more if the flush that
     * follows is refused too. The rate is the counted rows per second over `elapsed`
     * milliseconds, the product `rowsProcessed * 1000` taken in 32 bits before the
     * division widens it; it is only logged, and a zero `elapsed` or a flush that
     * throws leaves it 0 and the count as it is.
     */
    method Call(accepts: nat -> bool, chains: nat -> bool, elapsed: int) returns (result: bool, uploaded: int, rate: int)
      modifies offsetRecord`uploadedCount
      ensures result
      ensures uploaded == Batches.Uploaded(Batches.BindPrefix(Rows()), Batches.ChunkSize(batchInsertSize), accepts, chains, 0)
      ensures -(Batches.ChunkSize(batchInsertSize) as int) <= uploaded <= Batches.BindPrefix(Rows())
      ensures (forall c :: chains(c)) ==>
        uploaded == Batches.AcceptedRows(Batches.BindPrefix(Rows()), Batches.ChunkSize(batchInsertSize), accepts, 0)
      ensures (forall c :: accepts(c)) ==> uploaded == Batches.BindPrefix(Rows())
      ensures (forall c :: !accepts(c) && chains(c)) ==> uploaded == 0
      ensures offsetRecord.uploadedCount == old(offsetRecord.uploadedCount) + uploaded
      ensures var size := Batches.ChunkSize(batchInsertSize);
        var threw := Batches.SubtractFlushThrows(Batches.SubtractFrom(Rows(), 0, Batches.Start, size, accepts, chains),
                                                 accepts, chains);
        rate == (if uploaded > 0 && elapsed != 0 && !threw then Text.JavaDiv(Text.Int32Of(uploaded * 1000), elapsed) else 0)
    {
      var insertSQL := dbHelper.GetMonitorInsertSQL(entityType);
      var threw;
      uploaded, threw := UploadAll(accepts, chains);
      CountFacts(accepts, chains);
      rate := 0;
      if uploaded > 0 && elapsed != 0 && !threw {
        rate := Text.JavaDiv(Text.Int32Of(uploaded * 1000), elapsed);
      }
      var total := offsetRecord.SetUploadedCount(uploaded);
      result := true;
    }

    /** What the subtract policy's count is, for the rows of this map. */
    lemma CountFacts(accepts: nat -> bool, chains: nat -> bool)
      ensures var size := Batches.ChunkSize(batchInsertSize);
        var n := Batches.BindPrefix(Rows());
        var u := Batches.SubtractFlush(Batches.SubtractFrom(Rows(), 0, Batches.Start, size, accepts, chains), accepts).processed;
        u == Batches.Uploaded(n, size, accepts, chains, 0) && -(size as int) <= u <= n &&
        ((forall c :: chains(c)) ==> u == Batches.AcceptedRows(n, size, accepts, 0)) &&
        ((forall c :: accepts(c)) ==> u == n) &&
        ((forall c :: !accepts(c) && chains(c)) ==> u == 0)
    {
      var size := Batches.ChunkSize(batchInsertSize);
      var n := Batches.BindPrefix(Rows());
      Batches.SubtractResult(Rows(), size, accepts, chains);
      if forall c :: accepts(c) {
        Batches.UploadedAllAccepted(n, size, accepts, chains, 0);
      }
      if forall c :: !accepts(c) && chains(c) {
        Batches.AcceptedRowsNone(n, size, accepts, 0);
      }
    }

    /**
     * The row loop and the final flush, as the subtract policy describes them;
     * `threw` when the flush is refused and its exception chains no next one.
     */
    method UploadAll(accepts: nat -> bool, chains: nat -> bool) returns (rowsProcessed: int, threw: bool)
      ensures var size := Batches.ChunkSize(batchInsertSize);
        var r := Batches.SubtractFrom(Rows(), 0, Batches.Start, size, accepts, chains);
        rowsProcessed == Batches.SubtractFlush(r, accepts).processed &&
        threw == Batches.SubtractFlushThrows(r, accepts, chains)
    {
      var size := Batches.ChunkSize(batchInsertSize);
      ghost var rows := Rows();
      ghost var r := Batches.SubtractFrom(rows, 0, Batches.Start, size, accepts, chains);
      var ps := new Jdbc.PreparedStatement();
      rowsProcessed := 0;
      var batchCount := 0;
      var chunks: nat := 0;
      var i := 0;
      while i < totalRows
        invariant 0 <= i <= RowCount()
        invariant batchCount == |ps.batch|
        invariant r == Batches.SubtractFrom(rows, i, Batches.Load(rowsProcessed, ps.batch, ps.executed, chunks, false),
                                            size, accepts, chains)
      {
        ghost var l := Batches.Load(rowsProcessed, ps.batch, ps.executed, chunks, false);
        assert r == Batches.SubtractFrom(rows, i + 1, Batches.SubtractStep(l, rows[i], size, accepts, chains),
                                         size, accepts, chains);
        var stop;
        stop, rowsProcessed, batchCount, chunks := UploadRow(ps, i, rowsProcessed, batchCount, chunks, size, accepts, chains);
        if stop {
          break;
        }
        i := i + 1;
      }
      assert r.processed == rowsProcessed && r.pending == ps.batch && r.chunks == chunks;
      threw := false;
      if batchCount > 0 {
        var executed := ps.ExecuteBatch(accepts(chunks));
        if !executed {
          rowsProcessed := rowsProcessed - batchCount;
          threw := !chains(chunks);
        }
        if !threw {
          ps.ClearBatch();
        }
      }
    }

    /**
     * One row: bind and batch it, and when the batch is full execute it. A refused
     * chunk is taken off the count; when its exception chains a next one the batch
     * is cleared and the loop goes on, otherwise reading the missing exception
     * throws and `stop` ends the loop with the batch still pending. `stop` also when
     * the binding throws. The batch counts at least one row here, so comparing it
     * with `size` is comparing it with `batchInsertSize`.
     */
    method UploadRow(ps: Jdbc.PreparedStatement, i: int, rowsProcessed: int, batchCount: int, chunks: nat,
                     size: nat, accepts: nat -> bool, chains: nat -> bool)
      returns (stop: bool, processed: int, count: int, executions: nat)
      requires batchCount == |ps.batch| && size == Batches.ChunkSize(batchInsertSize)
      modifies ps
      ensures count == |ps.batch|
      ensures Batches.SubtractStep(Batches.Load(rowsProcessed, old(ps.batch), old(ps.executed), chunks, false),
                                   Schema.MonitorParams(dbHelper.connectorType, sourceMap, i, env), size, accepts, chains)
              == Batches.Load(processed, ps.batch, ps.executed, executions, stop)
    {
      processed, count, executions := rowsProcessed, batchCount, chunks;
      var ok := dbHelper.GetMonitorPS(ps, sourceMap, i, env);
      if !ok {
        return true, processed, count, executions;
      }
      ps.AddBatch();
      count := count + 1;
      processed := processed + 1;
      stop := false;
      if count >= size {
        stop, processed, count, executions := ExecuteChunk(ps, processed, count, executions, accepts, chains);
      }
    }

    /**
     * The execution of a full batch inside the row loop: accepted, the batch is
     * cleared; refused, its rows are taken off the count, and then the batch is
     * cleared when the exception chains a next one, while otherwise the loop stops.
     */
    method ExecuteChunk(ps: Jdbc.PreparedStatement, rowsProcessed: int, batchCount: int, chunks: nat,
                        accepts: nat -> bool, chains: nat -> bool)
      returns (stop: bool, processed: int, count: int, executions: nat)
      requires batchCount == |ps.batch|
      modifies ps`batch, ps`executed
      ensures count == |ps.batch|
      ensures Batches.SubtractExecute(Batches.Load(rowsProcessed, old(ps.batch), old(ps.executed), chunks, false),
                                      accepts, chains)
              == Batches.Load(processed, ps.batch, ps.executed, executions, stop)
    {
      var executed := ps.ExecuteBatch(accepts(chunks));
      processed, executions := rowsProcessed, chunks + 1;
      count := batchCount;
      stop := false;
      if !executed {
        processed := processed - count;
        if !chains(chunks) {
          stop := true;
          return;
        }
      }
      ps.ClearBatch();
      count := 0;
    }
  }

  /**
   * The rate's product is an `int`: 2,147,484 rows over 1000 ms give
   * 2,147,484,000, which wraps to -2,147,483,296, so the rate is -2,147,483.
   */
  lemma RateWraps()
    ensures Text.JavaDiv(Text.Int32Of(2147484 * 1000), 1000) == -2147483
    ensures Text.JavaDiv(Text.Int32Of(2147483 * 1000), 1000) == 2147483
  {
  }
}

=== FILE: py_register.dfy ===
/**
 * The schema generation of the Python registration script (bin/register.py): the
 * event mapping document (`evtMapCreate`), the event schema document, the column
 * titles and the data lake DDL (`createSchemas`). The configuration's
 * `interfaceEvents` object is an ordered list of (key, type string) pairs with
 * distinct keys, in the order the JSON object lists them.
 */
module PyRegister {
  import Text
  import Schema
  import PyUtils

  type Events = seq<(string, string)>

  /** The keys of the configured interface events, in order. */
  function KeysOf(events: Events): (keys: seq<string>)
    ensures |keys| == |events|
  {
    seq(|events|, i requires 0 <= i < |events| => events[i].0)
  }

  /** A JSON object has no key twice. */
  predicate DistinctKeys(events: Events)
  {
    Schema.Distinct(KeysOf(events))
  }

  // ---------------------------------------------------------------------------
  // evtMapCreate
  // ---------------------------------------------------------------------------

  const EVENT_PREFIX := "$event."

  /**
   * The names `evtMapCreate` maps, by branch: the interface event keys when there
   * are any; otherwise, with no renamed columns, the data frame's columns (without
   * "deviceId" when the entity names a device column); otherwise the event columns
   * found in the input file, given here as `derivedEvents`.
   */
  function EventNames(events: Events, renameColumnsEmpty: bool, deviceColumn: bool,
                      columns: seq<string>, derivedEvents: seq<string>): seq<string>
  {
    if |events| > 0 then KeysOf(events)
    else if renameColumnsEmpty then
      (if deviceColumn then Without(columns, "deviceId") else columns)
    else derivedEvents
  }

  /** The names other than `x`, in order. */
  function Without(names: seq<string>, x: string): (r: seq<string>)
    ensures forall n :: n in r <==> n in names && n != x
  {
    if |names| == 0 then []
    else Without(names[..|names| - 1], x) + (if names[|names| - 1] == x then [] else [names[|names| - 1]])
  }

  /**
   * The keys of a Python dict after assigning each name in turn: a name seen before
   * keeps its first position.
   */
  function Dedup(names: seq<string>): (r: seq<string>)
  {
    if |names| == 0 then []
    else
      var front := Dedup(names[..|names| - 1]);
      if names[|names| - 1] in front then front else front + [names[|names| - 1]]
  }

  /** The dict's keys are the names assigned, each once. */
  lemma {:induction false} DedupKeys(names: seq<string>)
    ensures Schema.Distinct(Dedup(names))
    ensures forall n :: n in Dedup(names) <==> n in names
  {
    if |names| > 0 {
      var front := names[..|names| - 1];
      DedupKeys(front);
      assert names == front + [names[|names| - 1]];
    }
  }

  /** Names that are already distinct keep their order. */
  lemma {:induction false} DedupOfDistinct(names: seq<string>)
    requires Schema.Distinct(names)
    ensures Dedup(names) == names
  {
    if |names| > 0 {
      var front := names[..|names| - 1];
      assert Schema.Distinct(front);
      DedupOfDistinct(front);
      assert names[|names| - 1] !in front;
      assert front + [names[|names| - 1]] == names;
    }
  }

  /**
   * `evtMapCreate`: the mapping document holds the single key "<type>Event", and
   * under it every name maps to "$event.<name>", in the order the names were first
   * assigned. The data types come back from the input-file branch only.
   */
  method EvtMapCreate(entityType: string, events: Events, renameColumnsEmpty: bool, deviceColumn: bool,
                      columns: seq<string>, derivedEvents: seq<string>, derivedTypes: seq<(string, string)>)
    returns (mapName: string, keys: seq<string>, mapping: map<string, string>, dataTypes: seq<(string, string)>)
    ensures mapName == entityType + "Event"
    ensures keys == Dedup(EventNames(events, renameColumnsEmpty, deviceColumn, columns, derivedEvents))
    ensures mapping.Keys == set k | k in keys
    ensures forall k :: k in mapping ==> mapping[k] == EVENT_PREFIX + k
    ensures dataTypes == (if |events| == 0 && !renameColumnsEmpty then derivedTypes else [])
  {
    dataTypes := [];
    var names: seq<string>;
    if |events| > 0 {
      names := [];
      var i := 0;
      while i < |events|
        invariant 0 <= i <= |events|
        invariant names == KeysOf(events)[..i]
      {
        names := names + [events[i].0];
        i := i + 1;
      }
      assert KeysOf(events)[..i] == KeysOf(events);
    } else if renameColumnsEmpty {
      names := [];
      var i := 0;
      while i < |columns|
        invariant 0 <= i <= |columns|
        invariant names == (if deviceColumn then Without(columns[..i], "deviceId") else columns[..i])
      {
        assert columns[..i + 1][..i] == columns[..i];
        if !deviceColumn || columns[i] != "deviceId" {
          names := names + [columns[i]];
        }
        i := i + 1;
      }
      assert columns[..i] == columns;
    } else {
      names := derivedEvents;
      dataTypes := derivedTypes;
    }
    keys, mapping := [], map[];
    var j := 0;
    while j < |names|
      invariant 0 <= j <= |names|
      invariant keys == Dedup(names[..j])
      invariant mapping.Keys == set k | k in keys
      invariant forall k :: k in mapping ==> mapping[k] == EVENT_PREFIX + k
    {
      assert names[..j + 1][..j] == names[..j];
      if names[j] !in mapping {
        keys := keys + [names[j]];
      }
      mapping := mapping[names[j] := EVENT_PREFIX + names[j]];
      j := j + 1;
    }
    assert names[..j] == names;
    mapName := entityType + "Event";
  }

  /**
   * With interface events the mapping names exactly their keys, in the configured
   * order, since a JSON object has no key twice.
   */
  lemma InterfaceMapping(events: Events, renameColumnsEmpty: bool, deviceColumn: bool,
                         columns: seq<string>, derivedEvents: seq<string>)
    requires |events| > 0 && DistinctKeys(events)
    ensures Dedup(EventNames(events, renameColumnsEmpty, deviceColumn, columns, derivedEvents)) == KeysOf(events)
  {
    DedupOfDistinct(KeysOf(events));
  }

  // ---------------------------------------------------------------------------
  // createSchemas: the interfaceEvents branch
  // ---------------------------------------------------------------------------

  /** A JSON default value. A float is kept as its literal. */
  datatype JsonDefault = DefaultText(text: string) | DefaultInt(n: int) | DefaultFloat(literal: string) | DefaultBool(b: bool)

  /** The JSON schema of one property. */
  datatype KeyObject = KeyObject(description: string, jsonType: Text.Option<string>,
                                 default: Text.Option<JsonDefault>, format: Text.Option<string>)

  const VARCHAR := "VARCHAR(256)"
  const TIMESTAMP := "TIMESTAMP(12)"
  const EPOCH_TEXT := "1970-01-01T00:00:00.000000+00:00"

  /**
   * The property and the DDL type of one interface event. The lower-cased type
   * string is searched for "string", "integer", "number" and "date-time" in that
   * order and the first hit decides; with no hit the column is VARCHAR(256) and the
   * property has no type.
   */
  function InterfaceColumn(key: string, value: string): (r: (KeyObject, string))
    ensures r.0.description == key
    ensures Text.Contains(Text.Lower(value), "string") ==> r.1 == VARCHAR && r.0.jsonType == Text.Some("string")
    ensures r.1 == TIMESTAMP <==> r.0.format == Text.Some("date-time")
    ensures r.0.jsonType.None? <==> r.0.default.None?
    ensures r.0.jsonType.None? ==> r.1 == VARCHAR
    ensures r.0.jsonType == Text.Some("number") <==> r.1 in {"INTEGER", "DOUBLE"}
    ensures var v := Text.Lower(value);
      Text.Contains(v, "string") ==> r.0.default == Text.Some(DefaultText("")) && r.0.format.None?
    ensures var v := Text.Lower(value);
      !Text.Contains(v, "string") && Text.Contains(v, "integer") ==>
        r.1 == "INTEGER" && r.0.jsonType == Text.Some("number") && r.0.default == Text.Some(DefaultInt(0)) && r.0.format.None?
    ensures var v := Text.Lower(value);
      !Text.Contains(v, "string") && !Text.Contains(v, "integer") && Text.Contains(v, "number") ==>
        r.1 == "DOUBLE" && r.0.jsonType == Text.Some("number") && r.0.default == Text.Some(DefaultFloat("0.0")) && r.0.format.None?
    ensures var v := Text.Lower(value);
      !Text.Contains(v, "string") && !Text.Contains(v, "integer") && !Text.Contains(v, "number") && Text.Contains(v, "date-time") ==>
        r.1 == TIMESTAMP && r.0.jsonType == Text.Some("string") && r.0.default == Text.Some(DefaultText(EPOCH_TEXT)) &&
        r.0.format == Text.Some("date-time")
    ensures var v := Text.Lower(value);
      !Text.Contains(v, "string") && !Text.Contains(v, "integer") && !Text.Contains(v, "number") && !Text.Contains(v, "date-time") ==>
        r.1 == VARCHAR && r.0.jsonType.None? && r.0.default.None? && r.0.format.None?
  {
    var v := Text.Lower(value);
    if Text.Contains(v, "string") then
      (KeyObject(key, Text.Some("string"), Text.Some(DefaultText("")), Text.None), VARCHAR)
    else if Text.Contains(v, "integer") then
      (KeyObject(key, Text.Some("number"), Text.Some(DefaultInt(0)), Text.None), "INTEGER")
    else if Text.Contains(v, "number") then
      (KeyObject(key, Text.Some("number"), Text.Some(DefaultFloat("0.0")), Text.None), "DOUBLE")
    else if Text.Contains(v, "date-time") then
      (KeyObject(key, Text.Some("string"), Text.Some(DefaultText(EPOCH_TEXT)), Text.Some("date-time")), TIMESTAMP)
    else
      (KeyObject(key, Text.None, Text.None, Text.None), VARCHAR)
  }

  /** The properties of the event schema, one per interface event, in order. */
  function Properties(events: Events): (r: seq<(string, KeyObject)>)
    ensures |r| == |events|
  {
    if |events| == 0 then []
    else
      var e := events[|events| - 1];
      Properties(events[..|events| - 1]) + [(e.0, InterfaceColumn(e.0, e.1).0)]
  }

  /** The keys listed in `interfaceRequired`, in the order of the events. */
  function RequiredKeys(events: Events, required: seq<string>): seq<string>
  {
    if |events| == 0 then []
    else
      var e := events[|events| - 1];
      RequiredKeys(events[..|events| - 1], required) + (if e.0 in required then [e.0] else [])
  }

  /** The column titles: the keys upper-cased, in order. */
  function Titles(events: Events): (r: seq<string>)
    ensures |r| == |events|
  {
    if |events| == 0 then []
    else Titles(events[..|events| - 1]) + [Text.Upper(events[|events| - 1].0)]
  }

  /** The DDL types of the events, in order. */
  function DdlTypes(events: Events): (r: seq<string>)
    ensures |r| == |events|
  {
    if |events| == 0 then []
    else
      var e := events[|events| - 1];
      DdlTypes(events[..|events| - 1]) + [InterfaceColumn(e.0, e.1).1]
  }

  /** The DDL text of one column. */
  function ColumnDdl(title: string, ddlType: string): string
  {
    title + " " + ddlType + ", "
  }

  /** The DDL fragment the loop builds: "<KEY> <DDLTYPE>, " per event. */
  function Fragment(events: Events): string
  {
    if |events| == 0 then ""
    else
      var e := events[|events| - 1];
      Fragment(events[..|events| - 1]) + ColumnDdl(Text.Upper(e.0), InterfaceColumn(e.0, e.1).1)
  }

  /** Column definitions from a list of titles and a list of types of the same length. */
  function ColumnList(titles: seq<string>, types: seq<string>): string
    requires |titles| == |types|
  {
    if |titles| == 0 then ""
    else ColumnList(titles[..|titles| - 1], types[..|types| - 1]) + ColumnDdl(titles[|titles| - 1], types[|types| - 1])
  }

  /** Python `str.isspace()` on one character. */
  predicate IsPySpace(ch: char)
  {
    var c := ch as int;
    c == 0x20 || 0x09 <= c <= 0x0D || 0x1C <= c <= 0x1F || c == 0x85 || c == 0xA0 || c == 0x1680 ||
    0x2000 <= c <= 0x200A || c == 0x2028 || c == 0x2029 || c == 0x202F || c == 0x205F || c == 0x3000
  }

  /** Python `str.strip()`: leading and trailing whitespace removed. */
  function Strip(s: string): (r: string)
    ensures |r| <= |s|
    ensures |r| > 0 ==> !IsPySpace(r[0]) && !IsPySpace(r[|r| - 1])
    ensures (|s| == 0 || (!IsPySpace(s[0]) && !IsPySpace(s[|s| - 1]))) ==> r == s
    ensures StrippedFrom(r, s)
  {
    if |s| > 0 && IsPySpace(s[0]) then
      var t := Strip(s[1..]);
      StripFront(s, s[1..], t);
      t
    else if |s| > 0 && IsPySpace(s[|s| - 1]) then
      var t := Strip(s[..|s| - 1]);
      StripBack(s, s[..|s| - 1], t);
      t
    else
      assert StrippedFrom(s, s) by {
        assert s == s[0..|s|];
      }
      s
  }

  /** `t` is `s` with some whitespace taken off its front and some off its back. */
  ghost predicate StrippedFrom(t: string, s: string)
  {
    exists i, j :: 0 <= i <= j <= |s| && t == s[i..j] &&
      (forall k :: 0 <= k < i ==> IsPySpace(s[k])) && (forall k :: j <= k < |s| ==> IsPySpace(s[k]))
  }

  /** Whitespace taken off `u`, which is `s` without its leading whitespace character, is taken off `s`. */
  lemma StripFront(s: string, u: string, t: string)
    requires |s| > 0 && IsPySpace(s[0]) && u == s[1..]
    requires StrippedFrom(t, u)
    ensures StrippedFrom(t, s)
  {
    var i, j :| 0 <= i <= j <= |u| && t == u[i..j] &&
      (forall k :: 0 <= k < i ==> IsPySpace(u[k])) && (forall k :: j <= k < |u| ==> IsPySpace(u[k]));
    assert t == s[i + 1..j + 1];
    forall k | 0 <= k < i + 1 ensures IsPySpace(s[k]) {
      if k > 0 { assert s[k] == u[k - 1]; }
    }
    forall k | j + 1 <= k < |s| ensures IsPySpace(s[k]) {
      assert s[k] == u[k - 1];
    }
  }

  /** Whitespace taken off `u`, which is `s` without its trailing whitespace character, is taken off `s`. */
  lemma StripBack(s: string, u: string, t: string)
    requires |s| > 0 && IsPySpace(s[|s| - 1]) && u == s[..|s| - 1]
    requires StrippedFrom(t, u)
    ensures StrippedFrom(t, s)
  {
    var i, j :| 0 <= i <= j <= |u| && t == u[i..j] &&
      (forall k :: 0 <= k < i ==> IsPySpace(u[k])) && (forall k :: j <= k < |u| ==> IsPySpace(u[k]));
    assert t == s[i..j];
    forall k | 0 <= k < i ensures IsPySpace(s[k]) {
      assert s[k] == u[k];
    }
    forall k | j <= k < |s| ensures IsPySpace(s[k]) {
      if k < |u| { assert s[k] == u[k]; }
    }
  }

  const DDL_TAIL := " DEVICETYPE VARCHAR(64), DEVICEID VARCHAR(256), LOGICALINTERFACE_ID VARCHAR(64), EVENTTYPE VARCHAR(64), FORMAT VARCHAR(32), RCV_TIMESTAMP_UTC TIMESTAMP(12), UPDATED_UTC TIMESTAMP(12) )"

  /** The data lake table: the event columns, then the seven WIoTP columns. */
  function Ddl(schemaName: string, entityType: string, fragment: string): string
  {
    "CREATE TABLE " + Strip(Text.Upper(schemaName)) + ".IOT_" + Strip(Text.Upper(entityType)) + " ( " + fragment + DDL_TAIL
  }

  /** The four lists of the loop after one more event. */
  lemma BuildStep(events: Events, required: seq<string>, i: nat)
    requires i < |events|
    ensures var e := events[i]; var column := InterfaceColumn(e.0, e.1);
      Properties(events[..i + 1]) == Properties(events[..i]) + [(e.0, column.0)] &&
      RequiredKeys(events[..i + 1], required) == RequiredKeys(events[..i], required) + (if e.0 in required then [e.0] else []) &&
      Titles(events[..i + 1]) == Titles(events[..i]) + [Text.Upper(e.0)] &&
      Fragment(events[..i + 1]) == Fragment(events[..i]) + ColumnDdl(Text.Upper(e.0), column.1)
  {
    assert events[..i + 1][..i] == events[..i];
  }

  /**
   * The JSON event schema. (The source writes the description under the key
   * "desctiption".)
   */
  datatype EventSchema = EventSchema(schemaUri: string, objectType: string, title: string, description: string,
                                     properties: seq<(string, KeyObject)>, required: seq<string>)

  /** The outputs of `createSchemas`: the schema document (written twice), the titles and the DDL. */
  datatype Created = Created(schema: EventSchema, columnTitles: seq<string>, ddl: string)

  /** The loop over the interface events, filling the four lists. */
  method BuildColumns(events: Events, required: seq<string>)
    returns (properties: seq<(string, KeyObject)>, req: seq<string>, titles: seq<string>, fragment: string)
    ensures properties == Properties(events)
    ensures req == RequiredKeys(events, required)
    ensures titles == Titles(events)
    ensures fragment == Fragment(events)
  {
    properties, req, titles, fragment := [], [], [], "";
    var i := 0;
    while i < |events|
      invariant 0 <= i <= |events|
      invariant properties == Properties(events[..i])
      invariant req == RequiredKeys(events[..i], required)
      invariant titles == Titles(events[..i])
      invariant fragment == Fragment(events[..i])
    {
      BuildStep(events, required, i);
      var key, value := events[i].0, events[i].1;
      var column := InterfaceColumn(key, value);
      properties := properties + [(key, column.0)];
      if key in required {
        req := req + [key];
      }
      var kup := Text.Upper(key);
      titles := titles + [kup];
      fragment := fragment + ColumnDdl(kup, column.1);
      i := i + 1;
    }
    assert events[..i] == events;
  }

  /**
   * `createSchemas` with `tsKnown` telling whether the event data names a timestamp
   * column. Without interface events the source reads `config.columnMaps`, an
   * attribute a dict does not have, and raises `AttributeError`.
   */
  method CreateSchemas(entityType: string, schemaName: string, events: Events, required: seq<string>, tsKnown: bool)
    returns (r: PyUtils.PyResult<Created>)
    ensures !tsKnown ==> r == PyUtils.Raised(PyUtils.KeyError("timestamp"))
    ensures tsKnown && |events| == 0 ==> r == PyUtils.Raised(PyUtils.AttributeError)
    ensures tsKnown && |events| > 0 ==> r.Ok?
    ensures r.Ok? ==> r.value.schema.properties == Properties(events)
    ensures r.Ok? ==> r.value.schema.required == RequiredKeys(events, required)
    ensures r.Ok? ==> r.value.schema.title == "Event Schema for " + entityType
    ensures r.Ok? ==> r.value.schema.description == "Defines " + entityType + " events"
    ensures r.Ok? ==> r.value.columnTitles == Titles(events)
    ensures r.Ok? ==> r.value.ddl == Ddl(schemaName, entityType, Fragment(events))
  {
    if !tsKnown {
      return PyUtils.Raised(PyUtils.KeyError("timestamp"));
    }
    if |events| == 0 {
      return PyUtils.Raised(PyUtils.AttributeError);
    }
    var properties, req, titles, fragment := BuildColumns(events, required);
    var schema := EventSchema("http://json-schema.org/draft-04/schema#", "object", "Event Schema for " + entityType,
                              "Defines " + entityType + " events", properties, req);
    r := PyUtils.Ok(Created(schema, titles, Ddl(schemaName, entityType, fragment)));
  }

  /** `required` holds exactly the configured keys that are listed as required. */
  lemma {:induction false} RequiredExactly(events: Events, required: seq<string>)
    ensures forall x :: x in RequiredKeys(events, required) <==> x in required && x in KeysOf(events)
  {
    if |events| > 0 {
      var front := events[..|events| - 1];
      RequiredExactly(front, required);
      assert KeysOf(events) == KeysOf(front) + [events[|events| - 1].0];
    }
  }

  /** `required` lists the keys in the order of the events: it is a subsequence of the keys. */
  predicate Subsequence(a: seq<string>, b: seq<string>)
  {
    if |a| == 0 then true
    else if |b| == 0 then false
    else if a[|a| - 1] == b[|b| - 1] then Subsequence(a[..|a| - 1], b[..|b| - 1])
    else Subsequence(a, b[..|b| - 1])
  }

  lemma {:induction false} SubsequenceOfEmpty(b: seq<string>)
    ensures Subsequence([], b)
  {
  }

  /** Keeping fewer of the trailing keys keeps the subsequence. */
  lemma {:induction false} SubsequenceSkip(a: seq<string>, b: seq<string>, x: string)
    requires Subsequence(a, b)
    ensures Subsequence(a, b + [x])
    decreases |b|, 1
  {
    if |a| > 0 {
      var b' := b + [x];
      assert b'[..|b'| - 1] == b;
      if a[|a| - 1] == x {
        SubsequenceDrop(a, b);
      }
    }
  }

  /** Dropping the last element of `a` keeps it a subsequence. */
  lemma {:induction false} SubsequenceDrop(a: seq<string>, b: seq<string>)
    requires |a| > 0 && Subsequence(a, b)
    ensures Subsequence(a[..|a| - 1], b)
    decreases |b|, 0
  {
    if |b| > 0 {
      if a[|a| - 1] == b[|b| - 1] {
        SubsequenceSkip(a[..|a| - 1], b[..|b| - 1], b[|b| - 1]);
        assert b[..|b| - 1] + [b[|b| - 1]] == b;
      } else {
        SubsequenceDrop(a, b[..|b| - 1]);
        SubsequenceSkip(a[..|a| - 1], b[..|b| - 1], b[|b| - 1]);
        assert b[..|b| - 1] + [b[|b| - 1]] == b;
      }
    }
  }

  lemma {:induction false} RequiredInOrder(events: Events, required: seq<string>)
    ensures Subsequence(RequiredKeys(events, required), KeysOf(events))
  {
    if |events| > 0 {
      var front := events[..|events| - 1];
      var k := events[|events| - 1].0;
      RequiredInOrder(front, required);
      var keys := KeysOf(events);
      assert keys[..|keys| - 1] == KeysOf(front);
      assert keys == KeysOf(front) + [k];
      if k in required {
        var r := RequiredKeys(events, required);
        assert r[..|r| - 1] == RequiredKeys(front, required);
      } else {
        assert RequiredKeys(events, required) == RequiredKeys(front, required);
        SubsequenceSkip(RequiredKeys(front, required), KeysOf(front), k);
      }
    }
  }

  /** The column titles are the keys upper-cased, position by position. */
  lemma {:induction false} TitlesAt(events: Events)
    ensures forall i :: 0 <= i < |events| ==> Titles(events)[i] == Text.Upper(events[i].0)
  {
    if |events| > 0 {
      TitlesAt(events[..|events| - 1]);
    }
  }

  /**
   * The DDL fragment names the column titles, each with the DDL type of its event,
   * in the same order.
   */
  lemma {:induction false} FragmentMatchesTitles(events: Events)
    ensures Fragment(events) == ColumnList(Titles(events), DdlTypes(events))
  {
    if |events| > 0 {
      var front := events[..|events| - 1];
      FragmentMatchesTitles(front);
      var t, d := Titles(events), DdlTypes(events);
      assert t[..|t| - 1] == Titles(front);
      assert d[..|d| - 1] == DdlTypes(front);
    }
  }

  // ---------------------------------------------------------------------------
  // createSchemas: the dataTypes branch
  // ---------------------------------------------------------------------------

  /**
   * The type mapping of the branch that uses the input file's data types. The
   * boolean case sets no DDL type (`None`): the loop keeps the one of the previous
   * column.
   */
  function DataTypeColumn(key: string, dataType: string): (r: (KeyObject, Text.Option<string>))
    ensures r.0.description == key
  {
    var t := Text.Lower(dataType);
    if Text.Contains(t, "int64") then
      (KeyObject(key, Text.Some("number"), Text.Some(DefaultInt(0)), Text.None), Text.Some("DOUBLE"))
    else if Text.Contains(t, "int64 (epoc)") then
      (KeyObject(key, Text.Some("number"), Text.None, Text.Some("date-time")), Text.Some(TIMESTAMP))
    else if Text.Contains(t, "boolean") then
      (KeyObject(key, Text.Some("boolean"), Text.Some(DefaultBool(false)), Text.None), Text.None)
    else if Text.Contains(t, "string") then
      (KeyObject(key, Text.Some("string"), Text.Some(DefaultText("")), Text.None), Text.Some(VARCHAR))
    else if Text.Contains(t, "string (date-time)") then
      (KeyObject(key, Text.Some("string"), Text.Some(DefaultText(EPOCH_TEXT)), Text.Some("date-time")), Text.Some(TIMESTAMP))
    else
      (KeyObject(key, Text.Some("number"), Text.Some(DefaultFloat("0.0")), Text.None), Text.Some("DOUBLE"))
  }

  /**
   * "int64" and "string" are tested before the longer names that contain them, so
   * no data type ever gets the date-time format or a TIMESTAMP column.
   */
  lemma DateTimeBranchesUnreachable(key: string, dataType: string)
    ensures DataTypeColumn(key, dataType).0.format.None?
    ensures DataTypeColumn(key, dataType).1 != Text.Some(TIMESTAMP)
  {
    var t := Text.Lower(dataType);
    if Text.Contains(t, "int64 (epoc)") {
      assert Text.IsPrefix("int64", "int64 (epoc)");
      Text.ContainsPrefixOf(t, "int64 (epoc)", "int64");
    }
    if Text.Contains(t, "string (date-time)") {
      assert Text.IsPrefix("string", "string (date-time)");
      Text.ContainsPrefixOf(t, "string (date-time)", "string");
    }
  }
}

=== FILE: py_transform.dfy ===
/**
 * The dimension registration of the Python transform script (bin/transform.py,
 * `addDimensions`) and its interface-id fallback. Each unique dimensionData value
 * "<device id>#<tag path>" becomes a group of dimension items: CLIENT, TAGPATH, then
 * one LEVEL_i per "/"-separated piece of the tag path (Python's `split` keeps empty
 * pieces). The groups are collected into payloads of 25 devices; a payload is
 * always logged and is POSTed only when setDimensions is true.
 */
module PyTransform {
  import Text
  import Bulk
  import Dimensions
  import PyUtils

  type DimItem = Dimensions.DimItem

  const NOT_ASSIGNED := "NotAssigned"

  /** The number of devices whose items make up one payload. */
  const DEVICES_PER_PAYLOAD := 25

  /** `transformInputCSV`: a missing or empty interface id is replaced by "NotAssigned". */
  function InterfaceIdOrDefault(interfaceId: Text.Option<string>): (r: string)
    ensures r != ""
    ensures interfaceId.Some? && interfaceId.value != "" ==> r == interfaceId.value
    ensures interfaceId.None? || interfaceId.value == "" ==> r == NOT_ASSIGNED
  {
    if interfaceId.None? || interfaceId.value == "" then NOT_ASSIGNED else interfaceId.value
  }

  /** The `tagData` object of the entity configuration, with the keys it may lack. */
  datatype TagDataConfig = TagDataConfig(setDimensions: Text.Option<bool>, tagpath: Text.Option<string>)

  /**
   * The switch and the tag path `addDimensions` reads: both stay (false, "") unless
   * `tagData` holds `setDimensions`, and then `tagpath` must be there too.
   */
  function Switches(tagData: Text.Option<TagDataConfig>): (r: PyUtils.PyResult<(bool, string)>)
    ensures r.Raised? <==> tagData.Some? && tagData.value.setDimensions.Some? && tagData.value.tagpath.None?
    ensures r.Raised? ==> r.error == PyUtils.KeyError("tagpath")
    ensures r.Ok? && r.value.1 != "" <==>
              tagData.Some? && tagData.value.setDimensions.Some? && tagData.value.tagpath.Some? && tagData.value.tagpath.value != ""
    ensures r.Ok? && r.value.0 ==> tagData.Some? && tagData.value.setDimensions == Text.Some(true)
  {
    if tagData.None? || tagData.value.setDimensions.None? then PyUtils.Ok((false, ""))
    else if tagData.value.tagpath.None? then PyUtils.Raised(PyUtils.KeyError("tagpath"))
    else PyUtils.Ok((tagData.value.setDimensions.value, tagData.value.tagpath.value))
  }

  /**
   * `did.split("#")` followed by `[0]` and `[1]`: the id and the tag path. A value
   * without "#" has one piece, and `[1]` raises `IndexError`.
   */
  function SplitDid(did: string): (r: PyUtils.PyResult<(string, string)>)
    ensures r.Ok? <==> '#' in did
    ensures r.Raised? ==> r.error == PyUtils.IndexError
    ensures r.Ok? ==> '#' !in r.value.0 && '#' !in r.value.1
    ensures Text.Count(did, '#') == 1 ==> r.Ok? && r.value.0 + "#" + r.value.1 == did
  {
    var parts := Text.Pieces(did, '#');
    Text.PiecesCount(did, '#');
    assert '#' in did <==> Text.Count(did, '#') >= 1 by {
      if '#' in did {
        Text.CountPresent(did, '#');
      } else {
        Text.CountFree(did, '#');
      }
    }
    if |parts| < 2 then PyUtils.Raised(PyUtils.IndexError)
    else
      assert Text.Count(did, '#') == 1 ==> parts[0] + "#" + parts[1] == did by {
        if Text.Count(did, '#') == 1 {
          Text.JoinPieces(did, '#');
          assert parts == [parts[0]] + [parts[1]];
          Text.JoinCons(parts[0], [parts[1]], "#");
        }
      }
      PyUtils.Ok((parts[0], parts[1]))
  }

  /** A device id and a tag path free of "#", joined by "#", split back into both. */
  lemma DidRoundTrip(id: string, tagpath: string)
    requires '#' !in id && '#' !in tagpath
    ensures SplitDid(id + "#" + tagpath) == PyUtils.Ok((id, tagpath))
  {
    Text.PiecesPrefix(id, tagpath, '#');
    Text.PiecesOfFree(tagpath, '#');
  }

  /**
   * The dimensionData field of a row splits back into the row's device id and tag
   * path whenever neither holds a "#".
   */
  lemma DimensionDataSplits(row: PyUtils.Row, idcol: string)
    requires "deviceId" in row && idcol in row
    requires '#' !in PyUtils.Str(row["deviceId"]) && '#' !in PyUtils.Str(row[idcol])
    ensures SplitDid(PyUtils.DimensionDataField(row, idcol).value) == PyUtils.Ok((PyUtils.Str(row["deviceId"]), PyUtils.Str(row[idcol])))
  {
    DidRoundTrip(PyUtils.Str(row["deviceId"]), PyUtils.Str(row[idcol]));
  }

  /** The items of one device: CLIENT, TAGPATH, then LEVEL_i per piece of the tag path. */
  function GroupItems(client: string, id: string, tpath: string): (items: seq<DimItem>)
    ensures |items| == 2 + |Text.Pieces(tpath, '/')|
  {
    [Dimensions.CreateDimItem(id, "CLIENT", Dimensions.LITERAL, client),
     Dimensions.CreateDimItem(id, "TAGPATH", Dimensions.LITERAL, tpath)]
      + Dimensions.Levels(id, Text.Pieces(tpath, '/'))
  }

  /** The values of the LEVEL items, in order. */
  function LevelValues(items: seq<DimItem>): seq<string>
    requires |items| >= 2
  {
    seq(|items| - 2, i requires 0 <= i < |items| - 2 => items[i + 2].value)
  }

  /**
   * Every item of a device carries its id and the LITERAL type; the first two are
   * CLIENT and TAGPATH, the rest are LEVEL_0, LEVEL_1, ... and their values joined
   * with "/" give the tag path back, whatever it holds.
   */
  lemma GroupItemsRebuild(client: string, id: string, tpath: string)
    ensures var items := GroupItems(client, id, tpath);
      (forall k :: 0 <= k < |items| ==> items[k].id == id && items[k].dimType == Dimensions.LITERAL) &&
      items[0].name == "CLIENT" && items[0].value == client &&
      items[1].name == "TAGPATH" && items[1].value == tpath &&
      (forall k :: 2 <= k < |items| ==> items[k].name == Dimensions.LevelName(k - 2)) &&
      Text.Join(LevelValues(items), "/") == tpath
  {
    var items := GroupItems(client, id, tpath);
    var pieces := Text.Pieces(tpath, '/');
    assert LevelValues(items) == pieces by {
      forall k | 0 <= k < |pieces| ensures LevelValues(items)[k] == pieces[k] {
        assert items[k + 2] == Dimensions.Levels(id, pieces)[k];
      }
    }
    forall k | 2 <= k < |items|
      ensures items[k].name == Dimensions.LevelName(k - 2) && items[k].id == id && items[k].dimType == Dimensions.LITERAL
    {
      assert items[k] == Dimensions.Levels(id, pieces)[k - 2];
    }
    Text.JoinPieces(tpath, '/');
  }

  /** The items one dimensionData value contributes, or the error its split raises. */
  function DidItems(client: string, did: string): (r: PyUtils.PyResult<seq<DimItem>>)
    ensures r.Ok? <==> '#' in did
    ensures r.Raised? ==> r.error == PyUtils.IndexError
    ensures r.Ok? ==> |r.value| >= 3
  {
    match SplitDid(did)
    case Raised(e) => PyUtils.Raised(e)
    case Ok(parts) => PyUtils.Ok(GroupItems(client, parts.0, parts.1))
  }

  predicate AllSplit(dids: seq<string>)
  {
    forall i :: 0 <= i < |dids| ==> '#' in dids[i]
  }

  /** The item groups of dimensionData values that all hold "#". */
  function Groups(client: string, dids: seq<string>): (gs: seq<seq<DimItem>>)
    requires AllSplit(dids)
    ensures |gs| == |dids|
  {
    seq(|dids|, i requires 0 <= i < |dids| && AllSplit(dids) => DidItems(client, dids[i]).value)
  }

  // ---------------------------------------------------------------------------
  // The intended batching: consecutive runs of 25 devices, the last run shorter
  // ---------------------------------------------------------------------------

  /** One payload per run of 25 groups, the last run holding the 1 to 25 left over. */
  function Payloads(groups: seq<seq<DimItem>>): seq<seq<DimItem>>
    decreases |groups|
  {
    if |groups| == 0 then []
    else if |groups| <= DEVICES_PER_PAYLOAD then [Bulk.Flatten(groups)]
    else [Bulk.Flatten(groups[..DEVICES_PER_PAYLOAD])] + Payloads(groups[DEVICES_PER_PAYLOAD..])
  }

  lemma {:induction false} PayloadsAppend(a: seq<seq<DimItem>>, b: seq<seq<DimItem>>)
    requires |a| % DEVICES_PER_PAYLOAD == 0
    ensures Payloads(a + b) == Payloads(a) + Payloads(b)
    decreases |a|
  {
    if |a| == 0 {
      assert a + b == b;
    } else if |b| == 0 {
      assert a + b == a;
    } else {
      assert (a + b)[..DEVICES_PER_PAYLOAD] == a[..DEVICES_PER_PAYLOAD];
      assert (a + b)[DEVICES_PER_PAYLOAD..] == a[DEVICES_PER_PAYLOAD..] + b;
      if |a| == DEVICES_PER_PAYLOAD {
        assert a[DEVICES_PER_PAYLOAD..] == [];
        assert a[..DEVICES_PER_PAYLOAD] == a;
        assert a[DEVICES_PER_PAYLOAD..] + b == b;
      } else {
        PayloadsAppend(a[DEVICES_PER_PAYLOAD..], b);
      }
    }
  }

  /**
   * The payloads hand over every item once, in order: glued together they are all
   * the groups glued together, and there is one payload per started run of 25.
   */
  lemma {:induction false} PayloadsCover(groups: seq<seq<DimItem>>)
    ensures Bulk.Flatten(Payloads(groups)) == Bulk.Flatten(groups)
    ensures |Payloads(groups)| == (|groups| + DEVICES_PER_PAYLOAD - 1) / DEVICES_PER_PAYLOAD
    decreases |groups|
  {
    if |groups| == 0 {
    } else if |groups| <= DEVICES_PER_PAYLOAD {
      assert Bulk.Flatten([Bulk.Flatten(groups)]) == Bulk.Flatten(groups) by {
        assert [Bulk.Flatten(groups)][..0] == [];
      }
    } else {
      var head, tail := groups[..DEVICES_PER_PAYLOAD], groups[DEVICES_PER_PAYLOAD..];
      PayloadsCover(tail);
      Bulk.FlattenAppend([Bulk.Flatten(head)], Payloads(tail));
      assert Bulk.Flatten([Bulk.Flatten(head)]) == Bulk.Flatten(head) by {
        assert [Bulk.Flatten(head)][..0] == [];
      }
      assert head + tail == groups;
      Bulk.FlattenAppend(head, tail);
    }
  }

  function Min(a: int, b: int): int
  {
    if a <= b then a else b
  }

  /** Payload `k` holds exactly the items of devices 25k up to 25k + 24 (or the last). */
  lemma {:induction false} PayloadAt(groups: seq<seq<DimItem>>, k: nat)
    requires k < |Payloads(groups)|
    ensures DEVICES_PER_PAYLOAD * k < |groups|
    ensures Payloads(groups)[k] ==
              Bulk.Flatten(groups[DEVICES_PER_PAYLOAD * k..Min(DEVICES_PER_PAYLOAD * k + DEVICES_PER_PAYLOAD, |groups|)])
    decreases |groups|
  {
    if |groups| <= DEVICES_PER_PAYLOAD {
      assert groups[0..|groups|] == groups;
    } else if k == 0 {
    } else {
      var tail := groups[DEVICES_PER_PAYLOAD..];
      PayloadAt(tail, k - 1);
      var lo := DEVICES_PER_PAYLOAD * (k - 1);
      var hi := Min(lo + DEVICES_PER_PAYLOAD, |tail|);
      assert tail[lo..hi] == groups[lo + DEVICES_PER_PAYLOAD..hi + DEVICES_PER_PAYLOAD];
    }
  }

  // ---------------------------------------------------------------------------
  // The loop as written
  // ---------------------------------------------------------------------------

  /** The loop variables: the device counter, the payload, and the payloads logged so far. */
  datatype Batch = Batch(nset: int, payload: seq<DimItem>, sent: seq<seq<DimItem>>)

  /** The loop's state after a prefix of the values, and the error that stopped it, if any. */
  datatype Run = Run(batch: Batch, error: Text.Option<PyUtils.PyError>)

  /**
   * One device: a counter at 0 starts a new payload; the items are appended; the
   * counter reaching 25 with a non-empty payload sends it and returns to 0.
   */
  function Step(b: Batch, items: seq<DimItem>): Batch
  {
    var p := (if b.nset == 0 then [] else b.payload) + items;
    if b.nset + 1 == DEVICES_PER_PAYLOAD && |p| > 0 then Batch(0, p, b.sent + [p])
    else Batch(b.nset + 1, p, b.sent)
  }

  /** After the loop: a started payload of 1 to 24 devices is sent too. */
  function Finish(b: Batch): seq<seq<DimItem>>
  {
    if 0 < b.nset < DEVICES_PER_PAYLOAD && |b.payload| > 0 then b.sent + [b.payload] else b.sent
  }

  /** The loop over the values, stopping at the first that raises. */
  function Fold(client: string, dids: seq<string>): Run
  {
    if |dids| == 0 then Run(Batch(0, [], []), Text.None)
    else
      var prev := Fold(client, dids[..|dids| - 1]);
      if prev.error.Some? then prev
      else
        match DidItems(client, dids[|dids| - 1])
        case Raised(e) => Run(prev.batch, Text.Some(e))
        case Ok(items) => Run(Step(prev.batch, items), Text.None)
  }

  /** What a run logged: everything sent, plus the final partial payload when no error stopped it. */
  function Uploaded(run: Run): seq<seq<DimItem>>
  {
    if run.error.None? then Finish(run.batch) else run.batch.sent
  }

  lemma GroupsPrefix(client: string, dids: seq<string>, k: nat)
    requires AllSplit(dids) && k <= |dids|
    ensures AllSplit(dids[..k]) && Groups(client, dids[..k]) == Groups(client, dids)[..k]
  {
    assert AllSplit(dids[..k]) by {
      forall i | 0 <= i < k ensures '#' in dids[..k][i] { assert dids[..k][i] == dids[i]; }
    }
  }

  /**
   * The loop state after the groups `gs`: the counter is |gs| mod 25, the payloads
   * sent are those of the complete runs, and the payload being filled holds the
   * devices of the started run.
   */
  predicate StateAfter(b: Batch, gs: seq<seq<DimItem>>)
  {
    var m := |gs| - |gs| % DEVICES_PER_PAYLOAD;
    b.nset == |gs| % DEVICES_PER_PAYLOAD && b.sent == Payloads(gs[..m]) &&
    (|gs| % DEVICES_PER_PAYLOAD > 0 ==> b.payload == Bulk.Flatten(gs[m..]))
  }

  /** One more non-empty group keeps the loop state in step with the intended payloads. */
  lemma StepKeeps(b: Batch, gs: seq<seq<DimItem>>, items: seq<DimItem>)
    requires StateAfter(b, gs) && |items| > 0
    ensures StateAfter(Step(b, items), gs + [items])
  {
    var k := |gs|;
    var j := k % DEVICES_PER_PAYLOAD;
    var m0 := k - j;
    var gs' := gs + [items];
    assert gs'[..m0] == gs[..m0];
    assert gs'[m0..] == gs[m0..] + [items];
    assert (gs[m0..] + [items])[..|gs[m0..]|] == gs[m0..];
    var p := (if b.nset == 0 then [] else b.payload) + items;
    assert p == Bulk.Flatten(gs'[m0..]) by {
      if j == 0 {
        assert gs[m0..] == [];
      }
    }
    if j + 1 == DEVICES_PER_PAYLOAD {
      assert (k + 1) % DEVICES_PER_PAYLOAD == 0;
      assert gs' == gs'[..m0] + gs'[m0..];
      assert gs'[..k + 1] == gs';
      PayloadsAppend(gs'[..m0], gs'[m0..]);
      assert Payloads(gs'[m0..]) == [p];
    } else {
      assert (k + 1) % DEVICES_PER_PAYLOAD == j + 1;
    }
  }

  /** Past a well-formed value the loop takes one step with that value's group. */
  lemma FoldNext(client: string, dids: seq<string>, i: nat)
    requires i < |dids| && Fold(client, dids[..i]).error.None?
    ensures '#' in dids[i] ==>
              Fold(client, dids[..i + 1]) == Run(Step(Fold(client, dids[..i]).batch, DidItems(client, dids[i]).value), Text.None)
    ensures '#' !in dids[i] ==>
              Fold(client, dids[..i + 1]) == Run(Fold(client, dids[..i]).batch, Text.Some(PyUtils.IndexError))
  {
    assert dids[..i + 1][..i] == dids[..i];
  }

  /** The loop over well-formed values keeps its state in step with the intended payloads. */
  lemma {:induction false} FoldState(client: string, dids: seq<string>)
    requires AllSplit(dids)
    ensures Fold(client, dids).error.None?
    ensures StateAfter(Fold(client, dids).batch, Groups(client, dids))
  {
    if |dids| > 0 {
      GroupsPrefix(client, dids, |dids| - 1);
      FoldState(client, dids[..|dids| - 1]);
      FoldStateStep(client, dids);
    } else {
      assert Groups(client, dids) == [];
    }
  }

  /** One more well-formed value, past a prefix whose loop state is in step, keeps the state in step. */
  lemma FoldStateStep(client: string, dids: seq<string>)
    requires |dids| > 0 && AllSplit(dids)
    requires Fold(client, dids[..|dids| - 1]).error.None?
    requires StateAfter(Fold(client, dids[..|dids| - 1]).batch, Groups(client, dids[..|dids| - 1]))
    ensures Fold(client, dids).error.None?
    ensures StateAfter(Fold(client, dids).batch, Groups(client, dids))
  {
    var k := |dids|;
    var front := dids[..k - 1];
    GroupsPrefix(client, dids, k - 1);
    var prev := Fold(client, front).batch;
    var gs := Groups(client, dids);
    var last := gs[k - 1];
    Bulk.TakeLast(gs, k);
    assert gs[..k] == gs;
    assert DidItems(client, dids[k - 1]).value == last;
    FoldNext(client, dids, k - 1);
    assert dids[..k] == dids;
    assert Fold(client, dids) == Run(Step(prev, last), Text.None);
    assert Groups(client, front) + [last] == gs;
    StepKeeps(prev, Groups(client, front), last);
  }

  /** A run of 25 starts at every multiple of 25. */
  lemma RunStart(k: nat)
    ensures (k - k % DEVICES_PER_PAYLOAD) % DEVICES_PER_PAYLOAD == 0
  {
    var q := k / DEVICES_PER_PAYLOAD;
    assert k - k % DEVICES_PER_PAYLOAD == q * DEVICES_PER_PAYLOAD;
  }

  /** At the end of the loop, the final flush completes the intended payloads. */
  lemma FinishMatches(b: Batch, gs: seq<seq<DimItem>>)
    requires StateAfter(b, gs)
    requires forall i :: 0 <= i < |gs| ==> |gs[i]| > 0
    ensures Finish(b) == Payloads(gs)
  {
    var k := |gs|;
    var m := k - k % DEVICES_PER_PAYLOAD;
    assert gs[..k] == gs;
    if k % DEVICES_PER_PAYLOAD > 0 {
      var rest := gs[m..];
      assert rest == rest[..|rest| - 1] + [rest[|rest| - 1]];
      assert |Bulk.Flatten(rest)| > 0;
      assert gs == gs[..m] + rest;
      RunStart(k);
      PayloadsAppend(gs[..m], rest);
    }
  }

  /** With every value well formed, the loop logs exactly the intended payloads. */
  lemma FoldPayloads(client: string, dids: seq<string>)
    requires AllSplit(dids)
    ensures Fold(client, dids).error.None?
    ensures Uploaded(Fold(client, dids)) == Payloads(Groups(client, dids))
  {
    FoldState(client, dids);
    FinishMatches(Fold(client, dids).batch, Groups(client, dids));
  }

  /** An error ends the loop: the values after it change nothing. */
  lemma {:induction false} FoldErrorSticks(client: string, dids: seq<string>, j: nat)
    requires j < |dids| && Fold(client, dids[..j + 1]).error.Some?
    ensures Fold(client, dids) == Fold(client, dids[..j + 1])
    decreases |dids|
  {
    if |dids| > j + 1 {
      var front := dids[..|dids| - 1];
      assert front[..j + 1] == dids[..j + 1];
      FoldErrorSticks(client, front, j);
    } else {
      assert dids[..j + 1] == dids;
    }
  }

  /**
   * A value without "#" raises `IndexError`; what was logged before it are the
   * payloads of the complete runs of 25 before it, and the started run is lost.
   */
  lemma FoldFails(client: string, dids: seq<string>, j: nat)
    requires j < |dids| && '#' !in dids[j] && AllSplit(dids[..j])
    ensures Fold(client, dids).error == Text.Some(PyUtils.IndexError)
    ensures Uploaded(Fold(client, dids)) == Payloads(Groups(client, dids[..j])[..j - j % DEVICES_PER_PAYLOAD])
  {
    FoldState(client, dids[..j]);
    FoldNext(client, dids, j);
    FoldErrorSticks(client, dids, j);
  }

  // ---------------------------------------------------------------------------
  // addDimensions
  // ---------------------------------------------------------------------------

  /** The inner loop: one LEVEL_i item per piece, appended in order. */
  method AppendLevels(payload: seq<DimItem>, id: string, dims: seq<string>) returns (p: seq<DimItem>)
    ensures p == payload + Dimensions.Levels(id, dims)
  {
    p := payload;
    var i := 0;
    while i < |dims|
      invariant 0 <= i <= |dims|
      invariant p == payload + Dimensions.Levels(id, dims[..i])
    {
      assert Dimensions.Levels(id, dims[..i + 1]) == Dimensions.Levels(id, dims[..i]) + [Dimensions.CreateDimItem(id, Dimensions.LevelName(i), Dimensions.LITERAL, dims[i])];
      p := p + [Dimensions.CreateDimItem(id, Dimensions.LevelName(i), Dimensions.LITERAL, dims[i])];
      i := i + 1;
    }
    assert dims[..i] == dims;
  }

  /**
   * The number of POSTs, out of the first `n`, that return before the first one that
   * raises; `n` when none of them raises.
   */
  function FirstRaising(postReturns: nat -> bool, n: nat): (f: nat)
    ensures f <= n
    ensures forall k :: 0 <= k < f ==> postReturns(k)
    ensures f < n ==> !postReturns(f)
  {
    if n == 0 then 0
    else
      var f' := FirstRaising(postReturns, n - 1);
      if f' < n - 1 || !postReturns(n - 1) then f' else n
  }

  /** The payloads sent by a prefix of the values are a prefix of those sent by all of them. */
  lemma {:induction false} SentPrefix(client: string, dids: seq<string>, i: nat)
    requires i <= |dids|
    ensures Fold(client, dids[..i]).batch.sent <= Fold(client, dids).batch.sent
    decreases |dids|
  {
    if i < |dids| {
      var prev := dids[..|dids| - 1];
      assert prev[..i] == dids[..i];
      SentPrefix(client, prev, i);
    } else {
      assert dids[..i] == dids;
    }
  }

  /** What a prefix of the values has sent is a prefix of what the whole run logs. */
  lemma SentPrefixLogged(client: string, dids: seq<string>, i: nat)
    requires i <= |dids|
    ensures Fold(client, dids[..i]).batch.sent <= Uploaded(Fold(client, dids))
  {
    SentPrefix(client, dids, i);
  }

  /**
   * One logged payload: appended to what was logged and, when setDimensions is true,
   * POSTed; `raised` when that POST raises. `postReturns(k)` is the outcome of the
   * `k`-th POST of the call.
   */
  method LogPayload(setDimensions: bool, postReturns: nat -> bool, p: seq<DimItem>,
                    logged: seq<seq<DimItem>>, posted: seq<seq<DimItem>>)
    returns (logged': seq<seq<DimItem>>, posted': seq<seq<DimItem>>, raised: bool)
    requires posted == (if setDimensions then logged else [])
    ensures logged' == logged + [p]
    ensures posted' == (if setDimensions then logged' else [])
    ensures raised <==> setDimensions && !postReturns(|logged|)
  {
    logged' := logged + [p];
    posted' := posted;
    raised := false;
    if setDimensions {
      posted' := posted + [p];
      raised := !postReturns(|posted|);
    }
  }

  /**
   * The body of the outer loop for one device whose value split into `idname` and
   * `tpath`: a step of the loop, with every payload it logs also POSTed when
   * setDimensions is true; `raised` when that POST raises.
   */
  method AddDevice(setDimensions: bool, postReturns: nat -> bool, client: string, idname: string, tpath: string,
                   nset: int, payload: seq<DimItem>, logged: seq<seq<DimItem>>, posted: seq<seq<DimItem>>)
    returns (nset': int, payload': seq<DimItem>, logged': seq<seq<DimItem>>, posted': seq<seq<DimItem>>, raised: bool)
    requires posted == (if setDimensions then logged else [])
    ensures Batch(nset', payload', logged') == Step(Batch(nset, payload, logged), GroupItems(client, idname, tpath))
    ensures posted' == (if setDimensions then logged' else [])
    ensures raised <==> setDimensions && |logged'| > |logged| && !postReturns(|logged|)
  {
    nset', payload', logged', posted' := nset, payload, logged, posted;
    raised := false;
    if nset' == 0 {
      payload' := [];
    }
    payload' := payload' + [Dimensions.CreateDimItem(idname, "CLIENT", Dimensions.LITERAL, client)];
    payload' := payload' + [Dimensions.CreateDimItem(idname, "TAGPATH", Dimensions.LITERAL, tpath)];
    var dims := Text.Pieces(tpath, '/');
    payload' := AppendLevels(payload', idname, dims);
    assert payload' == (if nset == 0 then [] else payload) + GroupItems(client, idname, tpath);
    nset' := nset' + 1;
    if nset' == DEVICES_PER_PAYLOAD {
      if |payload'| > 0 {
        logged', posted', raised := LogPayload(setDimensions, postReturns, payload', logged', posted');
        nset' := 0;
      }
    }
  }

  /**
   * `addDimensions` over the unique dimensionData values `dids`, in order, where
   * `postReturns(k)` tells whether the `k`-th POST returns or raises. Returns False
   * without building anything when no tag path is configured. Otherwise it logs
   * every payload the loop completes, and POSTs the same payloads only when
   * setDimensions is true. Nothing catches an exception: a value without "#" raises
   * part-way through, and so does the first POST that raises, after which nothing
   * more is logged or POSTed.
   */
  method AddDimensions(tagData: Text.Option<TagDataConfig>, client: string, dids: seq<string>, postReturns: nat -> bool)
    returns (r: PyUtils.PyResult<bool>, logged: seq<seq<DimItem>>, posted: seq<seq<DimItem>>)
    ensures Switches(tagData).Raised? ==> r == PyUtils.Raised(Switches(tagData).error) && logged == [] && posted == []
    ensures Switches(tagData).Ok? && Switches(tagData).value.1 == "" ==> r == PyUtils.Ok(false) && logged == [] && posted == []
    ensures Switches(tagData).Ok? && Switches(tagData).value.1 != "" ==>
              posted == (if Switches(tagData).value.0 then logged else [])
    ensures Switches(tagData).Ok? && Switches(tagData).value.1 != "" ==>
              var run := Fold(client, dids);
              var f := FirstRaising(postReturns, |Uploaded(run)|);
              if Switches(tagData).value.0 && f < |Uploaded(run)| then
                r == PyUtils.Raised(PyUtils.RequestException) && logged == Uploaded(run)[..f + 1]
              else
                r == (if run.error.None? then PyUtils.Ok(true) else PyUtils.Raised(run.error.value)) &&
                logged == Uploaded(run)
  {
    logged, posted := [], [];
    var sw := Switches(tagData);
    if sw.Raised? {
      return PyUtils.Raised(sw.error), logged, posted;
    }
    var setDimensions, tagpath := sw.value.0, sw.value.1;
    if tagpath == "" {
      return PyUtils.Ok(false), logged, posted;
    }
    r, logged, posted := DimensionLoop(setDimensions, postReturns, client, dids);
  }

  /**
   * What `addDimensions` ends with once the tag path is set: when setDimensions is
   * true and a POST raises, `RequestException` with the payloads up to and including
   * that POST logged; otherwise the outcome of the loop over the values with all
   * its payloads logged.
   */
  ghost predicate Reports(setDimensions: bool, postReturns: nat -> bool, client: string, dids: seq<string>,
                          r: PyUtils.PyResult<bool>, logged: seq<seq<DimItem>>)
  {
    var run := Fold(client, dids);
    var f := FirstRaising(postReturns, |Uploaded(run)|);
    if setDimensions && f < |Uploaded(run)| then
      r == PyUtils.Raised(PyUtils.RequestException) && logged == Uploaded(run)[..f + 1]
    else
      r == (if run.error.None? then PyUtils.Ok(true) else PyUtils.Raised(run.error.value)) &&
      logged == Uploaded(run)
  }

  /** The loop state after the first `i` values, none of whose POSTs raised. */
  ghost predicate LoopState(setDimensions: bool, postReturns: nat -> bool, client: string, dids: seq<string>, i: nat,
                            nset: int, payload: seq<DimItem>, logged: seq<seq<DimItem>>, posted: seq<seq<DimItem>>)
  {
    i <= |dids| &&
    Fold(client, dids[..i]) == Run(Batch(nset, payload, logged), Text.None) &&
    posted == (if setDimensions then logged else []) &&
    logged <= Uploaded(Fold(client, dids)) &&
    (setDimensions ==> forall k :: 0 <= k < |logged| ==> postReturns(k))
  }

  /** The loop of `addDimensions` and its final flush. */
  method DimensionLoop(setDimensions: bool, postReturns: nat -> bool, client: string, dids: seq<string>)
    returns (r: PyUtils.PyResult<bool>, logged: seq<seq<DimItem>>, posted: seq<seq<DimItem>>)
    ensures posted == (if setDimensions then logged else [])
    ensures Reports(setDimensions, postReturns, client, dids, r, logged)
  {
    logged, posted := [], [];
    var nset := 0;
    var payload: seq<DimItem> := [];
    var i := 0;
    while i < |dids|
      invariant LoopState(setDimensions, postReturns, client, dids, i, nset, payload, logged, posted)
    {
      var stop;
      nset, payload, logged, posted, stop := VisitValue(setDimensions, postReturns, client, dids, i, nset, payload, logged, posted);
      if stop.Some? {
        return PyUtils.Raised(stop.value), logged, posted;
      }
      i := i + 1;
    }
    r, logged, posted := FlushLast(setDimensions, postReturns, client, dids, nset, payload, logged, posted);
  }

  /** One value of the loop: its items, or the error it or the POST it completes raises. */
  method VisitValue(setDimensions: bool, postReturns: nat -> bool, client: string, dids: seq<string>, i: nat,
                    nset: int, payload: seq<DimItem>, logged: seq<seq<DimItem>>, posted: seq<seq<DimItem>>)
    returns (nset': int, payload': seq<DimItem>, logged': seq<seq<DimItem>>, posted': seq<seq<DimItem>>,
             stop: Text.Option<PyUtils.PyError>)
    requires i < |dids|
    requires LoopState(setDimensions, postReturns, client, dids, i, nset, payload, logged, posted)
    ensures posted' == (if setDimensions then logged' else [])
    ensures stop.None? ==> LoopState(setDimensions, postReturns, client, dids, i + 1, nset', payload', logged', posted')
    ensures stop.Some? ==> Reports(setDimensions, postReturns, client, dids, PyUtils.Raised(stop.value), logged')
  {
    var dimData := Text.Pieces(dids[i], '#');
    if |dimData| < 2 {
      IndexErrorReports(setDimensions, postReturns, client, dids, i, nset, payload, logged, posted);
      return nset, payload, logged, posted, Text.Some(PyUtils.IndexError);
    }
    assert DidItems(client, dids[i]) == PyUtils.Ok(GroupItems(client, dimData[0], dimData[1]));
    var raised;
    nset', payload', logged', posted', raised :=
      AddDevice(setDimensions, postReturns, client, dimData[0], dimData[1], nset, payload, logged, posted);
    DeviceReports(setDimensions, postReturns, client, dids, i, nset, payload, logged, posted,
                  nset', payload', logged', posted', raised);
    stop := if raised then Text.Some(PyUtils.RequestException) else Text.None;
  }

  /**
   * After one device: when its POST raised, the run ends with `RequestException`
   * having logged the payloads up to that POST; otherwise the loop state is one
   * value further.
   */
  lemma DeviceReports(setDimensions: bool, postReturns: nat -> bool, client: string, dids: seq<string>, i: nat,
                      nset: int, payload: seq<DimItem>, logged: seq<seq<DimItem>>, posted: seq<seq<DimItem>>,
                      nset': int, payload': seq<DimItem>, logged': seq<seq<DimItem>>, posted': seq<seq<DimItem>>,
                      raised: bool)
    requires i < |dids| && '#' in dids[i]
    requires LoopState(setDimensions, postReturns, client, dids, i, nset, payload, logged, posted)
    requires Batch(nset', payload', logged') == Step(Batch(nset, payload, logged), DidItems(client, dids[i]).value)
    requires posted' == (if setDimensions then logged' else [])
    requires raised <==> setDimensions && |logged'| > |logged| && !postReturns(|logged|)
    ensures !raised ==> LoopState(setDimensions, postReturns, client, dids, i + 1, nset', payload', logged', posted')
    ensures raised ==> Reports(setDimensions, postReturns, client, dids, PyUtils.Raised(PyUtils.RequestException), logged')
  {
    FoldNext(client, dids, i);
    SentPrefixLogged(client, dids, i + 1);
    if raised {
      RaisingAt(postReturns, Uploaded(Fold(client, dids)), logged');
    }
  }

  /** A value without "#" ends the loop with `IndexError`, having logged what the run logs. */
  lemma IndexErrorReports(setDimensions: bool, postReturns: nat -> bool, client: string, dids: seq<string>, i: nat,
                          nset: int, payload: seq<DimItem>, logged: seq<seq<DimItem>>, posted: seq<seq<DimItem>>)
    requires i < |dids| && |Text.Pieces(dids[i], '#')| < 2
    requires LoopState(setDimensions, postReturns, client, dids, i, nset, payload, logged, posted)
    ensures Reports(setDimensions, postReturns, client, dids, PyUtils.Raised(PyUtils.IndexError), logged)
  {
    FoldNext(client, dids, i);
    FoldErrorSticks(client, dids, i);
    NoneRaising(postReturns, setDimensions, Uploaded(Fold(client, dids)));
  }

  /** After the loop: a started payload of 1 to 24 devices is logged and, when setDimensions is true, POSTed. */
  method FlushLast(setDimensions: bool, postReturns: nat -> bool, client: string, dids: seq<string>,
                   nset: int, payload: seq<DimItem>, logged: seq<seq<DimItem>>, posted: seq<seq<DimItem>>)
    returns (r: PyUtils.PyResult<bool>, logged': seq<seq<DimItem>>, posted': seq<seq<DimItem>>)
    requires LoopState(setDimensions, postReturns, client, dids, |dids|, nset, payload, logged, posted)
    ensures posted' == (if setDimensions then logged' else [])
    ensures Reports(setDimensions, postReturns, client, dids, r, logged')
  {
    assert dids[..|dids|] == dids;
    ghost var all := Uploaded(Fold(client, dids));
    logged', posted' := logged, posted;
    if nset > 0 && nset < DEVICES_PER_PAYLOAD && |payload| > 0 {
      var raised;
      logged', posted', raised := LogPayload(setDimensions, postReturns, payload, logged, posted);
      assert logged' == all;
      if raised {
        RaisingAt(postReturns, all, logged');
        return PyUtils.Raised(PyUtils.RequestException), logged', posted';
      }
    }
    NoneRaising(postReturns, setDimensions, all);
    r := PyUtils.Ok(true);
  }

  /** The POST of the last payload of `logged` raises and the earlier ones returned: it is the first that raises. */
  lemma RaisingAt(postReturns: nat -> bool, all: seq<seq<DimItem>>, logged: seq<seq<DimItem>>)
    requires |logged| > 0 && logged <= all
    requires forall k :: 0 <= k < |logged| - 1 ==> postReturns(k)
    requires !postReturns(|logged| - 1)
    ensures FirstRaising(postReturns, |all|) == |logged| - 1
    ensures all[..FirstRaising(postReturns, |all|) + 1] == logged
  {
  }

  /** With every POST of `all` returning, or none sent, no POST raises. */
  lemma NoneRaising(postReturns: nat -> bool, setDimensions: bool, all: seq<seq<DimItem>>)
    requires setDimensions ==> forall k :: 0 <= k < |all| ==> postReturns(k)
    ensures setDimensions ==> FirstRaising(postReturns, |all|) == |all|
  {
  }
}

=== FILE: py_utils.dfy ===
/**
 * The row helpers of the Python ingestion scripts (bin/utils.py). pandas hands each
 * helper one row of the data frame; a row is modelled as a map from column name to
 * cell, so that a missing column is a `KeyError` as it is in pandas. Python's
 * exceptions are values of `PyError`, and a helper either returns a value or raises.
 */
module PyUtils {
  import Text

  /** A cell of a data frame row. A float is kept as its literal; nothing here computes with it. */
  datatype PyValue = PyInt(i: int) | PyFloat(literal: string) | PyStr(s: string) | PyNone

  /** The Python exceptions the helpers and scripts raise; `RequestException` is what a failed `requests.post` raises. */
  datatype PyError = KeyError(key: string) | NameError(name: string) | TypeError | AttributeError | IndexError | ValueError
                   | RequestException

  datatype PyResult<T> = Ok(value: T) | Raised(error: PyError)

  type Row = map<string, PyValue>

  /** `row[col]`. */
  function Get(row: Row, col: string): PyResult<PyValue>
  {
    if col in row then Ok(row[col]) else Raised(KeyError(col))
  }

  /** Python `str()` of a cell. */
  function Str(v: PyValue): string
  {
    match v
    case PyInt(i) => Text.DecimalText(i)
    case PyFloat(literal) => literal
    case PyStr(s) => s
    case PyNone => "None"
  }

  /** The datatype codes the helpers know, with the type name each one stands for. */
  function TypeName(code: int): Text.Option<string>
  {
    if code == 0 then Text.Some("int")
    else if code == 1 then Text.Some("float")
    else if code == 2 then Text.Some("string")
    else if code == 4 then Text.Some("date")
    else Text.None
  }

  /**
   * `set_value_from_datatype`: the cell of the value column the datatype code names,
   * and the text 'Unknown' for any other code.
   */
  function ValueFromDatatype(row: Row): (r: PyResult<PyValue>)
    ensures "datatype" !in row ==> r == Raised(KeyError("datatype"))
    ensures "datatype" in row && !(row["datatype"].PyInt? && TypeName(row["datatype"].i).Some?) ==> r == Ok(PyStr("Unknown"))
  {
    if "datatype" !in row then Raised(KeyError("datatype"))
    else if row["datatype"] == PyInt(0) then Get(row, "intvalue")
    else if row["datatype"] == PyInt(1) then Get(row, "floatvalue")
    else if row["datatype"] == PyInt(2) then Get(row, "stringvalue")
    else if row["datatype"] == PyInt(4) then Get(row, "datevalue")
    else Ok(PyStr("Unknown"))
  }

  /**
   * `set_datatype_field`: the type name of a known code. Any other code reaches a
   * variable that is never defined, a `NameError`.
   */
  function DatatypeField(row: Row): (r: PyResult<string>)
    ensures "datatype" !in row ==> r == Raised(KeyError("datatype"))
    ensures r.Ok? ==> r.value in {"int", "float", "string", "date"}
  {
    if "datatype" !in row then Raised(KeyError("datatype"))
    else if row["datatype"] == PyInt(0) then Ok("int")
    else if row["datatype"] == PyInt(1) then Ok("float")
    else if row["datatype"] == PyInt(2) then Ok("string")
    else if row["datatype"] == PyInt(4) then Ok("date")
    else Raised(NameError("tType"))
  }

  /**
   * The two datatype helpers agree: a row whose type is named `t` takes its value
   * from the column `t + "value"` and `t` is the name of its code; the rows whose
   * code has no name get the value 'Unknown' and make the type helper raise.
   */
  lemma ValueFollowsDatatype(row: Row)
    requires "datatype" in row
    ensures DatatypeField(row).Ok? ==> ValueFromDatatype(row) == Get(row, DatatypeField(row).value + "value")
    ensures DatatypeField(row).Raised? ==> ValueFromDatatype(row) == Ok(PyStr("Unknown"))
    ensures DatatypeField(row).Ok? ==> TypeName(row["datatype"].i) == Text.Some(DatatypeField(row).value)
  {
    var v := row["datatype"];
    if v == PyInt(0) {
      assert "int" + "value" == "intvalue";
    } else if v == PyInt(1) {
      assert "float" + "value" == "floatvalue";
    } else if v == PyInt(2) {
      assert "string" + "value" == "stringvalue";
    } else if v == PyInt(4) {
      assert "date" + "value" == "datevalue";
    }
  }

  /**
   * `getTS`: `toInt` is Python's `int()` on the cell (raising for a cell that is not a
   * number), and `isoUtc`/`localText` format a millisecond count as the
   * `datetime` calls do. A zero timestamp is returned as it came in.
   */
  function GetTS(ts: PyValue, regreq: int, toInt: PyValue -> PyResult<int>,
                 isoUtc: int -> string, localText: int -> string): (r: PyResult<PyValue>)
    ensures toInt(ts) == Ok(0) ==> r == Ok(ts)
    ensures toInt(ts).Raised? ==> r == Raised(toInt(ts).error)
    ensures toInt(ts).Ok? && toInt(ts).value != 0 ==> r.Ok? && r.value.PyStr?
    ensures toInt(ts).Ok? && toInt(ts).value != 0 && regreq == 1 ==>
              |r.value.s| >= 6 && r.value.s[|r.value.s| - 6..] == "+00:00"
  {
    match toInt(ts)
    case Raised(e) => Raised(e)
    case Ok(tstamp) =>
      if tstamp == 0 then Ok(ts)
      else if regreq == 1 then Ok(PyStr(isoUtc(tstamp) + "+00:00"))
      else Ok(PyStr(localText(tstamp)))
  }

  /**
   * `set_deviceid_field`. `percent(format, cell)` is Python's `format % cell`
   * (raising `TypeError` or `ValueError` when they do not match).
   * With a prefix the id is the prefix, "_" and either the formatted cell with its
   * spaces turned into "0" or the cell itself; without a prefix it is the cell with
   * spaces and "/" turned into "_". A cell that is not a string raises where Python
   * concatenates or calls `replace` on it.
   */
  function DeviceIdField(row: Row, idcol: string, prefix: string, format: string,
                         percent: (string, PyValue) -> PyResult<string>): (r: PyResult<string>)
    ensures idcol !in row ==> r == Raised(KeyError(idcol))
    ensures prefix != "" && r.Ok? ==> Text.IsPrefix(prefix + "_", r.value)
    ensures prefix != "" && format != "" && r.Ok? ==> ' ' !in r.value[|prefix| + 1..]
    ensures prefix != "" && format != "" && idcol in row && percent(format, row[idcol]).Ok? ==>
              r.Ok? && |r.value| == |prefix| + 1 + |percent(format, row[idcol]).value|
    ensures prefix != "" && format == "" && idcol in row ==>
              (r.Ok? <==> row[idcol].PyStr?) && (r.Ok? ==> r.value[|prefix| + 1..] == row[idcol].s)
    ensures prefix == "" && idcol in row ==> (r.Ok? <==> row[idcol].PyStr?)
    ensures prefix == "" && r.Ok? ==> ' ' !in r.value && '/' !in r.value
    ensures prefix == "" && r.Ok? ==> (|r.value| == |row[idcol].s| &&
              forall i :: 0 <= i < |r.value| && row[idcol].s[i] != ' ' && row[idcol].s[i] != '/' ==> r.value[i] == row[idcol].s[i])
    ensures prefix == "" && r.Ok? ==>
              forall i :: 0 <= i < |r.value| && row[idcol].s[i] in {' ', '/'} ==> r.value[i] == '_'
    ensures prefix != "" && format != "" && r.Ok? ==> idcol in row && percent(format, row[idcol]).Ok?
    ensures prefix != "" && format != "" && idcol in row && percent(format, row[idcol]).Ok? ==>
              var t := percent(format, row[idcol]).value;
              r.Ok? && |r.value| == |prefix| + 1 + |t| &&
              forall i :: 0 <= i < |t| ==> r.value[|prefix| + 1 + i] == (if t[i] == ' ' then '0' else t[i])
  {
    if idcol !in row then Raised(KeyError(idcol))
    else if prefix != "" then
      if format != "" then
        match percent(format, row[idcol])
        case Raised(e) => Raised(e)
        case Ok(text) => Ok(prefix + "_" + Text.ReplaceChar(text, ' ', '0'))
      else if row[idcol].PyStr? then Ok(prefix + "_" + row[idcol].s)
      else Raised(TypeError)
    else if row[idcol].PyStr? then Ok(Text.ReplaceChar(Text.ReplaceChar(row[idcol].s, ' ', '_'), '/', '_'))
    else Raised(AttributeError)
  }

  /**
   * `set_int_value` as written: 0 for an empty cell and, because the other branch
   * has no `return`, `None` for every other cell.
   */
  function IntValue(row: Row, col: string): (r: PyResult<PyValue>)
    ensures col !in row ==> r == Raised(KeyError(col))
    ensures col in row ==> r == Ok(if row[col] == PyStr("") then PyInt(0) else PyNone)
  {
    if col !in row then Raised(KeyError(col))
    else if row[col] == PyStr("") then Ok(PyInt(0))
    else Ok(PyNone)
  }

  /** `set_float_value` as written: 0.0 for an empty cell, `None` for every other cell. */
  function FloatValue(row: Row, col: string): (r: PyResult<PyValue>)
    ensures col !in row ==> r == Raised(KeyError(col))
    ensures col in row ==> r == Ok(if row[col] == PyStr("") then PyFloat("0.0") else PyNone)
  {
    if col !in row then Raised(KeyError(col))
    else if row[col] == PyStr("") then Ok(PyFloat("0.0"))
    else Ok(PyNone)
  }

  /** A number in a cell is lost: the helpers as written turn "42" into `None`. */
  lemma CellValueLost()
    ensures IntValue(map["count" := PyStr("42")], "count") == Ok(PyNone)
    ensures FloatValue(map["level" := PyStr("2.5")], "level") == Ok(PyNone)
  {
  }

  /** `set_int_value` as evidently intended: the cell, or 0 when it is empty. */
  function IntValueOrZero(row: Row, col: string): (r: PyResult<PyValue>)
    ensures col in row && row[col] != PyStr("") ==> r == Ok(row[col])
    ensures col in row && row[col] == PyStr("") ==> r == Ok(PyInt(0))
    ensures col !in row ==> r == Raised(KeyError(col))
  {
    if col !in row then Raised(KeyError(col))
    else if row[col] == PyStr("") then Ok(PyInt(0))
    else Ok(row[col])
  }

  /** `set_float_value` as evidently intended: the cell, or 0.0 when it is empty. */
  function FloatValueOrZero(row: Row, col: string): (r: PyResult<PyValue>)
    ensures col in row && row[col] != PyStr("") ==> r == Ok(row[col])
    ensures col in row && row[col] == PyStr("") ==> r == Ok(PyFloat("0.0"))
    ensures col !in row ==> r == Raised(KeyError(col))
  {
    if col !in row then Raised(KeyError(col))
    else if row[col] == PyStr("") then Ok(PyFloat("0.0"))
    else Ok(row[col])
  }

  /**
   * The intended helpers differ from the written ones exactly on the cells that
   * are neither empty nor `None`, and there they return the cell.
   */
  lemma OrZeroCorrects(row: Row, col: string)
    requires col in row
    ensures IntValueOrZero(row, col) != IntValue(row, col) <==> row[col] != PyStr("") && row[col] != PyNone
    ensures FloatValueOrZero(row, col) != FloatValue(row, col) <==> row[col] != PyStr("") && row[col] != PyNone
  {
  }

  /**
   * `set_eventid_value`: the text after the last "/" of the cell. A cell without "/"
   * gives a one-element split and the index [1] raises `IndexError`.
   */
  function EventIdValue(row: Row, col: string): (r: PyResult<string>)
    ensures col !in row ==> r == Raised(KeyError(col))
    ensures col in row && !row[col].PyStr? ==> r == Raised(AttributeError)
    ensures col in row && row[col].PyStr? && '/' !in row[col].s ==> r == Raised(IndexError)
    ensures col in row && row[col].PyStr? && '/' in row[col].s ==> r.Ok?
    ensures r.Ok? ==> col in row && row[col].PyStr? && '/' !in r.value
    ensures r.Ok? ==> |r.value| < |row[col].s| && row[col].s[|row[col].s| - |r.value| - 1..] == "/" + r.value
  {
    if col !in row then Raised(KeyError(col))
    else if !row[col].PyStr? then Raised(AttributeError)
    else
      var parts := Text.PyRSplitOnce(row[col].s, '/');
      if |parts| < 2 then Raised(IndexError)
      else
        assert row[col].s == parts[0] + ("/" + parts[1]);
        Ok(parts[1])
  }

  /** `set_dimensionData_field`: the device id and the tag path cell, joined by "#". */
  function DimensionDataField(row: Row, idcol: string): (r: PyResult<string>)
    ensures "deviceId" !in row ==> r == Raised(KeyError("deviceId"))
    ensures "deviceId" in row && idcol !in row ==> r == Raised(KeyError(idcol))
    ensures "deviceId" in row && idcol in row ==> (r.Ok? &&
              Text.Count(r.value, '#') == Text.Count(Str(row["deviceId"]), '#') + 1 + Text.Count(Str(row[idcol]), '#'))
  {
    if "deviceId" !in row then Raised(KeyError("deviceId"))
    else if idcol !in row then Raised(KeyError(idcol))
    else
      var d, t := Str(row["deviceId"]), Str(row[idcol]);
      Text.CountAppend(d + "#", t, '#');
      Text.CountAppend(d, "#", '#');
      assert Text.Count("#", '#') == 1 by { assert "#"[1..] == ""; }
      Ok(d + "#" + t)
  }
}

=== FILE: schema.dfy ===
/**
 * The destination table contract: the fixed column lists of the device, alarm and
 * connector-statistics tables, the INSERT statements over them, the positional
 * binding of one row of a column map into those statements, and the DDL that
 * creates the tables.
 */
module Schema {
  import Text
  import opened Columns
  import opened Constants

  type Option<T> = Text.Option<T>

  // ---------------------------------------------------------------------------
  // Column lists
  // ---------------------------------------------------------------------------

  const DEVICE_COLS: seq<string> :=
    ["TAGID", "INTVALUE", "FLOATVALUE", "STRINGVALUE", "DATEVALUE", "EVT_NAME",
     "DEVICETYPE", "DEVICEID", "LOGICALINTERFACE_ID", "EVENTTYPE",
     "FORMAT", "RCV_TIMESTAMP_UTC", "UPDATED_UTC"]

  const ALARM_COLS: seq<string> :=
    ["ALARMID", "EVENTID", "ACKBY", "NAME", "ETYPE", "DISPLAYPATH", "PRIORITY", "VALUE",
     "DEVICETYPE", "DEVICEID", "LOGICALINTERFACE_ID", "EVENTTYPE",
     "FORMAT", "RCV_TIMESTAMP_UTC", "UPDATED_UTC"]

  const STATS_COLS: seq<string> :=
    ["EXTRACTED", "UPLOADED", "RATE", "ENTITYTYPECOUNT", "ENTITYCOUNT", "EXTSTARTTIME", "EXTENDTIME",
     "DEVICETYPE", "DEVICEID", "LOGICALINTERFACE_ID", "EVENTTYPE", "FORMAT", "RCV_TIMESTAMP_UTC", "UPDATED_UTC"]

  /** `getMonitorDBCols`: the device list for connector type 1, the alarm list for any other. */
  function MonitorDBCols(connectorType: int): (cols: seq<string>)
    ensures connectorType == CONNECTOR_DEVICE ==> |cols| == 13 && cols[0] == "TAGID"
    ensures connectorType != CONNECTOR_DEVICE ==> |cols| == 15 && cols[0] == "ALARMID"
    ensures cols[|cols| - 2..] == ["RCV_TIMESTAMP_UTC", "UPDATED_UTC"]
  {
    if connectorType == CONNECTOR_DEVICE then DEVICE_COLS else ALARM_COLS
  }

  /** No name appears twice. */
  predicate Distinct(names: seq<string>)
  {
    forall i, j :: 0 <= i < j < |names| ==> names[i] != names[j]
  }

  /** The destination lists name every column once, so a column map over them has one list per column. */
  lemma MonitorColsDistinct(connectorType: int)
    ensures Distinct(MonitorDBCols(connectorType))
    ensures |set c | c in MonitorDBCols(connectorType)| == |MonitorDBCols(connectorType)|
  {
    var cols := MonitorDBCols(connectorType);
    DistinctCard(cols);
  }

  lemma {:induction false} DistinctCard(names: seq<string>)
    requires Distinct(names)
    ensures |set c | c in names| == |names|
  {
    if |names| > 0 {
      var rest := names[1..];
      assert Distinct(rest) by {
        forall i, j | 0 <= i < j < |rest| ensures rest[i] != rest[j] { assert rest[i] == names[i + 1]; }
      }
      DistinctCard(rest);
      assert (set c | c in names) == (set c | c in rest) + {names[0]};
      assert names[0] !in (set c | c in rest) by {
        forall k | 0 <= k < |rest| ensures rest[k] != names[0] { assert rest[k] == names[k + 1]; }
      }
    }
  }

  // ---------------------------------------------------------------------------
  // INSERT statements
  // ---------------------------------------------------------------------------

  /** `n` placeholders. */
  function Marks(n: nat): (r: seq<string>)
    ensures |r| == n && forall k :: 0 <= k < n ==> r[k] == "?"
  {
    if n == 0 then [] else Marks(n - 1) + ["?"]
  }

  /** "INSERT INTO <table> (<cols joined by sep>)<kw>(": everything before the placeholders. */
  function InsertHead(table: string, cols: seq<string>, sep: string, kw: string): string
  {
    "INSERT INTO " + table + " (" + Text.Join(cols, sep) + ")" + kw + "("
  }

  /**
   * "INSERT INTO <table> (<cols joined by sep>)<kw>(?, ?, ...)": the shape every
   * INSERT of the connector has.
   */
  function InsertSQL(table: string, cols: seq<string>, sep: string, kw: string): string
  {
    InsertHead(table, cols, sep, kw) + Text.Join(Marks(|cols|), ", ") + ")"
  }

  /**
   * One placeholder per column: when the table name, the separator, the keyword
   * and the column names carry no '?', the statement holds exactly as many '?'
   * as there are columns.
   */
  lemma InsertPlaceholders(table: string, cols: seq<string>, sep: string, kw: string)
    requires |cols| >= 1
    requires '?' !in table && '?' !in sep && '?' !in kw
    requires forall k :: 0 <= k < |cols| ==> '?' !in cols[k]
    ensures Text.Count(InsertSQL(table, cols, sep, kw), '?') == |cols|
  {
    var head := InsertHead(table, cols, sep, kw);
    var marks := Text.Join(Marks(|cols|), ", ");
    JoinFree(cols, sep, '?');
    assert '?' !in head;
    Text.CountFree(head, '?');
    MarksCount(|cols|);
    Text.CountAppend(head, marks, '?');
    Text.CountAppend(head + marks, ")", '?');
    Text.CountFree(")", '?');
  }

  /** A join of pieces free of `c` with a separator free of `c` is free of `c`. */
  lemma {:induction false} JoinFree(parts: seq<string>, sep: string, c: char)
    requires c !in sep && forall k :: 0 <= k < |parts| ==> c !in parts[k]
    ensures c !in Text.Join(parts, sep)
    ensures Text.Count(Text.Join(parts, sep), c) == 0
  {
    if |parts| > 1 {
      JoinFree(parts[1..], sep, c);
      Text.JoinCons(parts[0], parts[1..], sep);
      assert [parts[0]] + parts[1..] == parts;
    }
    Text.CountFree(Text.Join(parts, sep), c);
  }

  /** "?, ?, ..., ?" with `n` marks holds `n` question marks. */
  lemma {:induction false} MarksCount(n: nat)
    requires n >= 1
    ensures Text.Count(Text.Join(Marks(n), ", "), '?') == n
  {
    var m := Marks(n);
    if n == 1 {
      assert Text.Join(m, ", ") == "?";
      assert Text.Count("?", '?') == 1 by { assert "?"[1..] == ""; }
    } else {
      assert m == ["?"] + Marks(n - 1) by { MarksShift(n); }
      Text.JoinCons("?", Marks(n - 1), ", ");
      MarksCount(n - 1);
      Text.CountAppend("?" + ", ", Text.Join(Marks(n - 1), ", "), '?');
      Text.CountAppend("?", ", ", '?');
      assert Text.Count("?", '?') == 1 by { assert "?"[1..] == ""; }
      Text.CountFree(", ", '?');
    }
  }

  lemma MarksShift(n: nat)
    requires n >= 1
    ensures Marks(n) == ["?"] + Marks(n - 1)
  {
  }

  /** `getMonitorInsertSQL`: the device and alarm statements, for the table of an entity type. */
  function MonitorInsertSQL(connectorType: int, entityType: string): string
  {
    if connectorType == CONNECTOR_DEVICE then
      InsertSQL("IOT_" + Text.Upper(entityType), DEVICE_COLS, ", ", " VALUES ")
    else
      InsertSQL("IOT_" + Text.Upper(entityType), ALARM_COLS, ",", "  VALUES ")
  }

  /** `getConectorStatsInsertSQL`: the statistics statement. */
  function StatsInsertSQL(entityType: string): string
  {
    InsertSQL("IOT_" + Text.Upper(entityType), STATS_COLS, ", ", " VALUES ")
  }

  /** No column name holds a '?'. */
  predicate QuestionFree(cols: seq<string>)
  {
    forall k :: 0 <= k < |cols| ==> '?' !in cols[k]
  }

  lemma DeviceColsQuestionFree()
    ensures QuestionFree(DEVICE_COLS)
  {
  }

  lemma AlarmColsQuestionFree()
    ensures QuestionFree(ALARM_COLS)
  {
  }

  lemma StatsColsQuestionFree()
    ensures QuestionFree(STATS_COLS)
  {
  }

  lemma UpperQuestionFree(s: string)
    requires '?' !in s
    ensures '?' !in "IOT_" + Text.Upper(s)
  {
    forall k | 0 <= k < |s| ensures Text.Upper(s)[k] != '?' {
      assert s[k] != '?';
    }
  }

  /** Every connector-supplied name is free of '?', so the statements carry one placeholder per column. */
  lemma MonitorInsertPlaceholders(connectorType: int, entityType: string)
    requires '?' !in entityType
    ensures Text.Count(MonitorInsertSQL(connectorType, entityType), '?') == |MonitorDBCols(connectorType)|
  {
    UpperQuestionFree(entityType);
    if connectorType == CONNECTOR_DEVICE {
      DeviceColsQuestionFree();
      InsertPlaceholders("IOT_" + Text.Upper(entityType), DEVICE_COLS, ", ", " VALUES ");
    } else {
      AlarmColsQuestionFree();
      InsertPlaceholders("IOT_" + Text.Upper(entityType), ALARM_COLS, ",", "  VALUES ");
    }
  }

  /** The statistics statement has one placeholder for each of its 14 columns. */
  lemma StatsInsertPlaceholders(entityType: string)
    requires '?' !in entityType
    ensures Text.Count(StatsInsertSQL(entityType), '?') == |STATS_COLS| == 14
  {
    UpperQuestionFree(entityType);
    StatsColsQuestionFree();
    InsertPlaceholders("IOT_" + Text.Upper(entityType), STATS_COLS, ", ", " VALUES ");
  }

  // ---------------------------------------------------------------------------
  // Positional binding of one row
  // ---------------------------------------------------------------------------

  /** How a column's value is bound. */
  datatype Kind =
    | IntCol          // setInt(Integer.parseInt(text))
    | IntOrZero       // "null" binds 0, anything else as IntCol
    | DoubleCol       // setDouble(Double.parseDouble(text))
    | DoubleOrZero    // "null" binds 0.0, anything else as DoubleCol
    | StringCol       // setString(String.valueOf(value))
    | StampCol        // setTimestamp(Timestamp.valueOf(text))

  /**
   * The parts of the Java runtime the binding relies on and the model leaves
   * abstract: the text of a timestamp, and which texts `Double.parseDouble` and
   * `Timestamp.valueOf` accept.
   */
  datatype Env = Env(stampText: int -> string, isDouble: string -> bool, isStamp: string -> bool)

  /** The binding of a destination column, chosen by its name. */
  function KindOf(connectorType: int, col: string): Kind
  {
    if col == "RCV_TIMESTAMP_UTC" || col == "UPDATED_UTC" then StampCol
    else if connectorType == CONNECTOR_DEVICE then
      (if col == "TAGID" then IntCol
       else if col == "INTVALUE" then IntOrZero
       else if col == "FLOATVALUE" then DoubleOrZero
       else StringCol)
    else
      (if col == "ALARMID" then DoubleCol
       else if col == "ETYPE" || col == "PRIORITY" || col == "VALUE" then DoubleOrZero
       else StringCol)
  }

  function IntParam(text: string): Option<Param>
  {
    match Text.ParseInt32(text)
    case Some(n) => Text.Some(PInt(n))
    case None => Text.None
  }

  function DoubleParam(text: string, env: Env): Option<Param>
  {
    if env.isDouble(text) then Text.Some(PDouble(text)) else Text.None
  }

  /** One parameter from the text of one value; `None` is the exception a failed parse throws. */
  function BindOne(k: Kind, text: string, env: Env): Option<Param>
  {
    match k
    case IntCol => IntParam(text)
    case IntOrZero => if text == NULL_TEXT then Text.Some(PInt(0)) else IntParam(text)
    case DoubleCol => DoubleParam(text, env)
    case DoubleOrZero => if text == NULL_TEXT then Text.Some(PDoubleZero) else DoubleParam(text, env)
    case StringCol => Text.Some(PString(text))
    case StampCol => if env.isStamp(text) then Text.Some(PTimestamp(text)) else Text.None
  }

  /** `sourceMap.get(col).get(i).toString()`; a missing column or row is an exception. */
  function CellText(m: ColumnMap, col: string, i: int, env: Env): Option<string>
  {
    if col in m && 0 <= i < |m[col]| then Text.Some(ToText(m[col][i], env.stampText)) else Text.None
  }

  /** The bindings of row `i`, column by column; the first exception ends the binding. */
  function BindRow(connectorType: int, cols: seq<string>, m: ColumnMap, i: int, env: Env): Option<seq<Param>>
    decreases |cols|
  {
    if |cols| == 0 then Text.Some([])
    else
      match CellText(m, cols[0], i, env)
      case None => Text.None
      case Some(t) =>
        match BindOne(KindOf(connectorType, cols[0]), t, env)
        case None => Text.None
        case Some(p) =>
          match BindRow(connectorType, cols[1..], m, i, env)
          case None => Text.None
          case Some(ps) => Text.Some([p] + ps)
  }

  /** Column `k` binds without an exception. */
  predicate Binds(connectorType: int, col: string, m: ColumnMap, i: int, env: Env)
  {
    CellText(m, col, i, env).Some? && BindOne(KindOf(connectorType, col), CellText(m, col, i, env).value, env).Some?
  }

  /**
   * The row binds exactly when every column binds, and then parameter `k + 1`
   * (index `k` here) is the binding of column `k` of the list.
   */
  lemma {:induction false} BindRowPositional(connectorType: int, cols: seq<string>, m: ColumnMap, i: int, env: Env)
    ensures BindRow(connectorType, cols, m, i, env).Some? <==>
      forall k :: 0 <= k < |cols| ==> Binds(connectorType, cols[k], m, i, env)
    ensures BindRow(connectorType, cols, m, i, env).Some? ==>
      var ps := BindRow(connectorType, cols, m, i, env).value;
      |ps| == |cols| &&
      forall k :: 0 <= k < |cols| ==>
        ps[k] == BindOne(KindOf(connectorType, cols[k]), CellText(m, cols[k], i, env).value, env).value
    decreases |cols|
  {
    if |cols| > 0 {
      BindRowPositional(connectorType, cols[1..], m, i, env);
      assert forall k :: 1 <= k < |cols| ==> cols[1..][k - 1] == cols[k];
      if Binds(connectorType, cols[0], m, i, env) && BindRow(connectorType, cols[1..], m, i, env).Some? {
        var ps := BindRow(connectorType, cols, m, i, env).value;
        assert forall k :: 1 <= k < |cols| ==> ps[k] == BindRow(connectorType, cols[1..], m, i, env).value[k - 1];
      }
    }
  }

  /** `getMonitorPS`: the parameters of row `i` of the column map. */
  function MonitorParams(connectorType: int, m: ColumnMap, i: int, env: Env): Option<seq<Param>>
  {
    BindRow(connectorType, MonitorDBCols(connectorType), m, i, env)
  }

  /** The parameters of the first `n` rows of a column map, as `getMonitorPS` binds them. */
  function MonitorRows(connectorType: int, m: ColumnMap, n: nat, env: Env): (rows: seq<Option<seq<Param>>>)
    ensures |rows| == n
    ensures forall i :: 0 <= i < n ==> rows[i] == MonitorParams(connectorType, m, i, env)
  {
    seq(n, i requires 0 <= i < n => MonitorParams(connectorType, m, i, env))
  }

  /**
   * The literal "null" binds 0 for INTVALUE and 0.0 for FLOATVALUE, ETYPE, PRIORITY
   * and VALUE; in the id columns, which have no such default, it is an exception.
   */
  lemma NullDefaults(env: Env)
    ensures BindOne(KindOf(CONNECTOR_DEVICE, "INTVALUE"), NULL_TEXT, env) == Text.Some(PInt(0))
    ensures BindOne(KindOf(CONNECTOR_DEVICE, "FLOATVALUE"), NULL_TEXT, env) == Text.Some(PDoubleZero)
    ensures BindOne(KindOf(CONNECTOR_ALARM, "ETYPE"), NULL_TEXT, env) == Text.Some(PDoubleZero)
    ensures BindOne(KindOf(CONNECTOR_ALARM, "PRIORITY"), NULL_TEXT, env) == Text.Some(PDoubleZero)
    ensures BindOne(KindOf(CONNECTOR_ALARM, "VALUE"), NULL_TEXT, env) == Text.Some(PDoubleZero)
    ensures BindOne(KindOf(CONNECTOR_DEVICE, "TAGID"), NULL_TEXT, env) == Text.None
    ensures !env.isDouble(NULL_TEXT) ==> BindOne(KindOf(CONNECTOR_ALARM, "ALARMID"), NULL_TEXT, env) == Text.None
  {
    assert Text.ParseDecimal(NULL_TEXT) == Text.None by {
      assert !Text.IsDigit(NULL_TEXT[0]);
    }
  }

  /** Text columns bind whatever the value is, so they never throw. */
  lemma StringColumnsBind(connectorType: int, col: string, text: string, env: Env)
    requires KindOf(connectorType, col) == StringCol
    ensures BindOne(KindOf(connectorType, col), text, env) == Text.Some(PString(text))
  {
  }

  /** In a map holding `h` values per column, every row below `h` has a text for every listed column. */
  lemma RectangularCells(cols: seq<string>, m: ColumnMap, h: nat, i: int, env: Env)
    requires Rectangular(m, h) && 0 <= i < h
    requires forall k :: 0 <= k < |cols| ==> cols[k] in m
    ensures forall k :: 0 <= k < |cols| ==> CellText(m, cols[k], i, env).Some?
  {
  }
}

=== FILE: statement.dfy ===
/**
 * A JDBC prepared statement, reduced to what the batch writers rely on: the
 * parameters currently bound, the rows added to the pending batch, and the rows
 * that batches which executed successfully have sent. Whether an execution
 * succeeds is decided by the caller, since the database is not part of the model.
 */
module Jdbc {
  import opened Columns

  /** Parameters by position: index `k` holds the parameter bound at position `k + 1`. */
  type Bound = seq<Param>

  class PreparedStatement {
    var bound: Bound
    var batch: seq<Bound>
    var executed: seq<Bound>

    constructor ()
      ensures bound == [] && batch == [] && executed == []
    {
      bound := [];
      batch := [];
      executed := [];
    }

    /** Binds a whole row of parameters at positions 1, 2, ... in order. */
    method SetParams(ps: seq<Param>)
      modifies this`bound
      ensures bound == ps
    {
      bound := ps;
    }

    /** `addBatch`: the bound row joins the pending batch. */
    method AddBatch()
      modifies this`batch
      ensures batch == old(batch) + [bound]
    {
      batch := batch + [bound];
    }

    /**
     * `executeBatch`: when the database accepts the batch (`accepted`), its rows are
     * sent and the batch is emptied; otherwise the call throws and nothing is sent.
     */
    method ExecuteBatch(accepted: bool) returns (ok: bool)
      modifies this`batch, this`executed
      ensures ok == accepted
      ensures executed == if accepted then old(executed) + old(batch) else old(executed)
      ensures batch == if accepted then [] else old(batch)
    {
      ok := accepted;
      if accepted {
        executed := executed + batch;
        batch := [];
      }
    }

    /** `clearBatch`. */
    method ClearBatch()
      modifies this`batch
      ensures batch == []
    {
      batch := [];
    }
  }
}

=== FILE: tag_data.dfy ===
/**
 * The tag registry: `TagData` entries (one per tag path, with a device status and
 * a dimension status, each 0 = not yet done, 1 = done), the cache that maps keys to
 * entries with create-if-absent insertion, and `UpdateTagData`, which migrates the
 * entries of an old-format cache into a new one.
 */
module Tags {
  import Text

  type Option<T> = Text.Option<T>

  /** The fields of an entry as values; `None` is a field the constructor used leaves null. */
  datatype TagRecord = TagRecord(
    siteName: Option<string>, tagpath: string, id: Option<string>, deviceId: string,
    deviceType: Option<string>, deviceStatus: int, dimensionStatus: int)

  class TagData {
    var siteName: Option<string>
    var tagpath: string
    var id: Option<string>
    var deviceId: string
    var deviceType: Option<string>
    var deviceStatus: int
    var dimensionStatus: int

    function Record(): TagRecord
      reads this
    {
      TagRecord(siteName, tagpath, id, deviceId, deviceType, deviceStatus, dimensionStatus)
    }

    /** `new TagData(tagpath, deviceId)`: no site name and no device type. */
    constructor (tagpath: string, deviceId: string)
      ensures Record() == TagRecord(Text.None, tagpath, Text.None, deviceId, Text.None, 0, 0)
    {
      this.siteName := Text.None;
      this.tagpath := tagpath;
      this.id := Text.None;
      this.deviceId := deviceId;
      this.deviceType := Text.None;
      this.deviceStatus := 0;
      this.dimensionStatus := 0;
    }

    /** `new TagData(siteName, tagpath, deviceId)`: no device type. */
    constructor WithSite(siteName: string, tagpath: string, deviceId: string)
      ensures Record() == TagRecord(Text.Some(siteName), tagpath, Text.None, deviceId, Text.None, 0, 0)
    {
      this.siteName := Text.Some(siteName);
      this.tagpath := tagpath;
      this.id := Text.None;
      this.deviceId := deviceId;
      this.deviceType := Text.None;
      this.deviceStatus := 0;
      this.dimensionStatus := 0;
    }

    /** `new TagData(siteName, tagpath, deviceId, deviceType)`. */
    constructor WithType(siteName: string, tagpath: string, deviceId: string, deviceType: string)
      ensures Record() == TagRecord(Text.Some(siteName), tagpath, Text.None, deviceId, Text.Some(deviceType), 0, 0)
    {
      this.siteName := Text.Some(siteName);
      this.tagpath := tagpath;
      this.id := Text.None;
      this.deviceId := deviceId;
      this.deviceType := Text.Some(deviceType);
      this.deviceStatus := 0;
      this.dimensionStatus := 0;
    }

    method SetSiteName(siteName: string)
      modifies this`siteName
      ensures this.siteName == Text.Some(siteName)
    {
      this.siteName := Text.Some(siteName);
    }

    /** Stores the decimal text of the number, which reads back as that number. */
    method SetId(tid: int)
      modifies this`id
      ensures id == Text.Some(Text.DecimalText(tid))
      ensures Text.ParseDecimal(id.value) == Text.Some(tid)
    {
      id := Text.Some(Text.DecimalText(tid));
      Text.DecimalRoundTrip(tid);
    }

    method SetDeviceStatus(status: int)
      modifies this`deviceStatus
      ensures deviceStatus == status
    {
      deviceStatus := status;
    }

    method SetDimensionStatus(status: int)
      modifies this`dimensionStatus
      ensures dimensionStatus == status
    {
      dimensionStatus := status;
    }
  }

  /** `setId` followed by `getId` gives the decimal text of the number, which parses back to it. */
  lemma IdReadsBack(tid: int)
    ensures Text.ParseDecimal(Text.DecimalText(tid)) == Text.Some(tid)
    ensures |Text.DecimalText(tid)| >= 1 && (Text.DecimalText(tid)[0] == '-' <==> tid < 0)
  {
    Text.DecimalRoundTrip(tid);
    if tid >= 0 {
      var s := Text.DecimalText(tid);
      assert Text.IsDigit(s[0]);
    }
  }

  /** The records of the keys of `order`, in that order. */
  function Column(view: map<string, TagRecord>, order: seq<string>): seq<TagRecord>
    requires forall k :: k in order ==> k in view
  {
    seq(|order|, i requires 0 <= i < |order| => view[order[i]])
  }

  /** The records of a sequence of entries. */
  function RecordsOf(tds: seq<TagData>): seq<TagRecord>
    reads set td | td in tds
  {
    seq(|tds|, j requires 0 <= j < |tds| reads set td | td in tds => tds[j].Record())
  }

  /**
   * The tag cache (`CacheAccess<String, TagData>`): keys mapped to entries. `putSafe`
   * refuses a key that is already present (the cache throws; callers catch it).
   */
  class TagCache {
    var entries: map<string, TagData>

    /** The entries as values. */
    function View(): map<string, TagRecord>
      reads this, entries.Values
    {
      map k | k in entries :: entries[k].Record()
    }

    constructor ()
      ensures entries == map[]
    {
      entries := map[];
    }

    /** Inserts when the key is absent; reports whether it did. */
    method PutSafe(key: string, value: TagData) returns (ok: bool)
      modifies this`entries
      ensures ok <==> key !in old(entries)
      ensures entries == if ok then old(entries)[key := value] else old(entries)
    {
      ok := key !in entries;
      if ok {
        entries := entries[key := value];
      }
    }

    /** Inserts or replaces. */
    method Put(key: string, value: TagData)
      modifies this`entries
      ensures entries == old(entries)[key := value]
    {
      entries := entries[key := value];
    }
  }

  // ---------------------------------------------------------------------------
  // Migration from the old cache format
  // ---------------------------------------------------------------------------

  /** An entry of the old cache (`TagDataOld`). */
  datatype OldTagData = OldTagData(tagpath: string, deviceId: string, deviceStatus: int, dimensionStatus: int)

  /**
   * The entry `UpdateTagData.java` builds, as written: the three-argument
   * constructor is `(siteName, tagpath, deviceId)`, so the tag path lands in the
   * site name, the device id in the tag path and the entity type in the device id.
   */
  function AsWrittenRecord(o: OldTagData, entityType: string): TagRecord
  {
    TagRecord(Text.Some(o.tagpath), o.deviceId, Text.None, entityType, Text.None, o.deviceStatus, o.dimensionStatus)
  }

  /** The shifted entry keeps its tag path only when the tag path equals the device id. */
  lemma AsWrittenShiftsFields(o: OldTagData, entityType: string)
    ensures AsWrittenRecord(o, entityType).tagpath == o.tagpath <==> o.deviceId == o.tagpath
    ensures AsWrittenRecord(o, entityType).deviceType == Text.None
    ensures AsWrittenRecord(OldTagData("ca3/boiler/temp", "d-1", 1, 0), "Boiler").tagpath != "ca3/boiler/temp"
  {
    assert "d-1"[0] != "ca3/boiler/temp"[0];
  }

  /** The migrated entry as intended: same tag path, device id and statuses, the entity type as device type. */
  function MigratedRecord(o: OldTagData, siteName: string, entityType: string): (r: TagRecord)
    ensures r.tagpath == o.tagpath && r.deviceId == o.deviceId && r.deviceType == Text.Some(entityType)
    ensures r.deviceStatus == o.deviceStatus && r.dimensionStatus == o.dimensionStatus
  {
    TagRecord(Text.Some(siteName), o.tagpath, Text.None, o.deviceId, Text.Some(entityType),
              o.deviceStatus, o.dimensionStatus)
  }

  /** One step of the migration: old key `k`, skipped when it has no entry, inserted only if absent. */
  function MigrateStep(view: map<string, TagRecord>, k: string, oldMap: map<string, OldTagData>,
                       siteName: string, entityType: string): map<string, TagRecord>
  {
    if k in oldMap && oldMap[k].tagpath !in view then
      view[oldMap[k].tagpath := MigratedRecord(oldMap[k], siteName, entityType)]
    else view
  }

  /** The new cache after migrating the old keys in iteration order. */
  function Migrate(view: map<string, TagRecord>, keys: seq<string>, oldMap: map<string, OldTagData>,
                   siteName: string, entityType: string): map<string, TagRecord>
    decreases |keys|
  {
    if |keys| == 0 then view
    else Migrate(MigrateStep(view, keys[0], oldMap, siteName, entityType), keys[1..], oldMap, siteName, entityType)
  }

  /** Entries already in the new cache are never replaced. */
  lemma {:induction false} MigrateKeepsExisting(view: map<string, TagRecord>, keys: seq<string>,
                                                 oldMap: map<string, OldTagData>, siteName: string, entityType: string)
    ensures var r := Migrate(view, keys, oldMap, siteName, entityType);
      forall t :: t in view ==> t in r && r[t] == view[t]
    decreases |keys|
  {
    if |keys| > 0 {
      MigrateKeepsExisting(MigrateStep(view, keys[0], oldMap, siteName, entityType), keys[1..], oldMap, siteName, entityType);
    }
  }

  /** The new keys are exactly the tag paths of the old keys that have an entry. */
  lemma {:induction false} MigrateKeys(view: map<string, TagRecord>, keys: seq<string>,
                                       oldMap: map<string, OldTagData>, siteName: string, entityType: string)
    ensures Migrate(view, keys, oldMap, siteName, entityType).Keys ==
      view.Keys + set k | k in keys && k in oldMap :: oldMap[k].tagpath
    decreases |keys|
  {
    if |keys| > 0 {
      var next := MigrateStep(view, keys[0], oldMap, siteName, entityType);
      MigrateKeys(next, keys[1..], oldMap, siteName, entityType);
      var added := set k | k in keys && k in oldMap :: oldMap[k].tagpath;
      var rest := set k | k in keys[1..] && k in oldMap :: oldMap[k].tagpath;
      assert next.Keys == view.Keys + (if keys[0] in oldMap then {oldMap[keys[0]].tagpath} else {});
      assert added == rest + (if keys[0] in oldMap then {oldMap[keys[0]].tagpath} else {}) by {
        forall t | t in added ensures t in rest + (if keys[0] in oldMap then {oldMap[keys[0]].tagpath} else {}) {
          var k :| k in keys && k in oldMap && oldMap[k].tagpath == t;
          if k != keys[0] {
            assert k in keys[1..];
          }
        }
      }
    }
  }

  /** Every entry the migration adds is the intended migration of some old entry with that tag path. */
  lemma {:induction false} MigrateAddsMigrated(view: map<string, TagRecord>, keys: seq<string>,
                                               oldMap: map<string, OldTagData>, siteName: string, entityType: string)
    ensures var r := Migrate(view, keys, oldMap, siteName, entityType);
      forall t :: t in r && t !in view ==>
        exists k :: (k in keys && k in oldMap && oldMap[k].tagpath == t && r[t] == MigratedRecord(oldMap[k], siteName, entityType))
    decreases |keys|
  {
    if |keys| > 0 {
      var next := MigrateStep(view, keys[0], oldMap, siteName, entityType);
      var r := Migrate(view, keys, oldMap, siteName, entityType);
      MigrateAddsMigrated(next, keys[1..], oldMap, siteName, entityType);
      MigrateKeepsExisting(next, keys[1..], oldMap, siteName, entityType);
      forall t | t in r && t !in view
        ensures exists k :: (k in keys && k in oldMap && oldMap[k].tagpath == t &&
          r[t] == MigratedRecord(oldMap[k], siteName, entityType))
      {
        if t in next {
          assert keys[0] in keys;
        } else {
          var k :| k in keys[1..] && k in oldMap && oldMap[k].tagpath == t &&
            r[t] == MigratedRecord(oldMap[k], siteName, entityType);
          assert k in keys;
        }
      }
    }
  }

  /** `UpdateTagData`: the old cache (its key set in iteration order and its entries) and the new cache. */
  class UpdateTagData {
    var clientSite: string
    var entityType: string
    var tagListOld: seq<string>
    var tagpathsOld: map<string, OldTagData>
    var tagpathsNew: TagCache

    constructor (clientSite: string, entityType: string, tagListOld: seq<string>,
                 tagpathsOld: map<string, OldTagData>, tagpathsNew: TagCache)
      ensures this.clientSite == clientSite && this.entityType == entityType
      ensures this.tagListOld == tagListOld && this.tagpathsOld == tagpathsOld && this.tagpathsNew == tagpathsNew
    {
      this.clientSite := clientSite;
      this.entityType := entityType;
      this.tagListOld := tagListOld;
      this.tagpathsOld := tagpathsOld;
      this.tagpathsNew := tagpathsNew;
    }

    /**
     * The body of the migration loop for one old key that has an entry: a fresh
     * entry with the old fields, the configured site and the entity type, inserted
     * unless its tag path is already present.
     */
    method MigrateEntry(key: string)
      requires key in tagpathsOld
      modifies tagpathsNew`entries
      ensures tagpathsNew.View() == MigrateStep(old(tagpathsNew.View()), key, tagpathsOld, clientSite, entityType)
      ensures forall t :: t in old(tagpathsNew.entries) ==>
        t in tagpathsNew.entries && tagpathsNew.entries[t] == old(tagpathsNew.entries[t])
      ensures forall t :: t in tagpathsNew.entries ==> t in old(tagpathsNew.entries) || fresh(tagpathsNew.entries[t])
    {
      var cache := tagpathsNew;
      var tdOld := tagpathsOld[key];
      ghost var before := cache.View();
      ghost var e0 := cache.entries;
      var td := new TagData.WithType(clientSite, tdOld.tagpath, tdOld.deviceId, entityType);
      td.SetDeviceStatus(tdOld.deviceStatus);
      td.SetDimensionStatus(tdOld.dimensionStatus);
      assert td.Record() == MigratedRecord(tdOld, clientSite, entityType);
      assert cache.View() == before by {
        assert td !in e0.Values;
      }
      var ok := cache.PutSafe(tdOld.tagpath, td);
      if ok {
        assert cache.View() == before[tdOld.tagpath := td.Record()] by {
          forall t | t in cache.entries
            ensures cache.entries[t].Record() == before[tdOld.tagpath := td.Record()][t]
          {
            if t != tdOld.tagpath {
              assert cache.entries[t] == e0[t];
            }
          }
        }
      }
    }

    /**
     * Copies every old entry into the new cache under its tag path, skipping keys
     * without an entry and keys already present; the old cache is only read.
     */
    method Process()
      modifies tagpathsNew`entries
      ensures tagpathsNew.View() == Migrate(old(tagpathsNew.View()), tagListOld, tagpathsOld, clientSite, entityType)
      ensures forall t :: t in old(tagpathsNew.entries) ==>
        t in tagpathsNew.entries && tagpathsNew.entries[t] == old(tagpathsNew.entries[t])
    {
      var i := 0;
      while i < |tagListOld|
        invariant 0 <= i <= |tagListOld|
        invariant Migrate(old(tagpathsNew.View()), tagListOld, tagpathsOld, clientSite, entityType) ==
          Migrate(tagpathsNew.View(), tagListOld[i..], tagpathsOld, clientSite, entityType)
        invariant forall t :: t in old(tagpathsNew.entries) ==>
          t in tagpathsNew.entries && tagpathsNew.entries[t] == old(tagpathsNew.entries[t])
        invariant forall t :: t in tagpathsNew.entries ==> t in old(tagpathsNew.entries) || fresh(tagpathsNew.entries[t])
      {
        var id := tagListOld[i];
        assert tagListOld[i..][1..] == tagListOld[i + 1..];
        if id in tagpathsOld {
          MigrateEntry(id);
        }
        i := i + 1;
      }
    }
  }
}

=== FILE: text.dfy ===
/**
 * String operations of the Java and Python runtimes that the connector relies on,
 * written out with the edge cases of each runtime: Java's `String.split` drops
 * trailing empty strings (and returns the whole input when the separator does not
 * occur), Python's `str.split` keeps every piece.
 */
module Text {

  datatype Option<T> = None | Some(value: T)

  // ---------------------------------------------------------------------------
  // Splitting and joining on one separator character
  // ---------------------------------------------------------------------------

  /** The pieces of `s` between occurrences of `c`, empty pieces included. */
  function Pieces(s: string, c: char): (r: seq<string>)
    ensures |r| >= 1
    ensures forall i :: 0 <= i < |r| ==> c !in r[i]
  {
    if |s| == 0 then [""]
    else if s[0] == c then [""] + Pieces(s[1..], c)
    else
      var rest := Pieces(s[1..], c);
      [[s[0]] + rest[0]] + rest[1..]
  }

  /** The parts glued together with `sep` between neighbours. */
  function Join(parts: seq<string>, sep: string): (r: string)
    ensures |parts| == 1 ==> r == parts[0]
  {
    if |parts| == 0 then ""
    else if |parts| == 1 then parts[0]
    else parts[0] + sep + Join(parts[1..], sep)
  }

  lemma JoinCons(p: string, ps: seq<string>, sep: string)
    requires |ps| >= 1
    ensures Join([p] + ps, sep) == p + sep + Join(ps, sep)
  {
    assert ([p] + ps)[1..] == ps;
  }

  /** One more part at the end adds the separator and the part. */
  lemma {:induction false} JoinSnoc(ps: seq<string>, p: string, sep: string)
    requires |ps| >= 1
    ensures Join(ps + [p], sep) == Join(ps, sep) + sep + p
  {
    if |ps| == 1 {
      assert (ps + [p])[1..] == [p];
    } else {
      assert (ps + [p])[1..] == ps[1..] + [p];
      JoinSnoc(ps[1..], p, sep);
    }
  }

  /** Splitting on `c` and joining with `c` gives back the input. */
  lemma {:induction false} JoinPieces(s: string, c: char)
    ensures Join(Pieces(s, c), [c]) == s
  {
    if |s| == 0 {
    } else if s[0] == c {
      JoinPieces(s[1..], c);
      JoinCons("", Pieces(s[1..], c), [c]);
      assert [c] + s[1..] == s;
    } else {
      var rest := Pieces(s[1..], c);
      JoinPieces(s[1..], c);
      if |rest| == 1 {
        assert [s[0]] + rest[0] == s;
      } else {
        JoinCons(rest[0], rest[1..], [c]);
        assert [rest[0]] + rest[1..] == rest;
        JoinCons([s[0]] + rest[0], rest[1..], [c]);
        assert [[s[0]] + rest[0]] + rest[1..] == [[s[0]] + rest[0]] + rest[1..];
        assert [s[0]] + (rest[0] + [c] + Join(rest[1..], [c])) == s;
      }
    }
  }

  /** Joining parts free of `c` with `c` and splitting on `c` gives back the parts. */
  lemma {:induction false} PiecesJoin(parts: seq<string>, c: char)
    requires |parts| >= 1
    requires forall i :: 0 <= i < |parts| ==> c !in parts[i]
    ensures Pieces(Join(parts, [c]), c) == parts
  {
    if |parts| == 1 {
      PiecesOfFree(parts[0], c);
    } else {
      JoinCons(parts[0], parts[1..], [c]);
      assert [parts[0]] + parts[1..] == parts;
      PiecesJoin(parts[1..], c);
      PiecesPrefix(parts[0], Join(parts[1..], [c]), c);
    }
  }

  lemma {:induction false} PiecesOfFree(s: string, c: char)
    requires c !in s
    ensures Pieces(s, c) == [s]
  {
    if |s| > 0 {
      assert c !in s[1..] by {
        forall k | 0 <= k < |s[1..]| ensures s[1..][k] != c { assert s[1..][k] == s[k + 1]; }
      }
      PiecesOfFree(s[1..], c);
      assert [s[0]] + s[1..] == s;
    }
  }

  lemma {:induction false} PiecesPrefix(p: string, t: string, c: char)
    requires c !in p
    ensures Pieces(p + [c] + t, c) == [p] + Pieces(t, c)
  {
    if |p| == 0 {
      assert p + [c] + t == [c] + t;
      assert ([c] + t)[1..] == t;
    } else {
      assert (p + [c] + t)[0] == p[0];
      assert (p + [c] + t)[1..] == p[1..] + [c] + t;
      assert c !in p[1..] by {
        forall k | 0 <= k < |p[1..]| ensures p[1..][k] != c { assert p[1..][k] == p[k + 1]; }
      }
      PiecesPrefix(p[1..], t, c);
      assert [p[0]] + p[1..] == p;
    }
  }

  /** The last piece is what follows the last separator, so it is empty only when `s` ends with one. */
  lemma {:induction false} PiecesLastNonEmpty(s: string, c: char)
    requires |s| > 0 && s[|s| - 1] != c
    ensures Pieces(s, c)[|Pieces(s, c)| - 1] != ""
  {
    if |s| > 1 {
      assert s[1..][|s[1..]| - 1] == s[|s| - 1];
      PiecesLastNonEmpty(s[1..], c);
    }
  }

  /**
   * Splitting a text that does not end with `c` the Java way and joining the
   * pieces with `c` gives the text back, and no piece holds `c`.
   */
  lemma JavaSplitJoin(s: string, c: char)
    requires |s| == 0 || s[|s| - 1] != c
    ensures Join(JavaSplit(s, c), [c]) == s
    ensures forall i :: 0 <= i < |JavaSplit(s, c)| ==> c !in JavaSplit(s, c)[i]
  {
    if c in s {
      PiecesLastNonEmpty(s, c);
      JoinPieces(s, c);
    }
  }

  /** Drops the empty strings at the end of a split result, as Java does. */
  function StripTrailingEmpty(ps: seq<string>): (r: seq<string>)
    ensures |r| <= |ps| && r == ps[..|r|]
    ensures |r| > 0 ==> r[|r| - 1] != ""
    ensures forall i :: |r| <= i < |ps| ==> ps[i] == ""
  {
    if |ps| > 0 && ps[|ps| - 1] == "" then StripTrailingEmpty(ps[..|ps| - 1]) else ps
  }

  /**
   * Java `s.split(c)` for a separator that is not a regular-expression
   * metacharacter: when `c` does not occur the result is the whole input (so
   * `"".split(c)` is `[""]`), otherwise the pieces without trailing empty strings.
   */
  function JavaSplit(s: string, c: char): (r: seq<string>)
    ensures c !in s ==> r == [s]
    ensures c in s ==> r == StripTrailingEmpty(Pieces(s, c))
  {
    if c in s then StripTrailingEmpty(Pieces(s, c)) else [s]
  }

  /** The non-empty strings of `ps`, in order. */
  function NonEmpty(ps: seq<string>): (r: seq<string>)
    ensures |r| <= |ps|
    ensures forall i :: 0 <= i < |r| ==> r[i] != ""
  {
    if |ps| == 0 then [] else (if ps[0] == "" then [] else [ps[0]]) + NonEmpty(ps[1..])
  }

  /**
   * Java `s.split(c + "+")`: a run of separators counts as one, a leading empty
   * piece survives and trailing empty strings are dropped.
   */
  function JavaSplitRuns(s: string, c: char): (r: seq<string>)
    ensures c !in s ==> r == [s]
  {
    if c in s then
      var ps := Pieces(s, c);
      StripTrailingEmpty([ps[0]] + NonEmpty(ps[1..]))
    else [s]
  }

  /**
   * Java `s.split(c, 2)`: at most two pieces, split at the first occurrence; a
   * positive limit keeps an empty last piece.
   */
  function JavaSplitFirst(s: string, c: char): (r: seq<string>)
    ensures c !in s ==> r == [s]
    ensures c in s ==> |r| == 2 && r[0] + [c] + r[1] == s && c !in r[0]
  {
    if |s| == 0 then [s]
    else if s[0] == c then ["", s[1..]]
    else
      var rest := JavaSplitFirst(s[1..], c);
      if |rest| == 1 then [s] else [[s[0]] + rest[0], rest[1]]
  }

  /**
   * Python `s.rsplit(c, 1)`: at most two pieces, split at the last occurrence.
   */
  function PyRSplitOnce(s: string, c: char): (r: seq<string>)
    ensures c !in s ==> r == [s]
    ensures c in s ==> |r| == 2 && r[0] + [c] + r[1] == s && c !in r[1]
  {
    if |s| == 0 then [s]
    else if s[|s| - 1] == c then [s[..|s| - 1], ""]
    else
      var front := PyRSplitOnce(s[..|s| - 1], c);
      assert s[..|s| - 1] + [s[|s| - 1]] == s;
      if |front| == 1 then [s] else [front[0], front[1] + [s[|s| - 1]]]
  }

  // ---------------------------------------------------------------------------
  // Character-level helpers
  // ---------------------------------------------------------------------------

  function UpperChar(ch: char): char
  {
    if 'a' <= ch <= 'z' then (ch as int - 'a' as int + 'A' as int) as char else ch
  }

  function LowerChar(ch: char): char
  {
    if 'A' <= ch <= 'Z' then (ch as int - 'A' as int + 'a' as int) as char else ch
  }

  /** `toUpperCase()` restricted to the ASCII letters. */
  function Upper(s: string): (r: string)
    ensures |r| == |s|
    ensures forall i :: 0 <= i < |s| ==> r[i] == UpperChar(s[i])
  {
    if |s| == 0 then "" else [UpperChar(s[0])] + Upper(s[1..])
  }

  /** `toLowerCase()` / `lower()` restricted to the ASCII letters. */
  function Lower(s: string): (r: string)
    ensures |r| == |s|
    ensures forall i :: 0 <= i < |s| ==> r[i] == LowerChar(s[i])
  {
    if |s| == 0 then "" else [LowerChar(s[0])] + Lower(s[1..])
  }

  /** Every occurrence of `a` replaced by `b`. */
  function ReplaceChar(s: string, a: char, b: char): (r: string)
    ensures |r| == |s|
    ensures forall i :: 0 <= i < |s| ==> r[i] == (if s[i] == a then b else s[i])
  {
    if |s| == 0 then "" else [if s[0] == a then b else s[0]] + ReplaceChar(s[1..], a, b)
  }

  predicate IsPrefix(p: string, s: string)
  {
    |p| <= |s| && s[..|p|] == p
  }

  /** `s.contains(sub)` / Python `sub in s`. */
  predicate Contains(s: string, sub: string)
  {
    IsPrefix(sub, s) || (|s| > 0 && Contains(s[1..], sub))
  }

  /** A string that contains `longer` contains every prefix of it. */
  lemma {:induction false} ContainsPrefixOf(s: string, longer: string, p: string)
    requires Contains(s, longer) && IsPrefix(p, longer)
    ensures Contains(s, p)
  {
    if IsPrefix(longer, s) {
      assert s[..|p|] == longer[..|p|];
    } else {
      ContainsPrefixOf(s[1..], longer, p);
    }
  }

  /** Java `String.trim()`: strips leading and trailing characters up to U+0020. */
  function Trim(s: string): (r: string)
    ensures |r| <= |s|
    ensures |r| > 0 ==> r[0] > ' ' && r[|r| - 1] > ' '
  {
    if |s| > 0 && s[0] <= ' ' then Trim(s[1..])
    else if |s| > 0 && s[|s| - 1] <= ' ' then Trim(s[..|s| - 1])
    else s
  }

  /** The number of occurrences of `c` in `s`. */
  function Count(s: string, c: char): (n: nat)
    ensures n <= |s|
  {
    if |s| == 0 then 0 else (if s[0] == c then 1 else 0) + Count(s[1..], c)
  }

  lemma {:induction false} CountAppend(a: string, b: string, c: char)
    ensures Count(a + b, c) == Count(a, c) + Count(b, c)
  {
    if |a| == 0 {
      assert a + b == b;
    } else {
      assert (a + b)[1..] == a[1..] + b;
      CountAppend(a[1..], b, c);
    }
  }

  lemma {:induction false} CountFree(s: string, c: char)
    requires c !in s
    ensures Count(s, c) == 0
  {
    if |s| > 0 {
      assert c !in s[1..] by {
        forall k | 0 <= k < |s[1..]| ensures s[1..][k] != c { assert s[1..][k] == s[k + 1]; }
      }
      CountFree(s[1..], c);
    }
  }

  /** There is one more piece than there are separators. */
  lemma {:induction false} PiecesCount(s: string, c: char)
    ensures |Pieces(s, c)| == Count(s, c) + 1
  {
    if |s| > 0 {
      PiecesCount(s[1..], c);
    }
  }

  lemma {:induction false} CountPresent(s: string, c: char)
    requires c in s
    ensures Count(s, c) >= 1
  {
    if s[0] != c {
      assert c in s[1..] by {
        var k :| 0 <= k < |s| && s[k] == c;
        assert s[1..][k - 1] == c;
      }
      CountPresent(s[1..], c);
    }
  }

  /** Joining `n` parts free of `c` with `c` places exactly `n - 1` copies of `c`. */
  lemma {:induction false} CountJoin(parts: seq<string>, c: char)
    requires |parts| >= 1
    requires forall i :: 0 <= i < |parts| ==> c !in parts[i]
    ensures Count(Join(parts, [c]), c) == |parts| - 1
  {
    if |parts| == 1 {
      CountFree(parts[0], c);
    } else {
      JoinCons(parts[0], parts[1..], [c]);
      assert [parts[0]] + parts[1..] == parts;
      CountJoin(parts[1..], c);
      CountFree(parts[0], c);
      CountAppend(parts[0] + [c], Join(parts[1..], [c]), c);
      CountAppend(parts[0], [c], c);
      assert Count([c], c) == 1 by { assert [c][1..] == []; }
    }
  }

  // ---------------------------------------------------------------------------
  // Decimal text of integers
  // ---------------------------------------------------------------------------

  function DigitChar(d: nat): char
    requires d < 10
  {
    ('0' as int + d) as char
  }

  predicate IsDigit(ch: char)
  {
    '0' <= ch <= '9'
  }

  function DigitsOf(n: nat): (r: string)
    ensures |r| >= 1
    ensures forall i :: 0 <= i < |r| ==> IsDigit(r[i])
  {
    if n < 10 then [DigitChar(n)] else DigitsOf(n / 10) + [DigitChar(n % 10)]
  }

  /** `String.valueOf(long)` and Python `str(int)`: optional minus sign, then digits. */
  function DecimalText(n: int): (r: string)
    ensures |r| >= 1
  {
    if n < 0 then "-" + DigitsOf(-n) else DigitsOf(n)
  }

  /** The value of a string of decimal digits. */
  function DigitsValue(s: string): (n: nat)
    requires forall i :: 0 <= i < |s| ==> IsDigit(s[i])
  {
    if |s| == 0 then 0
    else
      assert IsDigit(s[|s| - 1]);
      DigitsValue(s[..|s| - 1]) * 10 + (s[|s| - 1] as int - '0' as int)
  }

  /**
   * Java `Long.parseLong`: an optional sign followed by at least one digit; any
   * other text is a `NumberFormatException` (here `None`).
   */
  function ParseDecimal(s: string): (r: Option<int>)
    ensures r.Some? ==> |s| >= 1
  {
    if |s| >= 2 && (s[0] == '-' || s[0] == '+') && forall i :: 1 <= i < |s| ==> IsDigit(s[i]) then
      var v := DigitsValue(s[1..]);
      Some(if s[0] == '-' then -(v as int) else v)
    else if |s| >= 1 && forall i :: 0 <= i < |s| ==> IsDigit(s[i]) then
      Some(DigitsValue(s))
    else None
  }

  lemma {:induction false} DigitsRoundTrip(n: nat)
    ensures DigitsValue(DigitsOf(n)) == n
  {
    var r := DigitsOf(n);
    if n >= 10 {
      DigitsRoundTrip(n / 10);
      assert r[..|r| - 1] == DigitsOf(n / 10);
    }
  }

  /** The decimal text of a number parses back to the number. */
  lemma DecimalRoundTrip(n: int)
    ensures ParseDecimal(DecimalText(n)) == Some(n)
  {
    if n < 0 {
      var d := DigitsOf(-n);
      var s := "-" + d;
      DigitsRoundTrip(-n);
      assert s[0] == '-' && |s| >= 2;
      assert s[1..] == d;
      assert forall i :: 1 <= i < |s| ==> IsDigit(s[i]) by {
        forall i | 1 <= i < |s| ensures IsDigit(s[i]) { assert s[i] == d[i - 1]; }
      }
      assert ParseDecimal(s) == Some(-(DigitsValue(d) as int));
    } else {
      var s := DigitsOf(n);
      DigitsRoundTrip(n);
      assert IsDigit(s[0]);
      assert ParseDecimal(s) == Some(DigitsValue(s));
    }
  }

  /** Java's `/` on integers: the quotient truncated toward zero. */
  function JavaDiv(a: int, b: int): int
    requires b != 0
  {
    var q := (if a < 0 then -a else a) / (if b < 0 then -b else b);
    if (a < 0) != (b < 0) then -q else q
  }

  /** Java's `/` agrees with floor division on a multiple of the divisor. */
  lemma JavaDivThousand(k: int)
    ensures JavaDiv(k * 1000, 1000) == k
  {
    if k < 0 {
      assert -(k * 1000) == (-k) * 1000;
    }
  }

  /** Java's `/ 1000` never reverses the order of its dividends. */
  lemma JavaDivMonotone(a: int, b: int)
    requires a <= b
    ensures JavaDiv(a, 1000) <= JavaDiv(b, 1000)
  {
    if a < 0 && b >= 0 {
    } else if a < 0 {
      DivMonotone(-b, -a);
    } else {
      DivMonotone(a, b);
    }
  }

  lemma DivMonotone(a: int, b: int)
    requires 0 <= a <= b
    ensures a / 1000 <= b / 1000
  {
    var qa, qb := a / 1000, b / 1000;
    assert qa * 1000 <= a;
    assert b < qb * 1000 + 1000;
  }

  /** The 32-bit two's-complement value of a number, as `Number.intValue()` truncates it. */
  function Int32Of(x: int): (r: int)
    ensures -0x8000_0000 <= r < 0x8000_0000
    ensures -0x8000_0000 <= x < 0x8000_0000 ==> r == x
  {
    (x + 0x8000_0000) % 0x1_0000_0000 - 0x8000_0000
  }

  /** Java `Integer.parseInt`: a decimal number that also fits in 32 bits. */
  function ParseInt32(s: string): (r: Option<int>)
    ensures r.Some? ==> -0x8000_0000 <= r.value < 0x8000_0000
  {
    match ParseDecimal(s)
    case Some(v) => if -0x8000_0000 <= v < 0x8000_0000 then Some(v) else None
    case None => None
  }
}

=== FILE: transform_data.dfy ===
/**
 * The row transform: each source row becomes one value appended to each of the
 * destination columns it fills, and every tag path seen is registered in the tag
 * cache if absent. The same transform appears twice in the connector, inline in
 * the extraction cycle and in `TransformData.set`; the two copies differ in the
 * per-row prefix and in the registry entry they create, which `Variant` selects.
 */
module Transform {
  import Text
  import opened Columns
  import Tags
  import Offsets
  import opened Constants

  /** Which copy of the transform runs. */
  datatype Variant =
    | Extract(tableName: string)   // the loop inside the extraction cycle: DEVICETYPE is the table name
    | Transformer                  // TransformData: DEVICETYPE is the classified type of the tag path

  /**
   * What the transform reads besides the rows: the variant, the connector type and
   * its name, the client site, the source column names, and the operations the
   * model leaves abstract (the name-based UUID, the tag classifier and timestamp text).
   */
  datatype Context = Context(
    variant: Variant, connectorType: int, connectorTypeStr: string, clientSite: string,
    names: seq<string>, uuid: string -> string, typeOf: string -> string, stampText: int -> string)

  /**
   * The state the transform changes: the column lists, the registry (as records),
   * the count of registry inserts, the row count, and whether an exception ended it.
   */
  datatype Progress = Progress(
    cols: ColumnMap, reg: map<string, Tags.TagRecord>, added: int, rows: int, failed: bool)

  // ---------------------------------------------------------------------------
  // One step at a time
  // ---------------------------------------------------------------------------

  /** `sourceMap.get(col).add(v)`: a column missing from the map is a null list, so the call throws. */
  function Put(p: Progress, col: string, v: Value): Progress
  {
    if p.failed then p
    else if col in p.cols then p.(cols := p.cols[col := p.cols[col] + [v]])
    else p.(failed := true)
  }

  /** `rs.getLong`: a whole number, or decimal text; anything else throws. */
  function LongOf(v: Value): Text.Option<int>
  {
    match v
    case Long(n) => Text.Some(n)
    case Str(s) => Text.ParseDecimal(s)
    case Time(_) => Text.None
  }

  /** The registry entry each copy creates for a new tag path. */
  function EntryFor(ctx: Context, tagpath: string): (r: Tags.TagRecord)
    ensures r.tagpath == tagpath && r.deviceId == ctx.uuid(tagpath)
    ensures r.deviceStatus == 0 && r.dimensionStatus == 0
    ensures ctx.variant.Transformer? ==> r.deviceType == Text.Some(ctx.typeOf(tagpath))
  {
    match ctx.variant
    case Extract(_) =>
      Tags.TagRecord(Text.None, tagpath, Text.None, ctx.uuid(tagpath), Text.None, 0, 0)
    case Transformer =>
      Tags.TagRecord(Text.Some(ctx.clientSite), tagpath, Text.None, ctx.uuid(tagpath),
                     Text.Some(ctx.typeOf(tagpath)), 0, 0)
  }

  /**
   * The entry `TransformData.java` creates, as written: the three-argument
   * constructor is `(siteName, tagpath, deviceId)` and receives
   * `(tagpath, uuid, type)`, so the UUID lands in the tag path and the type in
   * the device id.
   */
  function AsWrittenTransformEntry(ctx: Context, tagpath: string): Tags.TagRecord
  {
    Tags.TagRecord(Text.Some(tagpath), ctx.uuid(tagpath), Text.None, ctx.typeOf(tagpath), Text.None, 0, 0)
  }

  /**
   * `putSafe` on an assigned registry and the count that follows it: only an absent
   * tag path is inserted and counted.
   */
  function RegisterIn(ctx: Context, p: Progress, tagpath: string): Progress
  {
    if p.failed || tagpath in p.reg then p
    else p.(reg := p.reg[tagpath := EntryFor(ctx, tagpath)], added := p.added + 1)
  }

  /**
   * The registration each copy performs. The extraction cycle's registry is
   * assigned. The static registry and offset record of `TransformData` are never
   * assigned, so there `putSafe` dereferences null, the catch swallows the
   * exception, and nothing is registered or counted.
   */
  function Register(ctx: Context, p: Progress, tagpath: string): Progress
  {
    match ctx.variant
    case Extract(_) => RegisterIn(ctx, p, tagpath)
    case Transformer => p
  }

  /** The last '/'-separated element of a device tag path goes to EVT_NAME; a path with none throws. */
  function EvtNameCell(ctx: Context, p: Progress, tagpath: string): Progress
  {
    if ctx.connectorType == CONNECTOR_DEVICE then
      var elems := Text.JavaSplit(tagpath, '/');
      if |elems| == 0 then p.(failed := true) else Put(p, "EVT_NAME", Str(elems[|elems| - 1]))
    else p
  }

  /** DEVICETYPE is filled from the tag path by `TransformData` only. */
  function TypeCell(ctx: Context, p: Progress, tagpath: string): Progress
  {
    if ctx.variant.Transformer? then Put(p, "DEVICETYPE", Str(ctx.typeOf(tagpath))) else p
  }

  /** A non-null tag path: registry, DEVICETYPE (TransformData only), DEVICEID, and for devices EVT_NAME. */
  function TagpathCell(ctx: Context, p: Progress, tagpath: string): Progress
  {
    EvtNameCell(ctx, Put(TypeCell(ctx, Register(ctx, p, tagpath), tagpath), "DEVICEID", Str(ctx.uuid(tagpath))), tagpath)
  }

  /** `rs.getLong` of a t_stamp cell, as a timestamp appended to both time columns. */
  function StampCell(p: Progress, v: Value): Progress
  {
    match LongOf(v)
    case Some(n) => Put(Put(p, "RCV_TIMESTAMP_UTC", Time(n)), "UPDATED_UTC", Time(n))
    case None => p.(failed := true)
  }

  /** `rs.getLong` of an id cell, appended to ALARMID. */
  function IdCell(p: Progress, v: Value): Progress
  {
    match LongOf(v)
    case Some(n) => Put(p, "ALARMID", Long(n))
    case None => p.(failed := true)
  }

  /** A non-null cell of column `name`. */
  function ValueCell(ctx: Context, p: Progress, name: string, v: Value): Progress
  {
    if name == "tagpath" then TagpathCell(ctx, p, ToText(v, ctx.stampText))
    else if name == "t_stamp" then StampCell(p, v)
    else if name == "eventtype" then Put(p, "ETYPE", v)
    else if name == "eventtime" then Put(Put(p, "RCV_TIMESTAMP_UTC", v), "UPDATED_UTC", v)
    else if name == "id" then IdCell(p, v)
    else Put(p, Text.Upper(name), v)
  }

  /** One source cell of column `name`: a null appends the text "null" under the upper-cased name. */
  function CellStep(ctx: Context, p: Progress, name: string, c: Columns.Cell): Progress
  {
    if p.failed then p
    else
      match c
      case None => Put(p, Text.Upper(name), Str(NULL_TEXT))
      case Some(v) => ValueCell(ctx, p, name, v)
  }

  /** The cells of one row, left to right. */
  function Cells(ctx: Context, p: Progress, names: seq<string>, row: seq<Columns.Cell>): Progress
    requires |names| == |row|
    decreases |names|
  {
    if |names| == 0 then p else Cells(ctx, CellStep(ctx, p, names[0], row[0]), names[1..], row[1..])
  }

  /** The values every row starts with. */
  function RowStart(ctx: Context, p: Progress): Progress
  {
    var p0 := match ctx.variant
      case Extract(t) => Put(p, "DEVICETYPE", Str(t))
      case Transformer => p;
    Put(Put(Put(p0, "EVENTTYPE", Str(ctx.connectorTypeStr)), "FORMAT", Str("JSON")), "LOGICALINTERFACE_ID", Str(NULL_TEXT))
  }

  /** One row; the row count grows only when the row completes. */
  function Row(ctx: Context, p: Progress, row: seq<Columns.Cell>): Progress
    requires |row| == |ctx.names|
  {
    var q := Cells(ctx, RowStart(ctx, p), ctx.names, row);
    if q.failed then q else q.(rows := q.rows + 1)
  }

  predicate WellShaped(ctx: Context, rs: seq<seq<Columns.Cell>>)
  {
    forall k :: 0 <= k < |rs| ==> |rs[k]| == |ctx.names|
  }

  /** All rows in order; the first exception ends the transform. */
  function Rows(ctx: Context, p: Progress, rs: seq<seq<Columns.Cell>>): Progress
    requires WellShaped(ctx, rs)
    decreases |rs|
  {
    if |rs| == 0 || p.failed then p else Rows(ctx, Row(ctx, p, rs[0]), rs[1..])
  }

  // ---------------------------------------------------------------------------
  // Properties
  // ---------------------------------------------------------------------------

  /** A transform that has thrown stays as it is. */
  lemma {:induction false} CellsAfterFailure(ctx: Context, p: Progress, names: seq<string>, row: seq<Columns.Cell>)
    requires |names| == |row| && p.failed
    ensures Cells(ctx, p, names, row) == p
    decreases |names|
  {
    if |names| > 0 {
      CellsAfterFailure(ctx, p, names[1..], row[1..]);
    }
  }

  /**
   * `q` extends `p`: same columns, each list extended, registry entries kept, the
   * registry count still equal to the registry size plus the same offset, and the
   * row count not lower.
   */
  predicate Extends(p: Progress, q: Progress)
  {
    q.cols.Keys == p.cols.Keys &&
    (forall c :: c in p.cols ==> p.cols[c] <= q.cols[c]) &&
    (forall t :: t in p.reg ==> t in q.reg && q.reg[t] == p.reg[t]) &&
    q.added - |q.reg| == p.added - |p.reg| && p.rows <= q.rows
  }

  lemma ExtendsTrans(p: Progress, q: Progress, r: Progress)
    requires Extends(p, q) && Extends(q, r)
    ensures Extends(p, r)
  {
    forall c | c in p.cols ensures p.cols[c] <= r.cols[c] {
      assert q.cols[c] <= r.cols[c];
    }
  }

  lemma PutExtends(p: Progress, col: string, v: Value)
    ensures Extends(p, Put(p, col, v)) && Put(p, col, v).rows == p.rows
  {
  }

  lemma RegisterExtends(ctx: Context, p: Progress, tagpath: string)
    ensures Extends(p, Register(ctx, p, tagpath)) && Register(ctx, p, tagpath).rows == p.rows
  {
  }

  lemma EvtNameExtends(ctx: Context, p: Progress, tagpath: string)
    ensures Extends(p, EvtNameCell(ctx, p, tagpath)) && EvtNameCell(ctx, p, tagpath).rows == p.rows
  {
    if ctx.connectorType == CONNECTOR_DEVICE {
      var elems := Text.JavaSplit(tagpath, '/');
      if |elems| > 0 {
        PutExtends(p, "EVT_NAME", Str(elems[|elems| - 1]));
      }
    }
  }

  lemma TagpathExtends(ctx: Context, p: Progress, tagpath: string)
    ensures Extends(p, TagpathCell(ctx, p, tagpath)) && TagpathCell(ctx, p, tagpath).rows == p.rows
  {
    var p1 := Register(ctx, p, tagpath);
    RegisterExtends(ctx, p, tagpath);
    var p2 := TypeCell(ctx, p1, tagpath);
    PutExtends(p1, "DEVICETYPE", Str(ctx.typeOf(tagpath)));
    ExtendsTrans(p, p1, p2);
    var p3 := Put(p2, "DEVICEID", Str(ctx.uuid(tagpath)));
    PutExtends(p2, "DEVICEID", Str(ctx.uuid(tagpath)));
    ExtendsTrans(p, p2, p3);
    EvtNameExtends(ctx, p3, tagpath);
    ExtendsTrans(p, p3, EvtNameCell(ctx, p3, tagpath));
  }

  lemma TwoPutsExtend(p: Progress, a: string, b: string, v: Value, w: Value)
    ensures Extends(p, Put(Put(p, a, v), b, w)) && Put(Put(p, a, v), b, w).rows == p.rows
  {
    PutExtends(p, a, v);
    PutExtends(Put(p, a, v), b, w);
    ExtendsTrans(p, Put(p, a, v), Put(Put(p, a, v), b, w));
  }

  lemma CellExtends(ctx: Context, p: Progress, name: string, c: Columns.Cell)
    ensures Extends(p, CellStep(ctx, p, name, c)) && CellStep(ctx, p, name, c).rows == p.rows
  {
    if !p.failed {
      match c
      case None =>
        PutExtends(p, Text.Upper(name), Str(NULL_TEXT));
      case Some(v) =>
        if name == "tagpath" {
          TagpathExtends(ctx, p, ToText(v, ctx.stampText));
        } else if name == "t_stamp" {
          if LongOf(v).Some? {
            TwoPutsExtend(p, "RCV_TIMESTAMP_UTC", "UPDATED_UTC", Time(LongOf(v).value), Time(LongOf(v).value));
          }
        } else if name == "eventtype" {
          PutExtends(p, "ETYPE", v);
        } else if name == "eventtime" {
          TwoPutsExtend(p, "RCV_TIMESTAMP_UTC", "UPDATED_UTC", v, v);
        } else if name == "id" {
          if LongOf(v).Some? {
            PutExtends(p, "ALARMID", Long(LongOf(v).value));
          }
        } else {
          PutExtends(p, Text.Upper(name), v);
        }
    }
  }

  lemma {:induction false} CellsExtend(ctx: Context, p: Progress, names: seq<string>, row: seq<Columns.Cell>)
    requires |names| == |row|
    ensures Extends(p, Cells(ctx, p, names, row)) && Cells(ctx, p, names, row).rows == p.rows
    decreases |names|
  {
    if |names| > 0 {
      var p1 := CellStep(ctx, p, names[0], row[0]);
      CellExtends(ctx, p, names[0], row[0]);
      CellsExtend(ctx, p1, names[1..], row[1..]);
      ExtendsTrans(p, p1, Cells(ctx, p1, names[1..], row[1..]));
    }
  }

  lemma RowStartExtends(ctx: Context, p: Progress)
    ensures Extends(p, RowStart(ctx, p)) && RowStart(ctx, p).rows == p.rows
  {
    var p0 := match ctx.variant
      case Extract(t) => Put(p, "DEVICETYPE", Str(t))
      case Transformer => p;
    if ctx.variant.Extract? {
      PutExtends(p, "DEVICETYPE", Str(ctx.variant.tableName));
    }
    var p1 := Put(p0, "EVENTTYPE", Str(ctx.connectorTypeStr));
    PutExtends(p0, "EVENTTYPE", Str(ctx.connectorTypeStr));
    ExtendsTrans(p, p0, p1);
    TwoPutsExtend(p1, "FORMAT", "LOGICALINTERFACE_ID", Str("JSON"), Str(NULL_TEXT));
    ExtendsTrans(p, p1, RowStart(ctx, p));
  }

  /** A row extends the state and adds at most one to the row count, exactly one when it completes. */
  lemma RowExtends(ctx: Context, p: Progress, row: seq<Columns.Cell>)
    requires |row| == |ctx.names|
    ensures var r := Row(ctx, p, row);
      Extends(p, r) && r.rows <= p.rows + 1 && (!r.failed ==> r.rows == p.rows + 1)
  {
    var q0 := RowStart(ctx, p);
    RowStartExtends(ctx, p);
    CellsExtend(ctx, q0, ctx.names, row);
    ExtendsTrans(p, q0, Cells(ctx, q0, ctx.names, row));
  }

  lemma TailWellShaped(ctx: Context, rs: seq<seq<Columns.Cell>>)
    requires WellShaped(ctx, rs) && |rs| > 0
    ensures WellShaped(ctx, rs[1..])
  {
    forall k | 0 <= k < |rs[1..]| ensures |rs[1..][k]| == |ctx.names| { assert rs[1..][k] == rs[k + 1]; }
  }

  /**
   * The transform only appends and only inserts absent keys: every list it started
   * with is a prefix of the final one, every registry entry present at the start is
   * still there unchanged, and the registry count grew by exactly the number of new
   * registry keys. The row count grows by one per completed row, so by exactly the
   * number of rows when nothing throws.
   */
  lemma {:induction false} RowsExtend(ctx: Context, p: Progress, rs: seq<seq<Columns.Cell>>)
    requires WellShaped(ctx, rs)
    ensures var r := Rows(ctx, p, rs);
      Extends(p, r) && r.rows <= p.rows + |rs| && (!r.failed ==> r.rows == p.rows + |rs|)
    decreases |rs|
  {
    if |rs| > 0 && !p.failed {
      var p1 := Row(ctx, p, rs[0]);
      RowExtends(ctx, p, rs[0]);
      TailWellShaped(ctx, rs);
      RowsExtend(ctx, p1, rs[1..]);
      ExtendsTrans(p, p1, Rows(ctx, p1, rs[1..]));
    }
  }

  /**
   * With an assigned registry a tag path is registered: a new one with the entry
   * intended for it and counted once, an existing one left as it was and not counted.
   */
  lemma AssignedRegistryRegisters(ctx: Context, p: Progress, tagpath: string)
    requires !p.failed
    ensures var r := RegisterIn(ctx, p, tagpath);
      tagpath in r.reg && r.rows == p.rows && r.cols == p.cols &&
      (forall t :: t in p.reg ==> t in r.reg && r.reg[t] == p.reg[t]) &&
      (tagpath in p.reg ==> r.reg == p.reg && r.added == p.added) &&
      (tagpath !in p.reg ==> r.reg[tagpath] == EntryFor(ctx, tagpath) && r.added == p.added + 1 &&
                             r.reg.Keys == p.reg.Keys + {tagpath})
  {
  }

  /** `q` has the registry and the registry count of `p`. */
  predicate SameRegistry(p: Progress, q: Progress)
  {
    q.reg == p.reg && q.added == p.added
  }

  lemma TagpathKeepsRegistry(ctx: Context, p: Progress, tagpath: string)
    requires ctx.variant.Transformer?
    ensures SameRegistry(p, TagpathCell(ctx, p, tagpath))
  {
    var p3 := Put(TypeCell(ctx, p, tagpath), "DEVICEID", Str(ctx.uuid(tagpath)));
    assert SameRegistry(p, p3);
  }

  lemma CellKeepsRegistry(ctx: Context, p: Progress, name: string, c: Columns.Cell)
    requires ctx.variant.Transformer?
    ensures SameRegistry(p, CellStep(ctx, p, name, c))
  {
    if !p.failed && c.Some? && name == "tagpath" {
      TagpathKeepsRegistry(ctx, p, ToText(c.value, ctx.stampText));
    }
  }

  lemma {:induction false} CellsKeepRegistry(ctx: Context, p: Progress, names: seq<string>, row: seq<Columns.Cell>)
    requires ctx.variant.Transformer? && |names| == |row|
    ensures SameRegistry(p, Cells(ctx, p, names, row))
    decreases |names|
  {
    if |names| > 0 {
      CellKeepsRegistry(ctx, p, names[0], row[0]);
      CellsKeepRegistry(ctx, CellStep(ctx, p, names[0], row[0]), names[1..], row[1..]);
    }
  }

  /**
   * `TransformData` as written registers nothing: whatever the rows, the registry
   * and the entity count after the transform are those before it.
   */
  lemma {:induction false} TransformerRegistersNothing(ctx: Context, p: Progress, rs: seq<seq<Columns.Cell>>)
    requires ctx.variant.Transformer? && WellShaped(ctx, rs)
    ensures Rows(ctx, p, rs).reg == p.reg && Rows(ctx, p, rs).added == p.added
    decreases |rs|
  {
    if |rs| > 0 && !p.failed {
      CellsKeepRegistry(ctx, RowStart(ctx, p), ctx.names, rs[0]);
      TailWellShaped(ctx, rs);
      TransformerRegistersNothing(ctx, Row(ctx, p, rs[0]), rs[1..]);
    }
  }

  /** The misused constructor stores the UUID as the tag path unless the UUID happens to equal it. */
  lemma AsWrittenEntryLosesTagpath(ctx: Context, tagpath: string)
    ensures AsWrittenTransformEntry(ctx, tagpath).tagpath == tagpath <==> ctx.uuid(tagpath) == tagpath
    ensures AsWrittenTransformEntry(ctx, tagpath).deviceType == Text.None
    ensures AsWrittenTransformEntry(ctx, tagpath).deviceId == ctx.typeOf(tagpath)
  {
  }

  // ---------------------------------------------------------------------------
  // TransformData
  // ---------------------------------------------------------------------------

  /** The static row counter shared by every `TransformData`; no constructor resets it. */
  class RowCounter {
    var count: int

    constructor ()
      ensures count == 0
    {
      count := 0;
    }
  }

  class TransformData {
    const connectorType: int
    const connectorTypeStr: string
    const clientSite: string
    const dbCols: seq<string>
    const sourceDBColumnNames: seq<string>
    const rs: seq<seq<Columns.Cell>>
    const uuid: string -> string
    const typeOf: string -> string
    const stampText: int -> string
    var sourceMap: ColumnMap
    const rowCount: RowCounter

    function Ctx(): Context
    {
      Context(Transformer, connectorType, connectorTypeStr, clientSite, sourceDBColumnNames, uuid, typeOf, stampText)
    }

    /**
     * The state the transform changes, as values. The static registry and offset
     * record are never assigned, so there is no registry and no entity count to
     * change: the snapshot holds an empty registry and a count of 0.
     */
    ghost function Snapshot(): Progress
      reads this, rowCount
    {
      Progress(sourceMap, map[], 0, rowCount.count, false)
    }

    /**
     * The registry and the offset record are passed in and never stored, so the
     * static fields they were meant for stay null; the shared row counter keeps its count.
     */
    constructor (connectorType: int, connectorTypeStr: string, clientSite: string, dbCols: seq<string>,
                 offsetRecord: Offsets.OffsetRecord, tagpaths: Tags.TagCache, sourceDBColumnNames: seq<string>,
                 rs: seq<seq<Columns.Cell>>, rowCount: RowCounter,
                 uuid: string -> string, typeOf: string -> string, stampText: int -> string)
      ensures this.connectorType == connectorType && this.connectorTypeStr == connectorTypeStr
      ensures this.clientSite == clientSite && this.dbCols == dbCols
      ensures this.sourceDBColumnNames == sourceDBColumnNames && this.rs == rs
      ensures this.rowCount == rowCount
      ensures this.uuid == uuid && this.typeOf == typeOf && this.stampText == stampText
      ensures sourceMap == map[]
    {
      this.connectorType := connectorType;
      this.connectorTypeStr := connectorTypeStr;
      this.clientSite := clientSite;
      this.dbCols := dbCols;
      this.sourceDBColumnNames := sourceDBColumnNames;
      this.rs := rs;
      this.uuid := uuid;
      this.typeOf := typeOf;
      this.stampText := stampText;
      this.rowCount := rowCount;
      this.sourceMap := map[];
    }

    /** `sourceMap.get(col).add(v)`. */
    method Add(col: string, v: Value) returns (ok: bool)
      modifies this`sourceMap
      ensures ok <==> col in old(sourceMap)
      ensures sourceMap == if ok then old(sourceMap)[col := old(sourceMap)[col] + [v]] else old(sourceMap)
    {
      ok := col in sourceMap;
      if ok {
        sourceMap := sourceMap[col := sourceMap[col] + [v]];
      }
    }

    /**
     * The registry insert for a tag path: the entry is built with the shifted
     * three-argument constructor, and `putSafe` on the null registry throws before
     * anything is stored; the catch swallows it, so `registered` is always false.
     */
    method RegisterTag(tagpath: string, data: string, dType: string) returns (td: Tags.TagData, registered: bool)
      requires data == uuid(tagpath) && dType == typeOf(tagpath)
      ensures fresh(td) && td.Record() == AsWrittenTransformEntry(Ctx(), tagpath)
      ensures !registered
    {
      td := new Tags.TagData.WithSite(tagpath, data, dType);
      registered := false;
    }

    /** The tag path cell: registry insert, DEVICETYPE, DEVICEID and, for devices, EVT_NAME. */
    method SetTagpath(v: Value) returns (ok: bool)
      modifies this`sourceMap
      ensures var q := TagpathCell(Ctx(), old(Snapshot()), ToText(v, stampText));
        ok == !q.failed && Snapshot() == q.(failed := false)
    {
      var tagpath := ToText(v, stampText);
      var data := uuid(tagpath);
      var dType := typeOf(tagpath);
      var _, _ := RegisterTag(tagpath, data, dType);
      ok := SetTagColumns(tagpath, data, dType);
    }

    /** The columns a tag path fills after the registry insert. */
    method SetTagColumns(tagpath: string, data: string, dType: string) returns (ok: bool)
      requires data == uuid(tagpath) && dType == typeOf(tagpath)
      modifies this`sourceMap
      ensures var q := EvtNameCell(Ctx(), Put(TypeCell(Ctx(), old(Snapshot()), tagpath), "DEVICEID", Str(data)), tagpath);
        ok == !q.failed && Snapshot() == q.(failed := false)
    {
      ok := Add("DEVICETYPE", Str(dType));
      if !ok { return; }
      ok := Add("DEVICEID", Str(data));
      if !ok { return; }
      var tagelems := Text.JavaSplit(tagpath, '/');
      if connectorType == CONNECTOR_DEVICE {
        if |tagelems| == 0 {
          ok := false;
          return;
        }
        ok := Add("EVT_NAME", Str(tagelems[|tagelems| - 1]));
      }
    }

    /** `rs.getLong("t_stamp")`, appended to both time columns. */
    method SetStamp(v: Value) returns (ok: bool)
      modifies this`sourceMap
      ensures var q := StampCell(old(Snapshot()), v); ok == !q.failed && Snapshot() == q.(failed := false)
    {
      var lastTimeStamp := LongOf(v);
      if lastTimeStamp.None? {
        ok := false;
        return;
      }
      ok := Add("RCV_TIMESTAMP_UTC", Time(lastTimeStamp.value));
      if !ok { return; }
      ok := Add("UPDATED_UTC", Time(lastTimeStamp.value));
    }

    /** An eventtime cell, appended to both time columns as it is. */
    method SetEventTime(v: Value) returns (ok: bool)
      modifies this`sourceMap
      ensures var q := Put(Put(old(Snapshot()), "RCV_TIMESTAMP_UTC", v), "UPDATED_UTC", v);
        ok == !q.failed && Snapshot() == q.(failed := false)
    {
      ok := Add("RCV_TIMESTAMP_UTC", v);
      if !ok { return; }
      ok := Add("UPDATED_UTC", v);
    }

    /** `rs.getLong("id")`, appended to ALARMID. */
    method SetId(v: Value) returns (ok: bool)
      modifies this`sourceMap
      ensures var q := IdCell(old(Snapshot()), v); ok == !q.failed && Snapshot() == q.(failed := false)
    {
      var id := LongOf(v);
      if id.None? {
        ok := false;
        return;
      }
      ok := Add("ALARMID", Long(id.value));
    }

    /** One cell of the current row. */
    method SetCell(name: string, c: Columns.Cell) returns (ok: bool)
      modifies this`sourceMap
      ensures var q := CellStep(Ctx(), old(Snapshot()), name, c); ok == !q.failed && Snapshot() == q.(failed := false)
    {
      if c.None? {
        ok := Add(Text.Upper(name), Str(NULL_TEXT));
        return;
      }
      var v := c.value;
      if name == "tagpath" {
        ok := SetTagpath(v);
      } else if name == "t_stamp" {
        ok := SetStamp(v);
      } else if name == "eventtype" {
        ok := Add("ETYPE", v);
      } else if name == "eventtime" {
        ok := SetEventTime(v);
      } else if name == "id" {
        ok := SetId(v);
      } else {
        ok := Add(Text.Upper(name), v);
      }
    }

    /** One empty list per destination column is put into the map. */
    method InitColumns()
      modifies this`sourceMap
      ensures sourceMap == old(sourceMap) + EmptyColumns(dbCols)
    {
      var i := 0;
      while i < |dbCols|
        invariant 0 <= i <= |dbCols|
        invariant sourceMap == old(sourceMap) + EmptyColumns(dbCols[..i])
      {
        assert dbCols[..i + 1] == dbCols[..i] + [dbCols[i]];
        sourceMap := sourceMap[dbCols[i] := []];
        i := i + 1;
      }
      assert dbCols[..|dbCols|] == dbCols;
    }

    /**
     * `set()`: one empty list per destination column is put into the map, then every
     * row of the result set is transformed; `ok` is false when an exception ended it.
     */
    method Set() returns (ok: bool)
      requires WellShaped(Ctx(), rs)
      modifies this`sourceMap, rowCount`count
      ensures var start := Progress(old(sourceMap) + EmptyColumns(dbCols), map[], 0, old(rowCount.count), false);
        var r := Rows(Ctx(), start, rs);
        ok == !r.failed && Snapshot() == r.(failed := false)
    {
      InitColumns();
      ghost var start := Snapshot();
      var ctx := Ctx();
      var k := 0;
      while k < |rs|
        invariant 0 <= k <= |rs|
        invariant WellShaped(ctx, rs[k..])
        invariant Rows(ctx, start, rs) == Rows(ctx, Snapshot(), rs[k..])
      {
        TailWellShaped(ctx, rs[k..]);
        assert rs[k..][1..] == rs[k + 1..];
        ok := SetRow(rs[k]);
        if !ok {
          return;
        }
        k := k + 1;
      }
      ok := true;
    }

    /** One row: the fixed prefix, each cell, and the row count. */
    method SetRow(row: seq<Columns.Cell>) returns (ok: bool)
      requires |row| == |sourceDBColumnNames|
      modifies this`sourceMap, rowCount`count
      ensures var q := Row(Ctx(), old(Snapshot()), row); ok == !q.failed && Snapshot() == q.(failed := false)
    {
      var ctx := Ctx();
      ghost var p0 := Snapshot();
      ok := SetPrefix();
      if !ok {
        CellsAfterFailure(ctx, RowStart(ctx, p0), ctx.names, row);
        return;
      }
      var j := 0;
      while j < |sourceDBColumnNames|
        invariant 0 <= j <= |sourceDBColumnNames|
        invariant Cells(ctx, RowStart(ctx, p0), ctx.names, row) == Cells(ctx, Snapshot(), ctx.names[j..], row[j..])
      {
        assert ctx.names[j..][1..] == ctx.names[j + 1..];
        assert row[j..][1..] == row[j + 1..];
        ok := SetCell(sourceDBColumnNames[j], row[j]);
        if !ok {
          CellsAfterFailure(ctx, Snapshot().(failed := true), ctx.names[j + 1..], row[j + 1..]);
          return;
        }
        j := j + 1;
      }
      rowCount.count := rowCount.count + 1;
      ok := true;
    }

    /** The values every row starts with: EVENTTYPE, FORMAT and LOGICALINTERFACE_ID. */
    method SetPrefix() returns (ok: bool)
      modifies this`sourceMap
      ensures var q := RowStart(Ctx(), old(Snapshot())); ok == !q.failed && Snapshot() == q.(failed := false)
    {
      ok := Add("EVENTTYPE", Str(connectorTypeStr));
      if !ok { return; }
      ok := Add("FORMAT", Str("JSON"));
      if !ok { return; }
      ok := Add("LOGICALINTERFACE_ID", Str(NULL_TEXT));
    }

    /** `getRowCount()`: the shared count. */
    function GetRowCount(): int
      reads rowCount
    {
      rowCount.count
    }
  }
}
